=== FILE: README.md ===
# SakuraVz search, grep and document core in Dafny

This project models the core of SakuraVz, a Windows text editor, and proves properties of that model. The core is the search and Grep/Replace-in-files engine and the text structures it works on. The Windows window plumbing is not part of it. One Dafny module follows each part of the source:

- `PatternAlternate`, `Bregexp` model the PCRE2 wrapper `CBregexp`: the pattern rewrite for `.` and `$`, the option word, Compile/Match/Replace, and the match and replace accessors.
- `SearchPattern`, `SearchAgent` model `CSearchStringPattern` and `CSearchAgent`: word-bounded and case-folded pattern preparation, the Sunday search (proved equal to a plain first-match definition), the whole-word search, and forward/backward search over lines.
- `ReplaceText`, `ReplaceTextLoop`, `ReplaceTextInsert` model `CSearchAgent::ReplaceData`'s line-by-line deletion and insertion.
- `GrepFormat`, `GrepScan`, `GrepCursor`, `GrepTree`, `WriteData` model `CGrepAgent`: result formatting and its parsers, the per-line hit and replace scan, the line cursor over a file or an open window, the folder walk with its exits, and the replace writer.
- `Eol`, `FileLoad` model `CFileLoad`'s line splitting for each character code.
- `Bookmark` models `CBookmarkManager`'s bookmark search and its saved-number encodings.
- `TextStackRing`, `TextStackFrames`, `TextStack` model `CTextStack`, a 32768-byte ring of text frames that evicts the oldest frame to make room.
- `DocLineMgr` models `CDocLineMgr`'s doubly linked line list and its cached current and reference lines.
- `RegexKeyword` models `CRegexKeyword`: the keyword list format, compiling it, and finding the keyword at a position.
- `LayoutWrap` models `CLayoutMgr::_MakeOneLine`'s wrapping rules and the per-thread line slices of `_DoLayout`.
- `HeaderMake` models the HeaderMake build tool, which turns the function table into an enum, `#define`s or macro function tables.

Anything outside these sources is a parameter. That covers the PCRE2 engine, character widths and classes (`iswalnum`, `towlower`, kinsoku classes), end-of-line classification, the file system and the clock. Each property therefore holds for every behaviour of those collaborators. C integers are unbounded here unless their width matters. Where it does (the layout slice product modulo 2^32, the text stack's byte offsets, the file reader's unsigned 64-bit scan bound for UTF-16 and UTF-32), the wrap-around is written out. Where a header and its `.cpp` disagree, the model follows the `.cpp`.

## Model

| member | source | states |
|---|---|---|
| PatternAlternate.MakePatternAlternate | sakura_core/extmodule/CBregexp.cpp:137-237 | the output is the automaton's rewrite of the pattern, and it is always shorter than the reserve counted before the scan (each `.`/`$` at its replacement length plus one) |
| PatternAlternate.RewriteBound | sakura_core/extmodule/CBregexp.cpp:142-154 | from any scanner state the rewrite is no longer than the reserve the source computes before scanning |
| PatternAlternate.RewriteIdentity | sakura_core/extmodule/CBregexp.cpp:142-154 | a pattern with no `.` and no `$` comes back unchanged, from any scanner state |
| PatternAlternate.TopLevelDot | sakura_core/extmodule/CBregexp.cpp:198-226 | a `.` at the top level becomes `[^\r\n]` and the rest is rewritten on from the top level |
| PatternAlternate.TopLevelDollar | sakura_core/extmodule/CBregexp.cpp:198-231 | a `$` at the top level becomes the end-of-line lookaround and the rest is rewritten on from the top level |
| PatternAlternate.CharClassVerbatim | sakura_core/extmodule/CBregexp.cpp:184-221 | a character class `[...]` (no nested brackets or escapes) is copied verbatim, `.` and `$` inside it included |
| PatternAlternate.ClassBodyVerbatim | sakura_core/extmodule/CBregexp.cpp:189-191 | inside a class, text without brackets or backslashes is copied and leaves the scanner state alone |
| PatternAlternate.QuoteVerbatim | sakura_core/extmodule/CBregexp.cpp:186-193 | text between `\Q` and `\E` is copied verbatim, `.` and `$` included |
| PatternAlternate.QuoteBodyVerbatim | sakura_core/extmodule/CBregexp.cpp:192-193 | inside `\Q...\E`, text without a backslash is copied and leaves the scanner state alone |
| PatternAlternate.EscapedVerbatim | sakura_core/extmodule/CBregexp.cpp:186-188 | an escaped character (other than `\c` and `\Q`) is copied with its backslash, so `\.` and `\$` are not rewritten |
| PatternAlternate.ControlVerbatim | sakura_core/extmodule/CBregexp.cpp:187-188 | the character after `\c` is copied whatever it is, `.` and `$` included |
| Bregexp.OptionBitsIndependent | sakura_core/extmodule/CBregexp.h:43-48 | the three option flags are single, pairwise disjoint bits, so testing one never sees another |
| Bregexp.ResizeBuf | sakura_core/extmodule/CBregexp.cpp:419-439 | a big-enough buffer is kept; requests of 2^30 or more and failed allocations leave the buffer alone and report failure; otherwise the new size is the old size (or 1024) doubled just enough times to reach the request, so it is below twice the request |
| Bregexp.ResizeIsLeast | sakura_core/extmodule/CBregexp.cpp:425-426 | the number of doublings ResizeBuf performs is the least that reaches the request |
| Bregexp.Release | sakura_core/extmodule/CBregexp.cpp:66-100 | releasing drops the compiled code, the replace buffer and the stored replacement and zeroes every buffer size and length, and leaves line tops, options and start alone |
| Bregexp.Compile | sakura_core/extmodule/CBregexp.cpp:250-301 | a rejected pattern leaves the object released and reports failure; an accepted one stores the options, the rewritten pattern (caseless unless case-sensitive is set) and the replacement; validity of the object is kept |
| Bregexp.CompileForgetsPrevious | sakura_core/extmodule/CBregexp.cpp:250-252 | compiling over a successful compile gives the same object as compiling over the first one's predecessor: nothing from the earlier pattern survives |
| Bregexp.MatchRound | sakura_core/extmodule/CBregexp.cpp:329-383 | one round of the partial-match loop either finishes with the subject, code and line tops untouched, or goes again with the subject only extended, a line top recorded exactly where a next line whose reported size is not zero was appended, and strictly less callback input (or the partial option dropped) |
| Bregexp.Match | sakura_core/extmodule/CBregexp.cpp:315-385 | without compiled code the match fails and changes nothing; otherwise the object stays valid |
| Bregexp.MatchLoopAppends | sakura_core/extmodule/CBregexp.cpp:329-383 | the whole loop only ever appends to the subject and to the line-top list, and never changes the code, options or start |
| Bregexp.MatchLoopSorted | sakura_core/extmodule/CBregexp.cpp:376-378 | line tops stay sorted and within the subject |
| Bregexp.MatchLoopIncreasing | sakura_core/extmodule/CBregexp.cpp:376-378 | when every next line is non-empty, line tops stay strictly increasing and inside the subject |
| Bregexp.TopsAtLeast | sakura_core/extmodule/CBregexp.cpp:376-378 | a lower bound that every line top meets, and that the subject length reaches, still holds after the loop |
| Bregexp.MatchResetsLineTops | sakura_core/extmodule/CBregexp.cpp:319-323 | matching against a new subject forgets old line tops: every recorded top lies at or after the end of the given subject, and the subject is a prefix of the searched text |
| Bregexp.SearchOnce | sakura_core/extmodule/CBregexp.cpp:329-341 | without the partial option the outcome is the engine's answer on the subject, and no line is read |
| Bregexp.LastLineRound | sakura_core/extmodule/CBregexp.cpp:366-380 | a partial hit followed by a last line (flagged no-partial) appends that line, records its top and clears the partial option |
| Bregexp.NoPartialAfterLastLine | sakura_core/extmodule/CBregexp.cpp:366-380 | after the last line is appended, the result is the engine's full (non-partial) answer on the extended subject |
| Bregexp.NoNextLineEndsPartial | sakura_core/extmodule/CBregexp.cpp:359-364 | a partial hit with no next line retries without the partial option on the same subject |
| Bregexp.GetMatchRange | sakura_core/extmodule/CBregexp.cpp:387-412 | with no line tops both rows are the offset; otherwise the start row counts the line tops at or before the start and the end row those before the end, and each column added to its row's line start gives back the offset |
| Bregexp.EndAtLineTopStaysOnPreviousLine | sakura_core/extmodule/CBregexp.cpp:405-409 | a match ending exactly at a line top ends on the previous line, while one starting there starts on the new line |
| Bregexp.GetMatchRangeOfHit | sakura_core/extmodule/CBregexp.h:111-113 | the range of the last match maps back to its start and end indices |
| Bregexp.GetMatchRangeOfRange | sakura_core/extmodule/CBregexp.h:105-107 | the range overload maps the given columns back the same way |
| Bregexp.GetMatchLen | sakura_core/extmodule/CBregexp.h:81-84 | the match start plus its length is its end |
| Bregexp.GetStringLen | sakura_core/extmodule/CBregexp.h:89-94 | the replaced length is the subject length with the match's length taken out and the inserted length put in |
| Bregexp.GetString | sakura_core/extmodule/CBregexp.h:99-102 | nothing is returned without a replaced text; otherwise the result is the replaced text from the match start (or from the start offset in global mode) on |
| Bregexp.SingleSubstitution | sakura_core/extmodule/CBregexp.h:89-102 | after one non-global substitution of the match, GetStringLen is the replacement's length and GetString begins with the replacement |
| Bregexp.Replace | sakura_core/extmodule/CBregexp.cpp:455-514 | no subject means no replacement and no change; a failed substitution counts 0 and empties the replaced text; a successful one stores the engine's output, count and match vector, with a buffer larger than the output; the subject, options and start are untouched |
| Bregexp.ReplaceFailureShowsNothing | sakura_core/extmodule/CBregexp.cpp:505-509 | after a failed substitution the count is 0 and GetString is empty |
| Bregexp.ReplaceThenRead | sakura_core/extmodule/CBregexp.cpp:455-514 | replacing a single match in the stored subject and then reading it back with GetStringLen and GetString gives exactly the replacement |
| Bregexp.ResizeFn | sakura_core/extmodule/CBregexp.cpp:419-439 | the buffer size stays below 2^31; a successful resize reaches the request, and a failed one leaves the size as it was |
| Bregexp.Grow | sakura_core/extmodule/CBregexp.cpp:425-426 | doubling from the current size ends at or above both the request and the start size, still below 2^31 |
| Bregexp.MatchLoop | sakura_core/extmodule/CBregexp.cpp:329-383 | the partial-match loop ends, when fed a finite run of next lines, with the regex object still well-formed |
| SearchPattern.IgnoreCase | sakura_core/CSearchAgent.h:51-52 | a pattern ignores case exactly when the search is not case-sensitive |
| SearchPattern.IsAlnumBounds | sakura_core/CSearchAgent.h:162-165 | no character at or above 256 is a word character, and the underscore always is |
| SearchPattern.WordSearchBitsIndependent | sakura_core/CSearchAgent.h:64-67 | the two word-boundary flags are disjoint bits, so setting one never changes the test for the other |
| SearchPattern.GetMapIndex | sakura_core/CSearchAgent.cpp:24-29 | the skip-table index stays below 0x200, falls in the low half exactly for Latin-1 characters and keeps the low byte |
| SearchPattern.MapIndexLatin1Injective | sakura_core/CSearchAgent.cpp:24-29 | two Latin-1 characters share a skip-table slot only if they are equal |
| SearchPattern.SkipUpToBounds | sakura_core/CSearchAgent.cpp:128-139 | every skip is between 1 and the pattern length plus one, and a character at position j of the pattern skips at most length − j |
| SearchPattern.SkipUntouched | sakura_core/CSearchAgent.cpp:132-134 | a slot no pattern character maps to keeps the default skip, the pattern length plus one |
| SearchPattern.SkipLastWins | sakura_core/CSearchAgent.cpp:135-138 | a slot's skip is set by the last pattern character that maps to it |
| SearchPattern.SkipSafe | sakura_core/CSearchAgent.cpp:128-139 | any shift smaller than the skip for the character after the window would align a different character under it, so the Sunday skip never jumps over a match |
| SearchPattern.WordCutAsWritten | sakura_core/CSearchAgent.cpp:98-118 | the word-boundary analysis as the source writes it stays inside the pattern |
| SearchPattern.LoneStarCutBelowZero | sakura_core/CSearchAgent.cpp:104-117 | for the one-character pattern `*` the source strips the star at both ends and leaves a key of length −1 |
| SearchPattern.CutWordPattern | sakura_core/CSearchAgent.cpp:98-118 | the boundary flag for each end is set exactly when that end is a word character; a star is stripped at an end only when it is not a word character, and never twice |
| SearchPattern.WordCutAgrees | sakura_core/CSearchAgent.cpp:98-118 | on every pattern other than the empty one and a lone `*`, the corrected cut is the source's cut |
| SearchPattern.Reset | sakura_core/CSearchAgent.cpp:61-74 | a reset pattern holds no key, no folded key, no skip table, no word flags and no regular-expression options |
| SearchPattern.FoldAll | sakura_core/CSearchAgent.cpp:120-127 | the folded key has the key's length and each character is folded on its own |
| SearchPattern.CaseSensitiveRegexCompiledCaseless | sakura_core/CSearchAgent.cpp:90-94 | the regular-expression flag as written leaves the case-sensitive bit clear even for a case-sensitive search, so the expression is compiled caseless |
| SearchPattern.RegexFlagCompilesAsAsked | sakura_core/CSearchAgent.cpp:90-94 | the corrected flag compiles caseless exactly when the search ignores case, and global exactly when asked |
| SearchPattern.SetPattern | sakura_core/CSearchAgent.cpp:76-145 | a regular-expression pattern succeeds exactly when the library is there, initialises and compiles, with no word flags or skip table; a plain pattern always succeeds, is ready to search, keeps the whole key or the word-cut part of it with its flags, and its folded key is the key folded |
| SearchPattern.SetPatternLocal | sakura_core/CSearchAgent.cpp:76 | the constructor's call never asks for global mode, and succeeds exactly when SetPattern does |
| SearchPattern.SetPatternAsWritten | sakura_core/CSearchAgent.cpp:76-145 | the source's SetPattern is undefined exactly for a word-only plain search whose pattern is empty or whose cut is negative; otherwise it behaves as SetPattern with the source's word cut and flag |
| SearchPattern.SetPatternAgrees | sakura_core/CSearchAgent.cpp:76-145 | off the lone-star and empty word-only patterns the source's SetPattern and the corrected one agree, up to the regular-expression flag |
| SearchPattern.LoneStarNotPrepared | sakura_core/CSearchAgent.cpp:104-117 | a word-only search for `*` reads a negative length in the source, while the corrected pattern is the empty key with no flags |
| SearchAgent.FirstMatch | sakura_core/CSearchAgent.cpp:191-234 | the reference search returns a position at or after the start where the key matches |
| SearchAgent.FirstMatchIsLeftmost | sakura_core/CSearchAgent.cpp:191-234 | no position between the start and the result matches, and none at all when the result is none |
| SearchAgent.SearchPlain | sakura_core/CSearchAgent.cpp:191-234 | the Sunday quick search, with either comparison loop, returns exactly the leftmost match of the reference search |
| SearchAgent.FirstAcceptedIsLeftmost | sakura_core/CSearchAgent.cpp:161-189 | the word-boundary search returns the leftmost position whose match also has word boundaries where the flags ask for them |
| SearchAgent.SearchVz | sakura_core/CSearchAgent.cpp:161-189 | the loop that retries one past each match lacking boundaries finds exactly the leftmost bounded match |
| SearchAgent.SearchString | sakura_core/CSearchAgent.cpp:153-234 | an empty key or a line shorter than the key finds nothing; any result is a match at or after the start, and it is the leftmost (bounded) one |
| SearchAgent.FindIsLeftmost | sakura_core/CSearchAgent.cpp:153-234 | every position before the result (or any position when none is found) is not a hit |
| SearchAgent.Subject | sakura_core/CSearchAgent.cpp:431-434 | the searched text is the line followed by one terminator character |
| SearchAgent.SearchWord1Line | sakura_core/CSearchAgent.cpp:346-398 | a plain one-line search hits exactly when the line has a match from the start, and the range runs from that match over the key's length and stays inside the line |
| SearchAgent.SearchForward | sakura_core/CSearchAgent.cpp:418-458 | a forward hit is on the first line from the start line that has a match (from the start column on that line, from column 0 after it) and no earlier line has one; no hit means no line from the start has one |
| SearchAgent.Limit | sakura_core/CSearchAgent.cpp:470-473 | the backward search limit on each line is at least the start column |
| SearchAgent.LimitCoversLine | sakura_core/CSearchAgent.cpp:470-473 | on every line before the start line the limit reaches the end of the line |
| SearchAgent.LastBefore | sakura_core/CSearchAgent.cpp:475-494 | the repeated search from the line start returns the last match of the chain that starts before the limit, or none exactly when the first match is at or past it |
| SearchAgent.EarlierLineAnyHit | sakura_core/CSearchAgent.cpp:470-494 | on a line before the start line, a hit before the limit exists exactly when the line has any match |
| SearchAgent.SearchBackward | sakura_core/CSearchAgent.cpp:460-504 | a backward hit is the last chained match before the limit on the nearest line at or above the start that has one, and no line between it and the start has one; no hit means no line up to the start has one |
| SearchAgent.NoHitAfterStep | sakura_core/CSearchAgent.cpp:498-503 | stepping up one line keeps "no hit below" true when the current line has no hit |
| SearchAgent.NextLineSize | sakura_core/CSearchAgent.cpp:400-413 | the next-line callback returns 0 after the last line, otherwise the next line's length, flagged no-partial exactly when that line is the last one |
| SearchAgent.FindHit | sakura_core/CSearchAgent.cpp:153-234 | every result of the search is a real match at or after the start |
| SearchAgent.SameHitFindsItself | sakura_core/CSearchAgent.cpp:482-486 | searching again from a hit's own position finds that hit |
| SearchAgent.ChainStep | sakura_core/CSearchAgent.cpp:482-486 | each step of the backward chain moves past the current hit (by one for an empty hit) and never loses a later chained hit |
| SearchAgent.ChainAdvance | sakura_core/CSearchAgent.cpp:475-494 | after each step the hit is on the chain from the line start and the rest of the chain starts at the next position |
| ReplaceTextLoop.DeleteRemovesRange | sakura_core/CSearchAgent.cpp:616-853 | the deletion phase of ReplaceData removes exactly the text from the start of the range to its end (widened to a whole line end when the range ends inside one): the lines before the range are kept, the deleted lines, reversed back into order, spell the removed text, the line count drops by the deleted lines, and a one-line replacement written in place stands where the range started with the new column just after it |
| ReplaceTextLoop.DeleteLoop | sakura_core/CSearchAgent.cpp:629-822 | the loop from the last line of the range down to the first, entered with the lines after the current one already handled, ends with the range deleted |
| ReplaceTextLoop.DeleteDone | sakura_core/CSearchAgent.cpp:616-853 | the deletion phase started at the line the source picks (the last line, or the one before it when the range ends past the text) ends in the state the loop promises, including the case of a range that starts past the last line |
| ReplaceTextLoop.LastStep | sakura_core/CSearchAgent.cpp:636-820 | the step at the first line of the range completes the deletion |
| ReplaceTextLoop.InnerStep | sakura_core/CSearchAgent.cpp:644-676 | a step at a line below the first line of the range extends the deleted text by that line's share of the range and keeps the text after it intact |
| ReplaceText.Delete | sakura_core/CSearchAgent.cpp:616-853 | after the deletion phase the start of the range is still a position in the document, where the insertion phase starts |
| ReplaceText.DeleteFromKeepsStart | sakura_core/CSearchAgent.cpp:629-822 | no step of the deletion loop removes the line the range starts in or shortens it below the start column |
| ReplaceText.DelEndFacts | sakura_core/CSearchAgent.cpp:644-660 | the deletion ends at or after the range's end and no later than the end of the text |
| ReplaceText.DelEndCut | sakura_core/CSearchAgent.cpp:644-660 | the deletion ends where the step at the range's last line stops: the range end, or the end of the line when the range ends inside the line end |
| ReplaceText.StepBetween | sakura_core/CSearchAgent.cpp:662-676 | a line strictly inside the range is removed whole and added to the deleted lines |
| ReplaceText.StepAtEnd | sakura_core/CSearchAgent.cpp:644-803 | the step at the range's last line (below its first) removes the line's head up to the range end, keeping the rest of the line |
| ReplaceText.FinalSame | sakura_core/CSearchAgent.cpp:636-820 | a range inside one line: the one step cuts the range out (with the line end when the range reaches into it, joining the next line), writes a one-line replacement in its place and records the cut text |
| ReplaceText.FinalFirst | sakura_core/CSearchAgent.cpp:636-820 | the step at the first line of a multi-line range cuts the tail of the line from the start column and joins the remainder of the range's last line to it |
| ReplaceText.InsertLoopBounds | sakura_core/CSearchAgent.cpp:894-960 | the insertion loop's line cursor stays within the document it builds, so the last insertion step always has a line or the end of the document to write to |
| ReplaceTextInsert.InsertRun | sakura_core/CSearchAgent.cpp:898-960 | past the first replacement line, the insertion loop puts each remaining line before the cursor line (or after the last line), so those lines end up in order at the cursor |
| ReplaceTextInsert.InsertFirst | sakura_core/CSearchAgent.cpp:898-960 | the whole insertion loop joins the first replacement line to the head of the split line (or, in line mode, inserts it before the kept line) and the others follow it |
| ReplaceTextInsert.InsertAtEnd | sakura_core/CSearchAgent.cpp:886-1007 | inserting after the last line appends the replacement lines and leaves the position after the last one |
| ReplaceTextInsert.InsertLineMode | sakura_core/CSearchAgent.cpp:863-874 | a replacement ending with a line end, inserted at the start of a line, goes in before that line and leaves it whole |
| ReplaceTextInsert.MiddleText | sakura_core/CSearchAgent.cpp:985-1007 | the lines that take the split line's place hold its head, the replacement and its tail, and the new position is at the end of the replacement |
| ReplaceTextInsert.InsertSplit | sakura_core/CSearchAgent.cpp:886-1007 | inserting inside a line splits it at the column and puts those lines in its place, the tail joined to the last replacement line when that has no line end |
| ReplaceTextInsert.InsertEffect | sakura_core/CSearchAgent.cpp:855-1009 | the insertion phase puts the replacement text in at the position and moves nothing else, the new position is just after the replacement, and the document gains at most one line per replacement line |
| ReplaceTextInsert.ReplaceDataEffect | sakura_core/CSearchAgent.cpp:529-1011 | ReplaceData replaces the range by the replacement: the text becomes the text before the range, the replacement and the text after the deletion's end; the deleted lines hold the removed text; the new position is just after the replacement; the line count changes by the inserted lines less the deleted ones, and an empty replacement inserts none |
| ReplaceText.OffsetOrder | sakura_core/CSearchAgent.cpp:616-660 | a range whose start position precedes its end position covers a non-negative stretch of the text |
| GrepFormat.FormatPathListRoundTrip | sakura_core/CGrepAgent.cpp:87-109 | the list written with `;` separators, where an item containing `;` is put in quotes, splits back into exactly the original items |
| GrepFormat.QuotedItem | sakura_core/CGrepAgent.cpp:100-103 | a quoted item reads back as its text, its `;` included, and leaves the reader outside quotes |
| GrepFormat.ChopYen | sakura_core/CGrepAgent.cpp:169-190 | the result is the path with at most one trailing backslash removed, and one is removed exactly when the path ends in a backslash |
| GrepFormat.ChopYenRemovesOne | sakura_core/CGrepAgent.cpp:169-190 | only the last backslash goes: a path ending in two keeps one |
| GrepFormat.EscapeRoundTrip | sakura_core/CGrepAgent.cpp:65-81 | for every string-literal style and whether or not string colouring is shown, unescaping the escaped text gives the text back |
| GrepFormat.EscapeIsPerCharacter | sakura_core/CGrepAgent.cpp:73-79 | the three successive whole-string replacements escape each character independently, the backslash first so that inserted backslashes are not escaped again |
| GrepFormat.EscapeOneChar | sakura_core/CGrepAgent.cpp:73-79 | on a single character the escape gives that character's escape for the literal style |
| GrepFormat.ReplaceAllAppend | sakura_core/CGrepAgent.cpp:73-79 | replacing every occurrence of a character distributes over concatenation |
| GrepFormat.LineColumnRoundTrip | sakura_core/CGrepAgent.cpp:1011-1043 | the `(line,column)` text, with a minus sign for negative numbers, parses back to the same two numbers |
| GrepFormat.DecimalRoundTrip | sakura_core/CGrepAgent.cpp:1031-1033 | a number written in decimal reads back as itself |
| GrepFormat.KeptLength | sakura_core/CGrepAgent.cpp:1074-1099 | the number of matched characters written is the match length capped at the style's maximum (2000 for the normal style, 2500 otherwise) |
| GrepFormat.SetGrepResult | sakura_core/CGrepAgent.cpp:1051-1112 | the record is the style's prefix, then the first kept characters of the match, then CR LF unless the kept text already ends with a line delimiter |
| GrepFormat.WideFieldsAlign | sakura_core/CGrepAgent.cpp:1086-1089 | the WZ-style prefix has the same width, 17 characters, for every line number up to six digits and column up to five |
| GrepFormat.OutputPathInfo | sakura_core/CGrepAgent.cpp:1114-1175 | the result-only style writes no heading; otherwise each heading (base folder, folder, file name in the WZ style) is written at most once and marked as written, and nothing is written exactly when no mark changes |
| GrepFormat.HeadingsOnce | sakura_core/CGrepAgent.cpp:1130-1174 | a second call with the marks the first call left writes nothing |
| GrepFormat.ReplaceAll | sakura_core/CGrepAgent.cpp:73-79 | a text without the character is left unchanged |
| GrepScan.NextIndex | sakura_core/CGrepAgent.cpp:1538-1541 | the scan index after a match is strictly past the match start, so the per-line loop always advances |
| GrepScan.ScanLine | sakura_core/CGrepAgent.cpp:1428-1547 | the file and the total hit counters grow by the same amount; at most one record per line unless the line type is "matched part"; no record when the line was already reported; the non-matching line type counts exactly one hit when nothing matches; the last-reported line follows the records; in replace mode the output is the line with every match replaced and the skipped character after an empty match kept |
| GrepScan.RebuildStep | sakura_core/CGrepAgent.cpp:1525-1541 | one match step extends the rebuilt prefix by the stretch before the match, the replacement and the character an empty match steps over, and keeps the rebuild invariant at the next scan index |
| GrepScan.ReplaceBySelfIsIdentity | sakura_core/CGrepAgent.cpp:1519-1547 | when every replacement equals its matched text, the rebuilt line equals the original line |
| GrepScan.NoMatchCopies | sakura_core/CGrepAgent.cpp:1544-1547 | when nothing matches from the scan index, the rest of the line is copied unchanged, as written and corrected alike |
| GrepScan.ScanLineAsWritten | sakura_core/CGrepAgent.cpp:1428-1547 | the same counter and record facts as ScanLine, with the output being the as-written rebuild, which drops the character an empty match steps over |
| GrepScan.RebuildStepAsWritten | sakura_core/CGrepAgent.cpp:1525-1541 | one match step of the as-written rebuild appends the stretch before the match and the replacement only |
| GrepScan.EmptyMatchDropsCharacter | sakura_core/CGrepAgent.cpp:1525-1546 | on "ab" with an empty match at the start replaced by the empty text, the as-written rebuild yields "b" while the line is unchanged by the intended rebuild |
| GrepScan.AsWrittenAgreesWithoutEmptyMatches | sakura_core/CGrepAgent.cpp:1525-1546 | when no match is empty before the line end, the as-written and the corrected rebuild agree |
| GrepScan.ReplaceCountNeverNegative | sakura_core/CGrepAgent.cpp:1460-1462 | the replacement count reported by the engine wrapper is never negative, so the CError_Regex throw on a negative count cannot fire |
| GrepCursor.WindowEol | sakura_core/CGrepAgent.h:150-156 | a window line ending in CR LF is classed CR LF; any other line is classed by its last character alone |
| GrepCursor.SourceRead | sakura_core/CGrepAgent.h:128-162 | a window source fails without moving once its line count is reached, or when the window reports an empty line or an error, and otherwise yields the window's line and moves to the next line number; a file source hands the read to the file reader |
| GrepCursor.SourceSize | sakura_core/CGrepAgent.h:163-168 | a window source reports size 0 and a file source the file's size |
| GrepCursor.NewCursor | sakura_core/CGrepAgent.h:185-194 | a new per-file cursor has no line handed back and starts from the given line counter |
| GrepCursor.ReadLine | sakura_core/CGrepAgent.cpp:1597-1607 | every read counts one line and clears the handed-back flag; after an unget the remembered result comes back and the source does not move, otherwise the source is read and its result remembered |
| GrepCursor.Unget | sakura_core/CGrepAgent.cpp:1613-1619 | handing a line back sets the flag and takes one off the line counter, keeping the remembered result; a second unget in a row is excluded, as the source asserts |
| GrepCursor.GetNextLine | sakura_core/CGrepAgent.cpp:1609-1629 | the engine gets length 0 when the read fails and otherwise the line's text and its length |
| GrepCursor.UngetRereads | sakura_core/CGrepAgent.cpp:1597-1619 | reading, handing back and reading again yields the same line, cursor and source as the first read |
| GrepCursor.WindowStep | sakura_core/CGrepAgent.h:128-162 | one read from a window yields the first of the lines still to come, or fails exactly when none remain |
| GrepCursor.ReadWindow | sakura_core/CGrepAgent.cpp:1384-1389 | reading a window source until the first failure yields exactly the window's lines in order, and the line counter ends one past them |
| GrepTree.FilePaths | sakura_core/CGrepAgent.cpp:870-872 | each enumerated file name becomes one path, folder and name joined by a backslash, one per name |
| GrepTree.Until | sakura_core/CGrepAgent.cpp:922-924 | the files visited are a prefix of the listing, ending at the first cancelled file |
| GrepTree.UntilAppend | sakura_core/CGrepAgent.cpp:922-924 | a walk over two listings in a row stops in the first one when it is cancelled there and otherwise visits all of it and then the second one's prefix |
| GrepTree.StopsCons | sakura_core/CGrepAgent.cpp:922-924 | a listing is cancelled exactly when its first file is or the rest is |
| GrepTree.UntilWhole | sakura_core/CGrepAgent.cpp:843-925 | a listing with no cancelled file is visited in full |
| GrepTree.TextsAppend | sakura_core/CGrepAgent.cpp:879-921 | the output and the hits of two listings in a row are those of the first followed by those of the second |
| GrepTree.Stopped | sakura_core/CGrepAgent.cpp:984-986 | a walk that returned -1 on one listing is a complete walk of that listing followed by anything else |
| GrepTree.Sequenced | sakura_core/CGrepAgent.cpp:936-988 | a finished walk followed by a walk of the next listing is a walk of both listings together |
| GrepTree.Joined | sakura_core/CGrepAgent.cpp:936-988 | the output and hit accounting of two consecutive walks adds up |
| GrepTree.AfterFile | sakura_core/CGrepAgent.cpp:912-921 | after a file, shown plus pending output grows by exactly the file's text and the hit count by its hits, whether or not the pending output was flushed |
| GrepTree.Flush | sakura_core/CGrepAgent.cpp:995-1002 | the cancel exit moves all pending output to the shown output and keeps the hit count |
| GrepTree.GrepFiles | sakura_core/CGrepAgent.cpp:842-925 | the file loop visits the folder's files in order up to and including the first cancelled one, returns -1 exactly when one is cancelled with nothing left pending, and accounts for every visited file's text and hits |
| GrepTree.FilePathsAt | sakura_core/CGrepAgent.cpp:870-872 | the k-th path of the folder is the folder joined with its k-th file name |
| GrepTree.DoGrepTree | sakura_core/CGrepAgent.cpp:806-1003 | the walk of a folder visits its files first and then, when sub-folders are searched, each sub-folder's listing in turn, stops after the first cancelled file with -1, returns 0 otherwise, and loses or reorders no output or hit |
| GrepTree.GrepSubs | sakura_core/CGrepAgent.cpp:930-989 | the sub-folder loop walks each sub-folder in order and ends the walk with -1 at the first cancelled sub-tree |
| GrepTree.OwnFilesOnly | sakura_core/CGrepAgent.cpp:930 | without sub-folder search only the folder's own files are visited, in order |
| GrepTree.FilesBeforeSubfolders | sakura_core/CGrepAgent.cpp:842-989 | when no own file is cancelled, all of the folder's own files are visited before anything in a sub-folder |
| GrepTree.DefaultGrepOption | sakura_core/CGrepAgent.h:56-67 | the default options search sub-folders with a header, detect the character set, print matching lines in the normal style, and leave every other flag off |
| GrepTree.Normalise | sakura_core/CGrepAgent.cpp:444-450 | in replace mode the non-matching-line output type becomes matching lines; nothing else in the options changes |
| GrepTree.NormalisedScan | sakura_core/CGrepAgent.cpp:444-450 | the folded options always meet what the per-line scan requires |
| GrepTree.DoGrepAsWritten | sakura_core/CGrepAgent.cpp:300-307 | a grep started while one runs is refused with 0xFFFFFFFF; otherwise it returns the hit count on the normal end and 0 on an early exit, and leaves the running flag set exactly on the HWND-error exit |
| GrepTree.HwndErrorLocksGrep | sakura_core/CGrepAgent.cpp:518-525 | after the HWND-error exit every later grep is refused |
| GrepTree.DoGrepExit | sakura_core/CGrepAgent.cpp:300-307 | the corrected driver clears the running flag on every exit, with the same return values |
| GrepTree.DoGrepExitsAgree | sakura_core/CGrepAgent.cpp:518-525 | the as-written and the corrected driver differ exactly on the HWND-error exit of a grep that was not already running |
| GrepTree.DoGrepRoots | sakura_core/CGrepAgent.cpp:707-737 | each search root has its trailing backslash chopped and is walked in turn; the first -1 ends the walk |
| WriteData.ConcatSnoc | sakura_core/CGrepAgent.cpp:1224-1226 | writing the buffered lines and then one more line writes their concatenation followed by that line |
| WriteData.Delete | sakura_core/CGrepAgent.cpp:1248-1262 | deleting a file succeeds exactly when it exists and is not refused, and then removes only that path; a failed delete changes nothing |
| WriteData.Move | sakura_core/CGrepAgent.cpp:1254-1268 | a move succeeds exactly when the source exists, the target does not, and the source is not refused; then the target holds the source's text, the source is gone and every other path is unchanged; a failed move changes nothing |
| WriteData.NewWriter | sakura_core/CGrepAgent.cpp:1185-1195 | a new writer has written no line, has no temporary file open and has not touched the file system |
| WriteData.OutputHead | sakura_core/CGrepAgent.cpp:1209-1230 | with the temporary file already open nothing happens; otherwise a failed open is the write-file-open error naming "<name>.skrnew", and a successful one creates that file holding the byte-order mark and every buffered line and empties the buffer |
| WriteData.AppendBuffer | sakura_core/CGrepAgent.cpp:1196-1208 | while buffering, the buffer stays below 0xa00000 characters; the only error is the open failing when a line takes the buffer to that limit |
| WriteData.OutputHeadTracks | sakura_core/CGrepAgent.cpp:1209-1230 | opening the temporary file keeps the invariant that buffered plus written text is the byte-order mark and every line handed in so far, in order, with the rest of the file system untouched |
| WriteData.AppendTracks | sakura_core/CGrepAgent.cpp:1196-1208 | appending a line keeps that invariant with the line added at the end |
| WriteData.Close | sakura_core/CGrepAgent.cpp:1238-1275 | without hits or without an open temporary file closing does nothing; otherwise the temporary file is closed, and the name, hits and byte-order mark stay as they were |
| WriteData.Replace | sakura_core/CGrepAgent.cpp:1266-1272 | the last step of the close changes only the file system and the messages |
| WriteData.Drop | sakura_core/CGrepAgent.cpp:1276-1286 | dropping a writer leaves the file system alone unless a temporary file is still open, which it then deletes |
| WriteData.CloseKeepsText | sakura_core/CGrepAgent.cpp:1238-1275 | the new text is never lost by a close: it ends up under the file's name, or stays in the temporary file with one message added when a step fails; with a backup requested, the original text survives as the backup or in place |
| WriteData.CloseSucceeds | sakura_core/CGrepAgent.cpp:1238-1275 | when nothing is refused and no old backup exists, the close puts the new text under the file's name with no message, removes the temporary file, and keeps the original as "<name>.bak" exactly when a backup is requested |
| WriteData.NamesDistinct | sakura_core/CGrepAgent.cpp:1213-1246 | the file, "<name>.skrnew" and "<name>.bak" are three distinct paths |
| WriteData.Texts | sakura_core/CGrepAgent.cpp:1547 | the texts handed to the writer are the replaced lines, one per line, in order |
| WriteData.WriteAll | sakura_core/CGrepAgent.cpp:1350-1547 | after all lines of a file the writer holds them all in order behind the byte-order mark, counts every hit, has reported nothing, and has the temporary file open once any line had a hit |
| WriteData.TextsSnoc | sakura_core/CGrepAgent.cpp:1547 | the texts of the lines up to one more line are the earlier texts followed by that line's text |
| WriteData.StepTracks | sakura_core/CGrepAgent.cpp:1519-1547 | one replaced line (opening the file first when it has a hit) keeps the writer's invariant with that line added, adds its hits, and never fails when the open succeeds |
| WriteData.ReplaceWholeFile | sakura_core/CGrepAgent.cpp:1350-1567 | when nothing is refused, a file with at least one hit ends up holding the byte-order mark followed by all replaced lines, with no temporary file left and the original as the backup when one is requested; a file without hits leaves the file system exactly as it was |
| FileLoad.IsLoadableSize | sakura_core/io/CFileLoad.cpp:62-82 | a size is loadable exactly when the limit is ignored or it is below the limit, which is 0x80000000 bytes on 32-bit builds |
| FileLoad.HeadLength | sakura_core/io/CFileLoad.cpp:97-101 | the digits before the first comma are one to three, and the rest splits into groups of three |
| FileLoad.InsertCommas | sakura_core/io/CFileLoad.cpp:96-102 | inserting a comma every three digits from the right yields the head digits followed by comma-separated triples |
| FileLoad.InsertStep | sakura_core/io/CFileLoad.cpp:98-101 | one insertion at the current position extends the grouped tail by one more triple and keeps the loop invariant |
| FileLoad.HeadUnique | sakura_core/io/CFileLoad.cpp:97-101 | the head length is the only one between 1 and 3 that leaves a multiple of three digits |
| FileLoad.UncommaAppend | sakura_core/io/CFileLoad.cpp:96-102 | removing commas distributes over concatenation |
| FileLoad.UncommaDigits | sakura_core/io/CFileLoad.cpp:96-102 | a digit string has no comma to remove |
| FileLoad.UncommaTriples | sakura_core/io/CFileLoad.cpp:96-102 | removing the commas from grouped triples gives back the digits |
| FileLoad.SizeStringForHuman | sakura_core/io/CFileLoad.cpp:86-106 | the text ends in " MB", and with its commas removed the number before it reads back as the size in whole mebibytes |
| FileLoad.Init | sakura_core/io/CFileLoad.cpp:109-125 | a fresh reader has no file open, zero sizes and offset, line index -1, no BOM and is not a copy |
| FileLoad.Copy | sakura_core/io/CFileLoad.cpp:128-146 | a copy shares the source's open file and BOM flag, spans the whole file, starts at offset 0 with line index -1, and is marked as a copy |
| FileLoad.SetBufLimit | sakura_core/io/CFileLoad.h:101-104 | limiting the buffer sets the read offset and the buffer end and nothing else |
| FileLoad.FileClose | sakura_core/io/CFileLoad.cpp:289-315 | closing resets every field except the copy mark, and releases the system handles exactly when the reader had a file open and is not a copy |
| FileLoad.Percent | sakura_core/io/CFileLoad.cpp:418-426 | progress is 100 for an empty buffer or an offset past its end, and otherwise the offset's share of the buffer in whole percent, rounded down |
| FileLoad.PercentMonotone | sakura_core/io/CFileLoad.cpp:418-426 | progress never decreases as the offset advances inside the buffer |
| FileLoad.Unit | sakura_core/io/CFileLoad.cpp:453-596 | UTF-16 traits scan by 2 bytes, UTF-32 traits by 4, all others by 1 |
| FileLoad.ScanBoundAsWritten | sakura_core/io/CFileLoad.cpp:504-547 | the scan bound is the buffer size less the unit's extra bytes in unsigned 64-bit arithmetic, so it wraps past the buffer when the buffer is shorter than a unit less one byte |
| FileLoad.ShortUtf32ScanReadsPastEnd | sakura_core/io/CFileLoad.cpp:526-528 | on a 1- or 2-byte UTF-32 buffer the wrapped bound lets the scan read four bytes at offset 0, past the buffer's end |
| FileLoad.ScanBound | sakura_core/io/CFileLoad.cpp:504-547 | the corrected bound stays in the buffer, and every unit read below it lies in the buffer |
| FileLoad.StopFrom | sakura_core/io/CFileLoad.cpp:502-596 | the scan stops at a line end below the bound, or else at the end of the buffer |
| FileLoad.NextLineCharCode | sakura_core/io/CFileLoad.cpp:431-606 | the method yields exactly the line the reference scan defines |
| FileLoad.NextLineCharCodeAsWritten | sakura_core/io/CFileLoad.cpp:431-606 | the as-written scan reads past the buffer exactly when a non-empty rest is shorter than one unit less a byte, and otherwise yields the reference line |
| FileLoad.Scan | sakura_core/io/CFileLoad.cpp:502-596 | the scan loop stops where the reference scan stops, with a line end's length below the bound or none at or past it |
| FileLoad.ScanResult | sakura_core/io/CFileLoad.cpp:598-605 | the loop's exit position becomes the reference line; a missing line end takes the rest of the buffer, trailing odd bytes included |
| FileLoad.NextLine | sakura_core/io/CFileLoad.cpp:444-605 | there is no line exactly at or past the buffer's end; otherwise the line starts at the scan offset and ends after it, inside the buffer |
| FileLoad.Lines | sakura_core/io/CFileLoad.cpp:364-412 | successive reads cut the buffer from the start offset into consecutive lines that tile it to the end |
| FileLoad.NextLineTop | sakura_core/io/CFileLoad.cpp:609-621 | 0 is a line top; inside the buffer the result is the end of the line holding the byte before the position, between the position and the buffer's end; past the end the position less one comes back |
| FileLoad.LinesInBuffer | sakura_core/io/CFileLoad.cpp:609-621 | every line of the successive reads lies in the buffer and is the line a fresh scan from its own start cuts, so reading can restart at any line top |
| FileLoad.ReadLineCore | sakura_core/io/CFileLoad.cpp:364-412 | a read counts one line and moves the offset to the line's end; the first line of a file with a BOM loses a leading U+FEFF; an empty result text is a failure, and at the buffer's end the read fails without moving |
| FileLoad.ReadAdvances | sakura_core/io/CFileLoad.cpp:364-412 | a read that does not fail moves the offset strictly forward and not past the buffer's end |
| Bookmark.ResetAll | sakura_core/docplus/CBookmarkManager.cpp:39-46 | every line loses its bookmark and the line count is unchanged |
| Bookmark.ScanBack | sakura_core/docplus/CBookmarkManager.cpp:62-72 | the backward walk finds the nearest bookmarked line at or above the start, or reports that none is |
| Bookmark.ScanForward | sakura_core/docplus/CBookmarkManager.cpp:75-85 | the forward walk finds the nearest bookmarked line at or below the start, or reports that none is |
| Bookmark.SearchBookMark | sakura_core/docplus/CBookmarkManager.cpp:52-88 | a backward search finds the nearest bookmarked line strictly above the given line and a forward search the nearest strictly below it; it fails exactly when there is none, and also when the first line to look at does not exist |
| Bookmark.ReadDigit | sakura_core/docplus/CBookmarkManager.cpp:111-127 | a saved digit character reads as a value below 32, classed as the number's last digit ('0'-'9', 'a'-'v') or an inner one ('w'-'z', 'A'-'Z', '+', '-'), or as the end of the list |
| Bookmark.DigitsRead | sakura_core/docplus/CBookmarkManager.cpp:111-199 | every value below 32 written as a last digit or as an inner digit reads back as the same value of the same class |
| Bookmark.EncodeNumber | sakura_core/docplus/CBookmarkManager.cpp:176-205 | a gap is written with at least one digit, the gap 0 as "0" |
| Bookmark.DecodeNumbers | sakura_core/docplus/CBookmarkManager.cpp:106-140 | every number read takes at least one character, and each line read is past the one before it, so the bookmarked lines come out strictly increasing |
| Bookmark.DecodeExample | sakura_core/docplus/CBookmarkManager.cpp:103-105 | the saved text "0123x0" reads as the lines 0, 2, 5, 9 and 42, the example the source documents |
| Bookmark.InnerDigitsDecode | sakura_core/docplus/CBookmarkManager.cpp:121-144 | inner digits accumulate their value times 32 before the number's last digit |
| Bookmark.EncodeNumberDecode | sakura_core/docplus/CBookmarkManager.cpp:106-205 | a written gap followed by anything reads back as the line that far after the next expected line, and reading continues one line further on |
| Bookmark.MarkedLines | sakura_core/docplus/CBookmarkManager.cpp:172-217 | the list of bookmarked lines holds exactly the bookmarked lines, in increasing order |
| Bookmark.EncodeLinesDecode | sakura_core/docplus/CBookmarkManager.cpp:106-217 | an increasing list of lines written as gaps reads back as the same list |
| Bookmark.Apply | sakura_core/docplus/CBookmarkManager.cpp:136-140 | setting a list of lines bookmarks exactly the existing lines on the list, and keeps every existing bookmark |
| Bookmark.Tokens | sakura_core/docplus/CBookmarkManager.cpp:144-153 | the legacy items between commas and spaces are never empty and hold no comma or space |
| Bookmark.LeadingDigits | sakura_core/docplus/CBookmarkManager.cpp:149-152 | the number of a legacy item is read from its longest prefix of decimal digits |
| Bookmark.Values | sakura_core/docplus/CBookmarkManager.cpp:149-152 | each legacy item is read as one line number, in order |
| Bookmark.TokensWord | sakura_core/docplus/CBookmarkManager.cpp:147-153 | characters other than comma and space stay in the current legacy item |
| Bookmark.LeadingDigitsAll | sakura_core/docplus/CBookmarkManager.cpp:149-152 | an item made only of digits is read whole |
| Bookmark.DigitsToLong | sakura_core/docplus/CBookmarkManager.cpp:149-152 | a line number written in decimal reads back as itself |
| Bookmark.JoinLinesCons | sakura_core/docplus/CBookmarkManager.cpp:147-153 | a legacy list with more than one number splits into its first number and the rest |
| Bookmark.JoinLinesOne | sakura_core/docplus/CBookmarkManager.cpp:147-153 | a legacy list with one number is one item |
| Bookmark.JoinLinesTokens | sakura_core/docplus/CBookmarkManager.cpp:144-153 | a comma-separated decimal list reads back as the same line numbers |
| Bookmark.SetBookMarks | sakura_core/docplus/CBookmarkManager.cpp:95-155 | loading keeps every existing bookmark and the line count; a ":0" text bookmarks exactly the lines it encodes, a ':' text of another version changes nothing |
| Bookmark.NextNumberAt | sakura_core/docplus/CBookmarkManager.cpp:174-176 | the number written for a bookmarked line is the gap to the previous bookmarked line, less one |
| Bookmark.SavedStep | sakura_core/docplus/CBookmarkManager.cpp:212-213 | writing one more number appends its digits to the saved text |
| Bookmark.GetBookMarks | sakura_core/docplus/CBookmarkManager.cpp:162-221 | the saved text is ":0" followed by the numbers of the first bookmarked lines, as many as fit in the length bound, and it stops only when the next number would not fit |
| Bookmark.MarkedPrefix | sakura_core/docplus/CBookmarkManager.cpp:172-217 | the bookmarked lines among the first lines are a prefix of all bookmarked lines |
| Bookmark.MarkedStep | sakura_core/docplus/CBookmarkManager.cpp:173-175 | a bookmarked line met by the walk is the next entry of the bookmarked list |
| Bookmark.MarkedSkip | sakura_core/docplus/CBookmarkManager.cpp:215-216 | a line without a bookmark adds nothing to the list |
| Bookmark.EncodeLinesSnoc | sakura_core/docplus/CBookmarkManager.cpp:206-213 | the gaps of a list of lines are those of all but the last followed by the last one's gap |
| Bookmark.SavedLoads | sakura_core/docplus/CBookmarkManager.cpp:95-221 | loading a saved text bookmarks exactly the saved lines on top of the existing ones |
| Bookmark.LoadMarked | sakura_core/docplus/CBookmarkManager.cpp:39-140 | clearing every bookmark and setting the bookmarked lines gives back the original bookmarks |
| Bookmark.RoundTrip | sakura_core/docplus/CBookmarkManager.cpp:95-221 | saving and then loading into a cleared document bookmarks exactly the lines that fit in the saved text, and restores all bookmarks when they all fit |
| Bookmark.LegacyRoundTrip | sakura_core/docplus/CBookmarkManager.cpp:144-153 | a legacy comma-separated list of line numbers bookmarks exactly those lines on top of the existing ones |
| TextStackRing.AlignSize | sakura_core/env/CTextStack.h:73-75 | a size is rounded up by less than one word |
| TextStackRing.AlignSizeIsLeastMultiple | sakura_core/env/CTextStack.h:73-75 | the rounded size is the least multiple of the word size at or above the size |
| TextStackRing.FrameSize | sakura_core/env/CTextStack.cpp:16 | an entry occupies at least its payload plus three words |
| TextStackRing.Forward | sakura_core/env/CTextStack.h:61-64 | advancing a ring offset stays inside the ring and equals the sum taken round the ring |
| TextStackRing.Backward | sakura_core/env/CTextStack.h:67-70 | moving a ring offset back stays inside the ring and is undone by advancing it again |
| TextStackRing.Wrap | sakura_core/env/CTextStack.h:61-64 | an offset below twice the ring size is brought inside the ring |
| TextStackRing.Off | sakura_core/env/CTextStack.cpp:37-47 | every ring byte is at a unique distance ahead of a given base |
| TextStackRing.ReadRing | sakura_core/env/CTextStack.cpp:76-91 | reading n bytes round the ring yields n bytes |
| TextStackRing.WriteRing | sakura_core/env/CTextStack.cpp:37-47 | writing bytes round the ring keeps the ring's size |
| TextStackRing.WriteRingAt | sakura_core/env/CTextStack.cpp:37-47 | after a write round the ring, a byte inside the written stretch holds the written byte and every other byte is unchanged |
| TextStackRing.WordBytes | sakura_core/env/CTextStack.cpp:29-51 | a stored word is four bytes |
| TextStackRing.DecodeWordBytes | sakura_core/env/CTextStack.cpp:29-70 | a word stored least significant byte first reads back as the same word |
| TextStackRing.WriteWord | sakura_core/env/CTextStack.cpp:29-51 | writing a word keeps the ring's size |
| TextStackRing.CopyIn | sakura_core/env/CTextStack.cpp:37-47 | the two-part copy into the ring, split at the ring's end, is one write round the ring |
| TextStackRing.CopyOut | sakura_core/env/CTextStack.cpp:76-91 | the two-part copy out of the ring, split at the ring's end, is one read round the ring |
| TextStackRing.ReadRingPrefix | sakura_core/env/CTextStack.cpp:76-91 | reading fewer bytes from the same offset reads a prefix |
| TextStackRing.ReadRingSlice | sakura_core/env/CTextStack.cpp:76-91 | reading from further on reads the corresponding slice |
| TextStackRing.ReadRingWrap | sakura_core/env/CTextStack.h:61-64 | reading from an offset past the ring's end reads the same bytes as from the wrapped offset |
| TextStackRing.ReadRingPart | sakura_core/env/CTextStack.cpp:76-91 | reading from a wrapped offset ahead of a base reads the slice of the read from that base |
| TextStackRing.ReadRingSuffix | sakura_core/env/CTextStack.cpp:76-91 | reading the rest from a wrapped offset reads a suffix of the read from the base |
| TextStackRing.RingWordAt | sakura_core/env/CTextStack.cpp:23-95 | the word at a ring offset is the word at the same distance in the bytes read from the top |
| TextStackRing.RingBytesAt | sakura_core/env/CTextStack.cpp:76-91 | the copied-out payload is the corresponding stretch of the bytes read from the top |
| TextStackRing.WriteRingAppend | sakura_core/env/CTextStack.cpp:28-52 | two consecutive writes round the ring are one write of their concatenation |
| TextStackRing.WriteRingSame | sakura_core/env/CTextStack.cpp:37-47 | writing back what was read leaves the ring unchanged |
| TextStackRing.ReadPastWrite | sakura_core/env/CTextStack.cpp:28-52 | a write does not disturb the bytes just after it |
| TextStackRing.ReadAfterWrite | sakura_core/env/CTextStack.cpp:28-54 | after writing at the end pointer, the bytes in use read as the old ones followed by the new ones |
| TextStackFrames.TextBytes | sakura_core/env/CTextStack.cpp:13 | a text takes two bytes per UTF-16 code unit |
| TextStackFrames.BytesText | sakura_core/env/CTextStack.cpp:86-90 | a payload reads back as half as many code units as it has bytes |
| TextStackFrames.BytesTextRoundTrip | sakura_core/env/CTextStack.cpp:13-90 | a text stored as bytes reads back as the same text |
| TextStackFrames.FrameBytes | sakura_core/env/CTextStack.cpp:28-52 | a frame is three words, the payload and its padding |
| TextStackFrames.HeadEntry | sakura_core/env/CTextStack.cpp:23 | the entry read at the top spans the frame its leading size word gives |
| TextStackFrames.ParseFrames | sakura_core/env/CTextStack.cpp:22-26 | the entries read from the bytes in use tile them exactly |
| TextStackFrames.ParseNonEmpty | sakura_core/env/CTextStack.cpp:22-26 | the entries read from non-empty bytes in use tile them exactly |
| TextStackFrames.ParseStep | sakura_core/env/CTextStack.cpp:23-25 | the entries are the top entry followed by the entries after its frame |
| TextStackFrames.HeadExtend | sakura_core/env/CTextStack.cpp:28-54 | bytes appended at the end do not change the top entry |
| TextStackFrames.HeadTrim | sakura_core/env/CTextStack.cpp:98-100 | cutting bytes off the end past the top frame does not change the top entry |
| TextStackFrames.ParseTrim | sakura_core/env/CTextStack.cpp:98-100 | the entries of a prefix start with the same top entry |
| TextStackFrames.FrameParses | sakura_core/env/CTextStack.cpp:28-52 | a frame written as the source writes it reads back as its entry, followed by whatever comes after |
| TextStackFrames.ParseSnoc | sakura_core/env/CTextStack.cpp:28-54 | appending a frame to well-formed bytes appends its entry to the entries |
| TextStackFrames.ParseFirst | sakura_core/env/CTextStack.cpp:23-25 | dropping the top frame's bytes drops the first entry |
| TextStackFrames.ParseLast | sakura_core/env/CTextStack.cpp:69-100 | the newest frame is the last frame-size bytes and the rest reads as the other entries |
| TextStackFrames.HeadFields | sakura_core/env/CTextStack.cpp:69-95 | a frame's trailing size word, mode word and payload are those of its entry |
| TextStackFrames.LastFrameFields | sakura_core/env/CTextStack.cpp:69-95 | reading backwards from the end finds the newest entry's size, mode and payload |
| TextStackFrames.SuffixFields | sakura_core/env/CTextStack.cpp:69-95 | the fields of a trailing frame lie at fixed distances from its start and from the end |
| TextStackFrames.LastFramePrefix | sakura_core/env/CTextStack.cpp:98-100 | the bytes before the newest frame read as the older entries |
| TextStackFrames.SurvivorsLeast | sakura_core/env/CTextStack.cpp:22-26 | eviction drops the fewest oldest entries that make room for the new frame, and what survives is a suffix of the entries |
| TextStack.ValidWhenParsed | sakura_core/env/CTextStack.h:85-88 | in-ring pointers whose bytes in use read as entries make a valid stack |
| TextStack.NewStack | sakura_core/env/CTextStack.h:28-32 | a new stack is valid and empty |
| TextStack.GetSize | sakura_core/env/CTextStack.h:51 | the size reported is the bytes the entries' frames occupy, at most the ring's size |
| TextStack.DropOldest | sakura_core/env/CTextStack.cpp:23-25 | dropping the top frame by its size word leaves the other entries, in order |
| TextStack.TopWord | sakura_core/env/CTextStack.cpp:23 | the word at the top pointer is the top frame's size |
| TextStack.Evict | sakura_core/env/CTextStack.cpp:22-26 | after eviction the stack is valid, the new frame fits, the end pointer and the bytes are unchanged, and the entries are the survivors |
| TextStack.Pad | sakura_core/env/CTextStack.cpp:48 | the padding after a payload brings it to a multiple of the word size |
| TextStack.StoreFrame | sakura_core/env/CTextStack.cpp:28-52 | writing size, mode, payload and size at the end pointer writes the frame round the ring and advances the end past it |
| TextStack.StoreHead | sakura_core/env/CTextStack.cpp:28-47 | the size word, the mode word and the payload written one after another are one write |
| TextStack.StorePad | sakura_core/env/CTextStack.cpp:48 | the padding the source skips over keeps the bytes already there |
| TextStack.StoreFrameBytes | sakura_core/env/CTextStack.cpp:28-52 | the four writes of Push together write the frame |
| TextStack.StoreTail | sakura_core/env/CTextStack.cpp:48-52 | the trailing size word completes the frame |
| TextStack.AppendFrame | sakura_core/env/CTextStack.cpp:28-54 | writing a frame at the end appends its entry to the stack's entries |
| TextStack.Push | sakura_core/env/CTextStack.cpp:8-59 | a push fails, leaving the stack as it was, exactly when the frame is larger than the ring; otherwise the stack stays valid and holds the survivors of eviction followed by the new entry |
| TextStack.StoreEntry | sakura_core/env/CTextStack.cpp:28-54 | storing an entry that fits keeps the top, grows the size by the frame and appends the entry |
| TextStack.StackAfterStore | sakura_core/env/CTextStack.cpp:28-54 | the stack after the frame is written is valid and holds the old entries followed by the new one |
| TextStack.PopWalk | sakura_core/env/CTextStack.cpp:69-98 | walking back from the end pointer reads the newest payload's size, bytes and mode and ends at that frame's start |
| TextStack.PopReadsLast | sakura_core/env/CTextStack.cpp:69-98 | Pop's reads return the newest entry and move the end pointer to its frame's start |
| TextStack.PopRest | sakura_core/env/CTextStack.cpp:98-100 | after Pop the bytes in use read as the older entries |
| TextStack.Pop | sakura_core/env/CTextStack.cpp:61-105 | a pop fails, leaving the stack as it was, exactly when the stack is empty; otherwise it returns the newest entry's text and mode and the stack keeps the older entries, its top and its bytes |
| TextStack.PushThenPop | sakura_core/env/CTextStack.cpp:8-105 | a push that fits followed by a pop returns the pushed text and mode and leaves the survivors of eviction |
| TextStack.Home | sakura_core/env/CTextStack.h:61-64 | an as-written pointer equal to the ring size stands for offset 0 |
| TextStack.ForwardAsWrittenHome | sakura_core/env/CTextStack.h:61-64 | the as-written advance can reach exactly the ring size and otherwise agrees with the wrapping advance |
| TextStack.EvictAsWritten | sakura_core/env/CTextStack.cpp:22-26 | with as-written pointers eviction is a no-op when the frame fits, and when it completes it agrees with the corrected eviction |
| TextStack.EvictStepAsWritten | sakura_core/env/CTextStack.cpp:23-25 | one as-written eviction step keeps the stack valid up to the ring-size pointer and leads to the same corrected eviction |
| TextStack.StoreFrameAsWritten | sakura_core/env/CTextStack.cpp:28-52 | with the end pointer at the ring size the first word write falls outside the buffer; otherwise the bytes written agree with the corrected store |
| TextStack.PushAsWritten | sakura_core/env/CTextStack.cpp:8-59 | the as-written push fails on an oversized frame like the corrected one, runs off the buffer when the end pointer sits at the ring size, and otherwise agrees with the corrected push |
| TextStack.PushedAsWritten | sakura_core/env/CTextStack.cpp:22-54 | a completed as-written eviction and store give the corrected push's stack |
| TextStack.PushAsWrittenFillsRing | sakura_core/env/CTextStack.h:61-64 | pushing a 16378-unit text onto an empty stack leaves the end pointer at 32768, one past the buffer |
| TextStack.PushAsWrittenOverruns | sakura_core/env/CTextStack.cpp:29 | the next push after that writes its size word outside the buffer, where the corrected push succeeds |
| TextStack.ForwardWrapsAtEnd | sakura_core/env/CTextStack.h:61-64 | with the corrected advance, the same full-ring frame brings the end pointer back to 0 |
| DocLineMgr.InitValid | sakura_core/doc/logic/CDocLineMgr.cpp:274-283 | the emptied manager (no top, no bottom, no cached lines, zero lines) satisfies the chain invariant for the empty chain |
| DocLineMgr.LinksClosed | sakura_core/doc/logic/CDocLineMgr.cpp:370-426 | if every line's next/prev pointers agree with the chain order, then no pointer of a chain line leaves the chain |
| DocLineMgr.PushBottom | sakura_core/doc/logic/CDocLineMgr.cpp:78-83 | appending a line at the bottom adds one to the line count, makes the new line the bottom, and links it in |
| DocLineMgr.PushBottomIsInsertBefore | sakura_core/doc/logic/CDocLineMgr.cpp:287-301 | appending at the bottom is the same as inserting before "no position", and keeps the invariant with the new line at the end of the chain |
| DocLineMgr.InsertBeforePos | sakura_core/doc/logic/CDocLineMgr.cpp:304-329 | inserting before a position adds one to the line count and the new line's next is that position (null meaning the bottom) |
| DocLineMgr.InsertAfterPos | sakura_core/doc/logic/CDocLineMgr.cpp:332-357 | inserting after a position adds one to the line count and the new line's previous is that position (null meaning the top) |
| DocLineMgr.SpliceAt | sakura_core/doc/logic/CDocLineMgr.cpp:304-357 | linking a new node between chain positions i-1 and i leaves every link of the chain with the node inserted at position i consistent |
| DocLineMgr.SpliceLinks | sakura_core/doc/logic/CDocLineMgr.cpp:304-357 | after splicing, all next/prev links describe the chain with the new node at position i |
| DocLineMgr.AfterInsertEnds | sakura_core/doc/logic/CDocLineMgr.cpp:304-357 | after an insertion the top and bottom are the first and last of the new chain and the cached lines still belong to it |
| DocLineMgr.AfterInsertValid | sakura_core/doc/logic/CDocLineMgr.cpp:304-357 | an insertion at any position 0..count keeps the whole chain invariant (distinct, owned, linked, closed, ends, count, caches) and stores the given line |
| DocLineMgr.AfterInsertExact | sakura_core/doc/logic/CDocLineMgr.cpp:304-357 | the cached line number stays exact when the insertion is below the cached line; the functions do not adjust it |
| DocLineMgr.InsertBeforeValid | sakura_core/doc/logic/CDocLineMgr.cpp:70-75 | inserting before the i-th line (or at the bottom for i = count) is the insertion at position i, keeps the invariant, and keeps the cached number exact when it lies above i |
| DocLineMgr.InsertAfterValid | sakura_core/doc/logic/CDocLineMgr.cpp:332-357 | inserting after the (i-1)-th line (or at the top for i = 0) is the insertion at position i, keeps the invariant, and keeps the cached number exact when it lies above i |
| DocLineMgr.DeleteLineAsWritten | sakura_core/doc/logic/CDocLineMgr.cpp:138-170 | deleting a line as written removes it from the map and lowers the count by one (or empties the manager when it was the last line) |
| DocLineMgr.DeleteLeavesCurrentDangling | sakura_core/doc/logic/CDocLineMgr.cpp:156-170 | with two or more lines, deleting the line the current pointer is on leaves the current pointer naming a freed line, which the debug check of 370-426 reports |
| DocLineMgr.DeleteLine | sakura_core/doc/logic/CDocLineMgr.cpp:138-170 | the corrected delete removes the line and lowers the count by one (or empties the manager) |
| DocLineMgr.DeleteLineAgrees | sakura_core/doc/logic/CDocLineMgr.cpp:138-170 | the written and corrected deletes agree exactly when the manager has one line or the current pointer is not on the deleted line; otherwise they differ only in the current pointer |
| DocLineMgr.UnspliceAt | sakura_core/doc/logic/CDocLineMgr.cpp:138-170 | unlinking the d-th node keeps each link of the chain without position d consistent |
| DocLineMgr.UnspliceLinks | sakura_core/doc/logic/CDocLineMgr.cpp:138-170 | after unlinking, all next/prev links describe the chain with position d removed |
| DocLineMgr.DeleteIsAfterDelete | sakura_core/doc/logic/CDocLineMgr.cpp:138-170 | with two or more lines the corrected delete of the d-th line is the abstract removal at position d |
| DocLineMgr.AfterDeleteEnds | sakura_core/doc/logic/CDocLineMgr.cpp:138-170 | after a removal the top and bottom are the first and last of the shorter chain and the cached lines still belong to it |
| DocLineMgr.AfterDeleteValid | sakura_core/doc/logic/CDocLineMgr.cpp:138-170 | removing any line of a chain of two or more keeps the chain invariant |
| DocLineMgr.AfterDeleteExact | sakura_core/doc/logic/CDocLineMgr.cpp:138-170 | the cached line number stays exact when the removed line is at or below it |
| DocLineMgr.DeleteValid | sakura_core/doc/logic/CDocLineMgr.cpp:138-170 | the corrected delete of any line keeps the invariant on the chain without that line, and keeps the cached number exact when the removed line is at or below it |
| DocLineMgr.WalkNext | sakura_core/doc/logic/CDocLineMgr.cpp:203-214 | walking forward from chain position k0 with a counter reaches the line n - counter0 places further on, or null if n lies behind the start |
| DocLineMgr.WalkPrev | sakura_core/doc/logic/CDocLineMgr.cpp:216-227 | walking backward from chain position k0 reaches the line counter0 - n places earlier, or null if n lies ahead of the start |
| DocLineMgr.Locate | sakura_core/doc/logic/CDocLineMgr.cpp:182-264 | the search (from the top, the bottom or the cached line, whichever the distance rule picks) returns a line of the manager, and the n-th line of the chain whenever the cached number is exact |
| DocLineMgr.GetLine | sakura_core/doc/logic/CDocLineMgr.cpp:182-268 | an out-of-range number returns null and changes nothing; otherwise the found line becomes the cached reference with number n and the current pointer moves to its successor; the invariant and exactness are kept and the answer is the n-th line |
| DocLineMgr.NextInChain | sakura_core/doc/logic/CDocLineMgr.cpp:370-426 | the next pointer of any line of a valid manager is null or another line of it |
| DocLineMgr.SetAllEols | sakura_core/doc/logic/CDocLineMgr.cpp:472-479 | the loop gives every line of the chain the new end-of-line code and changes nothing else in the manager |
| DocLineMgr.SetEol | sakura_core/doc/logic/CDocLineMgr.cpp:453-480 | the original code reported is the top line's (none for an empty document); nothing changes for an invalid code or, unless forced, when the code equals the top line's; otherwise every line gets the new code and the chain is untouched |
| DocLineMgr.SameLinks | sakura_core/doc/logic/CDocLineMgr.cpp:453-480 | changing only line contents of the chain nodes, never their links, keeps the chain invariant |
| DocLineMgr.JoinAt | sakura_core/doc/logic/CDocLineMgr.cpp:484-508 | joining two disjoint chains by linking the first's bottom to the second's top keeps every link of the concatenated chain consistent |
| DocLineMgr.CatValid | sakura_core/doc/logic/CDocLineMgr.cpp:484-508 | concatenating a disjoint manager yields a valid manager for the concatenated chain, keeps the cached number exact, and empties the appended manager unless it was already empty |
| RegexKeyword.StripM | sakura_core/CRegexKeyword.cpp:430-431 | a leading 'm' is dropped from the keyword and nothing else is; a keyword not starting with 'm' is left as is |
| RegexKeyword.LastIn | sakura_core/CRegexKeyword.cpp:440 | the reverse search for the closing delimiter finds its last occurrence after the opening one, or reports that there is none |
| RegexKeyword.Parse | sakura_core/CRegexKeyword.cpp:424-451 | the simple /re/opt parse fails exactly when, after the optional 'm', the keyword is shorter than three characters or does not open with '/' or '#' |
| RegexKeyword.Delimited | sakura_core/CRegexKeyword.cpp:432-451 | on the text after 'm' the parse fails exactly for texts shorter than three characters or without a delimiter first |
| RegexKeyword.ParseShape | sakura_core/CRegexKeyword.cpp:424-451 | a successful parse splits the keyword into delimiter, body up to the last delimiter (or to the end when there is none), and options; case sensitivity means no 'i' among the options, and a head anchor means the body starts with '^' |
| RegexKeyword.DelimitedShapeClosed | sakura_core/CRegexKeyword.cpp:440-448 | with a closing delimiter present, the body ends just before the last delimiter and the options follow it |
| RegexKeyword.DelimitedShapeOpen | sakura_core/CRegexKeyword.cpp:442 | with no closing delimiter, the body runs to the end of the keyword and the pattern is case sensitive |
| RegexKeyword.DelimitedClosed | sakura_core/CRegexKeyword.cpp:432-451 | a delimiter, a body of at least one character, the delimiter again and options without the delimiter parse back to exactly that body, with case folding iff 'i' is among the options |
| RegexKeyword.DelimitedOpen | sakura_core/CRegexKeyword.cpp:432-451 | a delimiter followed by a body of two or more characters that never repeats the delimiter parses back to that body, case sensitive |
| RegexKeyword.StripFormat | sakura_core/CRegexKeyword.cpp:430-431 | formatting a keyword with an optional 'm' and removing that 'm' gives the delimited text |
| RegexKeyword.ParseFormat | sakura_core/CRegexKeyword.cpp:424-451 | parsing a formatted keyword (with or without 'm', closed or open) returns its delimiter and body, case sensitive unless closed with an 'i' option, and anchored iff the body starts with '^' |
| RegexKeyword.Compile | sakura_core/CRegexKeyword.cpp:424-458 | compilation succeeds exactly when the parse succeeds and the regex library accepts the parsed body with its case flag, and then yields the parse |
| RegexKeyword.CheckSyntax | sakura_core/CRegexKeyword.cpp:461-469 | an accepted keyword has the delimited shape; if the library accepts every body, syntax checking accepts exactly the delimited shapes |
| RegexKeyword.Word | sakura_core/CRegexKeyword.cpp:219 | one keyword of the NUL-separated list is the longest NUL-free prefix, and the list continues with a NUL after it when not exhausted |
| RegexKeyword.Entries | sakura_core/CRegexKeyword.cpp:211-221 | the count loop reads at most the maximum number of non-empty NUL-free keywords |
| RegexKeyword.EntriesJoin | sakura_core/CRegexKeyword.cpp:211-221 | a list written as NUL-terminated non-empty keywords followed by an empty entry (or nothing) reads back as those keywords, cut at the maximum |
| RegexKeyword.EntriesNone | sakura_core/CRegexKeyword.cpp:213 | a list starting with NUL, an empty list or a zero maximum gives no keywords |
| RegexKeyword.EntriesCons | sakura_core/CRegexKeyword.cpp:211-221 | a list starting with a non-empty keyword and a NUL reads that keyword and then the rest with one fewer slot |
| RegexKeyword.Init | sakura_core/CRegexKeyword.cpp:104-128 | the initial state is well-formed, has regex keywords switched off, no keywords, and magic number 1 (not compiled) |
| RegexKeyword.CompileOne | sakura_core/CRegexKeyword.cpp:249-280 | one keyword is marked compiled iff its compilation succeeds; it is set to "no match" iff compilation fails or its color is a regex color whose display is off, and otherwise to "empty"; its head flag comes from the parse; nothing else changes |
| RegexKeyword.Compiled | sakura_core/CRegexKeyword.cpp:241-284 | slot i below the keyword count is the result of compiling keyword i, and the other slots are left as they were |
| RegexKeyword.KeyCompile | sakura_core/CRegexKeyword.cpp:189-289 | recompiling keeps the state well-formed, sets the keyword count to the number of listed keywords, copies the type's index and id, turns regex keywords on iff the type wants them and the library is available, and stores the type's magic number only in that case (1 otherwise) |
| RegexKeyword.KeyCompileSlots | sakura_core/CRegexKeyword.cpp:189-289 | after recompiling, each counted slot carries the type's color for it; a slot is compiled only when keywords are on and its keyword compiles; with keywords on, the slot's compiled and "no match" flags follow its keyword's compilation and color display |
| RegexKeyword.KeyCompileTwice | sakura_core/CRegexKeyword.cpp:189-289 | recompiling the same type twice gives the same state and answer as compiling once |
| RegexKeyword.ReleasedTwice | sakura_core/CRegexKeyword.cpp:196-202 | releasing the compiled patterns twice is the same as once |
| RegexKeyword.RecompileSame | sakura_core/CRegexKeyword.cpp:196-284 | compiling after releasing a compiled table gives the same table again |
| RegexKeyword.SetTypes | sakura_core/CRegexKeyword.cpp:142-175 | a null type clears the type and switches keywords off; the answer is true iff a type is given that wants regex keywords; an unchanged type id and magic number with a type already set leaves the state unchanged; keywords are on only with a type set |
| RegexKeyword.SetTypesIdempotent | sakura_core/CRegexKeyword.cpp:142-175 | setting the same type twice gives the same state and answer as once |
| RegexKeyword.LineStart | sakura_core/CRegexKeyword.cpp:302-333 | line start succeeds iff keywords are on, the library is available and a type is set; on success each counted slot gets offset -1 and its line state reset to its compile flag and nothing else changes; on failure nothing changes |
| RegexKeyword.Search | sakura_core/CRegexKeyword.cpp:386 | the library's search from a position finds the first matching position up to the line length, or none exists |
| RegexKeyword.Step | sakura_core/CRegexKeyword.cpp:368-419 | one slot: a slot known not to match reports nothing; a cached hit at this position is reported with its length and color; a stale slot is searched again, and a failed search or a head-anchored pattern away from column 0 marks it "no match"; a slot cached ahead reports nothing; only offset, length and line state change |
| RegexKeyword.StepSound | sakura_core/CRegexKeyword.cpp:368-419 | if a slot's cache is consistent with the line up to an earlier position, after one step it is consistent up to the current position and it reports a hit exactly when the slot's pattern really matches here (and is allowed here), with the library's length and the slot's color |
| RegexKeyword.InfoOkLater | sakura_core/CRegexKeyword.cpp:368-419 | a slot's cache consistent at one position stays consistent at any later position |
| RegexKeyword.LineStartConsistent | sakura_core/CRegexKeyword.cpp:324-330 | right after line start, every slot's cache is consistent with the line from position 0 |
| RegexKeyword.IsKeyword | sakura_core/CRegexKeyword.cpp:345-422 | with keywords off or the library unavailable nothing is found and nothing changes; otherwise, for increasing positions from a consistent state, a hit is reported iff some counted slot really matches here, it is the first such slot's length and color, and the cache stays consistent |
| LayoutWrap.OnLineInv | sakura_core/doc/layout/CLayoutMgr_DoLayout.cpp:350-359 | closing a non-empty layout line at the current position keeps the walk invariant: the closed line (from the line start to the position, with its indent and column) is appended, the next one starts at the same position with its column at the indent the closed line gives it, and the position does not move |
| LayoutWrap.CarryInv | sakura_core/doc/layout/CLayoutMgr_DoLayout.cpp:131-246 | changing only the word bounds and the kind of the pending rule (to anything but hanging punctuation) keeps the walk invariant |
| LayoutWrap.KinsokuSkip | sakura_core/doc/layout/CLayoutMgr_DoLayout.cpp:131-156 | the skip applies exactly while a rule is pending; at the end of the carried run it drops the rule, and it closes a line exactly when a hanging punctuation mark has just been consumed and the line end does not hang there; nothing else changes |
| LayoutWrap.KinsokuSkipInv | sakura_core/doc/layout/CLayoutMgr_DoLayout.cpp:131-156 | the pending-rule skip keeps the invariant and the position, and leaves no consumed punctuation mark pending |
| LayoutWrap.KeywordRun | sakura_core/doc/layout/CLayoutMgr_DoLayout.cpp:39-70 | the keyword run at a position is the longest run of keyword characters there: every character in it is a keyword character, the one after it is not or the text has ended, its size is the sum of its characters' sizes and its width the sum of their widths; it is empty iff the character at the position is not a keyword character |
| LayoutWrap.WordWrap | sakura_core/doc/layout/CLayoutMgr_DoLayout.cpp:158-179 | at a keyword character with no rule pending, the word is recorded at the position with its run's length and the word rule becomes pending; a line is closed before the word exactly when the column plus the word's width reaches the wrap width and the line is not empty; otherwise nothing changes |
| LayoutWrap.WordWrapInv | sakura_core/doc/layout/CLayoutMgr_DoLayout.cpp:158-179 | the English word-wrap rule keeps the invariant and the position, and breaks before a word only when the line is not empty |
| LayoutWrap.Kuto | sakura_core/doc/layout/CLayoutMgr_DoLayout.cpp:181-196 | a punctuation mark is set to hang exactly when no rule is pending, the room left is under two columns, and the mark would overrun the width; the position, column and lines are untouched |
| LayoutWrap.KutoInv | sakura_core/doc/layout/CLayoutMgr_DoLayout.cpp:181-196 | the hanging-punctuation rule keeps the invariant and the position |
| LayoutWrap.Head | sakura_core/doc/layout/CLayoutMgr_DoLayout.cpp:198-223 | a line is closed before a pair exactly when no rule is pending, a next character exists, the room left is under four columns, the column is past the indent, the pair overruns the width, and the next character may not start a line while this one is neither such a character nor punctuation; the pair is then carried |
| LayoutWrap.HeadInv | sakura_core/doc/layout/CLayoutMgr_DoLayout.cpp:198-223 | the line-head prohibition rule keeps the invariant and the position |
| LayoutWrap.Tail | sakura_core/doc/layout/CLayoutMgr_DoLayout.cpp:225-246 | a line is closed before a character exactly when no rule is pending, a next character exists, the room left is under four columns, the column is past the indent, it and the next character overrun the width, and it may not end a line; it is then carried |
| LayoutWrap.TailInv | sakura_core/doc/layout/CLayoutMgr_DoLayout.cpp:225-246 | the line-end prohibition rule keeps the invariant and the position |
| LayoutWrap.Rules4Inv | sakura_core/doc/layout/CLayoutMgr_DoLayout.cpp:298-317 | the enabled rules applied in order (word wrap, punctuation, head, tail) keep the invariant and the position |
| LayoutWrap.PrepareInv | sakura_core/doc/layout/CLayoutMgr_DoLayout.cpp:294-318 | the rule phase of one iteration (skip while a rule is pending, otherwise the four rules) keeps the invariant and the position |
| LayoutWrap.PlaceInv | sakura_core/doc/layout/CLayoutMgr_DoLayout.cpp:323-342 | placing the current character keeps the invariant, and either advances by the character's size or breaks the line at the current position (only on a non-empty line) |
| LayoutWrap.BreakRule | sakura_core/doc/layout/CLayoutMgr_DoLayout.cpp:249-342 | a line breaks before a tab exactly when the tab overruns the width, and before another character exactly when it overruns the width, no punctuation hangs and the line end may not hang; otherwise the character is placed and the column advances by its width (or the tab's) |
| LayoutWrap.StepInv | sakura_core/doc/layout/CLayoutMgr_DoLayout.cpp:287-342 | one iteration of the wrapping loop keeps the invariant and either advances by one character or closes a non-empty line without moving |
| LayoutWrap.Run | sakura_core/doc/layout/CLayoutMgr_DoLayout.cpp:266-344 | the loop ends with the invariant kept, on the same logical line, at or past the line length; termination rests on every character fitting at the start of a layout line |
| LayoutWrap.LargeCut | sakura_core/doc/layout/CLayoutMgr_DoLayout.cpp:276-281 | large-file mode cuts at every multiple of 5120 characters below the length, so all layout lines but the last are 5120 long and tile the line up to the last cut |
| LayoutWrap.LargeCountBase | sakura_core/doc/layout/CLayoutMgr_DoLayout.cpp:276-281 | a tiling by layout lines of length 5120 each ends at 5120 times their number |
| LayoutWrap.CloseTiles | sakura_core/doc/layout/CLayoutMgr_DoLayout.cpp:536-540 | closing the last line (only when it is not empty) gives a tiling of the logical line up to the final position, empty exactly when that position is 0 |
| LayoutWrap.WrapRowsTile | sakura_core/doc/layout/CLayoutMgr_DoLayout.cpp:266-540 | the layout lines of one logical line tile at least its length, are empty exactly for an empty line, and are never wider than the width when neither punctuation nor the line end may hang |
| LayoutWrap.LargeRowsTile | sakura_core/doc/layout/CLayoutMgr_DoLayout.cpp:276-540 | in large-file mode a line of length n gives ceil(n / 5120) layout lines tiling it exactly, each 5120 long except the last, which is at most 5120 |
| LayoutWrap.LineRowsTile | sakura_core/doc/layout/CLayoutMgr_DoLayout.cpp:521-540 | in either mode a logical line's layout lines tile it and are empty exactly for an empty line |
| LayoutWrap.ClampTab | sakura_core/doc/layout/CLayoutMgr_DoLayout.cpp:496-498 | the tab width is kept when below the wrap width and otherwise becomes 4, so with a wrap width above 4 it ends below the wrap width (clamping again changes nothing) and a positive width stays positive |
| LayoutWrap.SlicesOrdered | sakura_core/doc/layout/CLayoutMgr_DoLayout.cpp:500-501 | the per-thread start lines are ordered by thread number |
| LayoutWrap.SlicesPartition | sakura_core/doc/layout/CLayoutMgr_DoLayout.cpp:500-501 | the thread ranges start at line 0, end at the line count, and are each within it and in order |
| LayoutWrap.SliceOwner | sakura_core/doc/layout/CLayoutMgr_DoLayout.cpp:500-501 | every line belongs to exactly one thread's range |
| LayoutWrap.Laid | sakura_core/doc/layout/CLayoutMgr_DoLayout.cpp:521-540 | each logical line's layout lines are laid out from that line alone |
| LayoutWrap.FlatAppend | sakura_core/doc/layout/CLayoutMgr_DoLayout.cpp:403-427 | concatenating two runs of logical lines' layout lines is concatenating their layout lines |
| LayoutWrap.RowsSplit | sakura_core/doc/layout/CLayoutMgr_DoLayout.cpp:403-427 | the layout lines of a range of logical lines are those of its first part followed by those of the rest |
| LayoutWrap.Cat | sakura_core/doc/layout/CLayoutMgr_DoLayout.cpp:403-427 | joining an empty or absent manager changes nothing; otherwise this manager's layout lines are followed by the other's, the counts add, and the other is left empty |
| LayoutWrap.CatCounted | sakura_core/doc/layout/CLayoutMgr_DoLayout.cpp:403-427 | joining keeps each manager's line count equal to its number of layout lines and loses no layout line |
| LayoutWrap.JoinFromRows | sakura_core/doc/layout/CLayoutMgr_DoLayout.cpp:465-468 | joining the remaining threads' managers in thread order onto a manager holding the lines before them gives all layout lines in document order |
| LayoutWrap.SlicedIsFlat | sakura_core/doc/layout/CLayoutMgr_DoLayout.cpp:436-469 | the layout split over any number of threads and joined is the layout of the whole document in order, with the right count |
| LayoutWrap.ParallelIsSequential | sakura_core/doc/layout/CLayoutMgr_DoLayout.cpp:436-580 | the multi-threaded layout (large files) gives the same layout lines as the single-threaded one, namely every logical line's layout lines in document order |
| LayoutWrap.LastSliceWrapsAsWritten | sakura_core/doc/layout/CLayoutMgr_DoLayout.cpp:457-501 | with 2^28 lines and 16 threads the 32-bit product gives the last thread an end line of 0, while the intended end is 2^28 |
| LayoutWrap.SliceStartNoWrap | sakura_core/doc/layout/CLayoutMgr_DoLayout.cpp:500-501 | while the product fits in 32 bits the written start line equals the intended one |
| LayoutWrap.ThreadMgrAsWritten | sakura_core/doc/layout/CLayoutMgr_DoLayout.cpp:500-540 | one thread's manager as written counts its layout lines |
| LayoutWrap.ThreadMgrNoWrap | sakura_core/doc/layout/CLayoutMgr_DoLayout.cpp:500-501 | without overflow a thread's manager as written is the intended one |
| LayoutWrap.JoinFromAsWritten | sakura_core/doc/layout/CLayoutMgr_DoLayout.cpp:465-468 | joining the threads' managers as written keeps the count |
| LayoutWrap.SlicedAsWritten | sakura_core/doc/layout/CLayoutMgr_DoLayout.cpp:436-469 | the sliced layout as written keeps the count, and equals the intended one while lines times threads fit in 32 bits |
| LayoutWrap.DoLayoutAllAsWritten | sakura_core/doc/layout/CLayoutMgr_DoLayout.cpp:436-580 | the layout as written keeps the count, and is the intended one while lines times threads fit in 32 bits |
| LayoutWrap.JoinNoWrap | sakura_core/doc/layout/CLayoutMgr_DoLayout.cpp:465-468 | without overflow, joining as written is the intended joining |
| LayoutWrap.LastSliceLostAsWritten | sakura_core/doc/layout/CLayoutMgr_DoLayout.cpp:457-501 | with 2^28 lines over 16 threads the written layout holds only the first 15 * 2^24 lines' layout lines: the last thread's lines are lost |
| LayoutWrap.JoinStepAsWritten | sakura_core/doc/layout/CLayoutMgr_DoLayout.cpp:465-468 | one join step as written adds the next thread's lines, except that the last thread adds none |
| LayoutWrap.JoinPrefixAsWritten | sakura_core/doc/layout/CLayoutMgr_DoLayout.cpp:465-468 | joining from any thread on, as written, ends with the first 15 * 2^24 lines' layout lines |
| HeaderMake.CStr | HeaderMake/HeaderMake.cpp:451-452 | a C string is the longest NUL-free prefix of its buffer, ending at the first NUL |
| HeaderMake.LastOfEither | HeaderMake/HeaderMake.cpp:450-459 | the backward scan returns the last position of either character in the string, counting the terminating NUL, or none when neither occurs; a NUL search character is found at the terminator |
| HeaderMake.Title | HeaderMake/HeaderMake.cpp:461-470 | the file title is the longest suffix of the path without a path separator, preceded by a separator whenever it is not the whole path |
| HeaderMake.TitleAfterLastSep | HeaderMake/HeaderMake.cpp:461-470 | the title is everything after the last '\\' or '/' of the path, or the whole path without one |
| HeaderMake.TitleOfJoin | HeaderMake/HeaderMake.cpp:461-470 | the title of a directory, a separator and a separator-free name is that name |
| HeaderMake.FileTitleStart | HeaderMake/HeaderMake.cpp:461-470 | the pointer returned points into the path exactly where its title starts |
| HeaderMake.TypeName | HeaderMake/HeaderMake.cpp:239-248 | 'E' and NUL name VT_EMPTY, 'S' VT_BSTR, 'I' VT_I4, and every other letter is rejected |
| HeaderMake.TypeLetterRoundTrip | HeaderMake/HeaderMake.cpp:239-248 | a type name turned back into its letter names the same type again |
| HeaderMake.ArgNames | HeaderMake/HeaderMake.cpp:258-273 | the six argument slots are the type names of the retarg letters after the first, padded with VT_EMPTY |
| HeaderMake.SlotsSnoc | HeaderMake/HeaderMake.cpp:264-273 | writing one more slot appends that slot's text |
| HeaderMake.SlotsOpen | HeaderMake/HeaderMake.cpp:264-273 | before the sixth argument slot no closing brace is written |
| HeaderMake.SlotsClose | HeaderMake/HeaderMake.cpp:264-273 | the sixth argument slot closes the brace, and nowhere else is one written |
| HeaderMake.RetargText | HeaderMake/HeaderMake.cpp:250-283 | a retarg text is accepted iff it has at most 7 letters and every letter names a type; then the output is the braced argument slots followed by the return type's name |
| HeaderMake.WriteArgSlots | HeaderMake/HeaderMake.cpp:264-269 | the argument loop succeeds iff every letter after the first names a type, and writes one slot per such letter |
| HeaderMake.PadSlots | HeaderMake/HeaderMake.cpp:271-273 | the padding loop fills the remaining slots up to six with VT_EMPTY, keeping the ones written |
| HeaderMake.OutputRetarg | HeaderMake/HeaderMake.cpp:250-283 | the result is 0 with the text of RetargText when the retarg is accepted and 1 otherwise; a text longer than 7 letters is refused before anything is written |
| HeaderMake.DropLineEnds | HeaderMake/HeaderMake.cpp:591-592 | removing CR and LF leaves no line end and changes a text without one not at all |
| HeaderMake.DropLineEndsAppend | HeaderMake/HeaderMake.cpp:591-592 | removing line ends distributes over concatenation |
| HeaderMake.FirstComment | HeaderMake/HeaderMake.cpp:594-595 | the comment search finds the first '//' or '#', or reports that there is none |
| HeaderMake.TrimEnd | HeaderMake/HeaderMake.cpp:597-598 | trailing blanks are removed and only they: the result ends in a non-blank and everything cut was blank |
| HeaderMake.StripComment | HeaderMake/HeaderMake.cpp:594-595 | cutting the comment (with the blanks before it) leaves a comment-free prefix, and a comment-free line unchanged |
| HeaderMake.Normalise | HeaderMake/HeaderMake.cpp:589-598 | a normalised input line has no NUL, no line end, no comment and no trailing blank |
| HeaderMake.CleanCode | HeaderMake/HeaderMake.cpp:591-598 | cleaning a line without NUL or line end leaves none and no comment |
| HeaderMake.NormaliseIdempotent | HeaderMake/HeaderMake.cpp:589-598 | normalising twice is normalising once |
| HeaderMake.NormaliseDropsComment | HeaderMake/HeaderMake.cpp:591-598 | code followed by a comment normalises to the code without its trailing blanks |
| HeaderMake.CommentAfterCode | HeaderMake/HeaderMake.cpp:594-595 | in comment-free code followed by a comment, the comment is found right where the code ends |
| HeaderMake.NoCommentPrefix | HeaderMake/HeaderMake.cpp:594-595 | a prefix before the first comment is comment-free |
| HeaderMake.NextComma | HeaderMake/HeaderMake.cpp:603-607 | the next comma after a position is found, or there is none |
| HeaderMake.BlanksBefore | HeaderMake/HeaderMake.cpp:603-607 | the blanks right before a comma are the maximal blank run there |
| HeaderMake.BlanksAfter | HeaderMake/HeaderMake.cpp:603-607 | the blanks right after a comma are the maximal blank run there |
| HeaderMake.Fields | HeaderMake/HeaderMake.cpp:603-607 | splitting at commas with their surrounding blanks gives comma-free fields, at least one for a non-empty text |
| HeaderMake.FieldsAtComma | HeaderMake/HeaderMake.cpp:603-607 | the first field ends at the blanks before the first comma, and the rest starts after the blanks following it |
| HeaderMake.FieldsOfJoin | HeaderMake/HeaderMake.cpp:603-607 | trimmed fields joined with ", " split back into those fields |
| HeaderMake.FieldsOfLast | HeaderMake/HeaderMake.cpp:603-607 | a final comma-free field splits as itself |
| HeaderMake.FieldsOfSeparated | HeaderMake/HeaderMake.cpp:603-607 | a trimmed field followed by ", " and more text splits as that field then the rest |
| HeaderMake.FieldsAtSeparator | HeaderMake/HeaderMake.cpp:603-607 | a field ended by ", " and a non-blank splits off exactly |
| HeaderMake.JoinStart | HeaderMake/HeaderMake.cpp:603-607 | joined trimmed fields start with a non-blank |
| HeaderMake.Split | HeaderMake/HeaderMake.cpp:603-607 | a non-empty line gives at least one field and no field holds a comma |
| HeaderMake.SplitJoin | HeaderMake/HeaderMake.cpp:603-607 | the split is the inverse of joining trimmed fields (the last non-empty) with ", " |
| HeaderMake.ValidShape | HeaderMake/HeaderMake.cpp:114-636 | an accepted row has 3 to 5 fields, and exactly 3 iff it is an ID or ALIAS row |
| HeaderMake.Register | HeaderMake/HeaderMake.cpp:639 | registering an ID adds it to the map, and an ID already there keeps its row |
| HeaderMake.RegisterKeeps | HeaderMake/HeaderMake.cpp:609-639 | appending a rejected row keeps the ID map right; appending an accepted row keeps it right once its ID is registered |
| HeaderMake.RowOf | HeaderMake/HeaderMake.cpp:587-607 | an input line yields at most one row, with at least one field |
| HeaderMake.Parsed | HeaderMake/HeaderMake.cpp:587-607 | every parsed row has at least one field |
| HeaderMake.OnlyValid | HeaderMake/HeaderMake.cpp:609-636 | keeping only accepted rows gives no more rows, all of them accepted |
| HeaderMake.ReadRowStep | HeaderMake/HeaderMake.cpp:587-640 | reading one more line keeps the table consistent with the parsed lines (rows kept or only accepted ones, the ID map, one message per rejection) |
| HeaderMake.ReadAll | HeaderMake/HeaderMake.cpp:587-640 | the whole read leaves the table consistent with the parsed input |
| HeaderMake.Load | HeaderMake/HeaderMake.cpp:587-640 | as written, every parsed row goes into the table, rejected ones included, the ID map maps each accepted ID to its first row, and one message is printed per rejected row |
| HeaderMake.LoadValid | HeaderMake/HeaderMake.cpp:587-640 | the corrected read keeps only accepted rows, with the same ID map property and messages, and every kept row has the fields the writers read |
| HeaderMake.FirstWithId | HeaderMake/HeaderMake.cpp:639 | the lookup finds the first accepted row carrying the ID, or there is none |
| HeaderMake.RegisteredIsFirst | HeaderMake/HeaderMake.cpp:639 | an ID is in the map iff an accepted row carries it, and then it maps to the first such row |
| HeaderMake.FirstWithIdOnlyValid | HeaderMake/HeaderMake.cpp:609-639 | dropping rejected rows does not change which row an ID first names |
| HeaderMake.LoadsAgree | HeaderMake/HeaderMake.cpp:587-640 | both reads register the same IDs and each names the same row in both |
| HeaderMake.ListEntry | HeaderMake/HeaderMake.cpp:683-695 | ALIAS rows write nothing; in enum mode a row writes its ID, with "= value" unless the value is '*'; in define mode it writes a #define unless the value is '*'; a non-ALIAS row without a value field cannot be written |
| HeaderMake.ListBody | HeaderMake/HeaderMake.cpp:680-696 | the enum or define list can be written iff every non-ALIAS row has a value field |
| HeaderMake.ListBodyAppend | HeaderMake/HeaderMake.cpp:680-696 | the list of two row runs is the first's list followed by the second's |
| HeaderMake.EnumText | HeaderMake/HeaderMake.cpp:678-698 | the enum is "enum class{", the enum list and "};", written iff the list can be |
| HeaderMake.ShortRowReadsPastEnd | HeaderMake/HeaderMake.cpp:609-695 | the line "ID, F_X" is rejected and reported but stays in the table, and neither list can then be written: its value field would be read past the end of the row |
| HeaderMake.RejectedLineKept | HeaderMake/HeaderMake.cpp:609-636 | a rejected line stays in the table, is not registered and is reported once |
| HeaderMake.ShortRowParsed | HeaderMake/HeaderMake.cpp:587-607 | the line "ID, F_X" parses into the two fields ID and F_X |
| HeaderMake.CodeLineParsed | HeaderMake/HeaderMake.cpp:587-607 | a clean code line with its line end parses into the split of the code |
| HeaderMake.ParsedOne | HeaderMake/HeaderMake.cpp:587-607 | parsing one line is reading its row |
| HeaderMake.CleanLineNormalises | HeaderMake/HeaderMake.cpp:589-598 | a clean code line with its line end normalises to the code |
| HeaderMake.ValidListable | HeaderMake/HeaderMake.cpp:609-636 | accepted rows carry every field the writers read |
| HeaderMake.AllValidLists | HeaderMake/HeaderMake.cpp:680-696 | over accepted rows both the enum and the define list can be written |
| HeaderMake.LoadValidLists | HeaderMake/HeaderMake.cpp:680-696 | over the corrected read both lists can always be written |
| HeaderMake.FindAlias | HeaderMake/HeaderMake.cpp:207-235 | an alias resolves only to the registered row of its ID, and only when that row is of the family asked for |
| HeaderMake.FindAliasFirst | HeaderMake/HeaderMake.cpp:207-235 | an alias fails exactly when no accepted row carries its ID or the first such row is of another family, and otherwise names that row |
| HeaderMake.PickRow | HeaderMake/HeaderMake.cpp:302-318 | a row of the family is written under its own name; an ALIAS row is written under the alias name as the row it resolves to; any other row, or an alias that does not resolve, is skipped |
| HeaderMake.MakeEntry | HeaderMake/HeaderMake.cpp:320-340 | a table line fails with the target's ID iff its retarg text is rejected; otherwise it carries the target's ID, the chosen name and the type text, and it gets a wrapper iff wrappers are not suppressed and the target is CMDA or FUNCA |
| HeaderMake.Both | HeaderMake/HeaderMake.cpp:330-333 | the first failing line stops the table with its ID; otherwise the lines are concatenated |
| HeaderMake.BothAssoc | HeaderMake/HeaderMake.cpp:330-333 | joining lines is associative |
| HeaderMake.One | HeaderMake/HeaderMake.cpp:320-333 | one line's success or failure becomes the table's |
| HeaderMake.Picks | HeaderMake/HeaderMake.cpp:301-341 | each row is picked by PickRow on its own |
| HeaderMake.LineOf | HeaderMake/HeaderMake.cpp:320-340 | a skipped row writes nothing; a picked row writes one line, failing iff its retarg is rejected, under the chosen name and the target's ID, with a wrapper iff it is not an alias and the target is CMDA or FUNCA |
| HeaderMake.FoldAppend | HeaderMake/HeaderMake.cpp:301-341 | the lines of two runs of rows are the first run's followed by the second's |
| HeaderMake.PickLines | HeaderMake/HeaderMake.cpp:301-341 | each picked row is written on its own |
| HeaderMake.WrittenWithoutAlias | HeaderMake/HeaderMake.cpp:300-341 | with no alias picked, the loop as written is each row written on its own |
| HeaderMake.AsWrittenBeforeAlias | HeaderMake/HeaderMake.cpp:300-341 | in a table with no ALIAS row the written and the corrected function tables agree |
| HeaderMake.AsWrittenAfterAlias | HeaderMake/HeaderMake.cpp:300-337 | as written, once an alias has been written no later line gets a wrapper |
| HeaderMake.AliasTableRegistered | HeaderMake/HeaderMake.cpp:207-235 | the three-row example (a FUNCA row, an alias of it, another FUNCA row) is accepted and registered |
| HeaderMake.AliasListable | HeaderMake/HeaderMake.cpp:301-341 | the example carries every field the writers read |
| HeaderMake.AliasPicks | HeaderMake/HeaderMake.cpp:302-318 | in the example the rows are picked as the first row under its name, the first row under the alias name, and the third row under its name |
| HeaderMake.AliasEntries | HeaderMake/HeaderMake.cpp:320-340 | every line of the example can be written |
| HeaderMake.AliasBetween | HeaderMake/HeaderMake.cpp:300-341 | a row after an alias row loses its wrapper as written, while written on its own it keeps it iff it is CMDA or FUNCA |
| HeaderMake.StickyAliasDropsWrapper | HeaderMake/HeaderMake.cpp:300-337 | in the example the third row, a FUNCA, is written without its wrapper as written, but with it as intended |
| HeaderMake.TableText | HeaderMake/HeaderMake.cpp:292-348 | the array text fails with the failing ID exactly when a line fails |
| HeaderMake.FuncTable | HeaderMake/HeaderMake.cpp:287-349 | the corrected table fails, with that ID, exactly when some picked row's retarg text is rejected |
| HeaderMake.ThenRest | HeaderMake/HeaderMake.cpp:330-333 | a line followed by a readable rest gives a readable table |
| HeaderMake.RegisteredTargets | HeaderMake/HeaderMake.cpp:639 | every registered ID leads to a row with its value field |
| HeaderMake.TableFromSome | HeaderMake/HeaderMake.cpp:300-341 | the written loop reaches the end of a table whose rows all carry the fields it reads |
| HeaderMake.TableFromPicks | HeaderMake/HeaderMake.cpp:300-341 | over readable rows the written loop is the written fold of the picked rows, with the alias flag carried along |
| HeaderMake.TableFromStep | HeaderMake/HeaderMake.cpp:300-341 | one iteration skips a row that is not picked, and otherwise writes its line with wrappers suppressed once an alias was seen, then goes on |
| HeaderMake.TableFromNone | HeaderMake/HeaderMake.cpp:300-341 | the written loop only gets stuck on a row missing a field it reads |
| HeaderMake.FuncTableAsWritten | HeaderMake/HeaderMake.cpp:287-349 | the table as written can only get stuck on a row missing a field it reads |
| HeaderMake.FuncTableAsWrittenListable | HeaderMake/HeaderMake.cpp:287-349 | over rows with every field read, the table as written is the array text of the written lines |
| HeaderMake.FuncTableAsWrittenWithoutAlias | HeaderMake/HeaderMake.cpp:287-349 | over readable rows without ALIAS, the written table is the corrected one |
| HeaderMake.Framed | HeaderMake/HeaderMake.cpp:651-704 | the output file is the banner with the input file's title, the body and the closing banner, in that order |
| HeaderMake.ModeBody | HeaderMake/HeaderMake.cpp:661-699 | enum and define bodies always succeed and are the enum and the define list; the function body fails, with the first failing ID, exactly when the command table or the function table fails |
| HeaderMake.Generate | HeaderMake/HeaderMake.cpp:537-710 | the corrected tool's output is the head banner, the mode's body over the accepted rows and the foot banner; only the function mode can fail, and then with that body's error |
| HeaderMake.ModeBodyAsWritten | HeaderMake/HeaderMake.cpp:661-699 | as written, the enum and define bodies are undefined exactly when a non-ALIAS row lacks its value field, and never fail otherwise; the function body only gets stuck on a row missing a field it reads |
| HeaderMake.ModeBodiesAgree | HeaderMake/HeaderMake.cpp:661-699 | over accepted rows (without ALIAS in function mode) the written body is the corrected one |
| HeaderMake.WrittenHeader | HeaderMake/HeaderMake.cpp:651-709 | the output as written is undefined exactly when the body is, fails exactly when the body fails, and otherwise is the banners around the body |
| HeaderMake.GenerateAsWritten | HeaderMake/HeaderMake.cpp:537-710 | as written, the enum and define outputs are undefined exactly when some kept row other than ALIAS lacks its value field, and succeed otherwise |
| HeaderMake.ReadRowAgree | HeaderMake/HeaderMake.cpp:587-640 | on an accepted line both readers do the same |
| HeaderMake.ReadersAgree | HeaderMake/HeaderMake.cpp:587-640 | when every line is accepted both readers build the same table |
| HeaderMake.GeneratesAgree | HeaderMake/HeaderMake.cpp:537-710 | when every line is accepted (and, in function mode, there is no ALIAS) the tool as written writes the corrected header |
| HeaderMake.ShortRowUndefined | HeaderMake/HeaderMake.cpp:609-695 | for the input "ID, F_X" the enum and define outputs as written are undefined, while the corrected tool writes a header |
| HeaderMake.RejectedRowWritten | HeaderMake/HeaderMake.cpp:609-695 | an ID row with four fields is rejected and reported, yet as written it still appears in the enum as "ID = value" |
| HeaderMake.RejectedRowBody | HeaderMake/HeaderMake.cpp:683-695 | the enum list of such a row is its ID and value |
| HeaderMake.RejectedRowDropped | HeaderMake/HeaderMake.cpp:609-698 | the corrected tool writes an empty enum for that input |
| HeaderMake.LongRowParsed | HeaderMake/HeaderMake.cpp:587-607 | the line "ID, F_X, 1, 2" parses into four fields |

## Functions stated by lemmas

These functions compute without a contract of their own; the rows of the lemmas named after each say what they promise.

- ReplaceText.ReplaceData: ReplaceTextInsert.ReplaceDataEffect, ReplaceTextLoop.DeleteRemovesRange.
- ReplaceText.Insert: ReplaceTextInsert.InsertEffect, ReplaceTextInsert.InsertSplit, ReplaceTextInsert.InsertLineMode, ReplaceTextInsert.InsertAtEnd.
- LayoutWrap.OnLine: LayoutWrap.OnLineInv.
- LayoutWrap.Place and LayoutWrap.Step: LayoutWrap.BreakRule, LayoutWrap.PlaceInv, LayoutWrap.StepInv.
- LayoutWrap.Prepare and LayoutWrap.Rules4: LayoutWrap.PrepareInv, LayoutWrap.Rules4Inv.
- LayoutWrap.DoLayoutAll: LayoutWrap.ParallelIsSequential.
- DocLineMgr.Init: DocLineMgr.InitValid.
- DocLineMgr.Cat: DocLineMgr.CatValid.
- Bookmark.EncodeLines: Bookmark.EncodeLinesDecode, Bookmark.EncodeLinesSnoc.
- GrepFormat.FormatPathList: GrepFormat.FormatPathListRoundTrip.
- GrepFormat.EscapeStringLiteral: GrepFormat.EscapeRoundTrip, GrepFormat.EscapeIsPerCharacter.
- GrepFormat.LineColumn: GrepFormat.LineColumnRoundTrip.
- TextStackRing.ForwardAsWritten: TextStack.ForwardAsWrittenHome.
- HeaderMake.ReadRow: HeaderMake.ReadRowStep, HeaderMake.ReadRowAgree.
- HeaderMake.Lines: HeaderMake.FuncTable.
- HeaderMake.LinesAsWritten: HeaderMake.FuncTableAsWrittenListable, HeaderMake.AsWrittenAfterAlias.
- PatternAlternate.Rewrite: PatternAlternate.MakePatternAlternate, PatternAlternate.RewriteBound.
- Bregexp.GetIndex and Bregexp.GetLastIndex: Bregexp.GetMatchLen, Bregexp.GetMatchRangeOfHit.
- SearchAgent.Find: SearchAgent.FindIsLeftmost, SearchAgent.FindHit.
- SearchPattern.RegexFlag: SearchPattern.RegexFlagCompilesAsAsked.
- WriteData.TempName and WriteData.BackupName: WriteData.NamesDistinct.
- FileLoad.LimitSize: FileLoad.IsLoadableSize.

## Left out

- Bregexp.Replace: the substitution itself is the PCRE2 engine's, an oracle result constrained only by the bounds the wrapper checks. One allocation flag answers both buffer requests of a call, so a first buffer that is granted followed by a grown buffer that is refused is not modelled.
- PatternAlternate.MakePatternAlternate: the NUL terminator written after the rewritten pattern is not modelled, because strings carry their length.
- Bookmark.Tokens: the legacy parser splits on the separator without `wcstok_s`'s state. The `p += wcslen + 1` step that can read past the terminator (sakura_core/docplus/CBookmarkManager.cpp:148-153) is not modelled.
- Bookmark.ToLong: `_wtol`'s leading-whitespace skip and optional sign are not modelled; the saved text holds only digits and delimiters.
- Bookmark.DecodeNumbers: the `* 32` accumulation is unbounded, so the C `int` overflow on over-long runs is not modelled.
- Bookmark: MarkSearchWord is left out. It marks lines through the search engine and the document, and the model has neither.
- ReplaceText.ReplaceData: the `m_nPrevReferLine` adjustment (sakura_core/CSearchAgent.cpp:825-826, 873-876) is not modelled, because it only tunes the document manager's lookup cache. Modified-sequence numbers, line marks and the progress dialog are not modelled either; none of them changes the text.
- ReplaceText.Insert: the source's reuse of the old line buffer when a long line is split (sakura_core/CSearchAgent.cpp:932-942) is a memory optimisation with the same resulting text, so only its result is modelled.
- SearchAgent.SearchWord1Line: only the plain-text branch is modelled. The regular-expression branch is a call into the engine oracle.
- GrepScan.ScanLine: at an empty match at the end of the line the source calls `AppendString(pLine + nIndex, nLineLen - nIndex)` with length −1 (sakura_core/CGrepAgent.cpp:1546). The model appends nothing there, because the meaning of a negative length is not in the shown code.
- GrepScan.Sound: the match oracle is required to stay within one line. Matches that run across lines are not modelled.
- GrepCursor.ReadWindow: the window read's chunking (sakura_core/CGrepAgent.h:137-149) is not modelled. Each call returns whole lines.
- GrepTree.DoGrepRoots: the final flush of the result buffer (sakura_core/CGrepAgent.cpp:738-741) is not modelled.
- GrepTree: the BlockingHook and IsCanceled checks (sakura_core/CGrepAgent.cpp:847-856, 940-950) are folded into each file's outcome. The window-target (`hWndTarget`) branch of DoGrep is left out. `CodeAutoDetect` is given the value 99, because the real value is not in the shown files.
- FileLoad: the UTF-7 branch of ReadLine (sakura_core/io/CFileLoad.cpp:320-355), GetFileSize/IsBomExist (plain field reads) and FileOpen (file system) are left out.
- FileLoad.NextLineCharCode: the EBCDIC `pData[i+1]` read (sakura_core/io/CFileLoad.cpp:586-588) and the extended end-of-line scan for ASCII codes sit inside the end-of-line oracle, so the model cannot state their bounds.
- DocLineMgr: DeleteAllLine's background thread and the DUMP tracing are left out.
- RegexKeyword: `nStatus` and GetNewMagicNumber (which reads GetTickCount) are left out. MAX_REGEX_KEYWORD is 100.
- LayoutWrap.LineOk: the walk requires every character to fit at the start of a layout line. The source has no such check (sakura_core/doc/layout/CLayoutMgr_DoLayout.cpp:330-336). It relies on the configured minimum wrap width and on the tab guard at 496-498. Widths are oracles here, so the model cannot name the input on which the source would loop forever.
- LayoutWrap.DoLayoutAll: in large-file mode the thread count must be positive. `std::thread::hardware_concurrency()` may return 0 (sakura_core/doc/layout/CLayoutMgr_DoLayout.cpp:442-443); `uMaxThreadNum - 1` then wraps and the vector of managers at line 447 cannot be built. That case is not modelled.
- LayoutWrap: `_DoLayout`'s threads are not spawned or joined. Each thread's slice is laid out by a pure function, and the slices are joined in thread order.
- LayoutWrap: cancellation through `bBreak` and BlockingHook (sakura_core/doc/layout/CLayoutMgr_DoLayout.cpp:481-490, 543-555), the color strategy and the progress notifications are left out.
- HeaderMake.IsSpace: `\s` is ASCII-only here. The source's locale-dependent classification is not modelled.
- HeaderMake: the truncated header left behind on a retarg error and the exit status are not modelled. `main` ignores `main_impl`'s result and always exits 0 (HeaderMake/HeaderMake.cpp:531). Also left out: WRAPPER mode's OutputMacroFuncWrapper (HeaderMake.cpp:353-412), a fourth emitter beside the enum, define and function-table ones that are modelled; and argument parsing in `main`, the timestamp check and the preprocessor pipe, which are I/O.
- HeaderMake.Generate: the mode is a parameter. `main_impl`'s case-insensitive `_stricmp` match of the mode name and its return of 2 for an unknown mode (HeaderMake/HeaderMake.cpp:546-553) are not modelled.
- Line counts are unbounded. The 2^31 limit on C `int` line numbers is not modelled.
- TextStack.Pop: popping when the end offset is exactly 32768 is not reachable in the corrected model, so it is not modelled. Word alignment of frame offsets is not part of `TextStack.Valid`.
- TextStack: the header's Pop with `bNoPop` (sakura_core/env/CTextStack.h:48) has no body in the `.cpp`. The model follows the `.cpp`.
- Header/body mismatches, where the model follows the `.cpp`:
  - the `tGrepArg` declaration in CGrepAgent.h;
  - SetPattern's seven parameters in the header (with `pszPattern2`) against six in the `.cpp`;
  - the Compile and Replace signatures in CBregexp;
  - SGrepOption lacks bGrepOutputBaseFolder and bGrepSeparateFolder;
  - GetReplacedString, GetReplacedLen and GetMatchLine are missing from CBregexp.h.

## Findings

| source | as written | input that shows it | evidently intended | confidence | as-written member | corrected member |
|---|---|---|---|---|---|---|
| sakura_core/CSearchAgent.cpp:98-118 | a word-only pattern drops a leading and a trailing `*`. The lone `*` is dropped twice, leaving length −1 | word-only search for `*` (or for the empty pattern) | a pattern that is only `*` prepares to the empty pattern | not executed | SearchPattern.LoneStarNotPrepared | SearchPattern.SetPattern |
| sakura_core/CSearchAgent.cpp:90-94 | a case-sensitive search passes 0 as the option word. Compile (CBregexp.cpp:265) treats a missing `optCaseSensitive` bit as caseless | regular-expression search with "match case" on | the flag passes `optCaseSensitive` when case matters | not executed | SearchPattern.CaseSensitiveRegexCompiledCaseless | SearchPattern.RegexFlagCompilesAsAsked |
| sakura_core/env/CTextStack.h:61-64 | the end pointer wraps only when it is past the ring's size (`>`) | empty stack, push 16378 characters (a 32768-byte frame): the end offset becomes 32768, one past the ring | wrap when the pointer reaches the size (`>=`) | not executed | TextStack.PushAsWrittenOverruns | TextStack.Push |
| sakura_core/io/CFileLoad.cpp:526-547 | the UTF-32 scan bound `nDataLen - 3` is unsigned, so it wraps to almost 2^64 for a buffer shorter than 3 bytes | a one- or two-byte UTF-32 buffer: the first step reads 4 bytes at offset 0 | a short buffer yields no end-of-line scan at all | not executed | FileLoad.ShortUtf32ScanReadsPastEnd | FileLoad.NextLineCharCode |
| sakura_core/doc/logic/CDocLineMgr.cpp:138-170 | DeleteLine moves the top, bottom and reference pointers off the freed line but not `m_pDocLineCurrent` | delete the line the current pointer is on | the current pointer is cleared or moved as the others are | not executed | DocLineMgr.DeleteLeavesCurrentDangling | DocLineMgr.DeleteValid |
| sakura_core/CGrepAgent.cpp:1525-1541 | in replace mode an empty match skips one character without copying it | replace a zero-width match at the start of `ab` by the empty string: the result is `b` | the skipped character is copied to the output | not executed | GrepScan.EmptyMatchDropsCharacter | GrepScan.ReplaceBySelfIsIdentity |
| sakura_core/CGrepAgent.cpp:518-525 | the early return for a missing result window leaves the grep-running flag set | DoGrep when the result window handle is invalid: every later grep is refused | every exit clears the running flag | not executed | GrepTree.HwndErrorLocksGrep | GrepTree.DoGrepExit |
| sakura_core/doc/layout/CLayoutMgr_DoLayout.cpp:500-501 | the slice bounds compute `nAllLineNum * uThreadID` in 32-bit unsigned arithmetic | 2^28 lines and 16 threads: the last slice ends at 0 and its lines are never laid out | the slices cover every line | not executed | LayoutWrap.LastSliceLostAsWritten | LayoutWrap.ParallelIsSequential |
| HeaderMake/HeaderMake.cpp:300-340 | `bIsAlias` is set by an alias row and never cleared | a table with an alias row followed by an ordinary function | each row's wrapper depends only on that row | not executed | HeaderMake.StickyAliasDropsWrapper | HeaderMake.FuncTable |
| HeaderMake/HeaderMake.cpp:609-695 | rows rejected while loading stay in the table and are written to the enum/define output | the row `ID, F_X, 1, 2` (rejected for four fields) is written as `\tF_X = 1,`; the row `ID, F_X` reads a field past its end | rejected rows are dropped from the output | not executed | HeaderMake.RejectedRowWritten | HeaderMake.RejectedRowDropped |

=== FILE: bookmark.dfy ===
/**
 * The bookmark manager (docplus/CBookmarkManager.cpp): clearing every
 * bookmark, finding the nearest bookmarked line in either direction, and
 * the text form bookmarks are saved in.
 *
 * The document's lines are reduced to their bookmark flags.  The saved
 * form (version 2) is ":0" followed by one number per bookmarked line:
 * the gap to the previous bookmarked line, written in base 32 with the
 * most significant digit first, where every digit but the last is taken
 * from "wxyzA..Z+-" and the last from "0..9a..v", so the last digit also
 * ends the number.
 */
module Bookmark {
  import opened Wrappers
  import GrepFormat

  // ---------------------------------------------------------------------
  // Clearing and searching
  // ---------------------------------------------------------------------

  /** ResetAllBookMark: no line is bookmarked. */
  function ResetAll(marks: seq<bool>): (r: seq<bool>)
    ensures |r| == |marks| && forall i :: 0 <= i < |r| ==> !r[i]
  {
    seq(|marks|, i => false)
  }

  /** The backward scan of SearchBookMark from line i down. */
  function ScanBack(marks: seq<bool>, i: int): (r: Option<int>)
    requires i < |marks|
    ensures r.Some? ==> 0 <= r.value <= i && marks[r.value] && forall k :: r.value < k <= i ==> !marks[k]
    ensures r.None? ==> forall k :: 0 <= k <= i ==> !marks[k]
    decreases i + 1
  {
    if i < 0 then None else if marks[i] then Some(i) else ScanBack(marks, i - 1)
  }

  /** The forward scan of SearchBookMark from line i up. */
  function ScanForward(marks: seq<bool>, i: nat): (r: Option<int>)
    ensures r.Some? ==> i <= r.value < |marks| && marks[r.value] && forall k :: i <= k < r.value ==> !marks[k]
    ensures r.None? ==> forall k :: i <= k < |marks| ==> !marks[k]
    decreases |marks| - i
  {
    if i >= |marks| then None else if marks[i] then Some(i) else ScanForward(marks, i + 1)
  }

  /** SearchBookMark: the nearest bookmarked line before (backward) or after
      (forward) line n.  The scan starts only when the neighbouring line
      exists. */
  function SearchBookMark(marks: seq<bool>, n: int, backward: bool): (r: Option<int>)
    ensures backward && r.Some? ==> 0 <= r.value < n <= |marks| && marks[r.value] && forall k :: r.value < k < n ==> !marks[k]
    ensures !backward && r.Some? ==> -1 <= n < r.value < |marks| && marks[r.value] && forall k :: n < k < r.value ==> !marks[k]
    ensures backward && 0 <= n - 1 < |marks| ==> (r.None? <==> forall k :: 0 <= k < n ==> !marks[k])
    ensures !backward && 0 <= n + 1 < |marks| ==> (r.None? <==> forall k :: n < k < |marks| ==> !marks[k])
    ensures backward && !(0 <= n - 1 < |marks|) ==> r.None?
    ensures !backward && !(0 <= n + 1 < |marks|) ==> r.None?
  {
    if backward then
      if 0 <= n - 1 < |marks| then ScanBack(marks, n - 1) else None
    else
      if 0 <= n + 1 < |marks| then ScanForward(marks, n + 1) else None
  }

  // ---------------------------------------------------------------------
  // Digits of the saved form
  // ---------------------------------------------------------------------

  /** The last digit of a number: "0".."9", "a".."v". */
  function LastDigit(d: nat): (c: char)
    requires d < 32
  {
    if d <= 9 then ('0' as int + d) as char else ('a' as int + d - 10) as char
  }

  /** Every other digit: "w".."z", "A".."Z", "+", "-". */
  function InnerDigit(d: nat): (c: char)
    requires d < 32
  {
    if d <= 3 then ('w' as int + d) as char
    else if d <= 29 then ('A' as int + d - 4) as char
    else if d == 30 then '+'
    else '-'
  }

  /** What a character of the saved form is. */
  datatype Digit = Last(value: nat) | Inner(value: nat) | NotADigit

  function ReadDigit(c: char): (d: Digit)
    ensures d.Last? || d.Inner? ==> d.value < 32
  {
    if '0' <= c <= '9' then Last(c as int - '0' as int)
    else if 'a' <= c <= 'v' then Last(c as int - 'a' as int + 10)
    else if 'w' <= c <= 'z' then Inner(c as int - 'w' as int)
    else if 'A' <= c <= 'Z' then Inner(c as int - 'A' as int + 4)
    else if c == '+' then Inner(30)
    else if c == '-' then Inner(31)
    else NotADigit
  }

  lemma DigitsRead(d: nat)
    requires d < 32
    ensures ReadDigit(LastDigit(d)) == Last(d) && ReadDigit(InnerDigit(d)) == Inner(d)
  {
  }

  /** The leading digits of a number whose last digit is cut off. */
  function InnerDigits(m: nat): string
    decreases m
  {
    if m == 0 then "" else InnerDigits(m / 32) + [InnerDigit(m % 32)]
  }

  /** One number of the saved form. */
  function EncodeNumber(n: nat): (s: string)
    ensures |s| >= 1
  {
    InnerDigits(n / 32) + [LastDigit(n % 32)]
  }

  // ---------------------------------------------------------------------
  // Decoding
  // ---------------------------------------------------------------------

  /** The version-2 reader: inner digits accumulate into temp, shifted by one
      digit each; a last digit ends the number, which is added to the line
      after the previous bookmark; any other character ends the text.
      Every number takes at least one character, and from a non-negative
      start each number is past the one before, so the lines read are
      strictly increasing. */
  function DecodeNumbers(s: string, line: int, temp: int): (r: seq<int>)
    ensures |r| <= |s|
    ensures temp >= 0 ==> forall i :: 0 <= i < |r| ==> r[i] >= line + i
    ensures temp >= 0 ==> forall i, j :: 0 <= i < j < |r| ==> r[i] < r[j]
    decreases |s|
  {
    if |s| == 0 then []
    else
      match ReadDigit(s[0])
      case Last(d) => [line + temp + d] + DecodeNumbers(s[1..], line + temp + d + 1, 0)
      case Inner(d) => DecodeNumbers(s[1..], line, (temp + d) * 32)
      case NotADigit => []
  }

  /** The worked example of the version-2 form: gaps 0, 1, 2, 3 and 32. */
  lemma DecodeExample()
    ensures DecodeNumbers("0123x0", 0, 0) == [0, 2, 5, 9, 42]
  {
  }

  lemma {:induction false} InnerDigitsDecode(m: nat, rest: string, line: int)
    ensures DecodeNumbers(InnerDigits(m) + rest, line, 0) == DecodeNumbers(rest, line, m * 32)
    decreases m
  {
    if m == 0 {
      assert InnerDigits(m) + rest == rest;
    } else {
      var c := InnerDigit(m % 32);
      assert InnerDigits(m) + rest == InnerDigits(m / 32) + ([c] + rest);
      InnerDigitsDecode(m / 32, [c] + rest, line);
      DigitsRead(m % 32);
      assert ([c] + rest)[1..] == rest;
      assert ((m / 32) * 32 + m % 32) * 32 == m * 32;
    }
  }

  /** A number written and read back is the gap it encodes. */
  lemma EncodeNumberDecode(n: nat, rest: string, line: int)
    ensures DecodeNumbers(EncodeNumber(n) + rest, line, 0) == [line + n] + DecodeNumbers(rest, line + n + 1, 0)
  {
    var c := LastDigit(n % 32);
    assert EncodeNumber(n) + rest == InnerDigits(n / 32) + ([c] + rest);
    InnerDigitsDecode(n / 32, [c] + rest, line);
    DigitsRead(n % 32);
    assert ([c] + rest)[1..] == rest;
  }

  /** The bookmarked lines, in order. */
  function Marked(marks: seq<bool>): seq<nat>
    decreases |marks|
  {
    if |marks| == 0 then []
    else if marks[|marks| - 1] then Marked(marks[..|marks| - 1]) + [|marks| - 1]
    else Marked(marks[..|marks| - 1])
  }

  /** The bookmarked lines are exactly the lines whose bookmark is set, each
      once, in increasing order. */
  lemma {:induction false} MarkedLines(marks: seq<bool>)
    ensures var ps := Marked(marks);
            && (forall k :: 0 <= k < |ps| ==> ps[k] < |marks| && marks[ps[k]])
            && (forall i :: 0 <= i < |marks| && marks[i] ==> i in ps)
            && Increasing(ps)
    decreases |marks|
  {
    if |marks| > 0 {
      var init := marks[..|marks| - 1];
      MarkedLines(init);
      assert forall i :: 0 <= i < |init| ==> init[i] == marks[i];
    }
  }

  predicate Increasing(ps: seq<nat>)
  {
    forall a, b :: 0 <= a < b < |ps| ==> ps[a] < ps[b]
  }

  /** The numbers written for the lines ps, each the gap to the line before
      (the line before the first being -1). */
  function EncodeLines(ps: seq<nat>, prev: int): string
    decreases |ps|
  {
    if |ps| == 0 then "" else EncodeNumber(Gap(ps[0], prev)) + EncodeLines(ps[1..], ps[0])
  }

  /** The number of lines strictly between prev and line. */
  function Gap(line: nat, prev: int): nat
  {
    if prev < line then line - prev - 1 else 0
  }

  lemma {:induction false} EncodeLinesDecode(ps: seq<nat>, prev: int)
    requires Increasing(ps) && (|ps| > 0 ==> prev < ps[0])
    ensures DecodeNumbers(EncodeLines(ps, prev), prev + 1, 0) == ps
    decreases |ps|
  {
    if |ps| > 0 {
      EncodeNumberDecode(ps[0] - prev - 1, EncodeLines(ps[1..], ps[0]), prev + 1);
      EncodeLinesDecode(ps[1..], ps[0]);
    }
  }

  /** Setting the bookmark of every listed line the document has. */
  function Apply(marks: seq<bool>, lines: seq<int>): (r: seq<bool>)
    ensures |r| == |marks|
    ensures forall i :: 0 <= i < |r| ==> (r[i] <==> marks[i] || i in lines)
  {
    seq(|marks|, i requires 0 <= i < |marks| => marks[i] || i in lines)
  }

  // ---------------------------------------------------------------------
  // The legacy form
  // ---------------------------------------------------------------------

  predicate IsDelimiter(c: char) { c == ',' || c == ' ' }

  /** A text without a delimiter. */
  predicate Undelimited(t: string)
  {
    forall k :: 0 <= k < |t| ==> !IsDelimiter(t[k])
  }

  /** The tokens between delimiters: none of them is empty or holds a
      delimiter. */
  function Tokens(s: string, cur: string): (r: seq<string>)
    ensures Undelimited(cur) ==> forall i :: 0 <= i < |r| ==> |r[i]| > 0 && Undelimited(r[i])
    decreases |s|
  {
    if |s| == 0 then (if |cur| > 0 then [cur] else [])
    else if IsDelimiter(s[0]) then (if |cur| > 0 then [cur] else []) + Tokens(s[1..], "")
    else Tokens(s[1..], cur + [s[0]])
  }

  /** The leading decimal digits of a token; empty when there are none. */
  function LeadingDigits(s: string): (d: string)
    ensures |d| <= |s| && d == s[..|d|] && GrepFormat.AllDigits(d)
  {
    if |s| > 0 && GrepFormat.IsDigit(s[0]) then [s[0]] + LeadingDigits(s[1..]) else ""
  }

  function ToLong(s: string): int
  {
    if |s| > 0 && s[0] == '-' then -GrepFormat.DigitsValue(LeadingDigits(s[1..]))
    else if |s| > 0 && s[0] == '+' then GrepFormat.DigitsValue(LeadingDigits(s[1..]))
    else GrepFormat.DigitsValue(LeadingDigits(s))
  }

  function Values(tokens: seq<string>): (r: seq<int>)
    ensures |r| == |tokens| && forall k :: 0 <= k < |r| ==> r[k] == ToLong(tokens[k])
  {
    seq(|tokens|, k requires 0 <= k < |tokens| => ToLong(tokens[k]))
  }

  /** The legacy list of line numbers, separated by commas. */
  function JoinLines(ps: seq<nat>): string
    decreases |ps|
  {
    if |ps| == 0 then ""
    else if |ps| == 1 then GrepFormat.Digits(ps[0])
    else GrepFormat.Digits(ps[0]) + "," + JoinLines(ps[1..])
  }

  lemma {:induction false} TokensWord(w: string, rest: string, cur: string)
    requires forall i :: 0 <= i < |w| ==> !IsDelimiter(w[i])
    ensures Tokens(w + rest, cur) == Tokens(rest, cur + w)
    decreases |w|
  {
    if |w| == 0 {
      assert w + rest == rest && cur + w == cur;
    } else {
      assert (w + rest)[1..] == w[1..] + rest;
      assert cur + [w[0]] + w[1..] == cur + w;
      TokensWord(w[1..], rest, cur + [w[0]]);
    }
  }

  lemma {:induction false} LeadingDigitsAll(d: string)
    requires GrepFormat.AllDigits(d)
    ensures LeadingDigits(d) == d
    decreases |d|
  {
    if |d| > 0 {
      LeadingDigitsAll(d[1..]);
    }
  }

  lemma DigitsToLong(n: nat)
    ensures ToLong(GrepFormat.Digits(n)) == n
  {
    var d := GrepFormat.Digits(n);
    GrepFormat.DecimalRoundTrip(n);
    LeadingDigitsAll(d);
  }

  lemma JoinLinesCons(ps: seq<nat>)
    requires |ps| > 1
    ensures Tokens(JoinLines(ps), "") == [GrepFormat.Digits(ps[0])] + Tokens(JoinLines(ps[1..]), "")
  {
    var d := GrepFormat.Digits(ps[0]);
    var rest := JoinLines(ps[1..]);
    var tail := "," + rest;
    assert JoinLines(ps) == d + tail;
    TokensWord(d, tail, "");
    assert "" + d == d;
    assert tail[0] == ',' && tail[1..] == rest;
    assert Tokens(tail, d) == [d] + Tokens(rest, "");
  }

  lemma JoinLinesOne(n: nat)
    ensures Tokens(JoinLines([n]), "") == [GrepFormat.Digits(n)]
  {
    var d := GrepFormat.Digits(n);
    TokensWord(d, "", "");
    assert d + "" == d && "" + d == d;
  }

  lemma {:induction false} JoinLinesTokens(ps: seq<nat>)
    ensures Values(Tokens(JoinLines(ps), "")) == ps
    decreases |ps|
  {
    if |ps| == 1 {
      JoinLinesOne(ps[0]);
      DigitsToLong(ps[0]);
      assert [ps[0]] == ps;
    } else if |ps| > 1 {
      JoinLinesCons(ps);
      JoinLinesTokens(ps[1..]);
      DigitsToLong(ps[0]);
      assert Values(Tokens(JoinLines(ps), "")) == [ps[0]] + ps[1..];
    }
  }

  /** SetBookMarks: ":0" starts the version-2 form, ':' with anything else is
      an unknown version and sets nothing, and any other text is the legacy
      list of line numbers separated by commas and spaces. */
  function SetBookMarks(marks: seq<bool>, s: string): (r: seq<bool>)
    ensures |r| == |marks|
    ensures forall i :: 0 <= i < |marks| && marks[i] ==> r[i]
    ensures |s| >= 2 && s[..2] == ":0" ==> r == Apply(marks, DecodeNumbers(s[2..], 0, 0))
    ensures |s| >= 1 && s[0] == ':' && !(|s| >= 2 && s[1] == '0') ==> r == marks
  {
    if |s| >= 1 && s[0] == ':' then
      if |s| >= 2 && s[1] == '0' then Apply(marks, DecodeNumbers(s[2..], 0, 0)) else marks
    else Apply(marks, Values(Tokens(s, "")))
  }

  // ---------------------------------------------------------------------
  // Encoding
  // ---------------------------------------------------------------------

  /** The line before the k-th bookmarked line, -1 for the first. */
  function PrevLine(ps: seq<nat>, k: nat): int
    requires k <= |ps|
  {
    if k == 0 then -1 else ps[k - 1]
  }

  /** The number written for the k-th bookmarked line. */
  function NextNumber(ps: seq<nat>, k: nat): string
    requires k < |ps|
  {
    EncodeNumber(Gap(ps[k], PrevLine(ps, k)))
  }

  lemma NextNumberAt(ps: seq<nat>, k: nat, line: nat, prev: int)
    requires k < |ps| && ps[k] == line && prev == PrevLine(ps, k) && prev < line
    ensures EncodeNumber(line - prev - 1) == NextNumber(ps, k)
  {
  }

  /** The saved form holding the first k bookmarked lines. */
  function Saved(ps: seq<nat>, k: nat): string
    requires k <= |ps|
  {
    ":0" + EncodeLines(ps[..k], -1)
  }

  lemma SavedStep(ps: seq<nat>, k: nat)
    requires k < |ps|
    ensures Saved(ps, k + 1) == Saved(ps, k) + NextNumber(ps, k)
  {
    EncodeLinesSnoc(ps[..k + 1], -1);
    assert ps[..k + 1][..k] == ps[..k];
  }

  /** GetBookMarks: ":0" and then the number for each bookmarked line, as long
      as the text stays within maxLen characters; the first number that does
      not fit ends the text.  `count` is how many bookmarked lines it holds. */
  method GetBookMarks(marks: seq<bool>, maxLen: nat) returns (s: string, count: nat)
    ensures count <= |Marked(marks)| && s == Saved(Marked(marks), count)
    ensures |s| <= maxLen || count == 0
    ensures count < |Marked(marks)| ==> |s| + |NextNumber(Marked(marks), count)| > maxLen
  {
    ghost var ps := Marked(marks);
    MarkedLines(marks);
    s := ":0";
    count := 0;
    var prev := -1;
    var pos := 0;
    var full := false;
    while pos < |marks| && !full
      invariant 0 <= pos <= |marks| && count <= |ps|
      invariant ps[..count] == Marked(marks[..pos])
      invariant prev == PrevLine(ps, count) && prev < pos
      invariant s == Saved(ps, count)
      invariant |s| <= maxLen || count == 0
      invariant full ==> count < |ps| && |s| + |NextNumber(ps, count)| > maxLen
      decreases |marks| - pos, !full
    {
      if marks[pos] {
        MarkedStep(marks, pos, count);
        var number := EncodeNumber(pos - prev - 1);
        NextNumberAt(ps, count, pos, prev);
        if |number| + |s| > maxLen {
          full := true;
        } else {
          SavedStep(ps, count);
          s := s + number;
          prev := pos;
          count := count + 1;
          pos := pos + 1;
        }
      } else {
        MarkedSkip(marks, pos);
        pos := pos + 1;
      }
    }
    if !full {
      assert marks[..pos] == marks;
    }
  }

  /** The bookmarked lines among the first lines start those of the document. */
  lemma {:induction false} MarkedPrefix(marks: seq<bool>, pos: nat)
    requires pos <= |marks|
    ensures |Marked(marks[..pos])| <= |Marked(marks)| && Marked(marks)[..|Marked(marks[..pos])|] == Marked(marks[..pos])
    decreases |marks|
  {
    if pos == |marks| {
      assert marks[..pos] == marks;
    } else {
      var init := marks[..|marks| - 1];
      MarkedPrefix(init, pos);
      assert init[..pos] == marks[..pos];
    }
  }

  lemma MarkedStep(marks: seq<bool>, pos: nat, count: nat)
    requires pos < |marks| && marks[pos] && count <= |Marked(marks)|
    requires Marked(marks)[..count] == Marked(marks[..pos])
    ensures count < |Marked(marks)| && Marked(marks)[count] == pos
    ensures Marked(marks)[..count + 1] == Marked(marks[..pos + 1])
  {
    assert marks[..pos + 1][..pos] == marks[..pos];
    MarkedPrefix(marks, pos + 1);
  }

  lemma MarkedSkip(marks: seq<bool>, pos: nat)
    requires pos < |marks| && !marks[pos]
    ensures Marked(marks[..pos + 1]) == Marked(marks[..pos])
  {
    assert marks[..pos + 1][..pos] == marks[..pos];
  }

  lemma {:induction false} EncodeLinesSnoc(ps: seq<nat>, prev: int)
    requires |ps| > 0
    ensures var n := |ps| - 1;
            EncodeLines(ps, prev) == EncodeLines(ps[..n], prev) + EncodeNumber(Gap(ps[n], if n == 0 then prev else ps[n - 1]))
    decreases |ps|
  {
    if |ps| > 1 {
      var n := |ps| - 1;
      EncodeLinesSnoc(ps[1..], ps[0]);
      assert ps[1..][..n - 1] == ps[..n][1..];
    }
  }

  /** Loading a saved form sets the bookmarks of the lines it holds. */
  lemma SavedLoads(marks: seq<bool>, ps: seq<nat>, count: nat)
    requires Increasing(ps) && count <= |ps|
    ensures SetBookMarks(marks, Saved(ps, count)) == Apply(marks, ps[..count])
  {
    var s := Saved(ps, count);
    assert s[..2] == ":0" && s[2..] == EncodeLines(ps[..count], -1);
    EncodeLinesDecode(ps[..count], -1);
  }

  lemma LoadMarked(marks: seq<bool>)
    ensures Apply(ResetAll(marks), Marked(marks)) == marks
  {
    MarkedLines(marks);
  }

  /** Saving the bookmarks and loading them into a document without any
      restores exactly the saved ones: all of them when the text fits, the
      first `count` of them otherwise. */
  lemma RoundTrip(marks: seq<bool>, s: string, count: nat)
    requires count <= |Marked(marks)| && s == Saved(Marked(marks), count)
    ensures var r := SetBookMarks(ResetAll(marks), s);
            forall i :: 0 <= i < |marks| ==> (r[i] <==> i in Marked(marks)[..count])
    ensures count == |Marked(marks)| ==> SetBookMarks(ResetAll(marks), s) == marks
  {
    MarkedLines(marks);
    SavedLoads(ResetAll(marks), Marked(marks), count);
    if count == |Marked(marks)| {
      assert Marked(marks)[..count] == Marked(marks);
      LoadMarked(marks);
    }
  }

  /** A legacy list of line numbers sets the bookmark of exactly the listed
      lines the document has. */
  lemma LegacyRoundTrip(marks: seq<bool>, ps: seq<nat>)
    ensures SetBookMarks(marks, JoinLines(ps)) == Apply(marks, ps)
  {
    JoinLinesTokens(ps);
    if |ps| > 0 {
      assert JoinLines(ps)[0] == GrepFormat.Digits(ps[0])[0];
    }
  }
}

=== FILE: bregexp.dfy ===
/**
 * The CBregexp wrapper around the PCRE2 engine: option bits, buffer
 * growth, the cross-line partial-match loop, the mapping from flat
 * search-buffer offsets back to (line, column), and the error paths of
 * compile and replace.  The engine itself is an oracle: its answers are
 * parameters of the operations that call it.
 */
module Bregexp {
  import opened Wrappers
  import PatternAlternate

  /** Option bits of CBregexp::Option. */
  const OptNothing: bv32 := 0
  const OptCaseSensitive: bv32 := 1
  const OptGlobal: bv32 := 2
  const OptPartialMatch: bv32 := 4

  /** The flag a next-line callback sets on the size of the last line: the
      top bit of the 32-bit size word. */
  const SizeNoPartial: int := 0x8000_0000

  /** Requests at or above this many characters are refused by ResizeBuf. */
  const MaxBufRequest: int := 0x4000_0000
  /** The first allocation of an empty buffer. */
  const MinBufSize: int := 1024

  predicate HasFlag(opts: bv32, flag: bv32)
  {
    opts & flag != 0
  }

  predicate SingleBit(b: bv32)
  {
    b != 0 && b & (b - 1) == 0
  }

  /** The three option flags are single, pairwise distinct bits, so each can
      be set and tested independently of the others. */
  lemma OptionBitsIndependent()
    ensures SingleBit(OptCaseSensitive) && SingleBit(OptGlobal) && SingleBit(OptPartialMatch)
    ensures OptCaseSensitive & OptGlobal == 0 && OptCaseSensitive & OptPartialMatch == 0
    ensures OptGlobal & OptPartialMatch == 0
  {
  }

  function Pow2(k: nat): nat
    ensures Pow2(k) >= 1
  {
    if k == 0 then 1 else 2 * Pow2(k - 1)
  }

  /** The outcome of ResizeBuf: success and the (possibly new) capacity. */
  datatype Resize = Resize(ok: bool, size: int)

  /**
   * ResizeBuf: keep a buffer that is already large enough; refuse requests
   * of 2^30 characters or more; otherwise double the current capacity (or
   * 1024 for an empty buffer) until it reaches the request.  `allocOk`
   * stands for the outcome of malloc/realloc.
   */
  method ResizeBuf(request: int, bufSize: int, allocOk: bool) returns (r: Resize)
    requires 0 <= bufSize < 0x8000_0000
    ensures bufSize >= request ==> r == Resize(true, bufSize)
    ensures bufSize < request && request >= MaxBufRequest ==> r == Resize(false, bufSize)
    ensures bufSize < request < MaxBufRequest && !allocOk ==> r == Resize(false, bufSize)
    ensures bufSize < request < MaxBufRequest && allocOk ==>
      r.ok && request <= r.size < 0x8000_0000 &&
      exists k: nat :: r.size == (if bufSize == 0 then MinBufSize else bufSize) * Pow2(k) &&
        (k == 0 || r.size < 2 * request)
  {
    if bufSize >= request {
      return Resize(true, bufSize);
    }
    if request >= MaxBufRequest {
      return Resize(false, bufSize);
    }
    var base := if bufSize == 0 then MinBufSize else bufSize;
    var tmp := base;
    ghost var k: nat := 0;
    while tmp < request
      invariant tmp == base * Pow2(k)
      invariant k == 0 || tmp < 2 * request
      decreases request - tmp
    {
      tmp := tmp * 2;
      k := k + 1;
    }
    if !allocOk {
      return Resize(false, bufSize);
    }
    return Resize(true, tmp);
  }

  /** The doubling never overshoots: the capacity ResizeBuf picks is the
      least power-of-two multiple of the base that holds the request. */
  lemma ResizeIsLeast(base: int, k: nat, j: nat, request: int)
    requires base >= 1
    requires k == 0 || base * Pow2(k) < 2 * request
    requires base * Pow2(j) >= request
    ensures j >= k
  {
    if j < k {
      PowMonotone(j + 1, k);
      var a, b := Pow2(j + 1), Pow2(k);
      assert base * a == 2 * (base * Pow2(j));
      MulMonotone(base, a, b);
    }
  }

  lemma MulMonotone(c: int, a: int, b: int)
    requires c >= 0 && a <= b
    ensures c * a <= c * b
  {
  }

  lemma {:induction false} PowMonotone(i: nat, j: nat)
    requires i <= j
    ensures Pow2(i) <= Pow2(j)
    decreases j - i
  {
    if i < j {
      PowMonotone(i, j - 1);
    }
  }

  // ---------------------------------------------------------------------
  // The compiled-pattern object

  /** What the engine was given: the rewritten pattern and the caseless flag. */
  datatype Code = Code(pattern: string, caseless: bool)

  /** The fields of a CBregexp object that the model tracks.
      `subject` is the last subject pointer (None for nullptr) and
      `subjectLen` the valid length; `lineTops` are the offsets in the
      search buffer where appended next lines start; `ovector` holds the
      engine's last match as (start, end). */
  datatype Regex = Regex(
    code: Option<Code>,
    option: bv32,
    subject: Option<string>,
    subjectLen: int,
    searchBufSize: int,
    lineTops: seq<int>,
    replaceBuf: Option<string>,
    replaceBufSize: int,
    replacedLen: int,
    start: int,
    replacement: Option<string>,
    ovector: (int, int))

  /** A new object: nothing compiled, no buffers. */
  function NewRegex(): Regex
  {
    Regex(None, OptNothing, None, 0, 0, [], None, 0, 0, 0, None, (0, 0))
  }

  /** Consistency of the tracked fields. */
  predicate Valid(re: Regex)
  {
    && 0 <= re.subjectLen
    && (re.subject.Some? ==> re.subjectLen <= |re.subject.value|)
    && 0 <= re.searchBufSize < 0x8000_0000
    && 0 <= re.replaceBufSize < 0x8000_0000
    && 0 <= re.replacedLen
    && (re.replaceBuf.Some? ==> re.replacedLen <= |re.replaceBuf.value|)
  }

  predicate Sorted(s: seq<int>)
  {
    forall i, j :: 0 <= i < j < |s| ==> s[i] <= s[j]
  }

  predicate Increasing(s: seq<int>)
  {
    forall i, j :: 0 <= i < j < |s| ==> s[i] < s[j]
  }

  /** The line tops lie within the subject: at most `len`, and strictly
      below it when `strict`. */
  predicate TopsWithin(tops: seq<int>, len: int, strict: bool)
  {
    forall i :: 0 <= i < |tops| ==> 0 <= tops[i] && (if strict then tops[i] < len else tops[i] <= len)
  }

  /** Every line the callback hands over is non-empty. */
  predicate NonEmptyLines(lines: seq<NextLine>)
  {
    forall i :: 0 <= i < |lines| ==> lines[i].size == 0 || LineSize(lines[i].size) > 0
  }

  /** ReleaseCompileBuffer: drop the compiled code and every buffer.
      The subject pointer itself is not cleared, only its length. */
  function Release(re: Regex): (r: Regex)
    ensures r.code.None? && r.replaceBuf.None? && r.replacement.None?
    ensures r.searchBufSize == 0 && r.subjectLen == 0 && r.replaceBufSize == 0 && r.replacedLen == 0
    ensures r.lineTops == re.lineTops && r.option == re.option && r.start == re.start
  {
    re.(code := None, searchBufSize := 0, subjectLen := 0,
        replaceBuf := None, replaceBufSize := 0, replacedLen := 0, replacement := None)
  }

  /**
   * Compile: release everything, rewrite the pattern, remember the option
   * and ask the engine (whose verdict on the rewritten pattern is
   * `engineAccepts`).  A rejected pattern leaves every buffer released and
   * returns false; an accepted one stores the replacement when given.
   */
  function Compile(re: Regex, pattern: string, replacement: Option<string>, option: bv32,
                   engineAccepts: bool): (r: (bool, Regex))
    ensures !engineAccepts ==> !r.0 && r.1.code.None? && r.1.searchBufSize == 0 && r.1.replaceBufSize == 0
                               && r.1.replacedLen == 0 && r.1.replacement.None?
    ensures engineAccepts ==> r.0 && r.1.option == option
                              && r.1.code == Some(Code(PatternAlternate.Rewrite(pattern), !HasFlag(option, OptCaseSensitive)))
                              && r.1.replacement == replacement
    ensures Valid(re) ==> Valid(r.1)
  {
    var released := Release(re);
    var code := Code(PatternAlternate.Rewrite(pattern), option & OptCaseSensitive == 0);
    if !engineAccepts then
      (false, Release(released.(option := option)))
    else
      (true, released.(option := option, code := Some(code), replacement := replacement))
  }

  // ---------------------------------------------------------------------
  // Match and the partial-match loop

  /** One answer of pcre2_match: a hit (ovector[0], ovector[1]), no match,
      or a partial match at the end of the subject. */
  datatype Outcome = Hit(from: int, to: int) | NoMatch | PartialHit

  /** The engine, as a function of the subject, the start offset and
      whether partial matching was asked for. */
  type Engine = (string, int, bool) -> Outcome

  /** PCRE2 reports a partial match only when partial matching was asked
      for; a report that breaks this is read as no match. */
  function Ask(engine: Engine, subject: string, start: int, partial: bool): (o: Outcome)
    ensures o.PartialHit? ==> partial
  {
    var o := engine(subject, start, partial);
    if o.PartialHit? && !partial then NoMatch else o
  }

  /** One answer of the next-line callback: the returned 32-bit size word
      (read as unsigned) and the line it points at. */
  datatype NextLine = NextLine(size: int, text: string)

  /** Whether the size word carries the no-partial flag. */
  predicate NoPartialFlag(n: int)
  {
    n >= SizeNoPartial
  }

  /** The size a callback reports, with the no-partial flag masked off. */
  function LineSize(n: int): int
  {
    if NoPartialFlag(n) then n - SizeNoPartial else n
  }

  /** A callback answer is well formed when it is a 32-bit word and the size
      it reports is the length of the text. */
  predicate WellFormed(lines: seq<NextLine>)
  {
    forall i :: 0 <= i < |lines| ==> 0 <= lines[i].size < 0x1_0000_0000 && LineSize(lines[i].size) == |lines[i].text|
  }

  /** The result of Match: the boolean it returns, the object afterwards and
      the callback answers it did not consume. */
  datatype MatchResult = MatchResult(hit: bool, re: Regex, rest: seq<NextLine>)

  /** One round of the loop either finishes or goes round again with a new
      object, partial flag and remaining callback answers. */
  datatype Round = Done(result: MatchResult) | Again(re: Regex, partial: bool, callback: Option<seq<NextLine>>)

  function Remaining(callback: Option<seq<NextLine>>): seq<NextLine>
  {
    if callback.Some? then callback.value else []
  }

  /** The measure the loop decreases: answers left, then the partial flag. */
  function Fuel(callback: Option<seq<NextLine>>): nat
  {
    if callback.Some? then |callback.value| else 0
  }

  /**
   * One round of the partial-match loop.  `callback` is None when no
   * next-line callback is registered; otherwise it lists the answers the
   * callback will give, one per call (an exhausted list answers 0, "no next
   * line").  A partial hit copies the subject into the search buffer,
   * fetches the next line, records where it starts and goes round again.
   */
  function MatchRound(re: Regex, engine: Engine, partial: bool, callback: Option<seq<NextLine>>,
                      allocOk: bool): (r: Round)
    requires Valid(re) && re.subject.Some?
    requires callback.Some? ==> WellFormed(callback.value)
    ensures r.Done? ==> Valid(r.result.re)
    ensures r.Done? ==> r.result.re.subject.Some? &&
                        r.result.re.subject.value[..r.result.re.subjectLen] == re.subject.value[..re.subjectLen]
                        && r.result.re.subjectLen == re.subjectLen && r.result.re.lineTops == re.lineTops
                        && r.result.re.code == re.code && r.result.re.option == re.option
                        && r.result.re.start == re.start
    ensures r.Again? ==> Valid(r.re) && r.re.subject.Some?
                         && (r.callback.Some? ==> WellFormed(r.callback.value))
                         && (Fuel(r.callback) < Fuel(callback) ||
                             (Fuel(r.callback) == Fuel(callback) && partial && !r.partial))
    ensures r.Again? ==> r.re.code == re.code && r.re.option == re.option && r.re.start == re.start
    ensures r.Again? ==> re.subject.value[..re.subjectLen] <= r.re.subject.value[..r.re.subjectLen]
                         && re.subjectLen <= r.re.subjectLen
    ensures r.Again? ==> r.re.lineTops == re.lineTops ||
                         (r.re.lineTops == re.lineTops + [re.subjectLen] && callback.Some? && |callback.value| > 0
                          && r.re.subjectLen == re.subjectLen + LineSize(callback.value[0].size)
                          && callback.value[0].size != 0)
    ensures r.Again? && r.re.lineTops == re.lineTops ==> r.re.subjectLen == re.subjectLen
    ensures r.Again? ==> r.callback.Some? && callback.Some?
                         && callback.value[|callback.value| - Fuel(r.callback)..] == r.callback.value
  {
    var subj := re.subject.value[..re.subjectLen];
    var o := Ask(engine, subj, re.start, partial);
    if !o.PartialHit? then
      Done(MatchResult(o.Hit?, if o.Hit? then re.(ovector := (o.from, o.to)) else re, Remaining(callback)))
    else
      var copied := ResizeFn(re.subjectLen, re.searchBufSize, allocOk);
      if !copied.ok then Done(MatchResult(false, re, Remaining(callback)))
      else
        var re1 := re.(searchBufSize := copied.size, subject := Some(subj));
        if callback.None? then Done(MatchResult(false, re1, []))
        else if |callback.value| == 0 then Again(re1, false, callback)
        else
          var line := callback.value[0];
          var rest := Some(callback.value[1..]);
          if line.size == 0 then Again(re1, false, rest)
          else
            var n := LineSize(line.size);
            var grown := ResizeFn(re1.subjectLen + n, re1.searchBufSize, allocOk);
            if !grown.ok then Done(MatchResult(false, re1, rest.value))
            else
              Again(re1.(searchBufSize := grown.size,
                         lineTops := re1.lineTops + [re1.subjectLen],
                         subject := Some(subj + line.text),
                         subjectLen := re1.subjectLen + n),
                    partial && !NoPartialFlag(line.size), rest)
  }

  /** The partial-match loop: rounds until one finishes. */
  function MatchLoop(re: Regex, engine: Engine, partial: bool, callback: Option<seq<NextLine>>,
                     allocOk: bool): (r: MatchResult)
    requires Valid(re) && re.subject.Some?
    requires callback.Some? ==> WellFormed(callback.value)
    ensures Valid(r.re)
    decreases Fuel(callback), if partial then 1 else 0
  {
    match MatchRound(re, engine, partial, callback, allocOk)
    case Done(result) => result
    case Again(re', partial', callback') => MatchLoop(re', engine, partial', callback', allocOk)
  }

  /** ResizeBuf as a function, for use inside the match loop. */
  function ResizeFn(request: int, bufSize: int, allocOk: bool): (r: Resize)
    requires 0 <= bufSize < 0x8000_0000
    ensures 0 <= r.size < 0x8000_0000
    ensures r.ok ==> r.size >= request
    ensures !r.ok ==> r.size == bufSize
  {
    if bufSize >= request then Resize(true, bufSize)
    else if request >= MaxBufRequest || !allocOk then Resize(false, bufSize)
    else Resize(true, Grow(if bufSize == 0 then MinBufSize else bufSize, request))
  }

  function Grow(tmp: int, request: int): (r: int)
    requires 1 <= tmp < 0x8000_0000 && request < MaxBufRequest
    ensures r >= request && r >= tmp && r < 0x8000_0000
    decreases request - tmp
  {
    if tmp < request then Grow(tmp * 2, request) else tmp
  }

  /**
   * Match: nothing compiled gives false and changes nothing; a subject
   * argument replaces the stored subject and clears the line tops; a
   * non-negative start replaces the stored start.
   */
  function Match(re: Regex, subject: Option<string>, start: int, option: bv32, engine: Engine,
                 callback: Option<seq<NextLine>>, allocOk: bool): (r: MatchResult)
    requires Valid(re)
    requires callback.Some? ==> WellFormed(callback.value)
    ensures re.code.None? ==> r == MatchResult(false, re, if callback.Some? then callback.value else [])
    ensures Valid(r.re)
  {
    if re.code.None? then MatchResult(false, re, if callback.Some? then callback.value else [])
    else
      var re1 := if subject.Some? then re.(subject := subject, subjectLen := |subject.value|, lineTops := [])
                 else re;
      var re2 := if start >= 0 then re1.(start := start) else re1;
      if re2.subject.None? then
        // the source would hand a null subject to the engine; PCRE2 reports an error
        MatchResult(false, re2, if callback.Some? then callback.value else [])
      else
        MatchLoop(re2, engine, HasFlag(option, OptPartialMatch), callback, allocOk)
  }

  /** The subject after the loop extends the subject before it, and the
      line tops only grow at the end. */
  lemma {:induction false} MatchLoopAppends(re: Regex, engine: Engine, partial: bool,
                                            callback: Option<seq<NextLine>>, allocOk: bool)
    requires Valid(re) && re.subject.Some?
    requires callback.Some? ==> WellFormed(callback.value)
    ensures var r := MatchLoop(re, engine, partial, callback, allocOk);
            && r.re.subject.Some?
            && re.subject.value[..re.subjectLen] <= r.re.subject.value[..r.re.subjectLen]
            && re.subjectLen <= r.re.subjectLen
            && re.lineTops <= r.re.lineTops
            && r.re.code == re.code && r.re.option == re.option && r.re.start == re.start
    decreases Fuel(callback), if partial then 1 else 0
  {
    match MatchRound(re, engine, partial, callback, allocOk)
    case Done(result) =>
    case Again(re', partial', callback') =>
      MatchLoopAppends(re', engine, partial', callback', allocOk);
  }

  /** Each new line top is the subject length just before its line was
      appended, so sorted tops within the subject stay so. */
  lemma {:induction false} MatchLoopSorted(re: Regex, engine: Engine, partial: bool,
                                           callback: Option<seq<NextLine>>, allocOk: bool)
    requires Valid(re) && re.subject.Some?
    requires callback.Some? ==> WellFormed(callback.value)
    requires Sorted(re.lineTops) && TopsWithin(re.lineTops, re.subjectLen, false)
    ensures var r := MatchLoop(re, engine, partial, callback, allocOk);
            Sorted(r.re.lineTops) && TopsWithin(r.re.lineTops, r.re.subjectLen, false)
    decreases Fuel(callback), if partial then 1 else 0
  {
    match MatchRound(re, engine, partial, callback, allocOk)
    case Done(result) =>
    case Again(re', partial', callback') =>
      MatchLoopSorted(re', engine, partial', callback', allocOk);
  }

  /** While every appended line is non-empty the tops stay strictly
      increasing and strictly inside the subject. */
  lemma {:induction false} MatchLoopIncreasing(re: Regex, engine: Engine, partial: bool,
                                               callback: Option<seq<NextLine>>, allocOk: bool)
    requires Valid(re) && re.subject.Some?
    requires callback.Some? ==> WellFormed(callback.value) && NonEmptyLines(callback.value)
    requires Increasing(re.lineTops) && TopsWithin(re.lineTops, re.subjectLen, true)
    ensures var r := MatchLoop(re, engine, partial, callback, allocOk);
            Increasing(r.re.lineTops) && TopsWithin(r.re.lineTops, r.re.subjectLen, true)
    decreases Fuel(callback), if partial then 1 else 0
  {
    match MatchRound(re, engine, partial, callback, allocOk)
    case Done(result) =>
    case Again(re', partial', callback') =>
      if re'.lineTops != re.lineTops {
        assert LineSize(callback.value[0].size) > 0;
      }
      NonEmptySuffix(callback.value, callback'.value, Fuel(callback'));
      MatchLoopIncreasing(re', engine, partial', callback', allocOk);
  }

  /** What is left of a callback whose lines are all non-empty. */
  lemma NonEmptySuffix(lines: seq<NextLine>, rest: seq<NextLine>, n: int)
    requires NonEmptyLines(lines) && 0 <= n <= |lines| && lines[|lines| - n..] == rest
    ensures NonEmptyLines(rest)
  {
    forall i | 0 <= i < |rest|
      ensures rest[i].size == 0 || LineSize(rest[i].size) > 0
    {
      assert rest[i] == lines[|lines| - n + i];
    }
  }

  /** Every line top in `tops` is at or after `bound`. */
  predicate AllAtLeast(tops: seq<int>, bound: int)
  {
    forall i :: 0 <= i < |tops| ==> bound <= tops[i]
  }

  /** Every line top the loop adds is at or after `bound`, a length the
      subject had already reached. */
  lemma {:induction false} TopsAtLeast(re: Regex, engine: Engine, partial: bool,
                                       callback: Option<seq<NextLine>>, allocOk: bool, bound: int)
    requires Valid(re) && re.subject.Some?
    requires callback.Some? ==> WellFormed(callback.value)
    requires bound <= re.subjectLen
    requires AllAtLeast(re.lineTops, bound)
    ensures AllAtLeast(MatchLoop(re, engine, partial, callback, allocOk).re.lineTops, bound)
    decreases Fuel(callback), if partial then 1 else 0
  {
    match MatchRound(re, engine, partial, callback, allocOk)
    case Done(result) =>
    case Again(re', partial', callback') =>
      forall i | 0 <= i < |re'.lineTops|
        ensures bound <= re'.lineTops[i]
      {
        if i >= |re.lineTops| {
          assert re'.lineTops[i] == re.subjectLen;
        } else {
          assert re'.lineTops[i] == re.lineTops[i];
        }
      }
      TopsAtLeast(re', engine, partial', callback', allocOk, bound);
  }

  lemma MatchResetsLineTops(re: Regex, subject: string, start: int, option: bv32, engine: Engine,
                            callback: Option<seq<NextLine>>, allocOk: bool)
    requires Valid(re) && re.code.Some?
    requires callback.Some? ==> WellFormed(callback.value)
    ensures var r := Match(re, Some(subject), start, option, engine, callback, allocOk);
            && r.re.subject.Some? && subject <= r.re.subject.value[..r.re.subjectLen]
            && Sorted(r.re.lineTops)
            && TopsWithin(r.re.lineTops, r.re.subjectLen, false)
            && (forall i :: 0 <= i < |r.re.lineTops| ==> |subject| <= r.re.lineTops[i])
            && (callback.Some? && NonEmptyLines(callback.value) ==>
                  Increasing(r.re.lineTops) && TopsWithin(r.re.lineTops, r.re.subjectLen, true))
  {
    var re1 := re.(subject := Some(subject), subjectLen := |subject|, lineTops := []);
    var re2 := if start >= 0 then re1.(start := start) else re1;
    assert subject == re2.subject.value[..re2.subjectLen];
    var partial := HasFlag(option, OptPartialMatch);
    MatchLoopAppends(re2, engine, partial, callback, allocOk);
    MatchLoopSorted(re2, engine, partial, callback, allocOk);
    TopsAtLeast(re2, engine, partial, callback, allocOk, |subject|);
    if callback.Some? && NonEmptyLines(callback.value) {
      MatchLoopIncreasing(re2, engine, partial, callback, allocOk);
    }
  }

  /** A round that asks for another leaves the loop to continue from it. */
  lemma LoopAfterAgain(re: Regex, engine: Engine, partial: bool, callback: Option<seq<NextLine>>, allocOk: bool)
    requires Valid(re) && re.subject.Some?
    requires callback.Some? ==> WellFormed(callback.value)
    requires MatchRound(re, engine, partial, callback, allocOk).Again?
    ensures var rd := MatchRound(re, engine, partial, callback, allocOk);
            MatchLoop(re, engine, partial, callback, allocOk) == MatchLoop(rd.re, engine, rd.partial, rd.callback, allocOk)
  {
  }

  /** Without partial matching the loop ends after one search, whose answer
      is the result. */
  lemma SearchOnce(re: Regex, engine: Engine, callback: Option<seq<NextLine>>, allocOk: bool)
    requires Valid(re) && re.subject.Some?
    requires callback.Some? ==> WellFormed(callback.value)
    ensures var r := MatchLoop(re, engine, false, callback, allocOk);
            && r.hit == engine(re.subject.value[..re.subjectLen], re.start, false).Hit?
            && r.re.lineTops == re.lineTops
  {
    var rd := MatchRound(re, engine, false, callback, allocOk);
    assert rd.Done?;
  }

  /** When the last line comes with the no-partial flag, the flag is masked
      off the size, the line is appended at the old subject length, and the
      search that follows is not partial, so its answer is the result. */
  lemma NoPartialAfterLastLine(re: Regex, engine: Engine, text: string, allocOk: bool)
    requires Valid(re) && re.subject.Some?
    requires 0 < |text| && re.subjectLen + |text| < MaxBufRequest && allocOk
    requires engine(re.subject.value[..re.subjectLen], re.start, true).PartialHit?
    ensures var line := NextLine(SizeNoPartial + |text|, text);
            var r := MatchLoop(re, engine, true, Some([line]), allocOk);
            && r.hit == engine(re.subject.value[..re.subjectLen] + text, re.start, false).Hit?
            && r.rest == []
            && r.re.lineTops == re.lineTops + [re.subjectLen]
  {
    var line := NextLine(SizeNoPartial + |text|, text);
    LastLineRound(re, engine, text, allocOk);
    var round := MatchRound(re, engine, true, Some([line]), allocOk);
    LoopAfterAgain(re, engine, true, Some([line]), allocOk);
    SearchOnce(round.re, engine, Some([]), allocOk);
  }

  /** The round that fetches a last line flagged no-partial appends it and
      turns partial matching off. */
  lemma LastLineRound(re: Regex, engine: Engine, text: string, allocOk: bool)
    requires Valid(re) && re.subject.Some?
    requires 0 < |text| && re.subjectLen + |text| < MaxBufRequest && allocOk
    requires engine(re.subject.value[..re.subjectLen], re.start, true).PartialHit?
    ensures var rd := MatchRound(re, engine, true, Some([NextLine(SizeNoPartial + |text|, text)]), allocOk);
            && rd.Again? && !rd.partial && rd.callback == Some([])
            && rd.re.subject.Some? && rd.re.subject.value[..rd.re.subjectLen] == re.subject.value[..re.subjectLen] + text
            && rd.re.lineTops == re.lineTops + [re.subjectLen]
  {
    var line := NextLine(SizeNoPartial + |text|, text);
    var subj := re.subject.value[..re.subjectLen];
    var round := MatchRound(re, engine, true, Some([line]), allocOk);
    assert round.Again? && !round.partial && round.callback == Some([]);
    assert round.re.subject.value[..round.re.subjectLen] == subj + text;
  }

  /** With no next line to fetch, a partial hit is searched again without
      partial matching, and that answer is the result. */
  lemma NoNextLineEndsPartial(re: Regex, engine: Engine, allocOk: bool)
    requires Valid(re) && re.subject.Some? && allocOk && re.subjectLen < MaxBufRequest
    requires engine(re.subject.value[..re.subjectLen], re.start, true).PartialHit?
    ensures var r := MatchLoop(re, engine, true, Some([]), allocOk);
            && r.hit == engine(re.subject.value[..re.subjectLen], re.start, false).Hit?
            && r.re.lineTops == re.lineTops
  {
    var round := MatchRound(re, engine, true, Some([]), allocOk);
    assert round.Again? && !round.partial && round.callback == Some([]);
    assert round.re.subject.value[..round.re.subjectLen] == re.subject.value[..re.subjectLen];
    LoopAfterAgain(re, engine, true, Some([]), allocOk);
    SearchOnce(round.re, engine, Some([]), allocOk);
  }

  // ---------------------------------------------------------------------
  // Mapping a hit back to lines

  /** A logical range: the line and column of its start and of its end. */
  datatype Range = Range(fromY: int, fromX: int, toY: int, toX: int)

  /** How many line tops are at or before `x`, and strictly before `x`. */
  function CountAtMost(tops: seq<int>, x: int): nat
  {
    if |tops| == 0 then 0 else (if tops[|tops| - 1] <= x then 1 else 0) + CountAtMost(tops[..|tops| - 1], x)
  }

  function CountBelow(tops: seq<int>, x: int): nat
  {
    if |tops| == 0 then 0 else (if tops[|tops| - 1] < x then 1 else 0) + CountBelow(tops[..|tops| - 1], x)
  }

  /** The flat offset where line `k` of the search buffer starts
      (line 0 is the original subject). */
  function LineStart(tops: seq<int>, k: int): int
  {
    if 0 < k <= |tops| then tops[k - 1] else 0
  }

  /**
   * GetMatchRange: with no line tops only the Y coordinates are set, both
   * to `lineOffs`.  Otherwise the from-line is the first top above `from`
   * (linear search from the front) and the to-line the last top below `to`
   * (linear search from the back); X is taken relative to that line.
   */
  method GetMatchRange(tops: seq<int>, prev: Range, from: int, to: int, lineOffs: int) returns (r: Range)
    requires Sorted(tops)
    ensures |tops| == 0 ==> r == prev.(fromY := lineOffs, toY := lineOffs)
    ensures |tops| > 0 ==> r.fromY == lineOffs + CountAtMost(tops, from)
    ensures |tops| > 0 ==> r.toY == lineOffs + CountBelow(tops, to)
    ensures |tops| > 0 ==> LineStart(tops, r.fromY - lineOffs) + r.fromX == from
    ensures |tops| > 0 ==> LineStart(tops, r.toY - lineOffs) + r.toX == to
  {
    if |tops| == 0 {
      return prev.(fromY := lineOffs, toY := lineOffs);
    }
    var i := 0;
    while i < |tops| && !(tops[i] > from)
      invariant 0 <= i <= |tops|
      invariant forall k :: 0 <= k < i ==> tops[k] <= from
      decreases |tops| - i
    {
      i := i + 1;
    }
    CountAtMostSplit(tops, from, i);
    var fromY := i + lineOffs;
    var fromX := if i == 0 then from else from - tops[i - 1];
    var j := |tops| - 1;
    while j >= 0 && !(tops[j] < to)
      invariant -1 <= j < |tops|
      invariant forall k :: j < k < |tops| ==> tops[k] >= to
      decreases j
    {
      j := j - 1;
    }
    assert forall k :: 0 <= k <= j ==> tops[k] < to by {
      forall k | 0 <= k <= j
        ensures tops[k] < to
      {
        assert tops[k] <= tops[j];
      }
    }
    CountBelowSplit(tops, to, j + 1);
    r := Range(fromY, fromX, j + 1 + lineOffs, if j < 0 then to else to - tops[j]);
  }

  /** In an increasing sequence, the tops at or below x form a prefix. */
  lemma {:induction false} CountAtMostSplit(tops: seq<int>, x: int, i: nat)
    requires Sorted(tops) && i <= |tops|
    requires forall k :: 0 <= k < i ==> tops[k] <= x
    requires i == |tops| || tops[i] > x
    ensures CountAtMost(tops, x) == i
    decreases |tops|
  {
    if |tops| > 0 {
      var n := |tops| - 1;
      if i == |tops| {
        CountAtMostSplit(tops[..n], x, n);
      } else {
        assert tops[n] > x by {
          if n > i { assert tops[i] <= tops[n]; }
        }
        CountAtMostSplit(tops[..n], x, i);
      }
    }
  }

  lemma {:induction false} CountBelowSplit(tops: seq<int>, x: int, i: nat)
    requires i <= |tops|
    requires forall k :: 0 <= k < i ==> tops[k] < x
    requires forall k :: i <= k < |tops| ==> tops[k] >= x
    ensures CountBelow(tops, x) == i
    decreases |tops|
  {
    if |tops| > 0 {
      var n := |tops| - 1;
      if i == |tops| {
        CountBelowSplit(tops[..n], x, n);
      } else {
        CountBelowSplit(tops[..n], x, i);
      }
    }
  }

  /** A hit that ends exactly where a next line starts ends on the earlier
      line, at its end, rather than at column 0 of the later one. */
  lemma EndAtLineTopStaysOnPreviousLine(tops: seq<int>, k: nat)
    requires Increasing(tops) && 0 <= k < |tops|
    ensures CountBelow(tops, tops[k]) == k
    ensures CountAtMost(tops, tops[k]) == k + 1
  {
    CountBelowSplit(tops, tops[k], k);
    CountAtMostSplit(tops, tops[k], k + 1);
  }

  /** The range overloads: the one-argument form uses the engine's match,
      the range form uses the given range's X values. */
  method GetMatchRangeOfHit(re: Regex, prev: Range, lineOffs: int) returns (r: Range)
    requires Sorted(re.lineTops)
    ensures |re.lineTops| > 0 ==> LineStart(re.lineTops, r.fromY - lineOffs) + r.fromX == GetIndex(re)
    ensures |re.lineTops| > 0 ==> LineStart(re.lineTops, r.toY - lineOffs) + r.toX == GetLastIndex(re)
    ensures |re.lineTops| == 0 ==> r == prev.(fromY := lineOffs, toY := lineOffs)
  {
    r := GetMatchRange(re.lineTops, prev, GetIndex(re), GetLastIndex(re), lineOffs);
  }

  method GetMatchRangeOfRange(re: Regex, prev: Range, rangeIn: Range, lineOffs: int) returns (r: Range)
    requires Sorted(re.lineTops)
    ensures |re.lineTops| > 0 ==> LineStart(re.lineTops, r.fromY - lineOffs) + r.fromX == rangeIn.fromX
    ensures |re.lineTops| > 0 ==> LineStart(re.lineTops, r.toY - lineOffs) + r.toX == rangeIn.toX
    ensures |re.lineTops| == 0 ==> r == prev.(fromY := lineOffs, toY := lineOffs)
  {
    r := GetMatchRange(re.lineTops, prev, rangeIn.fromX, rangeIn.toX, lineOffs);
  }

  // ---------------------------------------------------------------------
  // Accessors

  function GetIndex(re: Regex): int { re.ovector.0 }
  function GetLastIndex(re: Regex): int { re.ovector.1 }

  /** The length of the last match: the distance between its start and
      its end. */
  function GetMatchLen(re: Regex): (n: int)
    ensures GetIndex(re) + n == GetLastIndex(re)
  {
    re.ovector.1 - re.ovector.0
  }

  /** The length of the replaced text: the output length less what the
      subject lost, that is the output length less the stored subject's
      length plus the match that was taken out of it. */
  function GetStringLen(re: Regex): (n: int)
    ensures re.replacedLen == re.subjectLen - GetMatchLen(re) + n
  {
    re.replacedLen - re.subjectLen + GetMatchLen(re)
  }

  /** The replaced string: empty when nothing was replaced, otherwise the
      output from the match start (or from the search start under
      optGlobal) to the end of the output. */
  function GetString(re: Regex): (s: string)
    requires Valid(re)
    ensures re.replacedLen == 0 || re.replaceBuf.None? ==> s == ""
    ensures var at := if HasFlag(re.option, OptGlobal) then re.start else GetIndex(re);
            re.replacedLen != 0 && re.replaceBuf.Some? && 0 <= at <= re.replacedLen ==>
              re.replaceBuf.value[..at] + s == re.replaceBuf.value[..re.replacedLen]
  {
    if re.replacedLen == 0 || re.replaceBuf.None? then ""
    else
      var at := if HasFlag(re.option, OptGlobal) then re.start else GetIndex(re);
      if 0 <= at <= re.replacedLen then re.replaceBuf.value[at..re.replacedLen] else ""
  }

  /** After one non-global substitution of `rep` for the match, GetStringLen
      is the replacement's length and GetString starts with it. */
  lemma SingleSubstitution(re: Regex, rep: string)
    requires Valid(re) && re.subject.Some? && !HasFlag(re.option, OptGlobal)
    requires 0 <= GetIndex(re) <= GetLastIndex(re) <= re.subjectLen
    requires var subj := re.subject.value[..re.subjectLen];
             re.replaceBuf == Some(subj[..GetIndex(re)] + rep + subj[GetLastIndex(re)..])
    requires re.replacedLen == |re.replaceBuf.value| > 0
    ensures GetStringLen(re) == |rep|
    ensures GetString(re)[..GetStringLen(re)] == rep
  {
    var subj := re.subject.value[..re.subjectLen];
    var out := re.replaceBuf.value;
    assert out[GetIndex(re)..][..|rep|] == rep;
  }

  // ---------------------------------------------------------------------
  // Replace

  /** What pcre2_substitute produces when the output buffer is large enough:
      the number of substitutions, the output and the last match, or an
      error code (a negative return). */
  datatype Substitution = Substituted(count: nat, output: string, ovector: (int, int)) | SubstFailed

  /** pcre2_substitute as a function of the subject, the start offset, the
      replacement (None for a null pointer) and whether every match is
      replaced. */
  type Substitute = (string, int, Option<string>, bool) -> Substitution

  /** The outcome of Replace: the count it returns and the object after. */
  datatype ReplaceResult = ReplaceResult(count: int, re: Regex)

  /** Whether Replace has a subject to work on, and its length. */
  predicate HasSubject(re: Regex, subject: Option<string>)
  {
    subject.Some? || (re.subject.Some? && re.subjectLen != 0)
  }

  function SubjectLength(re: Regex, subject: Option<string>): int
  {
    if subject.Some? then |subject.value| else re.subjectLen
  }

  /** The subject Replace works on: the given one, or the stored one. */
  function ReplaceSubject(re: Regex, subject: Option<string>): string
    requires Valid(re) && HasSubject(re, subject)
  {
    if subject.Some? then subject.value else re.subject.value[..re.subjectLen]
  }

  /** The start offset Replace passes on: a negative one means the stored
      start. */
  function ReplaceStart(re: Regex, start: int): int
  {
    if start < 0 then re.start else start
  }

  /** The replacement Replace passes on: a null one means the stored one. */
  function ReplaceWith(re: Regex, replacement: Option<string>): Option<string>
  {
    if replacement.Some? then replacement else re.replacement
  }

  /** The engine's answer to the call Replace makes. */
  function ReplaceCall(re: Regex, subject: Option<string>, start: int, replacement: Option<string>,
                       substitute: Substitute): Substitution
    requires Valid(re) && HasSubject(re, subject)
  {
    substitute(ReplaceSubject(re, subject), ReplaceStart(re, start), ReplaceWith(re, replacement),
               HasFlag(re.option, OptGlobal))
  }

  /**
   * Replace: a null subject falls back to the stored one and gives 0 if
   * there is none or it is empty; a negative start falls back to the stored
   * start and a null replacement to the stored one.  The buffer starts at
   * twice the subject length and is grown to the length the engine reports
   * when it is too small (the engine needs room for the output and its
   * terminating NUL).  An engine error sets the replaced length to 0 and
   * returns 0; success stores the output and the engine's last match.
   * `allocOk` is the allocator's answer to both buffer requests of one
   * call, the first buffer and the grown one alike.
   */
  function Replace(re: Regex, subject: Option<string>, start: int, replacement: Option<string>,
                   substitute: Substitute, allocOk: bool): (r: ReplaceResult)
    requires Valid(re)
    ensures Valid(r.re) && r.count >= 0
    ensures !HasSubject(re, subject) ==> r == ReplaceResult(0, re)
    ensures HasSubject(re, subject) && ReplaceCall(re, subject, start, replacement, substitute).SubstFailed? ==>
              r.count == 0
    ensures (HasSubject(re, subject) && ReplaceCall(re, subject, start, replacement, substitute).SubstFailed?
             && allocOk && SubjectLength(re, subject) * 2 < MaxBufRequest) ==> r.re.replacedLen == 0
    ensures HasSubject(re, subject) ==>
            var call := ReplaceCall(re, subject, start, replacement, substitute);
            (call.Substituted? && allocOk
             && SubjectLength(re, subject) * 2 < MaxBufRequest && |call.output| + 1 < MaxBufRequest) ==>
              r.count == call.count && r.re.replaceBuf == Some(call.output) && r.re.ovector == call.ovector
              && r.re.replacedLen == |call.output| && r.re.replaceBufSize > |call.output|
    ensures r.count > 0 ==> HasSubject(re, subject)
                            && var call := ReplaceCall(re, subject, start, replacement, substitute);
                               call.Substituted? && r.count == call.count && r.re.ovector == call.ovector
                               && r.re.replaceBuf == Some(call.output) && r.re.replacedLen == |call.output|
    ensures r.re.subject == re.subject && r.re.subjectLen == re.subjectLen && r.re.option == re.option
            && r.re.start == re.start
  {
    if !HasSubject(re, subject) then ReplaceResult(0, re)
    else
      var first := ResizeFn(SubjectLength(re, subject) * 2, re.replaceBufSize, allocOk);
      if !first.ok then ReplaceResult(0, re)
      else
        var re1 := re.(replaceBufSize := first.size);
        match ReplaceCall(re, subject, start, replacement, substitute)
        case SubstFailed => ReplaceResult(0, re1.(replacedLen := 0))
        case Substituted(count, output, ovector) =>
          if |output| + 1 <= re1.replaceBufSize then
            ReplaceResult(count, re1.(replaceBuf := Some(output), replacedLen := |output|, ovector := ovector))
          else
            // PCRE2_ERROR_NOMEMORY: retry with the length the engine asked for
            var second := ResizeFn(|output| + 1, re1.replaceBufSize, allocOk);
            if !second.ok then ReplaceResult(0, re1)
            else ReplaceResult(count, re1.(replaceBufSize := second.size, replaceBuf := Some(output),
                                           replacedLen := |output|, ovector := ovector))
  }

  /** A failed substitution leaves nothing to read back: GetString is empty. */
  lemma ReplaceFailureShowsNothing(re: Regex, subject: Option<string>, start: int, replacement: Option<string>,
                                   substitute: Substitute)
    requires Valid(re) && HasSubject(re, subject)
    requires ReplaceCall(re, subject, start, replacement, substitute).SubstFailed?
    requires SubjectLength(re, subject) * 2 < MaxBufRequest
    ensures Replace(re, subject, start, replacement, substitute, true).count == 0
    ensures GetString(Replace(re, subject, start, replacement, substitute, true).re) == ""
  {
  }

  /** Replacing the one match of the stored subject by `rep` reads back
      through the accessors: GetStringLen is the length of `rep` and
      GetString starts with it, where the match was. */
  lemma ReplaceThenRead(re: Regex, start: int, replacement: Option<string>, substitute: Substitute,
                        rep: string, i: int, j: int)
    requires Valid(re) && HasSubject(re, None)
    requires !HasFlag(re.option, OptGlobal) && re.subjectLen * 2 < MaxBufRequest
    requires 0 <= i <= j <= re.subjectLen
    requires var subj := ReplaceSubject(re, None);
             ReplaceCall(re, None, start, replacement, substitute)
               == Substituted(1, subj[..i] + rep + subj[j..], (i, j))
    requires re.subjectLen - (j - i) + |rep| + 1 < MaxBufRequest
    requires re.subjectLen - (j - i) + |rep| > 0
    ensures var r := Replace(re, None, start, replacement, substitute, true);
            r.count == 1 && GetStringLen(r.re) == |rep| && GetString(r.re)[..|rep|] == rep
  {
    var r := Replace(re, None, start, replacement, substitute, true);
    var subj := ReplaceSubject(re, None);
    assert |subj[..i] + rep + subj[j..]| == re.subjectLen - (j - i) + |rep|;
    SingleSubstitution(r.re, rep);
  }

  /** What a compile leaves does not depend on what was compiled before:
      compiling over an accepted pattern is compiling afresh. */
  lemma CompileForgetsPrevious(re: Regex, p1: string, rep1: Option<string>, o1: bv32,
                               p2: string, rep2: Option<string>, o2: bv32, accepts: bool)
    ensures Compile(Compile(re, p1, rep1, o1, true).1, p2, rep2, o2, accepts) == Compile(re, p2, rep2, o2, accepts)
  {
  }
}

=== FILE: doc_line_mgr.dfy ===
/**
 * The document's line list (doc/logic/CDocLineMgr.cpp): a doubly linked
 * chain of lines with a top, a bottom, a line count and a cached reference
 * to the most recently fetched line.
 *
 * The heap is a map from node identities to nodes; every operation rewrites
 * the links exactly as the C++ does, in the same order.  A node identity
 * that is not yet in the map stands for a newly allocated line.  The
 * predicate `Valid(m, order)` says that the links form the chain `order`
 * (the invariants the debug dump checks), and the lemmas say what each
 * operation does to that chain.
 */
module DocLineMgr {
  import opened Wrappers
  import opened Eol

  type Id = nat

  /** A line's contents: its text and its line end. */
  datatype DocLine = DocLine(text: string, eol: EolType)

  datatype Node = Node(prev: Option<Id>, next: Option<Id>, line: DocLine)

  /** The manager: its nodes, top, bottom, line count, and the cached
      reference (a line number and its node) with the line after it. */
  datatype Mgr = Mgr(nodes: map<Id, Node>, top: Option<Id>, bot: Option<Id>, count: int,
                     referLine: int, refer: Option<Id>, current: Option<Id>)

  /** _Init: no lines, no cached reference. */
  function Init(): Mgr
  {
    Mgr(map[], None, None, 0, 0, None, None)
  }

  /** A pointer that is null or points at a node of the manager. */
  predicate Has(m: Mgr, p: Option<Id>)
  {
    In(m.nodes, p)
  }

  // ---------------------------------------------------------------------
  // The chain invariant
  // ---------------------------------------------------------------------

  /** The i-th node of the chain, or null outside it. */
  function At(order: seq<Id>, i: int): (r: Option<Id>)
    ensures r.Some? <==> 0 <= i < |order|
    ensures r.Some? ==> r.value == order[i]
  {
    if 0 <= i < |order| then Some(order[i]) else None
  }

  predicate Distinct(order: seq<Id>)
  {
    forall i, j :: 0 <= i < j < |order| ==> order[i] != order[j]
  }

  /** The manager owns exactly the nodes of the chain. */
  ghost predicate Owns(nodes: map<Id, Node>, order: seq<Id>)
  {
    forall x :: x in nodes <==> x in order
  }

  /** The k-th node's neighbours are its neighbours in the chain. */
  predicate LinkAt(nodes: map<Id, Node>, order: seq<Id>, k: int)
    requires 0 <= k < |order|
  {
    order[k] in nodes && nodes[order[k]].prev == At(order, k - 1) && nodes[order[k]].next == At(order, k + 1)
  }

  /** Every node's neighbours are its neighbours in the chain: in particular
      the top has no previous and the bottom no next line. */
  predicate Links(nodes: map<Id, Node>, order: seq<Id>)
  {
    && (forall k :: 0 <= k < |order| ==> order[k] in nodes)
    && (forall k :: 0 <= k < |order| ==> LinkAt(nodes, order, k))
  }

  /** A pointer that is null or points into the map. */
  predicate In(nodes: map<Id, Node>, p: Option<Id>)
  {
    p.None? || p.value in nodes
  }

  /** Every link of a chain node is null or points at a node. */
  predicate Closed(nodes: map<Id, Node>, order: seq<Id>)
    requires forall k :: 0 <= k < |order| ==> order[k] in nodes
  {
    forall k :: 0 <= k < |order| ==> In(nodes, nodes[order[k]].prev) && In(nodes, nodes[order[k]].next)
  }

  lemma LinksClosed(nodes: map<Id, Node>, order: seq<Id>)
    requires Links(nodes, order)
    ensures Closed(nodes, order)
  {
    forall k | 0 <= k < |order|
      ensures In(nodes, nodes[order[k]].prev) && In(nodes, nodes[order[k]].next)
    {
      assert LinkAt(nodes, order, k);
    }
  }

  /** The links of m form the chain `order`, whose length is the line count,
      and the cached pointers are null or in the chain. */
  ghost predicate Valid(m: Mgr, order: seq<Id>)
  {
    && Distinct(order)
    && Owns(m.nodes, order)
    && Links(m.nodes, order)
    && Closed(m.nodes, order)
    && m.top == At(order, 0) && m.bot == At(order, |order| - 1)
    && m.count == |order|
    && Has(m, m.refer) && Has(m, m.current)
  }

  /** The cached reference is the line its number says. */
  predicate Exact(m: Mgr, order: seq<Id>)
  {
    m.refer.Some? ==> 0 <= m.referLine < |order| && order[m.referLine] == m.refer.value
  }

  lemma InitValid()
    ensures Valid(Init(), []) && Exact(Init(), [])
  {
  }

  // ---------------------------------------------------------------------
  // Insertion
  // ---------------------------------------------------------------------

  /** Link a new node between p and q: q's previous line, then the new node,
      then p's next line. */
  function Spliced(nodes: map<Id, Node>, p: Option<Id>, q: Option<Id>, id: Id, line: DocLine): map<Id, Node>
    requires (p.Some? ==> p.value in nodes) && (q.Some? ==> q.value in nodes)
  {
    var n1 := if q.Some? then nodes[q.value := nodes[q.value].(prev := Some(id))] else nodes;
    var n2 := n1[id := Node(p, q, line)];
    if p.Some? then n2[p.value := n2[p.value].(next := Some(id))] else n2
  }

  /** _PushBottom (AddNewLine): link a new line after the bottom. */
  function PushBottom(m: Mgr, id: Id, line: DocLine): (r: Mgr)
    requires id !in m.nodes && Has(m, m.bot)
    ensures r.count == m.count + 1 && r.bot == Some(id) && id in r.nodes
  {
    var nodes1 := if m.bot.Some? then m.nodes[m.bot.value := m.nodes[m.bot.value].(next := Some(id))] else m.nodes;
    m.(nodes := nodes1[id := Node(m.bot, None, line)],
       top := if m.top.None? then Some(id) else m.top,
       bot := Some(id),
       count := m.count + 1)
  }

  /** _InsertBeforePos (InsertNewLine): link a new line before pos, or after
      the bottom when pos is null. */
  function InsertBeforePos(m: Mgr, id: Id, pos: Option<Id>, line: DocLine): (r: Mgr)
    requires id !in m.nodes && Has(m, pos)
    requires pos.Some? ==> Has(m, m.nodes[pos.value].prev)
    requires pos.None? ==> Has(m, m.bot)
    ensures r.count == m.count + 1 && id in r.nodes && r.nodes[id].next == pos
  {
    var newPrev := if pos.Some? then m.nodes[pos.value].prev else m.bot;
    m.(nodes := Spliced(m.nodes, newPrev, pos, id, line),
       top := if newPrev.Some? then m.top else Some(id),
       bot := if pos.Some? then m.bot else Some(id),
       count := m.count + 1)
  }

  /** _InsertAfterPos: link a new line after pos, or before the top when pos
      is null. */
  function InsertAfterPos(m: Mgr, id: Id, pos: Option<Id>, line: DocLine): (r: Mgr)
    requires id !in m.nodes && Has(m, pos)
    requires pos.Some? ==> Has(m, m.nodes[pos.value].next)
    requires pos.None? ==> Has(m, m.top)
    ensures r.count == m.count + 1 && id in r.nodes && r.nodes[id].prev == pos
  {
    var newNext := if pos.Some? then m.nodes[pos.value].next else m.top;
    var nodes1 := if pos.Some? then m.nodes[pos.value := m.nodes[pos.value].(next := Some(id))] else m.nodes;
    var nodes2 := nodes1[id := Node(pos, newNext, line)];
    m.(nodes := if newNext.Some? then nodes2[newNext.value := nodes2[newNext.value].(prev := Some(id))] else nodes2,
       top := if pos.Some? then m.top else Some(id),
       bot := if newNext.Some? then m.bot else Some(id),
       count := m.count + 1)
  }

  /** The chain with a line inserted at index i. */
  function Inserted(order: seq<Id>, i: nat, id: Id): seq<Id>
    requires i <= |order|
  {
    order[..i] + [id] + order[i..]
  }

  lemma InsertedAt(order: seq<Id>, i: nat, id: Id, k: int)
    requires i <= |order|
    ensures At(Inserted(order, i, id), k) ==
              if k < i then At(order, k) else if k == i then Some(id) else At(order, k - 1)
  {
  }

  lemma InsertedElems(order: seq<Id>, i: nat, id: Id)
    requires i <= |order|
    ensures forall x :: x in Inserted(order, i, id) <==> x in order || x == id
  {
    var o := Inserted(order, i, id);
    forall x | x in order ensures x in o {
      var k :| 0 <= k < |order| && order[k] == x;
      InsertedAt(order, i, id, if k < i then k else k + 1);
    }
    InsertedAt(order, i, id, i);
    forall x | x in o ensures x in order || x == id {
      var k :| 0 <= k < |o| && o[k] == x;
      InsertedAt(order, i, id, k);
    }
  }

  lemma DistinctInserted(order: seq<Id>, i: nat, id: Id)
    requires Distinct(order) && i <= |order| && id !in order
    ensures Distinct(Inserted(order, i, id))
  {
    var o := Inserted(order, i, id);
    forall a, b | 0 <= a < b < |o| ensures o[a] != o[b] {
      InsertedAt(order, i, id, a);
      InsertedAt(order, i, id, b);
    }
  }

  lemma DistinctAt(order: seq<Id>, d: nat)
    requires Distinct(order) && d < |order|
    ensures forall k :: 0 <= k < |order| && k != d ==> order[k] != order[d]
  {
  }

  /** One index of the spliced chain is linked. */
  lemma SpliceAt(nodes: map<Id, Node>, order: seq<Id>, i: nat, id: Id, line: DocLine, k: nat)
    requires Links(nodes, order) && Distinct(order) && id !in nodes && i <= |order| && k <= |order|
    ensures LinkAt(Spliced(nodes, At(order, i - 1), At(order, i), id, line), Inserted(order, i, id), k)
  {
    var o := Inserted(order, i, id);
    InsertedAt(order, i, id, k - 1);
    InsertedAt(order, i, id, k);
    InsertedAt(order, i, id, k + 1);
    if k < i {
      assert LinkAt(nodes, order, k);
      DistinctAt(order, k);
    } else if k > i {
      assert LinkAt(nodes, order, k - 1);
      DistinctAt(order, k - 1);
    }
  }

  lemma SpliceLinks(nodes: map<Id, Node>, order: seq<Id>, i: nat, id: Id, line: DocLine)
    requires Links(nodes, order) && Distinct(order) && id !in nodes && i <= |order|
    ensures Links(Spliced(nodes, At(order, i - 1), At(order, i), id, line), Inserted(order, i, id))
  {
    var s := Spliced(nodes, At(order, i - 1), At(order, i), id, line);
    var o := Inserted(order, i, id);
    forall k | 0 <= k < |o| ensures LinkAt(s, o, k) {
      SpliceAt(nodes, order, i, id, line, k);
    }
  }

  /** The manager after linking a new line at index i, whichever insertion
      did it. */
  function AfterInsert(m: Mgr, order: seq<Id>, i: nat, id: Id, line: DocLine): Mgr
    requires Links(m.nodes, order) && i <= |order| && id !in m.nodes
  {
    m.(nodes := Spliced(m.nodes, At(order, i - 1), At(order, i), id, line),
       top := if i == 0 then Some(id) else m.top,
       bot := if i == |order| then Some(id) else m.bot,
       count := m.count + 1)
  }

  /** Splicing adds the new node and keeps every other. */
  lemma SplicedKeys(nodes: map<Id, Node>, p: Option<Id>, q: Option<Id>, id: Id, line: DocLine)
    requires (p.Some? ==> p.value in nodes) && (q.Some? ==> q.value in nodes)
    ensures forall x :: x in Spliced(nodes, p, q, id, line) <==> x in nodes || x == id
  {
  }

  /** After splicing, the ends are the longer chain's ends, the new node
      holds the line, and the cached pointers name lines still present. */
  lemma AfterInsertEnds(m: Mgr, order: seq<Id>, i: nat, id: Id, line: DocLine)
    requires Valid(m, order) && id !in m.nodes && i <= |order|
    ensures var r := AfterInsert(m, order, i, id, line);
            var o := Inserted(order, i, id);
            r.top == At(o, 0) && r.bot == At(o, |o| - 1) && Has(r, r.refer) && Has(r, r.current)
  {
    SplicedKeys(m.nodes, At(order, i - 1), At(order, i), id, line);
    InsertedAt(order, i, id, 0);
    InsertedAt(order, i, id, |order|);
  }

  lemma AfterInsertValid(m: Mgr, order: seq<Id>, i: nat, id: Id, line: DocLine)
    requires Valid(m, order) && id !in m.nodes && i <= |order|
    ensures Valid(AfterInsert(m, order, i, id, line), Inserted(order, i, id))
    ensures AfterInsert(m, order, i, id, line).nodes[id].line == line
  {
    var o := Inserted(order, i, id);
    var r := AfterInsert(m, order, i, id, line);
    SpliceLinks(m.nodes, order, i, id, line);
    LinksClosed(r.nodes, o);
    SplicedKeys(m.nodes, At(order, i - 1), At(order, i), id, line);
    InsertedElems(order, i, id);
    DistinctInserted(order, i, id);
    AfterInsertEnds(m, order, i, id, line);
  }

  /** Inserting below the cached line keeps the cache exact. */
  lemma AfterInsertExact(m: Mgr, order: seq<Id>, i: nat, id: Id, line: DocLine)
    requires Links(m.nodes, order) && id !in m.nodes && i <= |order|
    requires Exact(m, order) && m.referLine < i
    ensures Exact(AfterInsert(m, order, i, id, line), Inserted(order, i, id))
  {
    if m.refer.Some? {
      InsertedAt(order, i, id, m.referLine);
    }
  }

  /** Inserting before the i-th line (the bottom when i is the line count)
      puts the new line at index i of the chain. */
  lemma InsertBeforeValid(m: Mgr, order: seq<Id>, id: Id, i: nat, line: DocLine)
    requires Valid(m, order) && id !in m.nodes && i <= |order|
    ensures InsertBeforePos(m, id, At(order, i), line) == AfterInsert(m, order, i, id, line)
    ensures Valid(InsertBeforePos(m, id, At(order, i), line), Inserted(order, i, id))
    ensures Exact(m, order) && m.referLine < i ==> Exact(InsertBeforePos(m, id, At(order, i), line), Inserted(order, i, id))
  {
    if i < |order| {
      assert LinkAt(m.nodes, order, i);
    }
    AfterInsertValid(m, order, i, id, line);
    if Exact(m, order) && m.referLine < i {
      AfterInsertExact(m, order, i, id, line);
    }
  }

  /** Inserting after the (i-1)-th line (before the top when i is 0) puts the
      new line at index i of the chain. */
  lemma InsertAfterValid(m: Mgr, order: seq<Id>, id: Id, i: nat, line: DocLine)
    requires Valid(m, order) && id !in m.nodes && i <= |order|
    ensures InsertAfterPos(m, id, At(order, i - 1), line) == AfterInsert(m, order, i, id, line)
    ensures Valid(InsertAfterPos(m, id, At(order, i - 1), line), Inserted(order, i, id))
    ensures Exact(m, order) && m.referLine < i ==> Exact(InsertAfterPos(m, id, At(order, i - 1), line), Inserted(order, i, id))
  {
    var p := At(order, i - 1);
    var q := At(order, i);
    if i > 0 {
      assert LinkAt(m.nodes, order, i - 1);
    }
    if p.Some? && q.Some? {
      DistinctAt(order, i);
    }
    assert InsertAfterPos(m, id, p, line).nodes == Spliced(m.nodes, p, q, id, line);
    AfterInsertValid(m, order, i, id, line);
    if Exact(m, order) && m.referLine < i {
      AfterInsertExact(m, order, i, id, line);
    }
  }

  /** Appending at the bottom is inserting before null. */
  lemma PushBottomIsInsertBefore(m: Mgr, order: seq<Id>, id: Id, line: DocLine)
    requires Valid(m, order) && id !in m.nodes
    ensures PushBottom(m, id, line) == InsertBeforePos(m, id, None, line)
    ensures Valid(PushBottom(m, id, line), order + [id])
  {
    InsertBeforeValid(m, order, id, |order|, line);
    assert Inserted(order, |order|, id) == order + [id];
  }

  // ---------------------------------------------------------------------
  // Deletion
  // ---------------------------------------------------------------------

  /** Unlink the node between p and q and drop it: p's next line, then q's
      previous line. */
  function Unspliced(nodes: map<Id, Node>, p: Option<Id>, q: Option<Id>, id: Id): map<Id, Node>
    requires (p.Some? ==> p.value in nodes) && (q.Some? ==> q.value in nodes)
  {
    var n1 := if p.Some? then nodes[p.value := nodes[p.value].(next := q)] else nodes;
    var n2 := if q.Some? then n1[q.value := n1[q.value].(prev := p)] else n1;
    n2 - {id}
  }

  /** DeleteLine as written: unlink the node, move the cached reference off
      it, drop it, and start afresh when no line is left.  The line after
      the last fetched one is not moved. */
  function DeleteLineAsWritten(m: Mgr, id: Id): (r: Mgr)
    requires id in m.nodes && Has(m, m.nodes[id].prev) && Has(m, m.nodes[id].next)
    ensures r.count == m.count - 1 || r == Init()
    ensures id !in r.nodes
  {
    var n := m.nodes[id];
    if m.count - 1 == 0 then Init()
    else
      m.(nodes := Unspliced(m.nodes, n.prev, n.next, id),
         top := if n.prev.Some? then m.top else n.next,
         bot := if n.next.Some? then m.bot else n.prev,
         refer := if m.refer == Some(id) then n.next else m.refer,
         count := m.count - 1)
  }

  /** When the deleted line is the one after the last fetched line and other
      lines remain, that pointer is left at the freed node: the chain no
      longer satisfies the invariant the debug dump checks. */
  lemma DeleteLeavesCurrentDangling(m: Mgr, order: seq<Id>, d: nat)
    requires Valid(m, order) && d < |order| && m.current == Some(order[d]) && |order| >= 2
    ensures var r := DeleteLineAsWritten(m, order[d]);
            r.current == Some(order[d]) && order[d] !in r.nodes && !Has(r, r.current)
  {
  }

  /** DeleteLine, with the line after the last fetched one moved off the
      deleted node as the cached reference is. */
  function DeleteLine(m: Mgr, id: Id): (r: Mgr)
    requires id in m.nodes && Has(m, m.nodes[id].prev) && Has(m, m.nodes[id].next)
    ensures r.count == m.count - 1 || r == Init()
    ensures id !in r.nodes
  {
    var r := DeleteLineAsWritten(m, id);
    if m.count - 1 == 0 || m.current != Some(id) then r else r.(current := m.nodes[id].next)
  }

  /** DeleteLine as written differs from DeleteLine exactly when other
      lines remain and the deleted line is the one after the last fetched
      line; apart from that pointer it unlinks the line as DeleteLine does. */
  lemma {:induction false} DeleteLineAgrees(m: Mgr, order: seq<Id>, d: nat)
    requires Valid(m, order) && d < |order|
    ensures LinkAt(m.nodes, order, d)
    ensures DeleteLineAsWritten(m, order[d]) == DeleteLine(m, order[d])
            <==> |order| == 1 || m.current != Some(order[d])
    ensures |order| > 1 ==> DeleteLineAsWritten(m, order[d]) == AfterDelete(m, order, d).(current := m.current)
  {
    assert LinkAt(m.nodes, order, d);
    if |order| > 1 {
      DeleteIsAfterDelete(m, order, d);
      DistinctAt(order, d);
    }
  }

  /** The chain without its d-th line. */
  function Removed(order: seq<Id>, d: nat): seq<Id>
    requires d < |order|
  {
    order[..d] + order[d + 1..]
  }

  lemma RemovedAt(order: seq<Id>, d: nat, k: int)
    requires d < |order|
    ensures At(Removed(order, d), k) == if k < d then At(order, k) else At(order, k + 1)
  {
  }

  lemma RemovedElems(order: seq<Id>, d: nat)
    requires d < |order| && Distinct(order)
    ensures forall x :: x in Removed(order, d) <==> x in order && x != order[d]
    ensures Distinct(Removed(order, d))
  {
    var o := Removed(order, d);
    DistinctAt(order, d);
    forall x | x in order && x != order[d] ensures x in o {
      var k :| 0 <= k < |order| && order[k] == x;
      RemovedAt(order, d, if k < d then k else k - 1);
    }
    forall x | x in o ensures x in order && x != order[d] {
      var k :| 0 <= k < |o| && o[k] == x;
      RemovedAt(order, d, k);
    }
    forall a, b | 0 <= a < b < |o| ensures o[a] != o[b] {
      RemovedAt(order, d, a);
      RemovedAt(order, d, b);
    }
  }

  /** One index of the shortened chain is linked. */
  lemma UnspliceAt(nodes: map<Id, Node>, order: seq<Id>, d: nat, k: nat)
    requires Links(nodes, order) && Distinct(order) && d < |order| && k < |order| - 1
    ensures LinkAt(Unspliced(nodes, At(order, d - 1), At(order, d + 1), order[d]), Removed(order, d), k)
  {
    RemovedAt(order, d, k - 1);
    RemovedAt(order, d, k);
    RemovedAt(order, d, k + 1);
    DistinctAt(order, d);
    if k < d {
      assert LinkAt(nodes, order, k);
      DistinctAt(order, k);
    } else {
      assert LinkAt(nodes, order, k + 1);
      DistinctAt(order, k + 1);
    }
  }

  lemma UnspliceLinks(nodes: map<Id, Node>, order: seq<Id>, d: nat)
    requires Links(nodes, order) && Distinct(order) && d < |order|
    ensures Links(Unspliced(nodes, At(order, d - 1), At(order, d + 1), order[d]), Removed(order, d))
  {
    var s := Unspliced(nodes, At(order, d - 1), At(order, d + 1), order[d]);
    var o := Removed(order, d);
    forall k | 0 <= k < |o| ensures LinkAt(s, o, k) {
      UnspliceAt(nodes, order, d, k);
    }
  }

  /** The manager after unlinking its d-th line (of at least two). */
  function AfterDelete(m: Mgr, order: seq<Id>, d: nat): Mgr
    requires Links(m.nodes, order) && d < |order|
  {
    var id := order[d];
    var p := At(order, d - 1);
    var q := At(order, d + 1);
    m.(nodes := Unspliced(m.nodes, p, q, id),
       top := if d == 0 then q else m.top,
       bot := if d == |order| - 1 then p else m.bot,
       refer := if m.refer == Some(id) then q else m.refer,
       current := if m.current == Some(id) then q else m.current,
       count := m.count - 1)
  }

  lemma DeleteIsAfterDelete(m: Mgr, order: seq<Id>, d: nat)
    requires Valid(m, order) && d < |order| && |order| > 1
    ensures DeleteLine(m, order[d]) == AfterDelete(m, order, d)
  {
    assert LinkAt(m.nodes, order, d);
  }

  /** Unlinking keeps every node but the dropped one. */
  lemma UnsplicedKeys(nodes: map<Id, Node>, p: Option<Id>, q: Option<Id>, id: Id)
    requires (p.Some? ==> p.value in nodes) && (q.Some? ==> q.value in nodes)
    ensures forall x :: x in Unspliced(nodes, p, q, id) <==> x in nodes && x != id
  {
  }

  /** After unlinking, the ends are the shortened chain's ends and the two
      cached pointers name lines still present. */
  lemma AfterDeleteEnds(m: Mgr, order: seq<Id>, d: nat)
    requires Valid(m, order) && d < |order| && |order| > 1
    ensures var r := AfterDelete(m, order, d);
            var o := Removed(order, d);
            r.top == At(o, 0) && r.bot == At(o, |o| - 1) && Has(r, r.refer) && Has(r, r.current)
  {
    var r := AfterDelete(m, order, d);
    RemovedAt(order, d, 0);
    RemovedAt(order, d, |order| - 2);
    UnsplicedKeys(m.nodes, At(order, d - 1), At(order, d + 1), order[d]);
    DistinctAt(order, d);
    assert r.refer.Some? ==> r.refer.value in m.nodes && r.refer.value != order[d];
    assert r.current.Some? ==> r.current.value in m.nodes && r.current.value != order[d];
  }

  lemma AfterDeleteValid(m: Mgr, order: seq<Id>, d: nat)
    requires Valid(m, order) && d < |order| && |order| > 1
    ensures Valid(AfterDelete(m, order, d), Removed(order, d))
  {
    var id := order[d];
    var o := Removed(order, d);
    var r := AfterDelete(m, order, d);
    RemovedElems(order, d);
    UnspliceLinks(m.nodes, order, d);
    LinksClosed(r.nodes, o);
    UnsplicedKeys(m.nodes, At(order, d - 1), At(order, d + 1), id);
    AfterDeleteEnds(m, order, d);
  }

  /** Unlinking a line at or below the cached one keeps the cache exact: the
      cache moves to the next line when it was the deleted one. */
  lemma AfterDeleteExact(m: Mgr, order: seq<Id>, d: nat)
    requires Links(m.nodes, order) && Distinct(order) && d < |order| && |order| > 1
    requires Exact(m, order) && d >= m.referLine
    ensures Exact(AfterDelete(m, order, d), Removed(order, d))
  {
    if m.refer.Some? {
      DistinctAt(order, d);
      if m.refer == Some(order[d]) {
        RemovedAt(order, d, d);
      } else {
        RemovedAt(order, d, m.referLine);
      }
    }
  }

  /** Deleting the d-th line removes it from the chain; the cached reference
      stays exact when the line is not above it. */
  lemma DeleteValid(m: Mgr, order: seq<Id>, d: nat)
    requires Valid(m, order) && d < |order|
    ensures Valid(DeleteLine(m, order[d]), Removed(order, d))
    ensures Exact(m, order) && d >= m.referLine ==> Exact(DeleteLine(m, order[d]), Removed(order, d))
  {
    if |order| == 1 {
      assert Removed(order, d) == [];
    } else {
      DeleteIsAfterDelete(m, order, d);
      AfterDeleteValid(m, order, d);
      if Exact(m, order) && d >= m.referLine {
        AfterDeleteExact(m, order, d);
      }
    }
  }

  // ---------------------------------------------------------------------
  // Fetching a line
  // ---------------------------------------------------------------------

  /** Walk next links from the k0-th line, counting up from counter0, until
      the count reaches n. */
  method WalkNext(nodes: map<Id, Node>, ghost order: seq<Id>, start: Option<Id>, ghost k0: int, counter0: int, n: int)
    returns (r: Option<Id>)
    requires Links(nodes, order) && 0 <= k0 <= |order| && start == At(order, k0)
    ensures n >= counter0 ==> r == At(order, k0 + (n - counter0))
    ensures n < counter0 ==> r.None?
  {
    var p := start;
    var counter := counter0;
    ghost var k := k0;
    while p.Some?
      invariant 0 <= k <= |order| && p == At(order, k) && counter - counter0 == k - k0
      invariant n >= counter0 ==> counter <= n
      decreases |order| - k
    {
      if n == counter {
        return p;
      }
      assert LinkAt(nodes, order, k);
      p := nodes[p.value].next;
      counter := counter + 1;
      k := k + 1;
    }
    return None;
  }

  /** Walk prev links from the k0-th line, counting down from counter0, until
      the count reaches n. */
  method WalkPrev(nodes: map<Id, Node>, ghost order: seq<Id>, start: Option<Id>, ghost k0: int, counter0: int, n: int)
    returns (r: Option<Id>)
    requires Links(nodes, order) && -1 <= k0 < |order| && start == At(order, k0)
    ensures n <= counter0 ==> r == At(order, k0 - (counter0 - n))
    ensures n > counter0 ==> r.None?
  {
    var p := start;
    var counter := counter0;
    ghost var k := k0;
    while p.Some?
      invariant -1 <= k < |order| && p == At(order, k) && counter0 - counter == k0 - k
      invariant n <= counter0 ==> counter >= n
      decreases k
    {
      if n == counter {
        return p;
      }
      assert LinkAt(nodes, order, k);
      p := nodes[p.value].prev;
      counter := counter - 1;
      k := k - 1;
    }
    return None;
  }

  function Abs(x: int): nat
  {
    if x < 0 then -x else x
  }

  /** The search GetLine does for a line number in range: walk from the top,
      the bottom or the cached reference, whichever is nearest.  The answer
      is the n-th line of the chain whenever the cached reference is exact;
      an inexact one can only make it a wrong line or null. */
  method Locate(m: Mgr, ghost order: seq<Id>, n: int) returns (r: Option<Id>)
    requires Valid(m, order) && 0 <= n < m.count
    ensures r.Some? ==> r.value in m.nodes
    ensures Exact(m, order) ==> r == At(order, n)
  {
    var diff := Abs(m.referLine - n);
    if m.refer.None? || n < diff || m.count - n < diff {
      if n < m.count / 2 {
        r := WalkNext(m.nodes, order, m.top, 0, 0, n);
      } else {
        r := WalkPrev(m.nodes, order, m.bot, |order| - 1, m.count - 1, n);
      }
    } else {
      ghost var j :| 0 <= j < |order| && order[j] == m.refer.value;
      assert Exact(m, order) ==> j == m.referLine;
      assert LinkAt(m.nodes, order, j);
      if n == m.referLine {
        r := m.refer;
      } else if n > m.referLine {
        r := WalkNext(m.nodes, order, m.nodes[m.refer.value].next, j + 1, m.referLine + 1, n);
      } else {
        r := WalkPrev(m.nodes, order, m.nodes[m.refer.value].prev, j - 1, m.referLine - 1, n);
      }
    }
  }

  /** GetLine: the n-th line, or null when there is none; what it finds
      becomes the cached reference and the line after it the current one. */
  method GetLine(m: Mgr, ghost order: seq<Id>, n: int) returns (r: Option<Id>, m': Mgr)
    requires Valid(m, order)
    ensures Valid(m', order)
    ensures !(0 <= n < m.count) ==> r.None? && m' == m
    ensures Exact(m, order) ==> r == At(order, n) && Exact(m', order)
    ensures r.None? ==> m' == m
    ensures r.Some? ==> r.value in m.nodes &&
                        m' == m.(referLine := n, refer := r, current := m.nodes[r.value].next)
  {
    if m.count == 0 || n < 0 || n >= m.count {
      return None, m;
    }
    r := Locate(m, order, n);
    if r.Some? {
      m' := m.(referLine := n, refer := r, current := m.nodes[r.value].next);
      NextInChain(m, order, r.value);
    } else {
      m' := m;
    }
  }

  lemma NextInChain(m: Mgr, order: seq<Id>, x: Id)
    requires Valid(m, order) && x in m.nodes
    ensures Has(m, m.nodes[x].next)
  {
    var k :| 0 <= k < |order| && order[k] == x;
    assert LinkAt(m.nodes, order, k);
  }

  // ---------------------------------------------------------------------
  // Line ends and concatenation
  // ---------------------------------------------------------------------

  function WithEol(n: Node, eol: EolType): Node
  {
    n.(line := n.line.(eol := eol))
  }

  /** The loop of SetEol: give every line of the chain the line end eol. */
  method SetAllEols(m: Mgr, ghost order: seq<Id>, eol: EolType) returns (r: Mgr)
    requires Valid(m, order)
    ensures r == m.(nodes := r.nodes) && r.nodes.Keys == m.nodes.Keys
    ensures forall k :: 0 <= k < |order| ==> r.nodes[order[k]] == WithEol(m.nodes[order[k]], eol)
  {
    r := m;
    var p := m.top;
    ghost var k := 0;
    while p.Some?
      invariant 0 <= k <= |order| && p == At(order, k)
      invariant r == m.(nodes := r.nodes) && r.nodes.Keys == m.nodes.Keys
      invariant forall j :: 0 <= j < |order| ==>
                  r.nodes[order[j]] == if j < k then WithEol(m.nodes[order[j]], eol) else m.nodes[order[j]]
      decreases |order| - k
    {
      var x := p.value;
      if r.nodes[x].line.eol != eol {
        r := r.(nodes := r.nodes[x := WithEol(r.nodes[x], eol)]);
      }
      DistinctAt(order, k);
      assert LinkAt(m.nodes, order, k);
      p := r.nodes[x].next;
      k := k + 1;
    }
  }

  /** SetEol: report the first line's line end (none for an empty document),
      and unless the new line end is invalid, or equals the first line's and
      the change is not forced, give every line the new line end. */
  method SetEol(m: Mgr, ghost order: seq<Id>, eol: EolType, force: bool) returns (r: Mgr, org: EolType)
    requires Valid(m, order)
    ensures Valid(r, order)
    ensures |order| == 0 ==> org == EolNone
    ensures |order| > 0 ==> org == m.nodes[order[0]].line.eol
    ensures !IsValid(eol) || (!force && eol == org) || |order| == 0 ==> r == m
    ensures IsValid(eol) && (force || eol != org) ==>
              r == m.(nodes := r.nodes) && r.nodes.Keys == m.nodes.Keys &&
              forall k :: 0 <= k < |order| ==> r.nodes[order[k]] == WithEol(m.nodes[order[k]], eol)
  {
    r := m;
    if m.top.None? {
      return r, EolNone;
    }
    org := m.nodes[m.top.value].line.eol;
    if !IsValid(eol) || (!force && eol == org) {
      return r, org;
    }
    r := SetAllEols(m, order, eol);
    SameLinks(m, r, order);
  }

  lemma SameLinks(m: Mgr, r: Mgr, order: seq<Id>)
    requires Valid(m, order) && r == m.(nodes := r.nodes) && r.nodes.Keys == m.nodes.Keys
    requires forall j :: 0 <= j < |order| ==>
               r.nodes[order[j]].prev == m.nodes[order[j]].prev && r.nodes[order[j]].next == m.nodes[order[j]].next
    ensures Valid(r, order)
  {
    forall k | 0 <= k < |order| ensures LinkAt(r.nodes, order, k) {
      assert LinkAt(m.nodes, order, k);
    }
    LinksClosed(r.nodes, order);
  }

  /** Hang the chain starting at t after the node b. */
  function Joined(nodes: map<Id, Node>, others: map<Id, Node>, b: Option<Id>, t: Id): map<Id, Node>
    requires t in others && (b.Some? ==> b.value in nodes)
  {
    var all := nodes + others;
    var n1 := all[t := all[t].(prev := b)];
    if b.Some? then n1[b.value := n1[b.value].(next := Some(t))] else n1
  }

  /** Cat: move the other manager's lines after this one's bottom and leave
      the other empty; a null or empty other changes nothing. */
  function Cat(m: Mgr, other: Option<Mgr>): (r: (Mgr, Option<Mgr>))
    requires other.Some? ==> Has(other.value, other.value.top) && Has(m, m.bot)
  {
    if other.None? || other.value.top.None? then (m, other)
    else
      var o := other.value;
      (m.(nodes := Joined(m.nodes, o.nodes, m.bot, o.top.value),
          top := if m.top.None? then o.top else m.top,
          bot := o.bot,
          count := m.count + o.count),
       Some(Init()))
  }

  lemma AtConcat(a: seq<Id>, b: seq<Id>, k: int)
    ensures At(a + b, k) == if k < |a| then At(a, k) else At(b, k - |a|)
  {
  }

  /** One index of the concatenated chain is linked. */
  lemma JoinAt(n1: map<Id, Node>, order: seq<Id>, n2: map<Id, Node>, order2: seq<Id>, k: nat)
    requires Links(n1, order) && Links(n2, order2) && Distinct(order) && Distinct(order2)
    requires n1.Keys !! n2.Keys && |order2| > 0 && k < |order| + |order2|
    ensures LinkAt(Joined(n1, n2, At(order, |order| - 1), order2[0]), order + order2, k)
  {
    var c := order + order2;
    AtConcat(order, order2, k - 1);
    AtConcat(order, order2, k);
    AtConcat(order, order2, k + 1);
    if k < |order| {
      assert LinkAt(n1, order, k);
      assert c[k] !in n2;
      assert order2[0] !in n1;
      DistinctAt(order, |order| - 1);
    } else {
      assert LinkAt(n2, order2, k - |order|);
      assert c[k] !in n1;
      DistinctAt(order2, 0);
    }
  }

  /** Concatenating two valid managers chains the other's lines after this
      one's, keeps this one's cached reference exact, and empties the other. */
  lemma CatValid(m: Mgr, order: seq<Id>, o: Mgr, order2: seq<Id>)
    requires Valid(m, order) && Valid(o, order2) && m.nodes.Keys !! o.nodes.Keys
    ensures Valid(Cat(m, Some(o)).0, order + order2)
    ensures Cat(m, Some(o)).1 == Some(if |order2| == 0 then o else Init())
    ensures Exact(m, order) ==> Exact(Cat(m, Some(o)).0, order + order2)
  {
    if |order2| > 0 {
      var c := order + order2;
      var r := Cat(m, Some(o)).0;
      forall k | 0 <= k < |c| ensures LinkAt(r.nodes, c, k) {
        JoinAt(m.nodes, order, o.nodes, order2, k);
      }
      LinksClosed(r.nodes, c);
      AtConcat(order, order2, 0);
      AtConcat(order, order2, |c| - 1);
      assert Owns(r.nodes, c) by {
        assert forall x :: x in c <==> x in order || x in order2;
      }
      assert Distinct(c) by {
        forall a, b | 0 <= a < b < |c| ensures c[a] != c[b] {
          if b >= |order| && a < |order| {
            assert c[a] in m.nodes && c[b] in o.nodes;
          }
        }
      }
    } else {
      assert order + order2 == order;
    }
  }
}

=== FILE: eol.dfy ===
/**
 * Line-end kinds (CEol).  How a line end is recognised in text is not part
 * of this model; only the kinds and their validity are.
 */
module Eol {

  datatype EolType = EolNone | EolCrLf | EolCr | EolLf | EolNel | EolLs | EolPs

  /** A line end is valid when it is an actual line end. */
  predicate IsValid(e: EolType)
  {
    e != EolNone
  }
}

=== FILE: file_load.dfy ===
/**
 * The line reader of files (io/CFileLoad.cpp, io/CFileLoad.h): the size
 * limit, the human-readable size, the progress percentage, the splitting
 * of the mapped file into lines per encoding trait, the search for the
 * next line top used to cut a file into slices, and the BOM and failure
 * rules of one line read.
 *
 * The bytes of the file are not carried: the splitter sees the buffer
 * size and, as an oracle, the length in bytes of the line end that starts
 * at an offset (0 where none does).  That oracle stands for the trait's
 * unit decoding together with the line-end classifier, which are not part
 * of this model; the trait fixes the unit the scan steps by.  Code-page
 * conversion of a line is an oracle as well.
 */
module FileLoad {
  import opened Wrappers
  import GrepFormat

  // ---------------------------------------------------------------------
  // Size limit and size text
  // ---------------------------------------------------------------------

  /** The loadable size bound: unbounded (the largest 64-bit value) on 64-bit
      builds, 2 GiB otherwise. */
  function LimitSize(win64: bool): nat
  {
    if win64 then 0xffff_ffff_ffff_ffff else 0x8000_0000
  }

  function IsLoadableSize(size: nat, ignoreLimit: bool, win64: bool): (r: bool)
    ensures r <==> ignoreLimit || size < LimitSize(win64)
    ensures !win64 && !ignoreLimit ==> (r <==> size < 0x8000_0000)
  {
    if ignoreLimit then true else size < LimitSize(win64)
  }

  /** The comma-separated triples behind the leading group. */
  function Triples(t: string): string
    requires |t| % 3 == 0
    decreases |t|
  {
    if |t| == 0 then "" else "," + t[..3] + Triples(t[3..])
  }

  /** The length of the leading group of an n-digit number: 1 to 3 digits. */
  function HeadLength(n: nat): (h: nat)
    requires n >= 1
    ensures 1 <= h <= 3 && h <= n && (n - h) % 3 == 0
  {
    (n - 1) % 3 + 1
  }

  /** The comma insertion of GetSizeStringForHuman: a comma before every third
      digit from the right, inserted from right to left. */
  method InsertCommas(d: string) returns (r: string)
    requires |d| >= 1
    ensures r == d[..HeadLength(|d|)] + Triples(d[HeadLength(|d|)..])
  {
    r := d;
    var ip := |d| - 3;
    assert d[|d|..] == "";
    while ip > 0
      invariant 0 <= ip + 3 <= |d| && (|d| - (ip + 3)) % 3 == 0 && 1 <= ip + 3
      invariant r == d[..ip + 3] + Triples(d[ip + 3..])
      decreases ip
    {
      InsertStep(d, ip, r);
      r := r[..ip] + "," + r[ip..];
      ip := ip - 3;
    }
    HeadUnique(|d|, ip + 3);
  }

  lemma InsertStep(d: string, ip: int, r: string)
    requires 0 < ip && ip + 3 <= |d| && (|d| - (ip + 3)) % 3 == 0
    requires r == d[..ip + 3] + Triples(d[ip + 3..])
    ensures r[..ip] + "," + r[ip..] == d[..ip] + Triples(d[ip..])
  {
    var t := d[ip..];
    assert t[..3] == d[ip..ip + 3] && t[3..] == d[ip + 3..];
    assert r[..ip] == d[..ip];
    assert r[ip..] == d[ip..ip + 3] + Triples(d[ip + 3..]);
  }

  lemma HeadUnique(n: nat, h: int)
    requires n >= 1 && 1 <= h <= 3 && h <= n && (n - h) % 3 == 0
    ensures h == HeadLength(n)
  {
  }

  /** The text with its commas removed. */
  function Uncomma(s: string): string
    decreases |s|
  {
    if |s| == 0 then "" else (if s[0] == ',' then "" else [s[0]]) + Uncomma(s[1..])
  }

  lemma {:induction false} UncommaAppend(a: string, b: string)
    ensures Uncomma(a + b) == Uncomma(a) + Uncomma(b)
    decreases |a|
  {
    if |a| == 0 {
      assert a + b == b;
    } else {
      assert (a + b)[0] == a[0] && (a + b)[1..] == a[1..] + b;
      UncommaAppend(a[1..], b);
    }
  }

  lemma {:induction false} UncommaDigits(s: string)
    requires GrepFormat.AllDigits(s)
    ensures Uncomma(s) == s
    decreases |s|
  {
    if |s| > 0 {
      assert GrepFormat.IsDigit(s[0]);
      UncommaDigits(s[1..]);
    }
  }

  lemma {:induction false} UncommaTriples(t: string)
    requires |t| % 3 == 0 && GrepFormat.AllDigits(t)
    ensures Uncomma(Triples(t)) == t
    decreases |t|
  {
    if |t| > 0 {
      UncommaAppend("," + t[..3], Triples(t[3..]));
      UncommaAppend(",", t[..3]);
      UncommaDigits(t[..3]);
      UncommaTriples(t[3..]);
      assert t[..3] + t[3..] == t;
    }
  }

  /** GetSizeStringForHuman: whole mebibytes in decimal with thousands separators,
      then " MB". */
  method SizeStringForHuman(size: nat) returns (r: string)
    ensures |r| > 3 && r[|r| - 3..] == " MB"
    ensures GrepFormat.ParseDecimal(Uncomma(r[..|r| - 3])) == Some(size / 0x10_0000)
  {
    var d := GrepFormat.Decimal(size / 0x10_0000);
    var grouped := InsertCommas(d);
    r := grouped + " MB";
    assert r[..|r| - 3] == grouped;
    var h := HeadLength(|d|);
    UncommaAppend(d[..h], Triples(d[h..]));
    UncommaDigits(d[..h]);
    UncommaTriples(d[h..]);
    assert d[..h] + d[h..] == d;
    GrepFormat.DecimalRoundTrip(size / 0x10_0000);
  }

  // ---------------------------------------------------------------------
  // The loader's state
  // ---------------------------------------------------------------------

  /** The state the line reader keeps: the file size, the end of the part
      being read, the next line top, the index of the last line read, whether
      the file began with a BOM, and whether this is a copy for a parallel
      reader (which never releases the mapping). */
  datatype Loader = Loader(fileSize: nat, bufSize: nat, offset: nat, lineIndex: int,
                           bomExist: bool, copy: bool, open: bool)

  /** An unopened loader. */
  function Init(): (l: Loader)
    ensures !l.open && l.fileSize == 0 && l.bufSize == 0 && l.offset == 0 && l.lineIndex == -1 && !l.bomExist && !l.copy
  {
    Loader(0, 0, 0, -1, false, false, false)
  }

  /** Copy: a reader of the same file from its start, which owns nothing. */
  function Copy(src: Loader): (l: Loader)
    ensures l.copy && l.open == src.open && l.fileSize == src.fileSize && l.bufSize == src.fileSize
    ensures l.offset == 0 && l.lineIndex == -1 && l.bomExist == src.bomExist
  {
    Loader(src.fileSize, src.fileSize, 0, -1, src.bomExist, true, src.open)
  }

  /** SetBufLimit: read only [begin, end) of the buffer. */
  function SetBufLimit(l: Loader, begin: nat, end: nat): (r: Loader)
    ensures r.offset == begin && r.bufSize == end
    ensures r == l.(offset := begin, bufSize := end)
  {
    l.(offset := begin, bufSize := end)
  }

  /** FileClose: the state returns to that of an unopened loader, except that
      a copy stays a copy; only a loader that is not a copy releases the file. */
  function FileClose(l: Loader): (r: (Loader, bool))
    ensures r.0 == Init().(copy := l.copy) && (r.1 <==> l.open && !l.copy)
  {
    (Loader(0, 0, 0, -1, false, l.copy, false), l.open && !l.copy)
  }

  /** GetPercent: the progress through the buffer, 100 for an empty buffer
      or an offset past its end. */
  function Percent(offset: nat, bufSize: nat): (p: int)
    ensures 0 <= p <= 100
    ensures bufSize == 0 || offset > bufSize ==> p == 100
    ensures 0 < bufSize && offset <= bufSize ==> p * bufSize <= offset * 100 < (p + 1) * bufSize
  {
    if bufSize == 0 || offset > bufSize then 100 else offset * 100 / bufSize
  }

  /** The progress never goes back while the offset moves forward in the buffer. */
  lemma PercentMonotone(a: nat, b: nat, bufSize: nat)
    requires a <= b <= bufSize
    ensures Percent(a, bufSize) <= Percent(b, bufSize)
  {
    if bufSize > 0 {
      var pa, pb := Percent(a, bufSize), Percent(b, bufSize);
      assert pa * bufSize <= a * 100 <= b * 100 < (pb + 1) * bufSize;
      LessByFactor(pa, pb + 1, bufSize);
    }
  }

  lemma LessByFactor(x: int, y: int, c: int)
    requires c > 0 && x * c < y * c
    ensures x < y
  {
    assert (y - x) * c == y * c - x * c;
  }

  // ---------------------------------------------------------------------
  // Splitting the buffer into lines
  // ---------------------------------------------------------------------

  /** The encoding traits, and the unit each one scans by. */
  datatype Trait = TraitAscii | TraitError | TraitUtf16Le | TraitUtf16Be | TraitUtf32Le | TraitUtf32Be
                 | TraitEbcdic | TraitEbcdicCrLf

  function Unit(t: Trait): (u: nat)
    ensures u == 1 || u == 2 || u == 4
  {
    match t
    case TraitUtf16Le | TraitUtf16Be => 2
    case TraitUtf32Le | TraitUtf32Be => 4
    case _ => 1
  }

  /** The largest value of the unsigned size type (64-bit builds). */
  const SizeModulus: nat := 0x1_0000_0000_0000_0000

  /** The scan bound as written: the buffer size less the unit's extra bytes,
      in unsigned size arithmetic, so that a buffer shorter than a unit wraps. */
  function ScanBoundAsWritten(size: nat, unit: nat): (b: nat)
    requires size < SizeModulus && 1 <= unit <= 4
    ensures size + 1 >= unit ==> b == size + 1 - unit
    ensures size + 1 < unit ==> b > size
  {
    (size - (unit - 1)) % SizeModulus
  }

  /** A one- or two-byte buffer read as UTF-32: the bound wraps to almost
      2^64, so the first step of the scan reads the four bytes at offset 0 of a
      buffer that has fewer. */
  lemma ShortUtf32ScanReadsPastEnd(size: nat)
    requires 1 <= size <= 2
    ensures 0 < ScanBoundAsWritten(size, Unit(TraitUtf32Le)) && ScanBoundAsWritten(size, Unit(TraitUtf32Le)) > size
    ensures 0 + Unit(TraitUtf32Le) > size
  {
  }

  /** The scan bound kept inside the buffer. */
  function ScanBound(size: nat, unit: nat): (b: nat)
    requires 1 <= unit
    ensures b <= size
    ensures b > 0 ==> b - 1 + unit <= size
  {
    if size + 1 >= unit then size + 1 - unit else 0
  }

  /** Where a scan from bgn stops: the first unit-aligned offset below the
      bound where a line end starts, or the end of the buffer. */
  function StopFrom(i: nat, bound: nat, size: nat, unit: nat, eolAt: nat -> nat): (s: nat)
    requires unit >= 1 && bound <= size && i <= size
    ensures i <= s <= size
    ensures s < size ==> eolAt(s) > 0 && s < bound
    decreases bound - i
  {
    if i < bound then
      if eolAt(i) > 0 then i else StopFrom(if i + unit <= size then i + unit else size, bound, size, unit, eolAt)
    else size
  }

  /** The line the scan yields: where it starts, how long it is without its
      line end, and how long its line end is. */
  datatype Line = Line(start: nat, len: nat, eolLen: nat)

  function LineEnd(l: Line): nat { l.start + l.len + l.eolLen }

  /** A line end never runs past the buffer. */
  predicate EolInBuffer(size: nat, eolAt: nat -> nat)
  {
    forall i :: 0 <= i < size ==> i + eolAt(i) <= size
  }

  /** GetNextLineCharCode, with the bound kept inside the buffer: no line at
      the end of the buffer; otherwise the scan steps by the trait's unit and
      stops at the first line end, or takes the rest of the buffer. */
  method NextLineCharCode(size: nat, bgn: nat, t: Trait, eolAt: nat -> nat) returns (r: Option<Line>)
    requires EolInBuffer(size, eolAt)
    ensures r == NextLine(size, bgn, t, eolAt)
  {
    if size <= bgn {
      return None;
    }
    var i, eolLen := Scan(size, bgn, Unit(t), ScanBound(size, Unit(t)), eolAt);
    r := ScanResult(size, bgn, t, eolAt, i, eolLen);
  }

  /**
   * GetNextLineCharCode as written: the bound is the buffer size less the
   * unit's extra bytes in unsigned arithmetic, and each step reads a
   * whole unit at i.  None stands for a unit read past the end of the
   * buffer, which happens exactly when a non-empty rest of the buffer is
   * shorter than one unit less a byte (a one- or two-byte UTF-32 buffer);
   * in every other case the line is the one NextLineCharCode yields.
   */
  method NextLineCharCodeAsWritten(size: nat, bgn: nat, t: Trait, eolAt: nat -> nat) returns (r: Option<Option<Line>>)
    requires size < SizeModulus && EolInBuffer(size, eolAt)
    ensures r.None? <==> bgn < size && size + 1 < Unit(t)
    ensures r.Some? ==> r.value == NextLine(size, bgn, t, eolAt)
  {
    if size <= bgn {
      return Some(None);
    }
    var unit := Unit(t);
    var bound := ScanBoundAsWritten(size, unit);
    var i := bgn;
    while i < bound
      invariant bgn <= i
      invariant bound <= size ==> i <= size && bound == ScanBound(size, unit)
      invariant bound <= size ==> StopFrom(bgn, bound, size, unit, eolAt) == StopFrom(i, bound, size, unit, eolAt)
      invariant bound > size ==> i == bgn
      decreases bound - i
    {
      if i + unit > size {
        return None;
      }
      if eolAt(i) > 0 {
        return Some(ScanResult(size, bgn, t, eolAt, i, eolAt(i)));
      }
      i := i + unit;
    }
    r := Some(ScanResult(size, bgn, t, eolAt, i, 0));
  }

  /** The scan loop: step by the unit from bgn while below the bound, and stop
      at the first offset where a line end starts. */
  method Scan(size: nat, bgn: nat, unit: nat, bound: nat, eolAt: nat -> nat) returns (i: nat, eolLen: nat)
    requires unit >= 1 && bound <= size && bgn <= size
    ensures bgn <= i <= size
    ensures StopFrom(bgn, bound, size, unit, eolAt) == StopFrom(i, bound, size, unit, eolAt)
    ensures eolLen > 0 ==> eolLen == eolAt(i) && i < bound
    ensures eolLen == 0 ==> i >= bound
  {
    i := bgn;
    eolLen := 0;
    while i < bound
      invariant bgn <= i <= size
      invariant StopFrom(bgn, bound, size, unit, eolAt) == StopFrom(i, bound, size, unit, eolAt)
      decreases bound - i
    {
      if eolAt(i) > 0 {
        eolLen := eolAt(i);
        return;
      }
      i := if i + unit <= size then i + unit else size;
    }
  }

  /** How the scan loop's exit becomes the line. */
  function ScanResult(size: nat, bgn: nat, t: Trait, eolAt: nat -> nat, i: nat, eolLen: nat): (r: Option<Line>)
    requires EolInBuffer(size, eolAt) && bgn < size && bgn <= i <= size
    requires StopFrom(bgn, ScanBound(size, Unit(t)), size, Unit(t), eolAt) == StopFrom(i, ScanBound(size, Unit(t)), size, Unit(t), eolAt)
    requires eolLen > 0 ==> eolLen == eolAt(i) && i < ScanBound(size, Unit(t))
    requires eolLen == 0 ==> i >= ScanBound(size, Unit(t))
    ensures r == NextLine(size, bgn, t, eolAt)
  {
    if eolLen < 1 then Some(Line(bgn, size - bgn, 0)) else Some(Line(bgn, i - bgn, eolLen))
  }

  /** The line the scan yields from bgn, as a definition. */
  function NextLine(size: nat, bgn: nat, t: Trait, eolAt: nat -> nat): (r: Option<Line>)
    requires EolInBuffer(size, eolAt)
    ensures size <= bgn <==> r.None?
    ensures r.Some? ==> r.value.start == bgn && bgn < LineEnd(r.value) <= size
  {
    if size <= bgn then None
    else
      var stop := StopFrom(bgn, ScanBound(size, Unit(t)), size, Unit(t), eolAt);
      if stop < size then Some(Line(bgn, stop - bgn, eolAt(stop))) else Some(Line(bgn, size - bgn, 0))
  }

  /** Every line of the buffer from bgn on, as successive scans cut it. */
  function Lines(size: nat, bgn: nat, t: Trait, eolAt: nat -> nat): (ls: seq<Line>)
    requires EolInBuffer(size, eolAt)
    ensures bgn < size ==> |ls| > 0 && ls[0].start == bgn && LineEnd(ls[|ls| - 1]) == size
    ensures bgn >= size ==> ls == []
    ensures forall k :: 0 <= k < |ls| - 1 ==> LineEnd(ls[k]) == ls[k + 1].start
    decreases size - bgn
  {
    match NextLine(size, bgn, t, eolAt)
    case None => []
    case Some(l) => [l] + Lines(size, LineEnd(l), t, eolAt)
  }

  /** GetNextLineTop: the top of the line after the one holding the byte
      before pos; 0 and the buffer's end are tops already.  Past the end the
      scan finds nothing and pos - 1 comes back. */
  method NextLineTop(bufSize: nat, pos: nat, t: Trait, eolAt: nat -> nat) returns (top: nat)
    requires EolInBuffer(bufSize, eolAt)
    ensures pos == 0 ==> top == 0
    ensures 0 < pos <= bufSize ==> pos <= top <= bufSize
    ensures 0 < pos < bufSize ==> top == LineEnd(NextLine(bufSize, pos - 1, t, eolAt).value)
    ensures pos > bufSize ==> top == pos - 1
  {
    if pos == 0 {
      return 0;
    }
    if pos == bufSize {
      return pos;
    }
    var r := NextLineCharCode(bufSize, pos - 1, t, eolAt);
    top := if r.Some? then LineEnd(r.value) else pos - 1;
  }

  /** Every line of the successive scans from bgn lies in the buffer after
      bgn, and is the line a fresh scan from its own start cuts: reading can
      restart at any line top and cuts the same lines. */
  lemma {:induction false} LinesInBuffer(size: nat, bgn: nat, t: Trait, eolAt: nat -> nat, k: nat)
    requires EolInBuffer(size, eolAt)
    requires k < |Lines(size, bgn, t, eolAt)|
    ensures LineEnd(Lines(size, bgn, t, eolAt)[k]) <= size
    ensures Lines(size, bgn, t, eolAt)[k].start >= bgn
    ensures NextLine(size, Lines(size, bgn, t, eolAt)[k].start, t, eolAt) == Some(Lines(size, bgn, t, eolAt)[k])
    decreases k
  {
    var ls := Lines(size, bgn, t, eolAt);
    var l := NextLine(size, bgn, t, eolAt).value;
    if k > 0 {
      LinesInBuffer(size, LineEnd(l), t, eolAt, k - 1);
      assert ls[k] == Lines(size, LineEnd(l), t, eolAt)[k - 1];
    }
  }

  // ---------------------------------------------------------------------
  // One line read
  // ---------------------------------------------------------------------

  datatype ConvertResult = Complete | LoseSome | Failure

  /** The byte-order mark as a character. */
  const Bom: char := 0xfeff as char

  /** ReadLine_core: cut the next line, convert it (losing some characters
      makes the result LoseSome), count it, strip the BOM from the first line
      of a file that has one, and fail on an empty text. */
  function ReadLineCore(l: Loader, t: Trait, eolAt: nat -> nat, convert: Line -> (string, bool)): (r: (Loader, string, ConvertResult))
    requires EolInBuffer(l.bufSize, eolAt)
    ensures r.0 == l.(offset := r.0.offset, lineIndex := l.lineIndex + 1)
    ensures r.1 == "" <==> r.2 == Failure
    ensures var next := NextLine(l.bufSize, l.offset, t, eolAt);
            && (next.None? ==> r.2 == Failure && r.0.offset == l.offset)
            && (next.Some? ==> r.0.offset == LineEnd(next.value)
                               && var raw := convert(next.value).0;
                                  r.1 == if l.lineIndex == -1 && l.bomExist && |raw| >= 1 && raw[0] == Bom then raw[1..] else raw)
    ensures r.2 == LoseSome ==> NextLine(l.bufSize, l.offset, t, eolAt).Some?
  {
    var next := NextLine(l.bufSize, l.offset, t, eolAt);
    var (raw, lossy) := if next.Some? then convert(next.value) else ("", false);
    var offset := if next.Some? then LineEnd(next.value) else l.offset;
    var index := l.lineIndex + 1;
    var text := if index == 0 && l.bomExist && |raw| >= 1 && raw[0] == Bom then raw[1..] else raw;
    var result := if |text| == 0 then Failure else if lossy then LoseSome else Complete;
    (l.(offset := offset, lineIndex := index), text, result)
  }

  /** A read at the end of the buffer fails and leaves the offset; every read
      that succeeds moves the offset forward. */
  lemma ReadAdvances(l: Loader, t: Trait, eolAt: nat -> nat, convert: Line -> (string, bool))
    requires EolInBuffer(l.bufSize, eolAt)
    ensures var r := ReadLineCore(l, t, eolAt, convert);
            && (l.offset >= l.bufSize ==> r.2 == Failure && r.0.offset == l.offset)
            && (r.2 != Failure ==> l.offset < r.0.offset <= l.bufSize)
  {
  }
}

=== FILE: grep_cursor.dfy ===
/**
 * The line source grep reads from (CGrepAgent.h, CFileLoadOrWnd) and the
 * one-step-unget cursor the regular-expression engine pulls next lines
 * through (CGrepAgent.cpp, ReadLine and GetNextLine).
 *
 * A window source asks the window for its line count once and then for
 * each line by number; the window's answers are an oracle from a line
 * number to the line's text or an error.  A file source delegates to the
 * file reader, whose successive answers are an oracle from a read count.
 * Classifying a single end-of-line character is an oracle too: the
 * end-of-line class is not part of this model.
 */
module GrepCursor {
  import opened Eol

  /** The result of reading one line: the text (with its line end) and its
      end-of-line kind, or a failure, which also stands for the end of input. */
  datatype ReadResult = Complete(text: string, eol: EolType) | Failure

  /** What the window answers for a line: its text (an empty text is the end
      of the document), or an error (a negative length). */
  datatype WindowLine = Reported(text: string) | Error

  /** The line source: a window with its line count and the next line to
      ask for, or a file after the given number of reads. */
  datatype LineSource = WindowSource(current: int, num: int) | FileSource(done: nat)

  /** The line end of a line read from a window: CR LF when the text ends in
      those two characters, otherwise whatever its last character is. */
  function WindowEol(text: string, classify: char -> EolType): (e: EolType)
    requires |text| > 0
    ensures |text| > 1 && text[|text| - 2] == '\r' && text[|text| - 1] == '\n' ==> e == EolCrLf
    ensures !(|text| > 1 && text[|text| - 2] == '\r' && text[|text| - 1] == '\n') ==> e == classify(text[|text| - 1])
  {
    if |text| > 1 && text[|text| - 2..] == "\r\n" then EolCrLf else classify(text[|text| - 1])
  }

  /** One read from the source. */
  function SourceRead(src: LineSource, window: int -> WindowLine, file: nat -> ReadResult,
                      classify: char -> EolType): (r: (ReadResult, LineSource))
    ensures src.WindowSource? ==> r.1.WindowSource? && r.1.num == src.num
    ensures src.WindowSource? && r.0.Complete? ==> r.1.current == src.current + 1 && src.current < src.num
    ensures src.WindowSource? && r.0.Failure? ==> r.1 == src
    ensures src.WindowSource? && src.current >= src.num ==> r.0.Failure?
    ensures src.WindowSource? && src.current < src.num ==>
              (r.0.Failure? <==> window(src.current).Error? || window(src.current).text == "")
    ensures src.WindowSource? && r.0.Complete? ==> r.0.text == window(src.current).text
    ensures src.FileSource? ==> r == (file(src.done), FileSource(src.done + 1))
  {
    match src
    case FileSource(done) => (file(done), FileSource(done + 1))
    case WindowSource(current, num) =>
      if num <= current then (Failure, src)
      else
        match window(current)
        case Error => (Failure, src)
        case Reported(text) =>
          if |text| == 0 then (Failure, src)
          else (Complete(text, WindowEol(text, classify)), WindowSource(current + 1, num))
  }

  /** The size a source reports: a window has none. */
  function SourceSize(src: LineSource, fileSize: int): (n: int)
    ensures src.WindowSource? ==> n == 0
    ensures src.FileSource? ==> n == fileSize
  {
    if src.WindowSource? then 0 else fileSize
  }

  /** Every line a window source yields from line k on, in order. */
  function WindowTexts(k: int, num: int, window: int -> WindowLine): seq<string>
    decreases num - k
  {
    if num <= k then []
    else match window(k)
      case Error => []
      case Reported(text) => if |text| == 0 then [] else [text] + WindowTexts(k + 1, num, window)
  }

  // ---------------------------------------------------------------------
  // The cursor
  // ---------------------------------------------------------------------

  /** The per-file cursor (CGrepDocInfo): the line counter, whether a line
      has been handed back, and the last read's result. */
  datatype Cursor = Cursor(line: int, unget: bool, prev: ReadResult)

  /** A new cursor has nothing handed back. */
  function NewCursor(line: int): (c: Cursor)
    ensures !c.unget && c.line == line
  {
    Cursor(line, false, Failure)
  }

  /** ReadLine: count the line; after an unget return the remembered result,
      otherwise read and remember. */
  function ReadLine(c: Cursor, src: LineSource, window: int -> WindowLine, file: nat -> ReadResult,
                    classify: char -> EolType): (r: (Cursor, LineSource, ReadResult))
    ensures r.0.line == c.line + 1 && !r.0.unget && r.0.prev == r.2
    ensures c.unget ==> r.2 == c.prev && r.1 == src
    ensures !c.unget ==> (r.2, r.1) == SourceRead(src, window, file, classify)
  {
    if c.unget then (Cursor(c.line + 1, false, c.prev), src, c.prev)
    else
      var (res, src') := SourceRead(src, window, file, classify);
      (Cursor(c.line + 1, false, res), src', res)
  }

  /** GetNextLine with no destination: hand the last line back.  Only one line
      can be handed back at a time. */
  function Unget(c: Cursor): (d: Cursor)
    requires !c.unget
    ensures d.unget && d.line == c.line - 1 && d.prev == c.prev
  {
    Cursor(c.line - 1, true, c.prev)
  }

  /** GetNextLine with a destination: the next line's length, 0 when there is
      none, and the line itself. */
  function GetNextLine(c: Cursor, src: LineSource, window: int -> WindowLine, file: nat -> ReadResult,
                       classify: char -> EolType): (r: (Cursor, LineSource, int, string))
    ensures var (c', src', res) := ReadLine(c, src, window, file, classify);
            r.0 == c' && r.1 == src' &&
            (res.Failure? ==> r.2 == 0 && r.3 == "") &&
            (res.Complete? ==> r.3 == res.text && r.2 == |res.text|)
  {
    var (c', src', res) := ReadLine(c, src, window, file, classify);
    if res.Failure? then (c', src', 0, "") else (c', src', |res.text|, res.text)
  }

  /** Handing a line back and reading again yields the same line and leaves
      cursor and source as they were after the first read. */
  lemma UngetRereads(c: Cursor, src: LineSource, window: int -> WindowLine, file: nat -> ReadResult,
                     classify: char -> EolType)
    ensures var (c1, s1, r1) := ReadLine(c, src, window, file, classify);
            ReadLine(Unget(c1), s1, window, file, classify) == (c1, s1, r1)
  {
  }

  /** One read from a window source takes the first of its remaining lines. */
  lemma WindowStep(c: Cursor, src: LineSource, window: int -> WindowLine, file: nat -> ReadResult,
                   classify: char -> EolType)
    requires src.WindowSource? && !c.unget
    ensures var t := ReadLine(c, src, window, file, classify);
            && t.1.WindowSource? && t.1.num == src.num && !t.0.unget && t.0.line == c.line + 1 && t.0.prev == t.2
            && (t.2.Complete? ==> WindowTexts(src.current, src.num, window) == [t.2.text] + WindowTexts(t.1.current, src.num, window)
                                  && src.current < src.num && t.1.current == src.current + 1)
            && (t.2.Failure? ==> WindowTexts(src.current, src.num, window) == [] && t.1 == src)
  {
  }

  /** Reading a window to its end through a fresh cursor: the lines in order,
      and a line counter one past them, since the failing read counts too. */
  method ReadWindow(num: int, window: int -> WindowLine, file: nat -> ReadResult, classify: char -> EolType)
    returns (texts: seq<string>, c: Cursor)
    ensures texts == WindowTexts(0, num, window)
    ensures c.line == |texts| + 1 && !c.unget && c.prev == Failure
  {
    c := NewCursor(0);
    var src := WindowSource(0, num);
    texts := [];
    var done := false;
    while !done
      invariant src.WindowSource? && src.num == num
      invariant texts + WindowTexts(src.current, num, window) == WindowTexts(0, num, window)
      invariant !c.unget
      invariant !done ==> c.line == |texts|
      invariant done ==> c.line == |texts| + 1 && c.prev == Failure && WindowTexts(src.current, num, window) == []
      decreases !done, if num < src.current then 0 else num - src.current
    {
      var t := ReadLine(c, src, window, file, classify);
      WindowStep(c, src, window, file, classify);
      if t.2.Complete? {
        texts := texts + [t.2.text];
      } else {
        done := true;
      }
      c, src := t.0, t.1;
    }
  }
}

=== FILE: grep_format.dfy ===
/**
 * The text-building helpers of the grep driver (CGrepAgent.cpp): the
 * `;`-separated path list of the result header, the trailing-separator
 * chop, the escaping of the search key as a string literal of the output
 * document's language, the "(line,column)" tag, one result record and the
 * folder / file headings printed before the records of a file.
 *
 * Every helper is a pure string function.  Each is paired with the
 * reading it is built for: the path list with the splitter that takes it
 * apart, the escape with the unescape, the tag with its parser.
 */
module GrepFormat {
  import opened Wrappers

  // ---------------------------------------------------------------------
  // FormatPathList
  // ---------------------------------------------------------------------

  /** One item of a path list: quoted when it contains the separator. */
  function QuoteItem(item: string): string
  {
    if ';' in item then "\"" + item + "\"" else item
  }

  /** The items joined with `;`, each item quoted when it contains `;`. */
  function FormatPathList(items: seq<string>): string
  {
    if |items| == 0 then ""
    else if |items| == 1 then QuoteItem(items[0])
    else QuoteItem(items[0]) + ";" + FormatPathList(items[1..])
  }

  /**
   * The reading a path list is written for: `"` toggles quoting and is
   * dropped, `;` outside quotes ends an item.  `cur` is the item read so
   * far; the result always holds at least the item being read.
   */
  function SplitFrom(s: string, quoted: bool, cur: string): (r: seq<string>)
    ensures |r| >= 1
    decreases |s|
  {
    if |s| == 0 then [cur]
    else if s[0] == '"' then SplitFrom(s[1..], !quoted, cur)
    else if s[0] == ';' && !quoted then [cur] + SplitFrom(s[1..], false, "")
    else SplitFrom(s[1..], quoted, cur + [s[0]])
  }

  function SplitPathList(s: string): seq<string>
  {
    SplitFrom(s, false, "")
  }

  /** Characters that the splitter copies into the current item. */
  lemma {:induction false} PlainRun(x: string, t: string, quoted: bool, cur: string)
    requires '"' !in x && (quoted || ';' !in x)
    ensures SplitFrom(x + t, quoted, cur) == SplitFrom(t, quoted, cur + x)
    decreases |x|
  {
    if |x| > 0 {
      assert (x + t)[0] == x[0];
      assert (x + t)[1..] == x[1..] + t;
      PlainRun(x[1..], t, quoted, cur + [x[0]]);
      assert cur + [x[0]] + x[1..] == cur + x;
    } else {
      assert x + t == t;
      assert cur + x == cur;
    }
  }

  /** A quoted or plain item is read back as itself. */
  lemma QuotedItem(x: string, t: string, cur: string)
    requires '"' !in x
    ensures SplitFrom(QuoteItem(x) + t, false, cur) == SplitFrom(t, false, cur + x)
  {
    if ';' in x {
      var s := QuoteItem(x) + t;
      assert s == "\"" + (x + ("\"" + t));
      assert s[1..] == x + ("\"" + t);
      PlainRun(x, "\"" + t, true, cur);
      assert ("\"" + t)[1..] == t;
    } else {
      PlainRun(x, t, false, cur);
    }
  }

  /**
   * Round trip: a non-empty list of items without `"` is split back into
   * exactly the items, in order, whatever `;` they contain.
   */
  lemma {:induction false} FormatPathListRoundTrip(items: seq<string>)
    requires |items| > 0
    requires forall i :: 0 <= i < |items| ==> '"' !in items[i]
    ensures SplitPathList(FormatPathList(items)) == items
    decreases |items|
  {
    if |items| == 1 {
      QuotedItem(items[0], "", "");
      assert QuoteItem(items[0]) + "" == QuoteItem(items[0]);
      assert "" + items[0] == items[0];
    } else {
      var rest := FormatPathList(items[1..]);
      assert QuoteItem(items[0]) + ";" + rest == QuoteItem(items[0]) + (";" + rest);
      QuotedItem(items[0], ";" + rest, "");
      assert (";" + rest)[1..] == rest;
      assert "" + items[0] == items[0];
      FormatPathListRoundTrip(items[1..]);
      assert [items[0]] + items[1..] == items;
    }
  }

  // ---------------------------------------------------------------------
  // ChopYen
  // ---------------------------------------------------------------------

  /** The path without its trailing `\`, if it has one; nothing else is cut. */
  function ChopYen(path: string): (r: string)
    ensures path == r + "\\" || path == r
    ensures path == r + "\\" <==> |path| > 0 && path[|path| - 1] == '\\'
  {
    if |path| > 0 && path[|path| - 1] == '\\' then path[..|path| - 1] else path
  }

  /** Only one separator goes: a path ending in two keeps the first. */
  lemma ChopYenRemovesOne(path: string)
    ensures ChopYen(path + "\\") == path
    ensures ChopYen(path + "\\\\") == path + "\\"
  {
    assert (path + "\\\\")[..|path| + 1] == path + "\\";
  }

  // ---------------------------------------------------------------------
  // EscapeStringLiteral
  // ---------------------------------------------------------------------

  /** How the output document's type writes string literals. */
  datatype LiteralStyle = LiteralCpp | LiteralCSharp | LiteralPython | LiteralPlSql | LiteralOther

  predicate BackslashEscapes(style: LiteralStyle)
  {
    style == LiteralCpp || style == LiteralCSharp || style == LiteralPython
  }

  /** Every occurrence of `c` replaced by `by`, scanning left to right. */
  function ReplaceAll(s: string, c: char, rep: string): (r: string)
    ensures c !in s ==> r == s
    decreases |s|
  {
    if |s| == 0 then ""
    else (if s[0] == c then rep else [s[0]]) + ReplaceAll(s[1..], c, rep)
  }

  lemma {:induction false} ReplaceAllAppend(a: string, b: string, c: char, rep: string)
    ensures ReplaceAll(a + b, c, rep) == ReplaceAll(a, c, rep) + ReplaceAll(b, c, rep)
    decreases |a|
  {
    if |a| == 0 {
      assert a + b == b;
    } else {
      assert (a + b)[0] == a[0];
      assert (a + b)[1..] == a[1..] + b;
      ReplaceAllAppend(a[1..], b, c, rep);
    }
  }

  /**
   * The escaping as the source performs it: nothing when string colouring
   * is off, otherwise successive replace-all passes -- backslash first,
   * then quote, then double quote for the backslash styles; each quote
   * doubled for PL/SQL.
   */
  function EscapeStringLiteral(display: bool, style: LiteralStyle, s: string): string
  {
    if !display then s
    else if BackslashEscapes(style) then
      ReplaceAll(ReplaceAll(ReplaceAll(s, '\\', "\\\\"), '\'', "\\'"), '"', "\\\"")
    else if style == LiteralPlSql then
      ReplaceAll(ReplaceAll(s, '\'', "''"), '"', "\"\"")
    else s
  }

  /** The escape of one character. */
  function EscapeChar(style: LiteralStyle, ch: char): string
  {
    if BackslashEscapes(style) && (ch == '\\' || ch == '\'' || ch == '"') then ['\\', ch]
    else if style == LiteralPlSql && (ch == '\'' || ch == '"') then [ch, ch]
    else [ch]
  }

  /** The escape applied character by character. */
  function EscapeEach(style: LiteralStyle, s: string): string
    decreases |s|
  {
    if |s| == 0 then "" else EscapeChar(style, s[0]) + EscapeEach(style, s[1..])
  }

  lemma EscapeOneChar(display: bool, style: LiteralStyle, ch: char)
    requires display
    ensures EscapeStringLiteral(display, style, [ch]) == EscapeChar(style, ch)
  {
  }

  lemma EscapeAppend(style: LiteralStyle, a: string, b: string)
    ensures EscapeStringLiteral(true, style, a + b)
            == EscapeStringLiteral(true, style, a) + EscapeStringLiteral(true, style, b)
  {
    if BackslashEscapes(style) {
      ReplaceAllAppend(a, b, '\\', "\\\\");
      var a1, b1 := ReplaceAll(a, '\\', "\\\\"), ReplaceAll(b, '\\', "\\\\");
      ReplaceAllAppend(a1, b1, '\'', "\\'");
      var a2, b2 := ReplaceAll(a1, '\'', "\\'"), ReplaceAll(b1, '\'', "\\'");
      ReplaceAllAppend(a2, b2, '"', "\\\"");
    } else if style == LiteralPlSql {
      ReplaceAllAppend(a, b, '\'', "''");
      var a1, b1 := ReplaceAll(a, '\'', "''"), ReplaceAll(b, '\'', "''");
      ReplaceAllAppend(a1, b1, '"', "\"\"");
    }
  }

  /**
   * The successive passes never touch what an earlier pass inserted, so
   * the escape is exactly the character-by-character one.
   */
  lemma {:induction false} EscapeIsPerCharacter(style: LiteralStyle, s: string)
    ensures EscapeStringLiteral(true, style, s) == EscapeEach(style, s)
    decreases |s|
  {
    if |s| > 0 {
      assert s == [s[0]] + s[1..];
      EscapeAppend(style, [s[0]], s[1..]);
      EscapeOneChar(true, style, s[0]);
      EscapeIsPerCharacter(style, s[1..]);
    }
  }

  /** The reading of a literal written in the given style. */
  function Unescape(style: LiteralStyle, s: string): string
    decreases |s|
  {
    if |s| == 0 then ""
    else if BackslashEscapes(style) && s[0] == '\\' && |s| >= 2 then [s[1]] + Unescape(style, s[2..])
    else if style == LiteralPlSql && (s[0] == '\'' || s[0] == '"') && |s| >= 2 && s[1] == s[0] then
      [s[0]] + Unescape(style, s[2..])
    else [s[0]] + Unescape(style, s[1..])
  }

  lemma {:induction false} UnescapeEach(style: LiteralStyle, s: string)
    ensures Unescape(style, EscapeEach(style, s)) == s
    decreases |s|
  {
    if |s| > 0 {
      var e := EscapeChar(style, s[0]);
      var t := EscapeEach(style, s[1..]);
      assert EscapeEach(style, s) == e + t;
      UnescapeEach(style, s[1..]);
      if |e| == 2 {
        assert (e + t)[2..] == t;
      } else {
        assert (e + t)[1..] == t;
      }
      assert [s[0]] + s[1..] == s;
    }
  }

  /** Round trip: the key shown in the header reads back as the key. */
  lemma EscapeRoundTrip(display: bool, style: LiteralStyle, s: string)
    requires display
    ensures Unescape(style, EscapeStringLiteral(display, style, s)) == s
  {
    EscapeIsPerCharacter(style, s);
    UnescapeEach(style, s);
  }

  // ---------------------------------------------------------------------
  // lineColumnToString
  // ---------------------------------------------------------------------

  function DigitChar(d: int): char
    requires 0 <= d < 10
  {
    ['0', '1', '2', '3', '4', '5', '6', '7', '8', '9'][d]
  }

  predicate IsDigit(c: char)
  {
    '0' <= c <= '9'
  }

  function DigitValue(c: char): int
    requires IsDigit(c)
  {
    c as int - '0' as int
  }

  predicate AllDigits(s: string)
  {
    forall i :: 0 <= i < |s| ==> IsDigit(s[i])
  }

  /** The decimal digits of n, most significant first, no leading zero. */
  function Digits(n: nat): (r: string)
    ensures |r| >= 1 && AllDigits(r)
    decreases n
  {
    if n < 10 then [DigitChar(n)] else Digits(n / 10) + [DigitChar(n % 10)]
  }

  /** A number in decimal, as `%d` prints it. */
  function Decimal(n: int): string
  {
    if n < 0 then "-" + Digits(-n) else Digits(n)
  }

  function DigitsValue(s: string): int
    requires AllDigits(s)
    decreases |s|
  {
    if |s| == 0 then 0 else 10 * DigitsValue(s[..|s| - 1]) + DigitValue(s[|s| - 1])
  }

  lemma {:induction false} DigitsRoundTrip(n: nat)
    ensures DigitsValue(Digits(n)) == n
    decreases n
  {
    if n >= 10 {
      var s := Digits(n / 10);
      assert (s + [DigitChar(n % 10)])[..|s|] == s;
      DigitsRoundTrip(n / 10);
    }
  }

  function ParseDecimal(s: string): Option<int>
  {
    if |s| > 1 && s[0] == '-' && AllDigits(s[1..]) then Some(-DigitsValue(s[1..]))
    else if |s| > 0 && AllDigits(s) then Some(DigitsValue(s))
    else None
  }

  lemma DecimalRoundTrip(n: int)
    ensures ParseDecimal(Decimal(n)) == Some(n)
  {
    if n < 0 {
      var d := Digits(-n);
      var s := "-" + d;
      assert s[1..] == d;
      DigitsRoundTrip(-n);
      assert ParseDecimal(s) == Some(-DigitsValue(d));
    } else {
      var d := Digits(n);
      assert IsDigit(d[0]);
      DigitsRoundTrip(n);
      assert ParseDecimal(d) == Some(DigitsValue(d));
    }
  }

  /** The "(line,column)" tag of a style-1 result line. */
  function LineColumn(line: int, column: int): string
  {
    "(" + Decimal(line) + "," + Decimal(column) + ")"
  }

  /** The index of the first `c` in s, or |s| when there is none. */
  function IndexOf(s: string, c: char): (k: nat)
    ensures k <= |s|
    ensures forall i :: 0 <= i < k ==> s[i] != c
    ensures k < |s| ==> s[k] == c
    decreases |s|
  {
    if |s| == 0 then 0 else if s[0] == c then 0 else 1 + IndexOf(s[1..], c)
  }

  lemma SplitAtFirst(a: string, b: string, c: char)
    requires c !in a
    ensures var s := a + [c] + b; IndexOf(s, c) == |a| && s[..|a|] == a && s[|a| + 1..] == b
  {
    var s := a + [c] + b;
    assert forall i :: 0 <= i < |a| ==> s[i] == a[i];
    assert s[|a|] == c;
  }

  function ParseLineColumn(s: string): Option<(int, int)>
  {
    if |s| < 2 || s[0] != '(' || s[|s| - 1] != ')' then None
    else
      var inner := s[1..|s| - 1];
      var k := IndexOf(inner, ',');
      if k == |inner| then None
      else
        match (ParseDecimal(inner[..k]), ParseDecimal(inner[k + 1..]))
        case (Some(l), Some(c)) => Some((l, c))
        case _ => None
  }

  /** Round trip: the tag reads back as the line and column it was built from. */
  lemma LineColumnRoundTrip(line: int, column: int)
    ensures ParseLineColumn(LineColumn(line, column)) == Some((line, column))
  {
    var a, b := Decimal(line), Decimal(column);
    var s := LineColumn(line, column);
    assert s == "(" + (a + "," + b) + ")";
    var inner := a + "," + b;
    assert s[1..|s| - 1] == inner;
    assert ',' !in a;
    SplitAtFirst(a, b, ',');
    DecimalRoundTrip(line);
    DecimalRoundTrip(column);
  }

  // ---------------------------------------------------------------------
  // SetGrepResult
  // ---------------------------------------------------------------------

  /** The grep output options that shape a record. */
  datatype OutputStyle = OutputStyle(style: int, baseFolder: bool, separateFolder: bool)

  function Spaces(n: int): string
    decreases n
  {
    if n <= 0 then "" else " " + Spaces(n - 1)
  }

  /** `%Nd`: right-aligned in N columns, `%-Nd`: left-aligned. */
  function PadLeft(s: string, width: int): string
  {
    Spaces(width - |s|) + s
  }

  function PadRight(s: string, width: int): string
  {
    s + Spaces(width - |s|)
  }

  /** The longest part of the match text a record keeps, per style. */
  function MaxOutStr(style: int): int
  {
    if style == 1 then 2000 else if style == 2 || style == 3 then 2500 else 0
  }

  /** The text before the match in a record of the given style. */
  function RecordPrefix(opt: OutputStyle, path: string, codeName: string, line: int, column: int): string
  {
    if opt.style == 1 then
      (if opt.baseFolder || opt.separateFolder then "・" else "")
      + path + LineColumn(line, column) + codeName + ": "
    else if opt.style == 2 then
      "・(" + PadLeft(Decimal(line), 6) + "," + PadRight(Decimal(column), 5) + "): "
    else ""
  }

  /** The number of match characters a record keeps. */
  function KeptLength(style: int, matchLen: int): (k: int)
    ensures 0 <= matchLen ==> 0 <= k
    ensures k <= matchLen && k <= MaxOutStr(style)
    ensures k == matchLen || k == MaxOutStr(style)
  {
    if MaxOutStr(style) < matchLen then MaxOutStr(style) else matchLen
  }

  /**
   * One result record: the prefix, the match cut to the style's maximum,
   * and CRLF unless the kept text already ends in a line delimiter.
   */
  function SetGrepResult(opt: OutputStyle, path: string, codeName: string, line: int, column: int,
                         matched: string, isDelimiter: char -> bool): (r: string)
    ensures var p := RecordPrefix(opt, path, codeName, line, column);
            var k := KeptLength(opt.style, |matched|);
            (|r| == |p| + k || |r| == |p| + k + 2) && r[..|p|] == p &&
            (k > 0 ==> r[|p|..|p| + k] == matched[..k])
    ensures isDelimiter('\n') ==> |r| > 0 && isDelimiter(r[|r| - 1])
    ensures var k := KeptLength(opt.style, |matched|);
            (|r| >= 2 && r[|r| - 2..] == "\r\n") || (0 < k && isDelimiter(matched[k - 1]))
  {
    var p := RecordPrefix(opt, path, codeName, line, column);
    var k := KeptLength(opt.style, |matched|);
    var kept := if k > 0 then matched[..k] else "";
    if 0 < k && isDelimiter(matched[k - 1]) then p + kept else p + kept + "\r\n"
  }

  /** A style-2 prefix has fixed width while line and column fit their fields. */
  lemma WideFieldsAlign(opt: OutputStyle, path: string, codeName: string, line: nat, column: nat)
    requires opt.style == 2 && line < 1000000 && column < 100000
    ensures |RecordPrefix(opt, path, codeName, line, column)| == 17
  {
    DigitsFit(line, 6);
    DigitsFit(column, 5);
    SpacesLength(6 - |Decimal(line)|);
    SpacesLength(5 - |Decimal(column)|);
  }

  function Pow10(k: nat): nat
  {
    if k == 0 then 1 else 10 * Pow10(k - 1)
  }

  lemma {:induction false} DigitsFit(n: nat, k: nat)
    requires 1 <= k && n < Pow10(k)
    ensures |Digits(n)| <= k
    decreases k
  {
    if n >= 10 {
      assert Pow10(1) == 10;
      assert k >= 2;
      DigitsFit(n / 10, k - 1);
    }
  }

  lemma {:induction false} SpacesLength(n: int)
    ensures |Spaces(n)| == if n <= 0 then 0 else n
    decreases n
  {
    if n > 0 { SpacesLength(n - 1); }
  }

  // ---------------------------------------------------------------------
  // OutputPathInfo
  // ---------------------------------------------------------------------

  /** Which headings of the current base folder, folder and file are out. */
  datatype Headings = Headings(baseFolder: bool, folderName: bool, fileName: bool)

  /** The paths a heading may show. */
  datatype FilePaths = FilePaths(fullPath: string, baseFolder: string, folder: string, relPath: string,
                                 codeName: string)

  /**
   * The headings to print before a record, and the flags afterwards:
   * the base folder once (when asked), the folder once (when folders are
   * separated), the file once (style 2).  Style 3 prints none.
   */
  function OutputPathInfo(opt: OutputStyle, paths: FilePaths, h: Headings): (r: (string, Headings))
    ensures opt.style == 3 ==> r == ("", h)
    ensures opt.style != 3 ==>
              r.1 == Headings(h.baseFolder || opt.baseFolder, h.folderName || opt.separateFolder,
                              h.fileName || opt.style == 2)
    ensures r.0 == "" <==> r.1 == h
  {
    if opt.style == 3 then ("", h)
    else
      var base :=
        if !h.baseFolder && opt.baseFolder then
          (if !opt.separateFolder && opt.style == 1 then "■\"" else "◎\"") + paths.baseFolder + "\"\r\n"
        else "";
      var h1 := if !h.baseFolder && opt.baseFolder then h.(baseFolder := true) else h;
      var folder :=
        if !h1.folderName && opt.separateFolder then
          (if |paths.folder| > 0 then "■\"" + paths.folder + "\"\r\n" else "■\r\n")
        else "";
      var h2 := if !h1.folderName && opt.separateFolder then h1.(folderName := true) else h1;
      var file :=
        if opt.style == 2 && !h2.fileName then
          (if opt.separateFolder then "◆\"" else "■\"")
          + (if opt.separateFolder || opt.baseFolder then paths.relPath else paths.fullPath)
          + "\"" + paths.codeName + "\r\n"
        else "";
      var h3 := if opt.style == 2 then h2.(fileName := true) else h2;
      (base + folder + file, h3)
  }

  /** Each heading is printed once: a second call prints nothing. */
  lemma HeadingsOnce(opt: OutputStyle, paths: FilePaths, h: Headings)
    ensures var r := OutputPathInfo(opt, paths, h);
            OutputPathInfo(opt, paths, r.1) == ("", r.1)
  {
  }
}

=== FILE: grep_scan.dfy ===
/**
 * The per-line loop of DoGrepReplaceFile (CGrepAgent.cpp): the matcher is
 * asked for the next match from a scan index, each match is counted in
 * the file and the total hit counters, a result record is emitted subject
 * to the output line type, and in replace mode the line is rebuilt from
 * the untouched stretches and the replacement texts.
 *
 * The regular-expression engine is an oracle: `find(i)` is the match the
 * engine reports when asked to search the line from index i, as a pair
 * (start, length), and `rep(i)` the replacement text it produces for that
 * match.  Matches that run on into following lines are the business of
 * the Bregexp model; here a match lies inside its line.
 */
module GrepScan {
  import opened Wrappers
  import Bregexp

  /** The engine's answer for a search from i lies inside the line, at or after i. */
  predicate MatchIn(m: Option<(int, int)>, i: int, n: int)
  {
    m.None? || (i <= m.value.0 && 0 <= m.value.1 && m.value.0 + m.value.1 <= n)
  }

  /** Every answer of the matcher on a line of length n lies inside it. */
  predicate Sound(n: int, find: int -> Option<(int, int)>)
  {
    forall i :: 0 <= i <= n ==> MatchIn(find(i), i, n)
  }

  /** Where the search resumes after a match: its end, one further for an empty match. */
  function NextIndex(p: int, len: int): (k: int)
    requires 0 <= len
    ensures k > p
  {
    if len == 0 then p + 1 else p + len
  }

  // ---------------------------------------------------------------------
  // The rebuilt line in replace mode
  // ---------------------------------------------------------------------

  /**
   * The rebuilt line as the source writes it: the stretch from the scan
   * index to the match, then the replacement, then on from NextIndex.
   * After an empty match the scan index passes the character at the
   * match, and that character is copied by nobody.
   */
  function ReplaceAsWritten(line: string, find: int -> Option<(int, int)>, rep: int -> string, i: int): string
    requires Sound(|line|, find) && 0 <= i
    decreases |line| + 1 - i
  {
    if i > |line| then ""
    else
      match find(i)
      case None => line[i..]
      case Some((p, len)) => line[i..p] + rep(i) + ReplaceAsWritten(line, find, rep, NextIndex(p, len))
  }

  /** An engine that finds one empty match at the start of any line and nothing after it. */
  function EmptyAtStart(i: int): Option<(int, int)>
  {
    if i == 0 then Some((0, 0)) else None
  }

  /**
   * Replacing a `^`-like empty match with itself should leave the line as
   * it is; as written the first character is lost.
   */
  lemma EmptyMatchDropsCharacter()
    ensures Sound(2, EmptyAtStart)
    ensures ReplaceAsWritten("ab", EmptyAtStart, i => "", 0) == "b"
    ensures ReplaceLine("ab", EmptyAtStart, i => "", 0) == "ab"
  {
    assert Sound(2, EmptyAtStart);
    var line := "ab";
    assert ReplaceAsWritten(line, EmptyAtStart, i => "", 1) == line[1..];
    assert ReplaceLine(line, EmptyAtStart, i => "", 1) == line[1..];
    assert [line[0]] + line[1..] == line;
  }

  /**
   * The rebuilt line with the skipped character copied: after an empty
   * match inside the line, the character at the match follows the
   * replacement.
   */
  function ReplaceLine(line: string, find: int -> Option<(int, int)>, rep: int -> string, i: int): string
    requires Sound(|line|, find) && 0 <= i
    decreases |line| + 1 - i
  {
    if i > |line| then ""
    else
      match find(i)
      case None => line[i..]
      case Some((p, len)) =>
        line[i..p] + rep(i) + (if len == 0 && p < |line| then [line[p]] else "")
        + ReplaceLine(line, find, rep, NextIndex(p, len))
  }

  /** The replacement of each match is the matched text itself. */
  predicate SelfReplacing(line: string, find: int -> Option<(int, int)>, rep: int -> string)
    requires Sound(|line|, find)
  {
    forall i :: 0 <= i <= |line| && find(i).Some? ==> rep(i) == line[find(i).value.0..find(i).value.0 + find(i).value.1]
  }

  /** Replacing every match by the text it matched gives back the line. */
  lemma {:induction false} ReplaceBySelfIsIdentity(line: string, find: int -> Option<(int, int)>,
                                                   rep: int -> string, i: int)
    requires Sound(|line|, find) && SelfReplacing(line, find, rep) && 0 <= i <= |line| + 1
    ensures ReplaceLine(line, find, rep, i) == if i <= |line| then line[i..] else ""
    decreases |line| + 1 - i
  {
    if i <= |line| && find(i).Some? {
      var (p, len) := find(i).value;
      assert MatchIn(find(i), i, |line|);
      var k := NextIndex(p, len);
      var kept := if len == 0 && p < |line| then [line[p]] else "";
      assert rep(i) == line[p..p + len];
      assert ReplaceLine(line, find, rep, i) == line[i..p] + rep(i) + kept + ReplaceLine(line, find, rep, k);
      ReplaceBySelfIsIdentity(line, find, rep, k);
      SelfStep(line, i, p, len, k, kept);
    }
  }

  /** The pieces of one step of a self-replacement put the line back together. */
  lemma SelfStep(line: string, i: int, p: int, len: int, k: int, kept: string)
    requires 0 <= i <= p && 0 <= len && p + len <= |line|
    requires k == (if len == 0 then p + 1 else p + len)
    requires kept == (if len == 0 && p < |line| then [line[p]] else "")
    ensures line[i..p] + line[p..p + len] + kept + (if k <= |line| then line[k..] else "") == line[i..]
  {
    if len == 0 && p < |line| {
      assert line[i..p] + [line[p]] + line[p + 1..] == line[i..];
    } else if len == 0 {
      assert line[i..p] == line[i..];
    } else {
      assert line[i..p] + line[p..p + len] + line[k..] == line[i..];
    }
  }

  /** With no match from i on, the rest of the line is copied unchanged. */
  lemma NoMatchCopies(line: string, find: int -> Option<(int, int)>, rep: int -> string, i: int)
    requires Sound(|line|, find) && 0 <= i <= |line| && find(i).None?
    ensures ReplaceLine(line, find, rep, i) == line[i..]
    ensures ReplaceAsWritten(line, find, rep, i) == line[i..]
  {
  }

  /** The two agree wherever no empty match falls inside the line. */
  lemma {:induction false} AsWrittenAgreesWithoutEmptyMatches(line: string, find: int -> Option<(int, int)>,
                                                              rep: int -> string, i: int)
    requires Sound(|line|, find) && 0 <= i
    requires forall j :: 0 <= j <= |line| && find(j).Some? ==> find(j).value.1 > 0 || find(j).value.0 == |line|
    ensures ReplaceAsWritten(line, find, rep, i) == ReplaceLine(line, find, rep, i)
    decreases |line| + 1 - i
  {
    if i <= |line| && find(i).Some? {
      var (p, len) := find(i).value;
      AsWrittenAgreesWithoutEmptyMatches(line, find, rep, NextIndex(p, len));
    }
  }

  // ---------------------------------------------------------------------
  // The scan of one line
  // ---------------------------------------------------------------------

  /** The options the line loop reads. */
  datatype ScanOption = ScanOption(lineType: int, fileOnly: bool, replace: bool)

  /** What the caller guarantees: replace mode never inverts (DoGrep folds type 2 into 1),
      and a file-only search stops the file at its first hit. */
  predicate Normalised(opt: ScanOption, fileHits: int)
  {
    (opt.replace ==> opt.lineType != 2) && (!opt.replace && opt.fileOnly ==> fileHits == 0)
  }

  /** The counters and output of one line. */
  datatype LineScan = LineScan(fileHits: nat, totalHits: nat, lastRecordLine: int, records: nat, out: string)

  /**
   * One line: `lineNo` is the displayed line number, `lastRecordLine` the
   * line of the latest record (the source's iMatchLinePrev).
   */
  method ScanLine(line: string, lineNo: int, find: int -> Option<(int, int)>, rep: int -> string,
                  opt: ScanOption, fileHits: nat, totalHits: nat, lastRecordLine: int)
    returns (r: LineScan)
    requires Sound(|line|, find) && Normalised(opt, fileHits)
    ensures r.fileHits - fileHits == r.totalHits - totalHits
    ensures r.records <= r.fileHits - fileHits
    ensures opt.lineType != 0 ==> r.records <= 1
    ensures opt.lineType != 0 && lastRecordLine == lineNo ==> r.records == 0
    ensures opt.lineType == 2 ==> r.fileHits == fileHits + (if find(0).None? then 1 else 0)
    ensures !opt.replace && (opt.lineType != 0 || opt.fileOnly) ==> r.fileHits <= fileHits + 1
    ensures find(0).Some? && opt.lineType != 2 ==> r.fileHits > fileHits
    ensures r.records > 0 ==> r.lastRecordLine == lineNo
    ensures r.records == 0 ==> r.lastRecordLine == lastRecordLine
    ensures opt.replace ==> r.out == ReplaceLine(line, find, rep, 0)
  {
    var output := !(opt.fileOnly && 1 <= fileHits);
    var index := 0;
    var hits, total, records := fileHits, totalHits, 0;
    var last := lastRecordLine;
    var buf := "";
    while index <= |line|
      invariant 0 <= index
      invariant !opt.replace ==> output
      invariant hits - fileHits == total - totalHits && hits >= fileHits && records <= hits - fileHits
      invariant opt.lineType != 0 ==> records <= 1
      invariant opt.lineType != 0 && lastRecordLine == lineNo ==> records == 0
      invariant opt.lineType != 0 && records == 1 ==> last == lineNo
      invariant opt.lineType == 2 ==> index == 0 && hits == fileHits
      invariant !opt.replace && (opt.lineType != 0 || opt.fileOnly) ==> index == 0 && hits == fileHits
      invariant index > 0 && opt.lineType != 2 ==> hits > fileHits
      invariant records > 0 ==> last == lineNo
      invariant records == 0 ==> last == lastRecordLine
      invariant opt.replace ==> Rebuilt(line, find, rep, index, buf)
      decreases |line| + 1 - index
    {
      var m := find(index);
      var matched := if opt.lineType == 2 then m.None? else m.Some?;
      if !matched {
        break;
      }
      hits, total := hits + 1, total + 1;
      if output {
        if opt.lineType == 0 || last != lineNo {
          last := lineNo;
          records := records + 1;
        }
        if opt.lineType != 0 || opt.fileOnly {
          if opt.replace {
            output := false;
          } else {
            break;
          }
        }
      }
      assert m.Some? && MatchIn(m, index, |line|);
      var (p, len) := m.value;
      if opt.replace {
        var kept := if len == 0 && p < |line| then [line[p]] else "";
        RebuildStep(line, find, rep, index, p, len, kept, buf);
        buf := buf + line[index..p] + rep(index) + kept;
      }
      index := NextIndex(p, len);
    }
    if opt.replace {
      if index <= |line| {
        NoMatchCopies(line, find, rep, index);
        buf := buf + line[index..];
      } else {
        assert ReplaceLine(line, find, rep, index) == "";
        assert buf + "" == buf;
      }
    }
    r := LineScan(hits, total, last, records, buf);
  }

  /** The output so far and the rebuild of the rest make the rebuilt line. */
  predicate Rebuilt(line: string, find: int -> Option<(int, int)>, rep: int -> string, i: int, buf: string)
    requires Sound(|line|, find) && 0 <= i
  {
    buf + ReplaceLine(line, find, rep, i) == ReplaceLine(line, find, rep, 0)
  }

  lemma RebuildStep(line: string, find: int -> Option<(int, int)>, rep: int -> string, i: int,
                    p: int, len: int, kept: string, buf: string)
    requires Sound(|line|, find) && 0 <= i <= |line| && find(i) == Some((p, len))
    requires kept == (if len == 0 && p < |line| then [line[p]] else "")
    requires Rebuilt(line, find, rep, i, buf)
    ensures i <= p && 0 <= len && p + len <= |line|
    ensures Rebuilt(line, find, rep, NextIndex(p, len), buf + line[i..p] + rep(i) + kept)
  {
    assert MatchIn(find(i), i, |line|);
    var rest := ReplaceLine(line, find, rep, NextIndex(p, len));
    assert ReplaceLine(line, find, rep, i) == line[i..p] + rep(i) + kept + rest;
    assert buf + (line[i..p] + rep(i) + kept + rest) == buf + line[i..p] + rep(i) + kept + rest;
  }

  /**
   * One line as the source writes it: the counters and records are those
   * of ScanLine, but in replace mode the character at an empty match is
   * copied by nobody, so the rebuilt line is ReplaceAsWritten.
   */
  method ScanLineAsWritten(line: string, lineNo: int, find: int -> Option<(int, int)>, rep: int -> string,
                  opt: ScanOption, fileHits: nat, totalHits: nat, lastRecordLine: int)
    returns (r: LineScan)
    requires Sound(|line|, find) && Normalised(opt, fileHits)
    ensures r.fileHits - fileHits == r.totalHits - totalHits
    ensures r.records <= r.fileHits - fileHits
    ensures opt.lineType != 0 ==> r.records <= 1
    ensures opt.lineType != 0 && lastRecordLine == lineNo ==> r.records == 0
    ensures opt.lineType == 2 ==> r.fileHits == fileHits + (if find(0).None? then 1 else 0)
    ensures !opt.replace && (opt.lineType != 0 || opt.fileOnly) ==> r.fileHits <= fileHits + 1
    ensures find(0).Some? && opt.lineType != 2 ==> r.fileHits > fileHits
    ensures r.records > 0 ==> r.lastRecordLine == lineNo
    ensures r.records == 0 ==> r.lastRecordLine == lastRecordLine
    ensures opt.replace ==> r.out == ReplaceAsWritten(line, find, rep, 0)
  {
    var output := !(opt.fileOnly && 1 <= fileHits);
    var index := 0;
    var hits, total, records := fileHits, totalHits, 0;
    var last := lastRecordLine;
    var buf := "";
    while index <= |line|
      invariant 0 <= index
      invariant !opt.replace ==> output
      invariant hits - fileHits == total - totalHits && hits >= fileHits && records <= hits - fileHits
      invariant opt.lineType != 0 ==> records <= 1
      invariant opt.lineType != 0 && lastRecordLine == lineNo ==> records == 0
      invariant opt.lineType != 0 && records == 1 ==> last == lineNo
      invariant opt.lineType == 2 ==> index == 0 && hits == fileHits
      invariant !opt.replace && (opt.lineType != 0 || opt.fileOnly) ==> index == 0 && hits == fileHits
      invariant index > 0 && opt.lineType != 2 ==> hits > fileHits
      invariant records > 0 ==> last == lineNo
      invariant records == 0 ==> last == lastRecordLine
      invariant opt.replace ==> RebuiltAsWritten(line, find, rep, index, buf)
      decreases |line| + 1 - index
    {
      var m := find(index);
      var matched := if opt.lineType == 2 then m.None? else m.Some?;
      if !matched {
        break;
      }
      hits, total := hits + 1, total + 1;
      if output {
        if opt.lineType == 0 || last != lineNo {
          last := lineNo;
          records := records + 1;
        }
        if opt.lineType != 0 || opt.fileOnly {
          if opt.replace {
            output := false;
          } else {
            break;
          }
        }
      }
      assert m.Some? && MatchIn(m, index, |line|);
      var (p, len) := m.value;
      if opt.replace {
        RebuildStepAsWritten(line, find, rep, index, p, len, buf);
        buf := buf + line[index..p] + rep(index);
      }
      index := NextIndex(p, len);
    }
    if opt.replace {
      if index <= |line| {
        NoMatchCopies(line, find, rep, index);
        buf := buf + line[index..];
      } else {
        assert ReplaceAsWritten(line, find, rep, index) == "";
        assert buf + "" == buf;
      }
    }
    r := LineScan(hits, total, last, records, buf);
  }

  /** The output so far and the rebuild as written of the rest make the
      rebuilt line as written. */
  predicate RebuiltAsWritten(line: string, find: int -> Option<(int, int)>, rep: int -> string, i: int, buf: string)
    requires Sound(|line|, find) && 0 <= i
  {
    buf + ReplaceAsWritten(line, find, rep, i) == ReplaceAsWritten(line, find, rep, 0)
  }

  lemma RebuildStepAsWritten(line: string, find: int -> Option<(int, int)>, rep: int -> string, i: int,
                             p: int, len: int, buf: string)
    requires Sound(|line|, find) && 0 <= i <= |line| && find(i) == Some((p, len))
    requires RebuiltAsWritten(line, find, rep, i, buf)
    ensures i <= p && 0 <= len && p + len <= |line|
    ensures RebuiltAsWritten(line, find, rep, NextIndex(p, len), buf + line[i..p] + rep(i))
  {
    assert MatchIn(find(i), i, |line|);
    var rest := ReplaceAsWritten(line, find, rep, NextIndex(p, len));
    assert ReplaceAsWritten(line, find, rep, i) == line[i..p] + rep(i) + rest;
    assert buf + (line[i..p] + rep(i) + rest) == buf + line[i..p] + rep(i) + rest;
  }

  /** The grep's check for a negative replacement count never fires: Replace returns 0 on error. */
  lemma ReplaceCountNeverNegative(re: Bregexp.Regex, subject: Option<string>, start: int,
                                  replacement: Option<string>, substitute: Bregexp.Substitute, allocOk: bool)
    requires Bregexp.Valid(re)
    ensures Bregexp.Replace(re, subject, start, replacement, substitute, allocOk).count >= 0
  {
  }
}

=== FILE: grep_tree.dfy ===
/**
 * The grep driver above the per-file scan (CGrepAgent.cpp): DoGrepTree
 * walks a folder, all of its files first and then, when sub-folders are
 * searched, each sub-folder in turn; a cancelled file or sub-tree ends the
 * walk with -1 after flushing the pending output.  DoGrep guards against
 * re-entry with a running flag, folds the options, and runs the walk over
 * each search root.
 *
 * The file system is a tree value; what grepping one file yields (its
 * hits, the text it adds to the pending output, whether the user
 * cancelled during it) is an oracle keyed by the file's path, and so is
 * the time- and count-based decision to flush pending output after a
 * file.
 */
module GrepTree {
  import GrepFormat
  import GrepScan

  datatype Folder = Folder(files: seq<string>, subs: seq<SubFolder>)
  datatype SubFolder = SubFolder(name: string, folder: Folder)

  /** What grepping one file yields. */
  datatype FileOutcome = FileOutcome(cancelled: bool, hits: nat, text: string)

  /** The pending output, the output already shown, and the total hit count. */
  datatype Progress = Progress(shown: string, pending: string, hits: nat)

  function Child(path: string, name: string): string
  {
    path + "\\" + name
  }

  // ---------------------------------------------------------------------
  // The reference order
  // ---------------------------------------------------------------------

  function FilePaths(path: string, files: seq<string>): (r: seq<string>)
    ensures |r| == |files|
    decreases |files|
  {
    if |files| == 0 then [] else [Child(path, files[0])] + FilePaths(path, files[1..])
  }

  /** Every file under the folder, in search order: the folder's own files
      first, then each sub-folder's listing, when sub-folders are searched. */
  function Listing(path: string, f: Folder, recurse: bool): seq<string>
    decreases f, 1
  {
    FilePaths(path, f.files) + (if recurse then SubListing(path, f.subs, recurse) else [])
  }

  function SubListing(path: string, subs: seq<SubFolder>, recurse: bool): seq<string>
    decreases subs, 0
  {
    if |subs| == 0 then []
    else Listing(Child(path, subs[0].name), subs[0].folder, recurse) + SubListing(path, subs[1..], recurse)
  }

  /** The files visited: the listing up to and including the first cancelled one. */
  function Until(paths: seq<string>, outcome: string -> FileOutcome): (r: seq<string>)
    ensures |r| <= |paths| && r == paths[..|r|]
    decreases |paths|
  {
    if |paths| == 0 then []
    else if outcome(paths[0]).cancelled then [paths[0]]
    else [paths[0]] + Until(paths[1..], outcome)
  }

  /** Whether some file of the list is cancelled. */
  predicate Stops(paths: seq<string>, outcome: string -> FileOutcome)
  {
    exists i :: 0 <= i < |paths| && outcome(paths[i]).cancelled
  }

  /** The text and hits the visited files add. */
  function Texts(paths: seq<string>, outcome: string -> FileOutcome): string
    decreases |paths|
  {
    if |paths| == 0 then "" else outcome(paths[0]).text + Texts(paths[1..], outcome)
  }

  function Hits(paths: seq<string>, outcome: string -> FileOutcome): nat
    decreases |paths|
  {
    if |paths| == 0 then 0 else outcome(paths[0]).hits + Hits(paths[1..], outcome)
  }

  lemma {:induction false} UntilAppend(a: seq<string>, b: seq<string>, outcome: string -> FileOutcome)
    ensures Stops(a + b, outcome) == (Stops(a, outcome) || Stops(b, outcome))
    ensures Until(a + b, outcome) == if Stops(a, outcome) then Until(a, outcome) else a + Until(b, outcome)
    decreases |a|
  {
    if |a| == 0 {
      assert a + b == b;
    } else {
      assert (a + b)[0] == a[0] && (a + b)[1..] == a[1..] + b;
      UntilAppend(a[1..], b, outcome);
      StopsCons(a, outcome);
      StopsCons(a + b, outcome);
    }
  }

  lemma StopsCons(a: seq<string>, outcome: string -> FileOutcome)
    requires |a| > 0
    ensures Stops(a, outcome) == (outcome(a[0]).cancelled || Stops(a[1..], outcome))
  {
    if Stops(a[1..], outcome) {
      var i :| 0 <= i < |a[1..]| && outcome(a[1..][i]).cancelled;
      assert a[i + 1] == a[1..][i];
    }
    if Stops(a, outcome) && !outcome(a[0]).cancelled {
      var i :| 0 <= i < |a| && outcome(a[i]).cancelled;
      assert a[1..][i - 1] == a[i];
    }
  }

  lemma {:induction false} UntilWhole(a: seq<string>, outcome: string -> FileOutcome)
    ensures !Stops(a, outcome) ==> Until(a, outcome) == a
    decreases |a|
  {
    if |a| > 0 {
      StopsCons(a, outcome);
      UntilWhole(a[1..], outcome);
    }
  }

  lemma {:induction false} TextsAppend(a: seq<string>, b: seq<string>, outcome: string -> FileOutcome)
    ensures Texts(a + b, outcome) == Texts(a, outcome) + Texts(b, outcome)
    ensures Hits(a + b, outcome) == Hits(a, outcome) + Hits(b, outcome)
    decreases |a|
  {
    if |a| == 0 {
      assert a + b == b;
    } else {
      assert (a + b)[0] == a[0] && (a + b)[1..] == a[1..] + b;
      TextsAppend(a[1..], b, outcome);
    }
  }

  // ---------------------------------------------------------------------
  // The walk
  // ---------------------------------------------------------------------

  /** The result of a walk: 0 or -1, the files visited, and the progress after. */
  datatype Walk = Walk(ret: int, visited: seq<string>, progress: Progress)

  /** Nothing is lost or reordered: shown and pending output together grow by the
      visited files' texts, the hit count by their hits. */
  predicate Accounts(before: Progress, w: Walk, outcome: string -> FileOutcome)
  {
    w.progress.shown + w.progress.pending == before.shown + before.pending + Texts(w.visited, outcome)
    && w.progress.hits == before.hits + Hits(w.visited, outcome)
  }

  /** A walk over the given files in order, stopping after the first cancelled one. */
  predicate WalkOf(paths: seq<string>, p: Progress, w: Walk, outcome: string -> FileOutcome)
  {
    && w.visited == Until(paths, outcome)
    && (w.ret == -1) == Stops(paths, outcome) && (w.ret == 0 || w.ret == -1)
    && (w.ret == -1 ==> w.progress.pending == "")
    && Accounts(p, w, outcome)
  }

  /** A walk of a that stopped is a walk of a + b. */
  lemma Stopped(a: seq<string>, b: seq<string>, p: Progress, w: Walk, outcome: string -> FileOutcome)
    requires WalkOf(a, p, w, outcome) && w.ret == -1
    ensures WalkOf(a + b, p, w, outcome)
  {
    UntilAppend(a, b, outcome);
  }

  /** A walk of a that ran through, followed by a walk of b, is a walk of a + b. */
  lemma Sequenced(a: seq<string>, b: seq<string>, p: Progress, w1: Walk, w2: Walk, outcome: string -> FileOutcome)
    requires WalkOf(a, p, w1, outcome) && w1.ret != -1 && WalkOf(b, w1.progress, w2, outcome)
    ensures WalkOf(a + b, p, Walk(w2.ret, w1.visited + w2.visited, w2.progress), outcome)
  {
    UntilAppend(a, b, outcome);
    UntilWhole(a, outcome);
    Joined(p, w1, w2, outcome);
  }

  /** Two walks in a row account for the files of both. */
  lemma Joined(p: Progress, w1: Walk, w2: Walk, outcome: string -> FileOutcome)
    requires Accounts(p, w1, outcome) && Accounts(w1.progress, w2, outcome)
    ensures Accounts(p, Walk(w2.ret, w1.visited + w2.visited, w2.progress), outcome)
  {
    TextsAppend(w1.visited, w2.visited, outcome);
  }

  /** After one file: its text is pending, and pending output is shown when the
      flush decision says so. */
  function AfterFile(p: Progress, path: string, o: FileOutcome, flushNow: string -> bool): (q: Progress)
    ensures q.shown + q.pending == p.shown + p.pending + o.text
    ensures q.hits == p.hits + o.hits
  {
    var pending := p.pending + o.text;
    if |pending| > 0 && flushNow(path) then Progress(p.shown + pending, "", p.hits + o.hits)
    else Progress(p.shown, pending, p.hits + o.hits)
  }

  /** The cancel exit: pending output is shown. */
  function Flush(p: Progress): (q: Progress)
    ensures q.pending == "" && q.shown + q.pending == p.shown + p.pending && q.hits == p.hits
  {
    Progress(p.shown + p.pending, "", p.hits)
  }

  /** The file loop of DoGrepTree, from the i-th file on. */
  function GrepFiles(path: string, files: seq<string>, i: nat, p: Progress,
                     outcome: string -> FileOutcome, flushNow: string -> bool): (w: Walk)
    requires i <= |files|
    ensures WalkOf(FilePaths(path, files)[i..], p, w, outcome)
    decreases |files| - i
  {
    if i == |files| then Walk(0, [], p)
    else
      var name := Child(path, files[i]);
      var o := outcome(name);
      var q := AfterFile(p, name, o, flushNow);
      var all := FilePaths(path, files);
      assert all[i] == name by { FilePathsAt(path, files, i); }
      assert all[i..][1..] == all[i + 1..];
      StopsCons(all[i..], outcome);
      if o.cancelled then
        Walk(-1, [name], Flush(q))
      else
        var w := GrepFiles(path, files, i + 1, q, outcome, flushNow);
        assert [name] + w.visited == Until(all[i..], outcome);
        Walk(w.ret, [name] + w.visited, w.progress)
  }

  lemma {:induction false} FilePathsAt(path: string, files: seq<string>, i: nat)
    requires i < |files|
    ensures FilePaths(path, files)[i] == Child(path, files[i])
    decreases i
  {
    if i > 0 {
      FilePathsAt(path, files[1..], i - 1);
    }
  }

  /** DoGrepTree: the folder's files, then its sub-folders when asked. */
  function DoGrepTree(path: string, f: Folder, recurse: bool, p: Progress,
                      outcome: string -> FileOutcome, flushNow: string -> bool): (w: Walk)
    ensures WalkOf(Listing(path, f, recurse), p, w, outcome)
    decreases f, 1
  {
    var own := FilePaths(path, f.files);
    assert own[0..] == own;
    var w1 := GrepFiles(path, f.files, 0, p, outcome, flushNow);
    if !recurse then
      assert Listing(path, f, recurse) == own + [] == own;
      w1
    else
      var rest := SubListing(path, f.subs, recurse);
      assert Listing(path, f, recurse) == own + rest;
      if w1.ret == -1 then
        Stopped(own, rest, p, w1, outcome);
        w1
      else
        var w2 := GrepSubs(path, f.subs, recurse, w1.progress, outcome, flushNow);
        Sequenced(own, rest, p, w1, w2, outcome);
        Walk(w2.ret, w1.visited + w2.visited, w2.progress)
  }

  /** The sub-folder loop of DoGrepTree. */
  function GrepSubs(path: string, subs: seq<SubFolder>, recurse: bool, p: Progress,
                    outcome: string -> FileOutcome, flushNow: string -> bool): (w: Walk)
    ensures WalkOf(SubListing(path, subs, recurse), p, w, outcome)
    decreases subs, 0
  {
    if |subs| == 0 then Walk(0, [], p)
    else
      var first := Listing(Child(path, subs[0].name), subs[0].folder, recurse);
      var others := SubListing(path, subs[1..], recurse);
      assert SubListing(path, subs, recurse) == first + others;
      var w1 := DoGrepTree(Child(path, subs[0].name), subs[0].folder, recurse, p, outcome, flushNow);
      if w1.ret == -1 then
        Stopped(first, others, p, w1, outcome);
        w1
      else
        var w2 := GrepSubs(path, subs[1..], recurse, w1.progress, outcome, flushNow);
        Sequenced(first, others, p, w1, w2, outcome);
        Walk(w2.ret, w1.visited + w2.visited, w2.progress)
  }

  /** Without sub-folder search only the folder's own files are visited. */
  lemma OwnFilesOnly(path: string, f: Folder, p: Progress, outcome: string -> FileOutcome, flushNow: string -> bool)
    ensures var w := DoGrepTree(path, f, false, p, outcome, flushNow);
            forall k :: 0 <= k < |w.visited| ==> w.visited[k] == Child(path, f.files[k])
  {
    var w := DoGrepTree(path, f, false, p, outcome, flushNow);
    var own := FilePaths(path, f.files);
    assert Listing(path, f, false) == own;
    forall k | 0 <= k < |w.visited|
      ensures w.visited[k] == Child(path, f.files[k])
    {
      FilePathsAt(path, f.files, k);
    }
  }

  /** A folder's own files are all searched before any file of its sub-folders. */
  lemma {:induction false} FilesBeforeSubfolders(path: string, f: Folder, recurse: bool,
                                                  outcome: string -> FileOutcome, flushNow: string -> bool, p: Progress)
    requires !Stops(FilePaths(path, f.files), outcome)
    ensures var w := DoGrepTree(path, f, recurse, p, outcome, flushNow);
            |w.visited| >= |f.files| && forall k :: 0 <= k < |f.files| ==> w.visited[k] == Child(path, f.files[k])
  {
    var own := FilePaths(path, f.files);
    var rest := if recurse then SubListing(path, f.subs, recurse) else [];
    UntilAppend(own, rest, outcome);
    UntilWhole(own, outcome);
    assert Listing(path, f, recurse) == own + rest;
    forall k | 0 <= k < |f.files|
      ensures own[k] == Child(path, f.files[k])
    {
      FilePathsAt(path, f.files, k);
    }
  }

  // ---------------------------------------------------------------------
  // DoGrep
  // ---------------------------------------------------------------------

  /** The grep options (SGrepOption, with the folder-layout flags the body also sets). */
  datatype GrepOption = GrepOption(replace: bool, subFolder: bool, stdout: bool, header: bool,
                                   charSet: int, lineType: int, style: int, fileOnly: bool,
                                   baseFolder: bool, separateFolder: bool, paste: bool, backup: bool)

  /** The automatic character-set detection code. */
  const CodeAutoDetect: int := 99

  /** A default-constructed option set: sub-folders and header on, automatic charset,
      matching lines, normal style, every other flag off. */
  function DefaultGrepOption(): (o: GrepOption)
    ensures o.subFolder && o.header && o.charSet == CodeAutoDetect && o.lineType == 1 && o.style == 1
    ensures !o.replace && !o.stdout && !o.fileOnly && !o.paste && !o.backup
  {
    GrepOption(false, true, false, true, CodeAutoDetect, 1, 1, false, false, false, false, false)
  }

  /** The option folding of DoGrep: in replace mode, non-matching-line output
      becomes matching-line output. */
  function Normalise(o: GrepOption): (r: GrepOption)
    ensures r.replace ==> r.lineType != 2
    ensures o.lineType != 2 || !o.replace ==> r == o
    ensures r == o.(lineType := r.lineType)
  {
    if o.replace && o.lineType == 2 then o.(lineType := 1) else o
  }

  /** What the per-line scan is told, once the options are folded. */
  lemma NormalisedScan(o: GrepOption)
    ensures var n := Normalise(o);
            GrepScan.Normalised(GrepScan.ScanOption(n.lineType, n.fileOnly, n.replace), 0)
  {
  }

  /** The early exits of DoGrep, and its normal end. */
  datatype GrepExit = EnumKeysError | ClipboardError | ViewPatternError | PatternError | HwndError | Completed

  /** The return value of a refused re-entry. */
  const Refused: int := 0xffff_ffff

  /** DoGrep's outcome as written: the return value and the running flag
      afterwards.  The HWND-error exit returns without clearing the flag. */
  function DoGrepAsWritten(running: bool, exit: GrepExit, hits: nat): (r: (int, bool))
    ensures running ==> r == (Refused, true)
    ensures !running ==> (r.1 <==> exit == HwndError)
    ensures !running ==> r.0 == if exit == Completed then hits else 0
  {
    if running then (Refused, true)
    else
      match exit
      case Completed => (hits, false)
      case HwndError => (0, true)
      case _ => (0, false)
  }

  /** After the HWND-error exit every later grep is refused. */
  lemma HwndErrorLocksGrep(hits: nat, next: GrepExit, nextHits: nat)
    ensures var first := DoGrepAsWritten(false, HwndError, hits);
            first.1 && DoGrepAsWritten(first.1, next, nextHits) == (Refused, true)
  {
  }

  /** DoGrep with the flag cleared on every exit it takes. */
  function DoGrepExit(running: bool, exit: GrepExit, hits: nat): (r: (int, bool))
    ensures running ==> r == (Refused, true)
    ensures !running ==> !r.1
    ensures !running ==> r.0 == if exit == Completed then hits else 0
  {
    if running then (Refused, true)
    else
      match exit
      case Completed => (hits, false)
      case _ => (0, false)
  }

  /** The two differ only on the HWND-error exit of a grep that was not
      already running. */
  lemma DoGrepExitsAgree(running: bool, exit: GrepExit, hits: nat)
    ensures DoGrepAsWritten(running, exit, hits) == DoGrepExit(running, exit, hits)
            <==> running || exit != HwndError
  {
  }

  /** Every file under the search roots, root by root. */
  function RootsListing(roots: seq<(string, Folder)>, recurse: bool): seq<string>
    decreases |roots|
  {
    if |roots| == 0 then []
    else Listing(GrepFormat.ChopYen(roots[0].0), roots[0].1, recurse) + RootsListing(roots[1..], recurse)
  }

  /** The walk over the search roots: each root is chopped of its trailing
      separator and walked; the first -1 ends the walk. */
  function DoGrepRoots(roots: seq<(string, Folder)>, recurse: bool, p: Progress,
                       outcome: string -> FileOutcome, flushNow: string -> bool): (w: Walk)
    ensures WalkOf(RootsListing(roots, recurse), p, w, outcome)
    decreases |roots|
  {
    if |roots| == 0 then Walk(0, [], p)
    else
      var first := Listing(GrepFormat.ChopYen(roots[0].0), roots[0].1, recurse);
      var others := RootsListing(roots[1..], recurse);
      var w1 := DoGrepTree(GrepFormat.ChopYen(roots[0].0), roots[0].1, recurse, p, outcome, flushNow);
      if w1.ret == -1 then
        Stopped(first, others, p, w1, outcome);
        w1
      else
        var w2 := DoGrepRoots(roots[1..], recurse, w1.progress, outcome, flushNow);
        Sequenced(first, others, p, w1, w2, outcome);
        Walk(w2.ret, w1.visited + w2.visited, w2.progress)
  }
}

=== FILE: header_make.dfy ===
/**
 * HeaderMake, the build tool that turns a .hsrc command list into C++
 * headers (HeaderMake/HeaderMake.cpp).  Each input line is normalised,
 * split into comma-separated fields and validated; the rows then come out
 * as an enum, as #define lines, or as the macro function tables whose
 * entries carry the argument types of each command.
 *
 * Files are not opened here: the input is the sequence of lines the reader
 * returns and every output is a string.  Messages printed to the console
 * are kept as a list of reports where the tool goes on after them.
 */
module HeaderMake {
  import opened Wrappers

  // ---------------------------------------------------------------------
  // C strings

  /** A string as a C function sees it: everything before the first NUL. */
  function CStr(s: string): (r: string)
    ensures r <= s && NoNul(r)
    ensures |r| < |s| ==> s[|r|] == '\0'
    ensures NoNul(s) ==> r == s
  {
    if |s| == 0 || s[0] == '\0' then [] else [s[0]] + CStr(s[1..])
  }

  predicate NoNul(s: string)
  {
    forall k :: 0 <= k < |s| ==> s[k] != '\0'
  }

  /** The character at `p`, where position |s| holds the terminating NUL. */
  function CharAt(s: string, p: nat): char
    requires p <= |s|
  {
    if p == |s| then '\0' else s[p]
  }

  /** strrchr2: scanning back from the terminator, the first position holding
      `c1` or `c2` -- that is, the last one -- or None.  The terminator itself
      is looked at, so a NUL among the two characters finds it. */
  method LastOfEither(str: string, c1: char, c2: char) returns (r: Option<nat>)
    ensures r.Some? ==> r.value <= |CStr(str)| && (CharAt(CStr(str), r.value) == c1 || CharAt(CStr(str), r.value) == c2)
    ensures r.Some? ==> forall q: nat :: r.value < q <= |CStr(str)| ==> CharAt(CStr(str), q) != c1 && CharAt(CStr(str), q) != c2
    ensures r.None? ==> forall q: nat :: q <= |CStr(str)| ==> CharAt(CStr(str), q) != c1 && CharAt(CStr(str), q) != c2
    ensures (forall q: nat :: q <= |CStr(str)| ==> CharAt(CStr(str), q) != c1 && CharAt(CStr(str), q) != c2) ==> r.None?
    ensures c1 == '\0' || c2 == '\0' ==> r == Some(|CStr(str)|)
  {
    var s := CStr(str);
    var p: nat := |s|;
    while true
      invariant p <= |s|
      invariant c1 == '\0' || c2 == '\0' ==> p == |s|
      invariant forall q: nat :: p < q <= |s| ==> CharAt(s, q) != c1 && CharAt(s, q) != c2
      decreases p
    {
      if CharAt(s, p) == c1 || CharAt(s, p) == c2 {
        return Some(p);
      }
      if p == 0 {
        return None;
      }
      p := p - 1;
    }
  }

  predicate IsPathSep(c: char)
  {
    c == '\\' || c == '/'
  }

  /** The file name of a path: what follows the last separator. */
  function Title(path: string): (r: string)
    ensures |r| <= |path| && r == path[|path| - |r|..]
    ensures forall k :: 0 <= k < |r| ==> !IsPathSep(r[k])
    ensures |r| < |path| ==> IsPathSep(path[|path| - |r| - 1])
  {
    if |path| == 0 then []
    else if IsPathSep(path[|path| - 1]) then []
    else Title(path[..|path| - 1]) + [path[|path| - 1]]
  }

  /** The title is everything after a separator that has none after it. */
  lemma {:induction false} TitleAfterLastSep(path: string, p: int)
    requires -1 <= p < |path|
    requires p >= 0 ==> IsPathSep(path[p])
    requires forall q :: p < q < |path| ==> !IsPathSep(path[q])
    ensures Title(path) == path[p + 1..]
    decreases |path|
  {
    if |path| > 0 && |path| - 1 != p {
      var init := path[..|path| - 1];
      assert !IsPathSep(path[|path| - 1]);
      assert Title(path) == Title(init) + [path[|path| - 1]];
      assert forall q :: p < q < |init| ==> init[q] == path[q];
      TitleAfterLastSep(init, p);
      assert path[p + 1..] == init[p + 1..] + [path[|path| - 1]];
    }
  }

  /** A directory joined to a plain name by a separator has that name as
      its title. */
  lemma TitleOfJoin(dir: string, sep: char, name: string)
    requires IsPathSep(sep)
    requires forall k :: 0 <= k < |name| ==> !IsPathSep(name[k])
    ensures Title(dir + [sep] + name) == name
  {
    var path := dir + [sep] + name;
    TitleAfterLastSep(path, |dir|);
    assert path[|dir| + 1..] == name;
  }

  /** GetFileTitlePointer: the offset of the title within a C string path. */
  method FileTitleStart(path: string) returns (start: nat)
    ensures start <= |CStr(path)| && CStr(path)[start..] == Title(CStr(path))
  {
    var s := CStr(path);
    var p := LastOfEither(path, '\\', '/');
    assert forall q :: 0 <= q < |s| ==> CharAt(s, q) == s[q];
    if p.Some? {
      assert p.value < |s|;
      TitleAfterLastSep(s, p.value);
      start := p.value + 1;
    } else {
      forall q | 0 <= q < |s|
        ensures !IsPathSep(s[q])
      {
        var at: nat := q;
        assert CharAt(s, at) != '\\' && CharAt(s, at) != '/';
        assert CharAt(s, at) == s[q];
      }
      TitleAfterLastSep(s, -1);
      start := 0;
    }
  }

  // ---------------------------------------------------------------------
  // Argument and return types

  /** retarg's maximal length: the return type and six argument types. */
  const MaxRetargNum: nat := 7

  /** TypeCharToStr: the VARIANT type of a type character. */
  function TypeName(c: char): (r: Option<string>)
    ensures r == Some("VT_EMPTY") <==> c == 'E' || c == '\0'
    ensures r == Some("VT_BSTR") <==> c == 'S'
    ensures r == Some("VT_I4") <==> c == 'I'
    ensures r.None? <==> c != 'E' && c != '\0' && c != 'S' && c != 'I'
  {
    if c == 'E' || c == '\0' then Some("VT_EMPTY")
    else if c == 'S' then Some("VT_BSTR")
    else if c == 'I' then Some("VT_I4")
    else None
  }

  /** The letter a .hsrc file writes for a VARIANT type. */
  function TypeLetter(name: string): char
  {
    if name == "VT_BSTR" then 'S' else if name == "VT_I4" then 'I' else 'E'
  }

  /** Type letters and type names are in correspondence: every name comes
      from its letter, and a letter is the one its name writes back to, NUL
      aside, which stands for an absent character. */
  lemma TypeLetterRoundTrip(c: char, name: string)
    ensures TypeName(c) == Some(name) ==> c == TypeLetter(name) || c == '\0'
    ensures TypeName(c) == Some(name) ==> TypeName(TypeLetter(name)) == Some(name)
  {
    if TypeName(c) == Some(name) {
      if c == 'E' || c == '\0' {
        assert name == "VT_EMPTY";
        assert name != "VT_BSTR" && name != "VT_I4" by {
          assert name[3] == 'E';
        }
      }
    }
  }

  /** A retarg text is accepted when it is short enough and every letter
      names a type; the empty text is accepted and means no arguments and an
      empty return type. */
  predicate RetargOk(t: string)
  {
    |t| <= MaxRetargNum && TypeName(CharAt(t, 0)).Some?
    && forall i :: 1 <= i < |t| ==> TypeName(t[i]).Some?
  }

  /** The six argument types of an accepted retarg text, padded with
      VT_EMPTY past its end. */
  function ArgNames(t: string): (r: seq<string>)
    requires RetargOk(t)
    ensures |r| == MaxRetargNum - 1
    ensures forall k :: 0 <= k < |r| && k + 1 < |t| ==> TypeName(t[k + 1]) == Some(r[k])
    ensures forall k :: 0 <= k < |r| && |t| <= k + 1 ==> r[k] == "VT_EMPTY"
  {
    seq(MaxRetargNum - 1, k requires 0 <= k < MaxRetargNum - 1 =>
          if k + 1 < |t| then TypeName(t[k + 1]).value else "VT_EMPTY")
  }

  /** The text of one argument slot: the last slot closes the brace. */
  function Slot(name: string, i: nat): string
  {
    name + (if i == MaxRetargNum - 1 then "}" else "") + ",\t"
  }

  /** The slots of argument types 1 .. |names|, in order. */
  function Slots(names: seq<string>): string
  {
    if |names| == 0 then "" else Slots(names[..|names| - 1]) + Slot(names[|names| - 1], |names|)
  }

  lemma SlotsSnoc(names: seq<string>, name: string)
    ensures Slots(names + [name]) == Slots(names) + Slot(name, |names| + 1)
  {
    assert (names + [name])[..|names|] == names;
  }

  /** Before the last slot no brace is written. */
  lemma {:induction false} SlotsOpen(names: seq<string>)
    requires |names| < MaxRetargNum - 1
    requires forall k :: 0 <= k < |names| ==> '}' !in names[k]
    ensures '}' !in Slots(names)
  {
    if |names| > 0 {
      SlotsOpen(names[..|names| - 1]);
    }
  }

  /** The full six slots end with the single closing brace. */
  lemma SlotsClose(names: seq<string>)
    requires |names| == MaxRetargNum - 1
    requires forall k :: 0 <= k < |names| ==> '}' !in names[k]
    ensures var s := Slots(names);
            |s| >= 3 && s[|s| - 3..] == "},\t" && '}' !in s[..|s| - 3]
  {
    var init := names[..|names| - 1];
    SlotsOpen(init);
    var s := Slots(names);
    assert s == Slots(init) + names[5] + "}" + ",\t";
    assert s[..|s| - 3] == Slots(init) + names[5];
  }

  /** OutputRetarg, as the text it writes: None for the error return.  A
      missing field is read as the empty text. */
  function RetargText(spec: Option<string>): (r: Option<string>)
    ensures var t := CStr(spec.GetOr(""));
            && (r.Some? <==> RetargOk(t))
            && (r.Some? ==> r.value == "{" + Slots(ArgNames(t)) + TypeName(CharAt(t, 0)).value + ", ")
  {
    var t := CStr(spec.GetOr(""));
    if RetargOk(t) then Some("{" + Slots(ArgNames(t)) + TypeName(CharAt(t, 0)).value + ", ") else None
  }

  /** OutputRetarg's first loop: the slots of the argument letters present,
      stopping at an unknown one. */
  method WriteArgSlots(t: string) returns (ok: bool, names: seq<string>, text: string)
    requires |t| <= MaxRetargNum
    ensures ok <==> forall j :: 1 <= j < |t| ==> TypeName(t[j]).Some?
    ensures ok ==> |names| + 1 == if |t| == 0 then 1 else |t|
    ensures ok ==> forall k :: 0 <= k < |names| ==> TypeName(t[k + 1]) == Some(names[k])
    ensures text == "{" + Slots(names)
  {
    text := "{";
    names := [];
    var i := 1;
    while i < |t|
      invariant 1 <= i <= MaxRetargNum && (i == 1 || i <= |t|)
      invariant |names| == i - 1
      invariant forall k :: 0 <= k < i - 1 ==> TypeName(t[k + 1]) == Some(names[k])
      invariant text == "{" + Slots(names)
    {
      var name := TypeName(t[i]);
      if name.None? {
        return false, names, text;
      }
      SlotsSnoc(names, name.value);
      names := names + [name.value];
      text := text + Slot(name.value, i);
      i := i + 1;
    }
    assert forall j :: 1 <= j < |t| ==> TypeName(t[j]) == Some(names[j - 1]);
    ok := true;
  }

  /** OutputRetarg's second loop: VT_EMPTY up to the sixth slot. */
  method PadSlots(names0: seq<string>, text0: string) returns (names: seq<string>, text: string)
    requires |names0| < MaxRetargNum && text0 == "{" + Slots(names0)
    ensures |names| == MaxRetargNum - 1 && names[..|names0|] == names0
    ensures forall k :: |names0| <= k < |names| ==> names[k] == "VT_EMPTY"
    ensures text == "{" + Slots(names)
  {
    names, text := names0, text0;
    while |names| < MaxRetargNum - 1
      invariant |names| <= MaxRetargNum - 1 && names[..|names0|] == names0
      invariant forall k :: |names0| <= k < |names| ==> names[k] == "VT_EMPTY"
      invariant text == "{" + Slots(names)
    {
      SlotsSnoc(names, "VT_EMPTY");
      names := names + ["VT_EMPTY"];
      text := text + Slot("VT_EMPTY", |names|);
    }
  }

  /** OutputRetarg: writes the six argument types, then the return type, and
      returns 1 on an over-long text or an unknown letter. */
  method OutputRetarg(spec: Option<string>) returns (code: int, text: string)
    ensures code == 0 || code == 1
    ensures code == 0 <==> RetargText(spec).Some?
    ensures code == 0 ==> text == RetargText(spec).value
    ensures |CStr(spec.GetOr(""))| > MaxRetargNum ==> code == 1 && text == ""
  {
    var t := CStr(spec.GetOr(""));
    if |t| > MaxRetargNum {
      return 1, "";
    }
    var ok, names;
    ok, names, text := WriteArgSlots(t);
    if !ok {
      return 1, text;
    }
    var given := names;
    names, text := PadSlots(names, text);
    var ret := TypeName(CharAt(t, 0));
    if ret.None? {
      return 1, text;
    }
    assert forall k :: 0 <= k < |given| ==> names[k] == given[k];
    assert names == ArgNames(t);
    text := text + ret.value + ", ";
    code := 0;
  }

  // ---------------------------------------------------------------------
  // Reading a line

  /** A character `\s` matches. */
  predicate IsSpace(c: char)
  {
    c == ' ' || c == '\t' || c == '\n' || c == '\r' || c == '\U{B}' || c == '\U{C}'
  }

  predicate AllSpace(s: string)
  {
    forall k :: 0 <= k < |s| ==> IsSpace(s[k])
  }

  predicate NoLineEnd(s: string)
  {
    forall k :: 0 <= k < |s| ==> s[k] != '\r' && s[k] != '\n'
  }

  /** Every CR and LF removed. */
  function DropLineEnds(s: string): (r: string)
    ensures NoLineEnd(r) && |r| <= |s|
    ensures NoNul(s) ==> NoNul(r)
    ensures NoLineEnd(s) ==> r == s
  {
    if |s| == 0 then []
    else (if s[0] == '\r' || s[0] == '\n' then [] else [s[0]]) + DropLineEnds(s[1..])
  }

  /** Removing line ends piecewise is removing them from the whole. */
  lemma {:induction false} DropLineEndsAppend(a: string, b: string)
    ensures DropLineEnds(a + b) == DropLineEnds(a) + DropLineEnds(b)
  {
    if |a| > 0 {
      assert (a + b)[1..] == a[1..] + b;
      DropLineEndsAppend(a[1..], b);
    } else {
      assert a + b == b;
    }
  }

  /** A comment starts at `q`: a `#` or a `//`. */
  predicate CommentAt(s: string, q: nat)
    requires q < |s|
  {
    s[q] == '#' || (s[q] == '/' && q + 1 < |s| && s[q + 1] == '/')
  }

  predicate NoComment(s: string)
  {
    forall q :: 0 <= q < |s| ==> !CommentAt(s, q)
  }

  /** The first comment start at or after `from`. */
  function FirstComment(s: string, from: nat): (r: Option<nat>)
    requires from <= |s|
    ensures r.Some? ==> from <= r.value < |s| && CommentAt(s, r.value)
    ensures r.Some? ==> forall q :: from <= q < r.value ==> !CommentAt(s, q)
    ensures r.None? ==> forall q :: from <= q < |s| ==> !CommentAt(s, q)
    decreases |s| - from
  {
    if from == |s| then None
    else if CommentAt(s, from) then Some(from)
    else FirstComment(s, from + 1)
  }

  /** The trailing blanks removed: the text `\s+$` replaces by nothing. */
  function TrimEnd(s: string): (r: string)
    ensures r <= s && (|r| > 0 ==> !IsSpace(r[|r| - 1]))
    ensures forall k :: |r| <= k < |s| ==> IsSpace(s[k])
    ensures |s| == 0 || !IsSpace(s[|s| - 1]) ==> r == s
  {
    if |s| == 0 || !IsSpace(s[|s| - 1]) then s else TrimEnd(s[..|s| - 1])
  }

  /** A prefix has no comment where the whole has none before its end. */
  lemma NoCommentPrefix(s: string, n: nat)
    requires n <= |s| && forall q :: 0 <= q < n ==> !CommentAt(s, q)
    ensures NoComment(s[..n])
  {
    forall q | 0 <= q < n
      ensures !CommentAt(s[..n], q)
    {
      assert !CommentAt(s, q);
    }
  }

  /** The comment removed, with the blanks before it: what `\s*(?://|#).*`
      replaces by nothing. */
  function StripComment(s: string): (r: string)
    ensures r <= s && NoComment(r)
    ensures NoComment(s) ==> r == s
    ensures |r| < |s| ==> |r| == 0 || !IsSpace(r[|r| - 1])
  {
    match FirstComment(s, 0)
    case None => s
    case Some(q) =>
      NoCommentPrefix(s, q);
      var r := TrimEnd(s[..q]);
      NoCommentPrefix(s[..q], |r|);
      assert s[..q][..|r|] == r;
      r
  }

  /** A line as the reader stores it: cut at the first NUL, with line ends,
      the comment and trailing blanks removed. */
  function Normalise(line: string): (r: string)
    ensures NoNul(r) && NoLineEnd(r) && NoComment(r)
    ensures |r| == 0 || !IsSpace(r[|r| - 1])
  {
    var cut := DropLineEnds(CStr(line));
    CleanCode(cut);
    TrimEnd(StripComment(cut))
  }

  /** Code cut from a clean text, its comment and trailing blanks removed,
      is clean and has no comment. */
  lemma CleanCode(cut: string)
    requires NoNul(cut) && NoLineEnd(cut)
    ensures var r := TrimEnd(StripComment(cut));
            NoNul(r) && NoLineEnd(r) && NoComment(r)
  {
    var code := StripComment(cut);
    var r := TrimEnd(code);
    NoCommentPrefix(code, |r|);
    assert code[..|r|] == r;
    assert forall k :: 0 <= k < |r| ==> r[k] == cut[k];
  }

  /** Normalising twice is normalising once. */
  lemma NormaliseIdempotent(line: string)
    ensures Normalise(Normalise(line)) == Normalise(line)
  {
  }

  /** A line of code followed by a comment normalises to the code without
      its trailing blanks. */
  lemma NormaliseDropsComment(code: string, comment: string)
    requires NoNul(code) && NoLineEnd(code) && NoComment(code)
    requires NoNul(comment) && NoLineEnd(comment)
    requires |comment| > 0 && (comment[0] == '#' || (|comment| > 1 && comment[..2] == "//"))
    requires comment[0] == '/' ==> |code| == 0 || code[|code| - 1] != '/'
    ensures Normalise(code + comment) == TrimEnd(code)
  {
    var s := code + comment;
    assert NoNul(s) && NoLineEnd(s);
    CommentAfterCode(code, comment);
    assert s[..|code|] == code;
    assert StripComment(s) == TrimEnd(code);
  }

  /** The comment is the first one in the line. */
  lemma CommentAfterCode(code: string, comment: string)
    requires NoComment(code)
    requires |comment| > 0 && (comment[0] == '#' || (|comment| > 1 && comment[..2] == "//"))
    requires comment[0] == '/' ==> |code| == 0 || code[|code| - 1] != '/'
    ensures FirstComment(code + comment, 0) == Some(|code|)
  {
    var s := code + comment;
    assert CommentAt(s, |code|);
    forall q | 0 <= q < |code|
      ensures !CommentAt(s, q)
    {
      assert s[q] == code[q];
      assert !CommentAt(code, q);
      if code[q] == '/' {
        if q + 1 < |code| {
          assert s[q + 1] == code[q + 1];
        } else {
          assert s[q + 1] == comment[0] && comment[0] != '/';
        }
      }
    }
  }

  // ---------------------------------------------------------------------
  // Splitting into fields

  /** The first comma at or after `from`. */
  function NextComma(s: string, from: nat): (r: Option<nat>)
    requires from <= |s|
    ensures r.Some? ==> from <= r.value < |s| && s[r.value] == ','
    ensures r.Some? ==> forall k :: from <= k < r.value ==> s[k] != ','
    ensures r.None? ==> forall k :: from <= k < |s| ==> s[k] != ','
    decreases |s| - from
  {
    if from == |s| then None
    else if s[from] == ',' then Some(from)
    else NextComma(s, from + 1)
  }

  /** Where the run of blanks ending at `c` starts, not before `lo`. */
  function BlanksBefore(s: string, lo: nat, c: nat): (r: nat)
    requires lo <= c <= |s|
    ensures lo <= r <= c && AllSpace(s[r..c])
    ensures r == lo || !IsSpace(s[r - 1])
    decreases c - lo
  {
    if c == lo || !IsSpace(s[c - 1]) then c
    else
      var r := BlanksBefore(s, lo, c - 1);
      assert s[r..c] == s[r..c - 1] + [s[c - 1]];
      r
  }

  /** Where the run of blanks starting at `e` ends. */
  function BlanksAfter(s: string, e: nat): (r: nat)
    requires e <= |s|
    ensures e <= r <= |s| && AllSpace(s[e..r])
    ensures r == |s| || !IsSpace(s[r])
    decreases |s| - e
  {
    if e == |s| || !IsSpace(s[e]) then e else BlanksAfter(s, e + 1)
  }

  /** The fields the `\s*,\s*` token iterator yields from `from` on: the
      text before each separator, then the rest when it is not empty. */
  function Fields(s: string, from: nat): (r: seq<string>)
    requires from <= |s|
    ensures forall k :: 0 <= k < |r| ==> ',' !in r[k]
    ensures from < |s| ==> |r| > 0
    decreases |s| - from
  {
    match NextComma(s, from)
    case None => if from < |s| then [s[from..]] else []
    case Some(c) =>
      var m := BlanksBefore(s, from, c);
      [s[from..m]] + Fields(s, BlanksAfter(s, c + 1))
  }

  /** One separator consumed: the text before it, then the rest. */
  lemma FieldsAtComma(s: string, from: nat, c: nat)
    requires from <= |s| && NextComma(s, from) == Some(c)
    ensures Fields(s, from) == [s[from..BlanksBefore(s, from, c)]] + Fields(s, BlanksAfter(s, c + 1))
  {
  }

  /** Fields joined by ", ". */
  function Join(fields: seq<string>): string
    requires |fields| > 0
  {
    if |fields| == 1 then fields[0] else fields[0] + ", " + Join(fields[1..])
  }

  /** A field as the splitter returns it: no comma and no blank at either end. */
  predicate Trimmed(f: string)
  {
    ',' !in f && (|f| > 0 ==> !IsSpace(f[0]) && !IsSpace(f[|f| - 1]))
  }

  /** Splitting what Join wrote gives back the fields, wherever the text
      starts. */
  lemma {:induction false} FieldsOfJoin(pre: string, fields: seq<string>)
    requires |fields| > 0 && |fields[|fields| - 1]| > 0
    requires forall k :: 0 <= k < |fields| ==> Trimmed(fields[k])
    ensures Fields(pre + Join(fields), |pre|) == fields
    decreases |fields|
  {
    var s := pre + Join(fields);
    var f := fields[0];
    if |fields| == 1 {
      assert s == pre + f;
      FieldsOfLast(pre, f);
    } else {
      var rest := fields[1..];
      var pre' := pre + f + ", ";
      var tail := Join(rest);
      assert Join(fields) == f + ", " + tail;
      assert s == pre' + tail;
      assert rest[|rest| - 1] == fields[|fields| - 1];
      JoinStart(rest);
      FieldsOfSeparated(pre, f, tail);
      FieldsOfJoin(pre', rest);
    }
  }

  /** The last field: no separator follows it. */
  lemma FieldsOfLast(pre: string, f: string)
    requires |f| > 0 && ',' !in f
    ensures Fields(pre + f, |pre|) == [f]
  {
    var s := pre + f;
    forall k | |pre| <= k < |s|
      ensures s[k] != ','
    {
      assert s[k] == f[k - |pre|];
    }
    assert s[|pre|..] == f;
  }

  /** A field followed by ", " and a text that starts with no blank. */
  lemma FieldsOfSeparated(pre: string, f: string, tail: string)
    requires Trimmed(f) && |tail| > 0 && !IsSpace(tail[0])
    ensures Fields(pre + f + ", " + tail, |pre|) == [f] + Fields(pre + f + ", " + tail, |pre + f + ", "|)
  {
    var s := pre + f + ", " + tail;
    var c := |pre| + |f|;
    assert s[c] == ',' && s[c + 1] == ' ' && s[c + 2] == tail[0];
    forall k | |pre| <= k < c
      ensures s[k] != ','
    {
      assert s[k] == f[k - |pre|];
    }
    if |f| > 0 {
      assert s[c - 1] == f[|f| - 1];
    }
    assert s[|pre|..c] == f;
    FieldsAtSeparator(s, |pre|, c);
  }

  /** A comma with no blank before it and exactly one after it. */
  lemma FieldsAtSeparator(s: string, from: nat, c: nat)
    requires from <= c && c + 2 < |s|
    requires forall k :: from <= k < c ==> s[k] != ','
    requires s[c] == ',' && s[c + 1] == ' ' && !IsSpace(s[c + 2])
    requires c == from || !IsSpace(s[c - 1])
    ensures Fields(s, from) == [s[from..c]] + Fields(s, c + 2)
  {
    assert NextComma(s, from) == Some(c);
    assert BlanksBefore(s, from, c) == c;
    assert BlanksAfter(s, c + 1) == c + 2;
    FieldsAtComma(s, from, c);
  }

  /** A joined text starts with no blank. */
  lemma JoinStart(fields: seq<string>)
    requires |fields| > 0 && |fields[|fields| - 1]| > 0
    requires forall k :: 0 <= k < |fields| ==> Trimmed(fields[k])
    ensures |Join(fields)| > 0 && !IsSpace(Join(fields)[0])
  {
    var f := fields[0];
    if |fields| == 1 {
    } else if |f| > 0 {
      assert Join(fields)[0] == f[0];
    } else {
      assert Join(fields) == f + ", " + Join(fields[1..]);
      assert Join(fields)[0] == ',';
    }
  }

  /** The fields of a normalised line. */
  function Split(s: string): (r: seq<string>)
    ensures |s| > 0 ==> |r| > 0
    ensures forall k :: 0 <= k < |r| ==> ',' !in r[k]
  {
    Fields(s, 0)
  }

  /** Split inverts Join. */
  lemma SplitJoin(fields: seq<string>)
    requires |fields| > 0 && |fields[|fields| - 1]| > 0
    requires forall k :: 0 <= k < |fields| ==> Trimmed(fields[k])
    ensures Split(Join(fields)) == fields
  {
    FieldsOfJoin([], fields);
    assert [] + Join(fields) == Join(fields);
  }

  // ---------------------------------------------------------------------
  // Rows and their validation

  /** The fields of one input line; field 0 is the type, field 1 the ID. */
  type Row = seq<string>

  /** The row types a .hsrc file may use. */
  datatype Kind = IdKind | CmdKind | CmdAKind | FuncKind | FuncAKind | AliasKind

  function KindOf(t: string): Option<Kind>
  {
    if t == "ID" then Some(IdKind)
    else if t == "CMD" then Some(CmdKind)
    else if t == "CMDA" then Some(CmdAKind)
    else if t == "FUNC" then Some(FuncKind)
    else if t == "FUNCA" then Some(FuncAKind)
    else if t == "ALIAS" then Some(AliasKind)
    else None
  }

  /** The fewest fields a row of the kind may have (ID__MIN, CMD__MIN, ...):
      the name is required of commands and functions, the retarg text is not. */
  function MinFields(k: Kind): nat
  {
    match k
    case IdKind => 3
    case AliasKind => 3
    case _ => 4
  }

  /** The most fields a row of the kind may have (ID__MAX, CMD__MAX, ...). */
  function MaxFields(k: Kind): nat
  {
    match k
    case IdKind => 3
    case AliasKind => 3
    case _ => 5
  }

  /** A row of a known type whose field count that type allows. */
  predicate Valid(row: Row)
  {
    |row| > 0 && KindOf(row[0]).Some?
    && MinFields(KindOf(row[0]).value) <= |row| <= MaxFields(KindOf(row[0]).value)
  }

  /** ID and ALIAS rows have exactly three fields; commands and functions
      four, or five with a retarg text. */
  lemma ValidShape(row: Row)
    requires Valid(row)
    ensures 3 <= |row| <= 5
    ensures |row| == 3 <==> row[0] == "ID" || row[0] == "ALIAS"
  {
  }

  /** A message the reader prints before going on, with the line read. */
  datatype Report = UnknownType(line: string) | BadFieldCount(line: string)

  /** FuncTbl, FuncTblHash and the messages printed while reading. */
  datatype Table = Table(rows: seq<Row>, ids: map<string, nat>, reports: seq<Report>)

  predicate NonEmptyRows(rows: seq<Row>)
  {
    forall k :: 0 <= k < |rows| ==> |rows[k]| > 0
  }

  /** The ID map of a table: each ID maps to the first valid row carrying
      it, and every valid row's ID is mapped. */
  predicate Registered(rows: seq<Row>, ids: map<string, nat>)
  {
    && (forall id :: id in ids ==>
          && ids[id] < |rows| && Valid(rows[ids[id]]) && rows[ids[id]][1] == id
          && forall j :: 0 <= j < ids[id] ==> !(Valid(rows[j]) && rows[j][1] == id))
    && (forall j :: 0 <= j < |rows| && Valid(rows[j]) ==> rows[j][1] in ids)
  }

  /** unordered_map::emplace: an ID already present keeps its row. */
  function Register(ids: map<string, nat>, id: string, index: nat): (r: map<string, nat>)
    ensures id in r && r.Keys == ids.Keys + {id}
    ensures id in ids ==> r == ids
  {
    if id in ids then ids else ids[id := index]
  }

  /** Appending a row keeps the ID map right when a valid row is registered. */
  lemma RegisterKeeps(rows: seq<Row>, ids: map<string, nat>, row: Row)
    requires Registered(rows, ids)
    ensures Registered(rows + [row], ids)
            || (Valid(row) && Registered(rows + [row], Register(ids, row[1], |rows|)))
    ensures !Valid(row) ==> Registered(rows + [row], ids)
    ensures Valid(row) ==> Registered(rows + [row], Register(ids, row[1], |rows|))
  {
    var rows' := rows + [row];
    forall j | 0 <= j < |rows|
      ensures rows'[j] == rows[j]
    {
    }
  }

  /** The row a line gives, if it is not blank. */
  function RowOf(line: string): (r: seq<Row>)
    ensures |r| <= 1 && NonEmptyRows(r)
  {
    var s := Normalise(line);
    if AllSpace(s) then [] else [Split(s)]
  }

  /** The rows of all non-blank lines, rejected or not. */
  function Parsed(lines: seq<string>): (r: seq<Row>)
    ensures NonEmptyRows(r)
  {
    if |lines| == 0 then [] else Parsed(lines[..|lines| - 1]) + RowOf(lines[|lines| - 1])
  }

  /** The valid rows, in order. */
  function OnlyValid(rows: seq<Row>): (r: seq<Row>)
    ensures |r| <= |rows|
    ensures forall k :: 0 <= k < |r| ==> Valid(r[k])
  {
    if |rows| == 0 then []
    else OnlyValid(rows[..|rows| - 1]) + (if Valid(rows[|rows| - 1]) then [rows[|rows| - 1]] else [])
  }

  /** One pass of the reading loop: a blank line is skipped; a row of an
      unknown type or a wrong field count is reported and, when
      `keepRejected`, still stored; a valid row is stored and registered. */
  function ReadRow(t: Table, line: string, keepRejected: bool): Table
  {
    var s := Normalise(line);
    if AllSpace(s) then t
    else
      var row := Split(s);
      var kept := if keepRejected then t.rows + [row] else t.rows;
      if KindOf(row[0]).None? then t.(rows := kept, reports := t.reports + [UnknownType(CStr(line))])
      else if !Valid(row) then t.(rows := kept, reports := t.reports + [BadFieldCount(CStr(line))])
      else Table(t.rows + [row], Register(t.ids, row[1], |t.rows|), t.reports)
  }

  /** What the reading loop keeps true: the table holds the rows read so
      far (or their valid ones), one report per rejected row, and a right
      ID map. */
  predicate Consistent(t: Table, parsed: seq<Row>, keepRejected: bool)
  {
    && Registered(t.rows, t.ids)
    && (keepRejected ==> t.rows == parsed)
    && (!keepRejected ==> t.rows == OnlyValid(parsed))
    && |t.reports| == |parsed| - |OnlyValid(parsed)|
  }

  /** One pass of the loop keeps the table consistent. */
  lemma ReadRowStep(t: Table, parsed: seq<Row>, line: string, keepRejected: bool)
    requires Consistent(t, parsed, keepRejected)
    ensures Consistent(ReadRow(t, line, keepRejected), parsed + RowOf(line), keepRejected)
  {
    var s := Normalise(line);
    if !AllSpace(s) {
      var row := Split(s);
      var p := parsed + [row];
      assert RowOf(line) == [row];
      assert p[..|parsed|] == parsed;
      assert OnlyValid(p) == OnlyValid(parsed) + (if Valid(row) then [row] else []);
      RegisterKeeps(t.rows, t.ids, row);
    } else {
      assert parsed + RowOf(line) == parsed;
    }
  }

  /** The reading loop over all lines. */
  function ReadAll(lines: seq<string>, keepRejected: bool): (r: Table)
    ensures Consistent(r, Parsed(lines), keepRejected)
  {
    if |lines| == 0 then Table([], map[], [])
    else
      var t := ReadAll(lines[..|lines| - 1], keepRejected);
      ReadRowStep(t, Parsed(lines[..|lines| - 1]), lines[|lines| - 1], keepRejected);
      ReadRow(t, lines[|lines| - 1], keepRejected)
  }

  /** The reader as written: every non-blank line's row stays in the table,
      valid or not, and only valid rows are registered. */
  function Load(lines: seq<string>): (r: Table)
    ensures r.rows == Parsed(lines) && NonEmptyRows(r.rows)
    ensures Registered(r.rows, r.ids)
    ensures |r.reports| == |r.rows| - |OnlyValid(r.rows)|
  {
    ReadAll(lines, true)
  }

  /** The reader with rejected rows dropped: only valid rows are stored. */
  function LoadValid(lines: seq<string>): (r: Table)
    ensures r.rows == OnlyValid(Parsed(lines))
    ensures forall k :: 0 <= k < |r.rows| ==> Valid(r.rows[k])
    ensures Registered(r.rows, r.ids)
    ensures |r.reports| == |Parsed(lines)| - |r.rows|
    ensures Listable(r.rows)
  {
    var t := ReadAll(lines, false);
    ValidListable(t.rows);
    t
  }

  /** The first valid row with the given ID. */
  function FirstWithId(rows: seq<Row>, id: string): (r: Option<nat>)
    ensures r.Some? ==> r.value < |rows| && Valid(rows[r.value]) && rows[r.value][1] == id
    ensures r.Some? ==> forall j :: 0 <= j < r.value ==> !(Valid(rows[j]) && rows[j][1] == id)
    ensures r.None? ==> forall j :: 0 <= j < |rows| ==> !(Valid(rows[j]) && rows[j][1] == id)
  {
    if |rows| == 0 then None
    else
      var init := rows[..|rows| - 1];
      var last := rows[|rows| - 1];
      match FirstWithId(init, id)
      case Some(j) => Some(j)
      case None => if Valid(last) && last[1] == id then Some(|rows| - 1) else None
  }

  /** A registered map answers with the first valid row carrying the ID. */
  lemma RegisteredIsFirst(rows: seq<Row>, ids: map<string, nat>, id: string)
    requires Registered(rows, ids)
    ensures id in ids <==> FirstWithId(rows, id).Some?
    ensures id in ids ==> ids[id] == FirstWithId(rows, id).value
  {
    var f := FirstWithId(rows, id);
    if f.Some? {
      assert Valid(rows[f.value]) && rows[f.value][1] == id;
    }
    if id in ids {
      assert Valid(rows[ids[id]]) && rows[ids[id]][1] == id;
    }
  }

  /** Dropping the rejected rows changes no ID lookup. */
  lemma {:induction false} FirstWithIdOnlyValid(rows: seq<Row>, id: string)
    ensures FirstWithId(rows, id).Some? <==> FirstWithId(OnlyValid(rows), id).Some?
    ensures FirstWithId(rows, id).Some? ==>
              rows[FirstWithId(rows, id).value] == OnlyValid(rows)[FirstWithId(OnlyValid(rows), id).value]
  {
    if |rows| > 0 {
      var init := rows[..|rows| - 1];
      var last := rows[|rows| - 1];
      FirstWithIdOnlyValid(init, id);
      var v := OnlyValid(init);
      var v' := OnlyValid(rows);
      assert v' == v + (if Valid(last) then [last] else []);
      assert v'[..|v|] == v;
      assert v' != v ==> v'[..|v'| - 1] == v;
      match FirstWithId(init, id)
      case Some(j) =>
        var k := FirstWithId(v, id).value;
        assert FirstWithId(v', id) == Some(k);
      case None =>
        assert FirstWithId(v, id).None?;
    }
  }

  /** The two readers register the same IDs, for the same rows. */
  lemma LoadsAgree(lines: seq<string>, id: string)
    ensures id in Load(lines).ids <==> id in LoadValid(lines).ids
    ensures id in Load(lines).ids ==>
              Load(lines).rows[Load(lines).ids[id]] == LoadValid(lines).rows[LoadValid(lines).ids[id]]
  {
    var a := Load(lines);
    var b := LoadValid(lines);
    RegisteredIsFirst(a.rows, a.ids, id);
    RegisteredIsFirst(b.rows, b.ids, id);
    FirstWithIdOnlyValid(a.rows, id);
  }

  // ---------------------------------------------------------------------
  // enum and #define output

  datatype ListMode = EnumList | DefineList

  /** Joins two outputs; an undefined read in either leaves the whole
      undefined. */
  function Then(a: Option<string>, b: Option<string>): (r: Option<string>)
    ensures r.Some? <==> a.Some? && b.Some?
  {
    if a.Some? && b.Some? then Some(a.value + b.value) else None
  }

  /** One row of the list.  ALIAS rows give nothing.  In an enum the value
      `*` gives `ID,` and any other value `ID = VAL,`; in #define mode `*`
      gives nothing and any other value `#define ID VAL`.  None stands for
      the read of the value field of a row that has none. */
  function ListEntry(mode: ListMode, row: Row): (r: Option<string>)
    requires |row| > 0
    ensures r.None? <==> row[0] != "ALIAS" && |row| < 3
    ensures row[0] == "ALIAS" ==> r == Some("")
    ensures row[0] != "ALIAS" && |row| >= 3 && row[2] == "*" ==>
              r == Some(if mode == EnumList then "\t" + row[1] + ",\n" else "")
    ensures row[0] != "ALIAS" && |row| >= 3 && row[2] != "*" ==>
              r == Some(if mode == EnumList then "\t" + row[1] + " = " + row[2] + ",\n"
                        else "#define " + row[1] + " " + row[2] + "\n")
  {
    if row[0] == "ALIAS" then Some("")
    else if |row| < 3 then None
    else if mode == EnumList then
      Some(if row[2] == "*" then "\t" + row[1] + ",\n" else "\t" + row[1] + " = " + row[2] + ",\n")
    else
      Some(if row[2] != "*" then "#define " + row[1] + " " + row[2] + "\n" else "")
  }

  /** The rows' entries in table order. */
  function ListBody(mode: ListMode, rows: seq<Row>): (r: Option<string>)
    requires NonEmptyRows(rows)
    ensures r.Some? <==> forall k :: 0 <= k < |rows| && rows[k][0] != "ALIAS" ==> |rows[k]| >= 3
  {
    if |rows| == 0 then Some("")
    else
      var init := rows[..|rows| - 1];
      assert forall k :: 0 <= k < |init| ==> init[k] == rows[k];
      Then(ListBody(mode, init), ListEntry(mode, rows[|rows| - 1]))
  }

  lemma ThenAssoc(a: Option<string>, b: Option<string>, c: Option<string>)
    ensures Then(Then(a, b), c) == Then(a, Then(b, c))
  {
    if a.Some? && b.Some? && c.Some? {
      assert (a.value + b.value) + c.value == a.value + (b.value + c.value);
    }
  }

  /** The list of a table is the lists of its parts, one after the other. */
  lemma {:induction false} ListBodyAppend(mode: ListMode, a: seq<Row>, b: seq<Row>)
    requires NonEmptyRows(a) && NonEmptyRows(b)
    ensures NonEmptyRows(a + b)
    ensures ListBody(mode, a + b) == Then(ListBody(mode, a), ListBody(mode, b))
    decreases |b|
  {
    var ab := a + b;
    assert forall k :: 0 <= k < |ab| ==> ab[k] == if k < |a| then a[k] else b[k - |a|];
    if |b| == 0 {
      assert ab == a;
      assert ListBody(mode, b) == Some("");
      if ListBody(mode, a).Some? {
        assert ListBody(mode, a).value + "" == ListBody(mode, a).value;
      }
    } else {
      var init := b[..|b| - 1];
      assert ab[..|ab| - 1] == a + init;
      ListBodyAppend(mode, a, init);
      var e := ListEntry(mode, b[|b| - 1]);
      assert ab[|ab| - 1] == b[|b| - 1];
      assert ListBody(mode, ab) == Then(ListBody(mode, a + init), e);
      assert ListBody(mode, b) == Then(ListBody(mode, init), e);
      ThenAssoc(ListBody(mode, a), ListBody(mode, init), e);
    }
  }

  /** The enum text: the entries between `enum CLASS{` and `};`. */
  function EnumText(cls: string, rows: seq<Row>): (r: Option<string>)
    requires NonEmptyRows(rows)
    ensures r.Some? <==> ListBody(EnumList, rows).Some?
    ensures r.Some? ==> r.value == "enum " + cls + "{\n" + ListBody(EnumList, rows).value + "};\n"
  {
    Then(Then(Some("enum " + cls + "{\n"), ListBody(EnumList, rows)), Some("};\n"))
  }

  /** The reader as written lets a two-field ID row into the table, and the
      list output then reads its missing value field. */
  lemma ShortRowReadsPastEnd()
    ensures var t := Load(["ID, F_X\n"]);
            && t.rows == [["ID", "F_X"]] && t.ids == map[] && |t.reports| == 1
            && ListBody(EnumList, t.rows).None? && ListBody(DefineList, t.rows).None?
  {
    ShortRowParsed();
    RejectedLineKept("ID, F_X\n", ["ID", "F_X"]);
  }

  /** A single line giving a rejected row: the row is stored, nothing is
      registered and one report is printed. */
  lemma RejectedLineKept(line: string, row: Row)
    requires Parsed([line]) == [row] && !Valid(row)
    ensures var t := Load([line]);
            t.rows == [row] && t.ids == map[] && |t.reports| == 1
  {
    var t := Load([line]);
    assert OnlyValid([row]) == [];
    assert forall id :: id !in t.ids;
  }

  /** The line "ID, F_X" gives a row of two fields. */
  lemma ShortRowParsed()
    ensures Parsed(["ID, F_X\n"]) == [["ID", "F_X"]]
  {
    var code := "ID, F_X";
    assert code + "\n" == "ID, F_X\n";
    ShortRowText(code);
    CodeLineParsed(code);
    ShortRowSplit(code);
  }

  /** A clean line of code with a visible last character reads as one row,
      its fields split at the commas. */
  lemma CodeLineParsed(code: string)
    requires NoNul(code) && NoLineEnd(code) && NoComment(code)
    requires |code| > 0 && !IsSpace(code[|code| - 1])
    ensures Parsed([code + "\n"]) == [Split(code)]
  {
    CleanLineNormalises(code);
    ParsedOne(code + "\n");
  }

  lemma ShortRowText(code: string)
    requires code == "ID, F_X"
    ensures NoNul(code) && NoLineEnd(code) && NoComment(code) && |code| > 0 && !IsSpace(code[|code| - 1])
  {
    assert NoComment(code) by {
      forall q | 0 <= q < |code| ensures !CommentAt(code, q) {
      }
    }
  }

  lemma ShortRowSplit(code: string)
    requires code == "ID, F_X"
    ensures Split(code) == ["ID", "F_X"]
  {
    var fields := ["ID", "F_X"];
    assert Trimmed(fields[0]) && Trimmed(fields[1]);
    SplitJoin(fields);
    assert Join(fields) == fields[0] + ", " + Join(fields[1..]);
    assert Join(fields[1..]) == "F_X";
    assert Join(fields) == code;
  }

  /** The rows of a single line. */
  lemma ParsedOne(line: string)
    ensures Parsed([line]) == RowOf(line)
  {
    assert [line][..0] == [];
  }

  /** A line with no comment and no trailing blank normalises to itself,
      without its line end. */
  lemma CleanLineNormalises(code: string)
    requires NoNul(code) && NoLineEnd(code) && NoComment(code)
    requires |code| > 0 && !IsSpace(code[|code| - 1])
    ensures Normalise(code + "\n") == code
  {
    assert NoNul(code + "\n");
    DropLineEndsAppend(code, "\n");
    assert DropLineEnds("\n") == [];
    assert code + [] == code;
  }

  predicate AllValid(rows: seq<Row>)
  {
    forall k :: 0 <= k < |rows| ==> Valid(rows[k])
  }

  /** What the table writers rely on: every row has its ID field, and a
      command or function row its name field. */
  predicate Listable(rows: seq<Row>)
  {
    forall k :: 0 <= k < |rows| ==>
      |rows[k]| >= 3 && (InFamily(rows[k][0], Commands) || InFamily(rows[k][0], Functions) ==> |rows[k]| >= 4)
  }

  lemma ValidListable(rows: seq<Row>)
    requires AllValid(rows)
    ensures Listable(rows)
  {
    forall k | 0 <= k < |rows|
      ensures |rows[k]| >= 3 && (InFamily(rows[k][0], Commands) || InFamily(rows[k][0], Functions) ==> |rows[k]| >= 4)
    {
      ValidShape(rows[k]);
    }
  }

  /** With only accepted rows, every row has its value field, so both list
      outputs are defined. */
  lemma AllValidLists(rows: seq<Row>)
    requires AllValid(rows)
    ensures NonEmptyRows(rows)
    ensures ListBody(EnumList, rows).Some? && ListBody(DefineList, rows).Some?
  {
    forall k | 0 <= k < |rows|
      ensures |rows[k]| >= 3
    {
      ValidShape(rows[k]);
    }
  }

  lemma LoadValidLists(lines: seq<string>)
    ensures NonEmptyRows(LoadValid(lines).rows)
    ensures ListBody(EnumList, LoadValid(lines).rows).Some?
    ensures ListBody(DefineList, LoadValid(lines).rows).Some?
  {
    AllValidLists(LoadValid(lines).rows);
  }

  // ---------------------------------------------------------------------
  // Macro function tables

  /** TYPE_CMD or TYPE_FUNC: which table is written. */
  datatype Family = Commands | Functions

  predicate InFamily(t: string, fam: Family)
  {
    match fam
    case Commands => t == "CMD" || t == "CMDA"
    case Functions => t == "FUNC" || t == "FUNCA"
  }

  /** FindAlias: the row an ALIAS refers to, found by ID; None when no row
      has the ID or when the row it finds is not of the family asked for.
      The reader only registers rows that exist, so the bounds test never
      fails on a table it built. */
  function FindAlias(rows: seq<Row>, ids: map<string, nat>, id: string, fam: Family): (r: Option<nat>)
    ensures r.Some? ==> id in ids && r.value == ids[id] && r.value < |rows|
                        && |rows[r.value]| > 0 && InFamily(rows[r.value][0], fam)
  {
    if id in ids && ids[id] < |rows| && |rows[ids[id]]| > 0 && InFamily(rows[ids[id]][0], fam) then Some(ids[id])
    else None
  }

  /** On a table the reader built, FindAlias finds the first valid row with
      the ID, and only when that row is of the family. */
  lemma FindAliasFirst(rows: seq<Row>, ids: map<string, nat>, id: string, fam: Family)
    requires Registered(rows, ids)
    ensures var first := FirstWithId(rows, id);
            && (FindAlias(rows, ids, id, fam).None? <==> first.None? || !InFamily(rows[first.value][0], fam))
            && (FindAlias(rows, ids, id, fam).Some? ==> FindAlias(rows, ids, id, fam) == first)
  {
    RegisteredIsFirst(rows, ids, id);
  }

  /** A row selected for the table: the row whose data is written, the name
      written, and whether it was reached through an ALIAS. */
  datatype Pick = Pick(target: nat, name: string, viaAlias: bool)

  /** Which rows a table lists: the family's own rows under their own name,
      and ALIAS rows that resolve into the family, under the alias name. */
  function PickRow(rows: seq<Row>, ids: map<string, nat>, fam: Family, i: nat): (r: Option<Pick>)
    requires Listable(rows) && i < |rows|
    ensures r.Some? ==> r.value.target < |rows| && InFamily(rows[r.value.target][0], fam)
    ensures r.Some? && !r.value.viaAlias ==> r.value.target == i && |rows[i]| > 3 && r.value.name == rows[i][3]
    ensures r.Some? && r.value.viaAlias ==>
              rows[i][0] == "ALIAS" && r.value.name == rows[i][2]
              && FindAlias(rows, ids, rows[i][1], fam) == Some(r.value.target)
    ensures r.None? <==> !InFamily(rows[i][0], fam)
                         && (rows[i][0] != "ALIAS" || FindAlias(rows, ids, rows[i][1], fam).None?)
  {
    var row := rows[i];
    if InFamily(row[0], fam) then Some(Pick(i, row[3], false))
    else if row[0] == "ALIAS" then
      match FindAlias(rows, ids, row[1], fam)
      case None => None
      case Some(j) => Some(Pick(j, row[2], true))
    else None
  }

  /** One line of a macro function table: the ID, the name, the type text
      and whether the line names a WSH wrapper function. */
  datatype Entry = Entry(id: string, name: string, types: string, wrapped: bool)

  /** The line for a picked row, or the failing ID when its retarg text is
      rejected.  The ID and the types are the target's; a wrapper is named
      for a CMDA or FUNCA target unless `suppressed`. */
  function MakeEntry(rows: seq<Row>, p: Pick, suppressed: bool): (r: Result<Entry, string>)
    requires p.target < |rows| && |rows[p.target]| >= 2
    ensures var target := rows[p.target];
            var types := RetargText(if |target| > 4 then Some(target[4]) else None);
            && (r.Err? <==> types.None?)
            && (r.Err? ==> r.error == target[1])
            && (r.Ok? ==> r.value.id == target[1] && r.value.name == p.name && r.value.types == types.value)
            && (r.Ok? ==> (r.value.wrapped <==> !suppressed && (target[0] == "CMDA" || target[0] == "FUNCA")))
  {
    var target := rows[p.target];
    match RetargText(if |target| > 4 then Some(target[4]) else None)
    case None => Err(target[1])
    case Some(types) => Ok(Entry(target[1], p.name, types, !suppressed && (target[0] == "CMDA" || target[0] == "FUNCA")))
  }

  /** Joins two runs of lines: the first failure wins. */
  function Both(a: Result<seq<Entry>, string>, b: Result<seq<Entry>, string>): (r: Result<seq<Entry>, string>)
    ensures a.Err? ==> r == a
    ensures a.Ok? && b.Err? ==> r == b
    ensures a.Ok? && b.Ok? ==> r == Ok(a.value + b.value)
  {
    if a.Err? then a else if b.Err? then b else Ok(a.value + b.value)
  }

  lemma BothAssoc(a: Result<seq<Entry>, string>, b: Result<seq<Entry>, string>, c: Result<seq<Entry>, string>)
    ensures Both(Both(a, b), c) == Both(a, Both(b, c))
  {
    if a.Ok? && b.Ok? && c.Ok? {
      assert (a.value + b.value) + c.value == a.value + (b.value + c.value);
    }
  }

  /** A single line, or the failure, as a run of lines. */
  function One(e: Result<Entry, string>): (r: Result<seq<Entry>, string>)
    ensures r.Ok? <==> e.Ok?
    ensures r.Ok? ==> r.value == [e.value]
    ensures r.Err? ==> r.error == e.error
  {
    match e
    case Err(id) => Err(id)
    case Ok(x) => Ok([x])
  }

  /** Every picked row lies inside the table. */
  predicate PicksIn(rows: seq<Row>, ps: seq<Option<Pick>>)
  {
    forall k :: 0 <= k < |ps| && ps[k].Some? ==> ps[k].value.target < |rows|
  }

  /** Each row's pick, in table order. */
  function Picks(rows: seq<Row>, ids: map<string, nat>, fam: Family): (ps: seq<Option<Pick>>)
    requires Listable(rows)
    ensures |ps| == |rows| && PicksIn(rows, ps)
    ensures forall i :: 0 <= i < |rows| ==> ps[i] == PickRow(rows, ids, fam, i)
  {
    seq(|rows|, i requires 0 <= i < |rows| => PickRow(rows, ids, fam, i))
  }

  /** The line of one row alone: none when it is not listed; otherwise the
      target's line under the picked name, with a wrapper exactly for a CMDA
      or FUNCA target reached directly, never through an ALIAS. */
  function LineOf(rows: seq<Row>, pick: Option<Pick>): (r: Result<seq<Entry>, string>)
    requires Listable(rows) && (pick.Some? ==> pick.value.target < |rows|)
    ensures pick.None? ==> r == Ok([])
    ensures pick.Some? ==>
              var p := pick.value;
              var target := rows[p.target];
              && (r.Err? <==> MakeEntry(rows, p, false).Err?)
              && (r.Ok? ==> |r.value| == 1 && r.value[0].name == p.name && r.value[0].id == target[1]
                            && (r.value[0].wrapped <==> !p.viaAlias && (target[0] == "CMDA" || target[0] == "FUNCA")))
  {
    match pick
    case None => Ok([])
    case Some(p) => One(MakeEntry(rows, p, p.viaAlias))
  }

  /** The lines of a run of rows, in order; the first failure wins. */
  function Fold(parts: seq<Result<seq<Entry>, string>>): Result<seq<Entry>, string>
  {
    if |parts| == 0 then Ok([]) else Both(parts[0], Fold(parts[1..]))
  }

  /** The lines of consecutive runs are the runs' lines one after the other. */
  lemma {:induction false} FoldAppend(a: seq<Result<seq<Entry>, string>>, b: seq<Result<seq<Entry>, string>>)
    ensures Fold(a + b) == Both(Fold(a), Fold(b))
  {
    if |a| == 0 {
      assert a + b == b;
      if Fold(b).Ok? {
        assert [] + Fold(b).value == Fold(b).value;
      }
    } else {
      assert (a + b)[1..] == a[1..] + b;
      FoldAppend(a[1..], b);
      BothAssoc(a[0], Fold(a[1..]), Fold(b));
    }
  }

  /** Each pick's own line. */
  function PickLines(rows: seq<Row>, ps: seq<Option<Pick>>): (r: seq<Result<seq<Entry>, string>>)
    requires Listable(rows) && PicksIn(rows, ps)
    ensures |r| == |ps| && forall k :: 0 <= k < |ps| ==> r[k] == LineOf(rows, ps[k])
  {
    seq(|ps|, k requires 0 <= k < |ps| => LineOf(rows, ps[k]))
  }

  /** The table's lines as intended: each row's own line, in order. */
  function Lines(rows: seq<Row>, ids: map<string, nat>, fam: Family): Result<seq<Entry>, string>
    requires Listable(rows)
  {
    Fold(PickLines(rows, Picks(rows, ids, fam)))
  }

  /** OutputFuncTable's loop as written, over the rows' picks: the alias
      flag is set by the first ALIAS line and never cleared, so every later
      line is written as if it came from an ALIAS. */
  function WrittenFrom(rows: seq<Row>, ps: seq<Option<Pick>>, aliasSeen: bool): Result<seq<Entry>, string>
    requires Listable(rows) && PicksIn(rows, ps)
  {
    if |ps| == 0 then Ok([])
    else
      match ps[0]
      case None => WrittenFrom(rows, ps[1..], aliasSeen)
      case Some(p) =>
        var seen := aliasSeen || p.viaAlias;
        Both(One(MakeEntry(rows, p, seen)), WrittenFrom(rows, ps[1..], seen))
  }

  function LinesAsWritten(rows: seq<Row>, ids: map<string, nat>, fam: Family): Result<seq<Entry>, string>
    requires Listable(rows)
  {
    WrittenFrom(rows, Picks(rows, ids, fam), false)
  }

  /** Without an ALIAS line the loop as written gives the per-row lines. */
  lemma {:induction false} WrittenWithoutAlias(rows: seq<Row>, ps: seq<Option<Pick>>)
    requires Listable(rows) && PicksIn(rows, ps)
    requires forall k :: 0 <= k < |ps| && ps[k].Some? ==> !ps[k].value.viaAlias
    ensures WrittenFrom(rows, ps, false) == Fold(PickLines(rows, ps))
  {
    if |ps| > 0 {
      var parts := PickLines(rows, ps);
      WrittenWithoutAlias(rows, ps[1..]);
      assert PickLines(rows, ps[1..]) == parts[1..];
      var rest := Fold(parts[1..]);
      if ps[0].None? && rest.Ok? {
        assert [] + rest.value == rest.value;
      }
    }
  }

  /** A table without ALIAS lines is written as intended. */
  lemma AsWrittenBeforeAlias(rows: seq<Row>, ids: map<string, nat>, fam: Family)
    requires Listable(rows)
    requires forall i :: 0 <= i < |rows| ==> rows[i][0] != "ALIAS"
    ensures LinesAsWritten(rows, ids, fam) == Lines(rows, ids, fam)
  {
    WrittenWithoutAlias(rows, Picks(rows, ids, fam));
  }

  /** As written, once an ALIAS line has been seen no later line names a
      wrapper, whatever its row. */
  lemma {:induction false} AsWrittenAfterAlias(rows: seq<Row>, ps: seq<Option<Pick>>)
    requires Listable(rows) && PicksIn(rows, ps)
    ensures var r := WrittenFrom(rows, ps, true);
            r.Ok? ==> forall k :: 0 <= k < |r.value| ==> !r.value[k].wrapped
  {
    if |ps| > 0 {
      AsWrittenAfterAlias(rows, ps[1..]);
    }
  }

  /** A FUNC row, an ALIAS of it, and a FUNCA row after them. */
  function AliasTable(): seq<Row>
  {
    [["FUNC", "F_A", "1", "A"], ["ALIAS", "F_A", "B"], ["FUNCA", "F_C", "2", "C", "I"]]
  }

  /** The ID map the reader builds for AliasTable: the ALIAS shares F_A and
      so registers nothing. */
  function AliasIds(): map<string, nat>
  {
    map["F_A" := 0, "F_C" := 2]
  }

  /** AliasTable is a table the reader builds: every row is accepted and
      AliasIds registers each ID's first row. */
  lemma AliasTableRegistered()
    ensures AllValid(AliasTable()) && Registered(AliasTable(), AliasIds())
  {
    var rows := AliasTable();
    assert Valid(rows[0]) && Valid(rows[1]) && Valid(rows[2]);
  }

  lemma AliasListable()
    ensures Listable(AliasTable())
  {
    var rows := AliasTable();
    assert |rows[0]| == 4 && |rows[1]| == 3 && |rows[2]| == 5;
  }

  /** The rows of AliasTable are listed as a FUNC, an ALIAS of it and a
      FUNCA. */
  lemma AliasPicks()
    ensures Listable(AliasTable())
    ensures Picks(AliasTable(), AliasIds(), Functions) == [Some(Pick(0, "A", false)), Some(Pick(0, "B", true)), Some(Pick(2, "C", false))]
  {
    AliasListable();
    var rows := AliasTable();
    var ids := AliasIds();
    assert PickRow(rows, ids, Functions, 0) == Some(Pick(0, "A", false));
    assert PickRow(rows, ids, Functions, 1) == Some(Pick(0, "B", true));
    assert PickRow(rows, ids, Functions, 2) == Some(Pick(2, "C", false));
  }

  /** Every retarg text of AliasTable is accepted. */
  lemma AliasEntries()
    ensures Listable(AliasTable())
    ensures forall b :: MakeEntry(AliasTable(), Pick(0, "A", false), b).Ok?
    ensures forall b :: MakeEntry(AliasTable(), Pick(0, "B", true), b).Ok?
    ensures forall b :: MakeEntry(AliasTable(), Pick(2, "C", false), b).Ok?
  {
    AliasListable();
    assert RetargOk("") && RetargOk("I");
  }

  /** Three picks, the middle one through an ALIAS, the others direct: as
      written the last line has no wrapper; row by row it has one exactly
      when its row is CMDA or FUNCA. */
  lemma AliasBetween(rows: seq<Row>, ps: seq<Option<Pick>>)
    requires Listable(rows) && PicksIn(rows, ps) && |ps| == 3
    requires forall k :: 0 <= k < 3 ==> ps[k].Some? && MakeEntry(rows, ps[k].value, false).Ok? && MakeEntry(rows, ps[k].value, true).Ok?
    requires !ps[0].value.viaAlias && ps[1].value.viaAlias && !ps[2].value.viaAlias
    ensures var w := WrittenFrom(rows, ps, false);
            w.Ok? && |w.value| == 3 && !w.value[2].wrapped
    ensures var l := Fold(PickLines(rows, ps));
            var target := rows[ps[2].value.target];
            l.Ok? && |l.value| == 3 && (l.value[2].wrapped <==> target[0] == "CMDA" || target[0] == "FUNCA")
  {
    var e0, e1, e2 := MakeEntry(rows, ps[0].value, false), MakeEntry(rows, ps[1].value, true), MakeEntry(rows, ps[2].value, true);
    assert ps[2..][1..] == [] && ps[1..][1..] == ps[2..];
    assert ps[2..][0] == ps[2] && ps[1..][0] == ps[1];
    assert WrittenFrom(rows, ps[2..][1..], true) == Ok([]);
    var w2 := WrittenFrom(rows, ps[2..], true);
    assert w2 == Ok([e2.value] + []);
    AsWrittenAfterAlias(rows, ps[2..]);
    var w1 := WrittenFrom(rows, ps[1..], false);
    assert w1 == Ok([e1.value] + w2.value);
    var w0 := WrittenFrom(rows, ps, false);
    assert w0 == Ok([e0.value] + w1.value);
    assert w0.value[2] == w2.value[0];
    FoldThree(PickLines(rows, ps));
  }

  /** Three one-line parts fold into their three lines. */
  lemma FoldThree(parts: seq<Result<seq<Entry>, string>>)
    requires |parts| == 3 && forall i :: 0 <= i < 3 ==> parts[i].Ok? && |parts[i].value| == 1
    ensures Fold(parts).Ok? && Fold(parts).value == parts[0].value + parts[1].value + parts[2].value
  {
    assert parts[1..][1..] == parts[2..];
    assert parts[2..][1..] == [];
    assert parts[2..][0] == parts[2] && parts[1..][0] == parts[1];
    assert Fold(parts[2..][1..]) == Ok([]);
    var f2 := Fold(parts[2..]);
    assert f2 == Ok(parts[2].value + []);
    assert parts[2].value + [] == parts[2].value;
  }

  /** As written, the FUNCA row that follows an ALIAS loses its wrapper;
      written row by row it keeps it. */
  lemma StickyAliasDropsWrapper()
    ensures Listable(AliasTable())
    ensures var asWritten := LinesAsWritten(AliasTable(), AliasIds(), Functions);
            var intended := Lines(AliasTable(), AliasIds(), Functions);
            && asWritten.Ok? && |asWritten.value| == 3 && !asWritten.value[2].wrapped
            && intended.Ok? && |intended.value| == 3 && intended.value[2].wrapped
  {
    AliasPicks();
    AliasEntries();
    var ps := Picks(AliasTable(), AliasIds(), Functions);
    assert AliasTable()[ps[2].value.target][0] == "FUNCA";
    AliasBetween(AliasTable(), ps);
  }

  // ---------------------------------------------------------------------
  // Output files

  /** The text of one table line. */
  function LineText(e: Entry): string
  {
    "\t{ " + e.id + ",\tL\"" + e.name + "\",\t" + e.types
    + (if e.wrapped then "reinterpret_cast<CIfObjMethod>(&CEditorIfObj::MacroFuncWrapper_" + e.name + ") },\n"
       else "NULL },\n")
  }

  function LinesText(es: seq<Entry>): string
  {
    if |es| == 0 then "" else LinesText(es[..|es| - 1]) + LineText(es[|es| - 1])
  }

  /** The array a function table is written as: its head, the lines and the
      F_INVALID end marker; a failing ID passes through. */
  function TableText(cls: string, fam: Family, lines: Result<seq<Entry>, string>): (r: Result<string, string>)
    ensures r.Err? <==> lines.Err?
    ensures r.Err? ==> r.error == lines.error
  {
    match lines
    case Err(id) => Err(id)
    case Ok(es) =>
      Ok("MacroFuncInfo " + cls + "::m_MacroFuncInfo" + (if fam == Functions then "" else "Command") + "Arr[] =\n{\n"
         + LinesText(es) + "\t{ F_INVALID },\n};\n\n")
  }

  /** OutputFuncTable with each row's line written on its own; the failing
      ID when a retarg text is rejected. */
  function FuncTable(cls: string, rows: seq<Row>, ids: map<string, nat>, fam: Family): (r: Result<string, string>)
    requires Listable(rows)
    ensures r.Err? <==> Lines(rows, ids, fam).Err?
    ensures r.Err? ==> r.error == Lines(rows, ids, fam).error
  {
    TableText(cls, fam, Lines(rows, ids, fam))
  }

  // ---------------------------------------------------------------------
  // The function tables as written

  /** Whether OutputFuncTable's loop gets past a row without reading a field
      the row lacks: a row of the family is read up to its name, an ALIAS
      row up to its name; any other row is skipped after its type. */
  predicate FuncRowReadable(row: Row, fam: Family)
    requires |row| > 0
  {
    (InFamily(row[0], fam) ==> |row| >= 4) && (row[0] == "ALIAS" ==> |row| >= 3)
  }

  /** A line, then the rest of the table: a failing line stops the loop
      before the rest is read. */
  function ThenRest(a: Result<seq<Entry>, string>, rest: Option<Result<seq<Entry>, string>>): (r: Option<Result<seq<Entry>, string>>)
    ensures rest.Some? ==> r.Some?
  {
    if a.Err? then Some(a) else if rest.None? then None else Some(Both(a, rest.value))
  }

  /** Every registered ID leads to a row with its ID and value fields. */
  predicate Targets(rows: seq<Row>, ids: map<string, nat>)
  {
    forall id :: id in ids ==> ids[id] < |rows| && |rows[ids[id]]| >= 3
  }

  lemma RegisteredTargets(rows: seq<Row>, ids: map<string, nat>)
    requires Registered(rows, ids)
    ensures Targets(rows, ids)
  {
    forall id | id in ids
      ensures ids[id] < |rows| && |rows[ids[id]]| >= 3
    {
      ValidShape(rows[ids[id]]);
    }
  }

  /** OutputFuncTable's loop as written from row `i` on, over the table the
      reader builds, rejected rows included: the alias flag, once set, stays
      set, and None stands for the read of a name field the row lacks. */
  function TableFrom(rows: seq<Row>, ids: map<string, nat>, fam: Family, i: nat, aliasSeen: bool): Option<Result<seq<Entry>, string>>
    requires NonEmptyRows(rows) && Targets(rows, ids) && i <= |rows|
    decreases |rows| - i
  {
    if i == |rows| then Some(Ok([]))
    else
      var row := rows[i];
      if !FuncRowReadable(row, fam) then None
      else if InFamily(row[0], fam) then
        ThenRest(One(MakeEntry(rows, Pick(i, row[3], false), aliasSeen)), TableFrom(rows, ids, fam, i + 1, aliasSeen))
      else if row[0] == "ALIAS" then
        match FindAlias(rows, ids, row[1], fam)
        case None => TableFrom(rows, ids, fam, i + 1, aliasSeen)
        case Some(j) => ThenRest(One(MakeEntry(rows, Pick(j, row[2], true), true)), TableFrom(rows, ids, fam, i + 1, true))
      else TableFrom(rows, ids, fam, i + 1, aliasSeen)
  }

  /** The loop gets to the end of a table whose rows all carry the fields
      it reads. */
  lemma {:induction false} TableFromSome(rows: seq<Row>, ids: map<string, nat>, fam: Family, i: nat, aliasSeen: bool)
    requires NonEmptyRows(rows) && Targets(rows, ids) && i <= |rows|
    requires forall k :: i <= k < |rows| ==> FuncRowReadable(rows[k], fam)
    ensures TableFrom(rows, ids, fam, i, aliasSeen).Some?
    decreases |rows| - i
  {
    if i < |rows| {
      var row := rows[i];
      assert FuncRowReadable(row, fam);
      TableFromSome(rows, ids, fam, i + 1, aliasSeen);
      if !InFamily(row[0], fam) && row[0] == "ALIAS" && FindAlias(rows, ids, row[1], fam).Some? {
        TableFromSome(rows, ids, fam, i + 1, true);
      }
    }
  }

  /** On a table whose rows carry the fields the writers read, the loop as
      written over the rows is the loop over their picks. */
  lemma {:induction false} TableFromPicks(rows: seq<Row>, ids: map<string, nat>, fam: Family, i: nat, aliasSeen: bool)
    requires Listable(rows) && Targets(rows, ids) && i <= |rows|
    ensures NonEmptyRows(rows)
    ensures TableFrom(rows, ids, fam, i, aliasSeen) == Some(WrittenFrom(rows, Picks(rows, ids, fam)[i..], aliasSeen))
    decreases |rows| - i
  {
    if i < |rows| {
      var ps := Picks(rows, ids, fam);
      TableFromStep(rows, ids, fam, i, aliasSeen);
      assert ps[i..][0] == ps[i] && ps[i..][1..] == ps[i + 1..];
      match ps[i]
      case None =>
        TableFromPicks(rows, ids, fam, i + 1, aliasSeen);
      case Some(p) =>
        TableFromPicks(rows, ids, fam, i + 1, aliasSeen || p.viaAlias);
    }
  }

  /** One row of the loop as written, in terms of the row's pick. */
  lemma TableFromStep(rows: seq<Row>, ids: map<string, nat>, fam: Family, i: nat, aliasSeen: bool)
    requires Listable(rows) && Targets(rows, ids) && i < |rows|
    ensures NonEmptyRows(rows)
    ensures PickRow(rows, ids, fam, i).None? ==>
              TableFrom(rows, ids, fam, i, aliasSeen) == TableFrom(rows, ids, fam, i + 1, aliasSeen)
    ensures PickRow(rows, ids, fam, i).Some? ==>
              var p := PickRow(rows, ids, fam, i).value;
              var seen := aliasSeen || p.viaAlias;
              TableFrom(rows, ids, fam, i, aliasSeen) == ThenRest(One(MakeEntry(rows, p, seen)), TableFrom(rows, ids, fam, i + 1, seen))
  {
  }

  /** The loop reads past a row's fields only when some row lacks its name. */
  lemma TableFromNone(rows: seq<Row>, ids: map<string, nat>, fam: Family)
    requires NonEmptyRows(rows) && Registered(rows, ids)
    ensures TableFrom(rows, ids, fam, 0, false).None? ==> exists k :: 0 <= k < |rows| && !FuncRowReadable(rows[k], fam)
  {
    RegisteredTargets(rows, ids);
    if forall k :: 0 <= k < |rows| ==> FuncRowReadable(rows[k], fam) {
      TableFromSome(rows, ids, fam, 0, false);
    }
  }

  /** OutputFuncTable as written, over the table the reader builds: None
      when the loop reads a name field a row lacks. */
  function FuncTableAsWritten(cls: string, rows: seq<Row>, ids: map<string, nat>, fam: Family): (r: Option<Result<string, string>>)
    requires NonEmptyRows(rows) && Registered(rows, ids)
    ensures r.None? ==> exists k :: 0 <= k < |rows| && !FuncRowReadable(rows[k], fam)
  {
    TableFromNone(rows, ids, fam);
    RegisteredTargets(rows, ids);
    Tabled(cls, fam, TableFrom(rows, ids, fam, 0, false))
  }

  /** The array text of a loop that got to the end. */
  function Tabled(cls: string, fam: Family, out: Option<Result<seq<Entry>, string>>): Option<Result<string, string>>
  {
    match out
    case None => None
    case Some(lines) => Some(TableText(cls, fam, lines))
  }

  /** On a table whose rows carry their fields, OutputFuncTable as written is
      the loop with the sticky alias flag. */
  lemma FuncTableAsWrittenListable(cls: string, rows: seq<Row>, ids: map<string, nat>, fam: Family)
    requires Listable(rows) && Registered(rows, ids)
    ensures NonEmptyRows(rows)
    ensures FuncTableAsWritten(cls, rows, ids, fam) == Some(TableText(cls, fam, LinesAsWritten(rows, ids, fam)))
  {
    RegisteredTargets(rows, ids);
    TableFromPicks(rows, ids, fam, 0, false);
    assert Picks(rows, ids, fam)[0..] == Picks(rows, ids, fam);
  }

  /** No ALIAS row in the table. */
  predicate NoAlias(rows: seq<Row>)
  {
    forall i :: 0 <= i < |rows| && |rows[i]| > 0 ==> rows[i][0] != "ALIAS"
  }

  /** Without ALIAS rows, OutputFuncTable as written writes each row's line
      on its own. */
  lemma FuncTableAsWrittenWithoutAlias(cls: string, rows: seq<Row>, ids: map<string, nat>, fam: Family)
    requires Listable(rows) && Registered(rows, ids) && NoAlias(rows)
    ensures NonEmptyRows(rows)
    ensures FuncTableAsWritten(cls, rows, ids, fam) == Some(FuncTable(cls, rows, ids, fam))
  {
    FuncTableAsWrittenListable(cls, rows, ids, fam);
    AsWrittenBeforeAlias(rows, ids, fam);
  }

  // ---------------------------------------------------------------------
  // Output files

  /** The output modes this model covers: enum, #define and the function
      tables. */
  datatype Mode = EnumMode | DefineMode | FuncMode

  const Banner := "#pragma once\n/* HeaderMake generate start */\n\n// This file is generated by HeaderMake with "
  const Footer := "\n/* HeaderMake generate end */\n"

  /** The banner naming the input file's title. */
  function Head(inFile: string): string
  {
    Banner + Title(CStr(inFile)) + ".\n// Don't edit this file manually.\n\n"
  }

  /** A text between a head and a foot, each recoverable by position. */
  function Framed(head: string, text: string, foot: string): (r: Result<string, string>)
    ensures r.Ok? && |r.value| == |head| + |text| + |foot|
    ensures r.value[..|head|] == head && r.value[|head|..|r.value| - |foot|] == text
    ensures r.value[|r.value| - |foot|..] == foot
  {
    var out := head + text + foot;
    assert out[..|head|] == head && out[|head|..|out| - |foot|] == text && out[|out| - |foot|..] == foot;
    Ok(out)
  }

  /** What a mode writes between the banner and the closing comment, for a
      table of accepted rows: the enum or the #define list, or the command
      table followed by the function table.  Only the function tables can
      fail, with the ID whose retarg text was rejected; the command table is
      written first. */
  function ModeBody(mode: Mode, cls: string, rows: seq<Row>, ids: map<string, nat>): (r: Result<string, string>)
    requires AllValid(rows) && Listable(rows)
    ensures mode != FuncMode ==> r.Ok?
    ensures mode == EnumMode ==> r.value == "enum " + cls + "{\n" + ListBody(EnumList, rows).value + "};\n"
    ensures mode == DefineMode ==> r.value == ListBody(DefineList, rows).value
    ensures mode == FuncMode ==>
              (r.Err? <==> Lines(rows, ids, Commands).Err? || Lines(rows, ids, Functions).Err?)
    ensures mode == FuncMode && r.Err? ==>
              r.error == (if Lines(rows, ids, Commands).Err? then Lines(rows, ids, Commands) else Lines(rows, ids, Functions)).error
  {
    AllValidLists(rows);
    match mode
    case EnumMode => Ok("enum " + cls + "{\n" + ListBody(EnumList, rows).value + "};\n")
    case DefineMode => Ok(ListBody(DefineList, rows).value)
    case FuncMode =>
      match FuncTable(cls, rows, ids, Commands)
      case Err(id) => Err(id)
      case Ok(commands) =>
        match FuncTable(cls, rows, ids, Functions)
        case Err(id) => Err(id)
        case Ok(functions) => Ok(commands + functions)
  }

  /** The header file as intended: written from the .hsrc lines with the
      rejected rows dropped and each function table line written on its
      own.  The banner names the input file's title, the mode's output
      follows, then the closing comment; the enum and #define modes always
      succeed, the function mode fails with the ID whose retarg text was
      rejected. */
  function Generate(mode: Mode, inFile: string, cls: string, lines: seq<string>): (r: Result<string, string>)
    ensures mode != FuncMode ==> r.Ok?
    ensures r.Err? <==> ModeBody(mode, cls, LoadValid(lines).rows, LoadValid(lines).ids).Err?
    ensures r.Err? ==> r.error == ModeBody(mode, cls, LoadValid(lines).rows, LoadValid(lines).ids).error
    ensures r.Ok? ==> && |Head(inFile)| + |Footer| <= |r.value| && r.value[..|Head(inFile)|] == Head(inFile)
                      && r.value[|Head(inFile)|..|r.value| - |Footer|] == ModeBody(mode, cls, LoadValid(lines).rows, LoadValid(lines).ids).value
                      && r.value[|r.value| - |Footer|..] == Footer
  {
    var t := LoadValid(lines);
    match ModeBody(mode, cls, t.rows, t.ids)
    case Err(id) => Err(id)
    case Ok(text) => Framed(Head(inFile), text, Footer)
  }

  /** What main_impl writes between the banner and the closing comment for
      the table the reader builds, rejected rows included, with the sticky
      alias flag: None when a writer reads a field a row lacks, which in the
      enum and #define modes is exactly when a row other than an ALIAS has
      no value field. */
  function ModeBodyAsWritten(mode: Mode, cls: string, rows: seq<Row>, ids: map<string, nat>): (r: Option<Result<string, string>>)
    requires NonEmptyRows(rows) && Registered(rows, ids)
    ensures mode != FuncMode ==> (r.None? <==> exists k :: 0 <= k < |rows| && rows[k][0] != "ALIAS" && |rows[k]| < 3)
    ensures mode != FuncMode && r.Some? ==> r.value.Ok?
    ensures mode == FuncMode && r.None? ==>
              exists k :: 0 <= k < |rows| && !(FuncRowReadable(rows[k], Commands) && FuncRowReadable(rows[k], Functions))
  {
    match mode
    case EnumMode =>
      (match ListBody(EnumList, rows)
       case None => None
       case Some(body) => Some(Ok("enum " + cls + "{\n" + body + "};\n")))
    case DefineMode =>
      (match ListBody(DefineList, rows)
       case None => None
       case Some(body) => Some(Ok(body)))
    case FuncMode =>
      match FuncTableAsWritten(cls, rows, ids, Commands)
      case None => None
      case Some(Err(id)) => Some(Err(id))
      case Some(Ok(commands)) =>
        match FuncTableAsWritten(cls, rows, ids, Functions)
        case None => None
        case Some(Err(id)) => Some(Err(id))
        case Some(Ok(functions)) => Some(Ok(commands + functions))
  }

  /** On a table of accepted rows, without ALIAS rows in the function mode,
      the writers as written write what the intended ones write. */
  lemma ModeBodiesAgree(mode: Mode, cls: string, rows: seq<Row>, ids: map<string, nat>)
    requires AllValid(rows) && Registered(rows, ids)
    requires mode == FuncMode ==> NoAlias(rows)
    ensures NonEmptyRows(rows) && Listable(rows)
    ensures ModeBodyAsWritten(mode, cls, rows, ids) == Some(ModeBody(mode, cls, rows, ids))
  {
    ValidListable(rows);
    AllValidLists(rows);
    if mode == FuncMode {
      FuncTableAsWrittenWithoutAlias(cls, rows, ids, Commands);
      FuncTableAsWrittenWithoutAlias(cls, rows, ids, Functions);
    }
  }

  /** The header file written for a table as main_impl writes it: the
      banner, the mode's output and the closing comment, or the failing ID,
      or None when a writer reads a field a row lacks. */
  function WrittenHeader(mode: Mode, inFile: string, cls: string, rows: seq<Row>, ids: map<string, nat>): (r: Option<Result<string, string>>)
    requires NonEmptyRows(rows) && Registered(rows, ids)
    ensures r.None? <==> ModeBodyAsWritten(mode, cls, rows, ids).None?
    ensures r.Some? && r.value.Err? <==> ModeBodyAsWritten(mode, cls, rows, ids).Some? && ModeBodyAsWritten(mode, cls, rows, ids).value.Err?
    ensures r.Some? && r.value.Ok? ==>
              && ModeBodyAsWritten(mode, cls, rows, ids).Some? && ModeBodyAsWritten(mode, cls, rows, ids).value.Ok?
              && |Head(inFile)| + |Footer| <= |r.value.value| && r.value.value[..|Head(inFile)|] == Head(inFile)
              && r.value.value[|Head(inFile)|..|r.value.value| - |Footer|] == ModeBodyAsWritten(mode, cls, rows, ids).value.value
              && r.value.value[|r.value.value| - |Footer|..] == Footer
  {
    match ModeBodyAsWritten(mode, cls, rows, ids)
    case None => None
    case Some(Err(id)) => Some(Err(id))
    case Some(Ok(text)) => Some(Framed(Head(inFile), text, Footer))
  }

  /** main_impl as written: the header file written from the table the
      reader builds, rejected rows included, with the sticky alias flag.
      In the enum and #define modes it is None, a read of a field the row
      lacks, exactly when a row other than an ALIAS has no value field, and
      otherwise always written. */
  function GenerateAsWritten(mode: Mode, inFile: string, cls: string, lines: seq<string>): (r: Option<Result<string, string>>)
    ensures mode != FuncMode ==>
              (r.None? <==> exists k :: 0 <= k < |Load(lines).rows| && Load(lines).rows[k][0] != "ALIAS" && |Load(lines).rows[k]| < 3)
    ensures mode != FuncMode && r.Some? ==> r.value.Ok?
  {
    var t := Load(lines);
    WrittenHeader(mode, inFile, cls, t.rows, t.ids)
  }

  /** A line whose row, if any, is accepted is read alike by both readers. */
  lemma ReadRowAgree(t: Table, line: string)
    requires AllValid(RowOf(line))
    ensures ReadRow(t, line, true) == ReadRow(t, line, false)
  {
    var s := Normalise(line);
    if !AllSpace(s) {
      assert RowOf(line)[0] == Split(s);
    }
  }

  lemma AllValidAppend(a: seq<Row>, b: seq<Row>)
    requires AllValid(a + b)
    ensures AllValid(a) && AllValid(b)
  {
    assert forall k :: 0 <= k < |a| ==> a[k] == (a + b)[k];
    assert forall k :: 0 <= k < |b| ==> b[k] == (a + b)[|a| + k];
  }

  /** When every row is accepted the two readers build the same table. */
  lemma {:induction false} ReadersAgree(lines: seq<string>)
    requires AllValid(Parsed(lines))
    ensures Load(lines) == LoadValid(lines)
  {
    if |lines| > 0 {
      var init := lines[..|lines| - 1];
      var last := lines[|lines| - 1];
      assert Parsed(lines) == Parsed(init) + RowOf(last);
      AllValidAppend(Parsed(init), RowOf(last));
      ReadersAgree(init);
      ReadRowAgree(ReadAll(init, true), last);
    }
  }

  /** On input whose every row is accepted, and without ALIAS rows in the
      function mode, main_impl as written writes the intended header. */
  lemma GeneratesAgree(mode: Mode, inFile: string, cls: string, lines: seq<string>)
    requires AllValid(Parsed(lines))
    requires mode == FuncMode ==> NoAlias(Parsed(lines))
    ensures GenerateAsWritten(mode, inFile, cls, lines) == Some(Generate(mode, inFile, cls, lines))
  {
    ReadersAgree(lines);
    var t := LoadValid(lines);
    ModeBodiesAgree(mode, cls, t.rows, t.ids);
  }

  /** As written, input that reads as the two-field ID row of
      ShortRowParsed makes the enum and #define writers read a value field
      the row lacks; with rejected rows dropped both write. */
  lemma ShortRowUndefined(mode: Mode, inFile: string, cls: string, lines: seq<string>)
    requires mode != FuncMode && Parsed(lines) == [["ID", "F_X"]]
    ensures GenerateAsWritten(mode, inFile, cls, lines).None?
    ensures Generate(mode, inFile, cls, lines).Ok?
  {
    var rows := Load(lines).rows;
    assert rows[0][0] != "ALIAS" && |rows[0]| < 3;
  }

  /** As written, input that reads as a rejected four-field ID row, such as
      "ID, F_X, 1, 2" of LongRowParsed, still reaches the enum as
      `ID = VAL`. */
  lemma RejectedRowWritten(inFile: string, cls: string, lines: seq<string>, id: string, val: string, extra: string)
    requires Parsed(lines) == [["ID", id, val, extra]] && val != "*"
    ensures GenerateAsWritten(EnumMode, inFile, cls, lines)
            == Some(Ok(Head(inFile) + ("enum " + cls + "{\n" + ("\t" + id + " = " + val + ",\n") + "};\n") + Footer))
  {
    var t := Load(lines);
    RejectedRowBody(cls, t.rows, t.ids, id, val, extra);
  }

  /** The enum text written, as written, for a table of one rejected
      four-field ID row. */
  lemma RejectedRowBody(cls: string, rows: seq<Row>, ids: map<string, nat>, id: string, val: string, extra: string)
    requires rows == [["ID", id, val, extra]] && val != "*"
    ensures NonEmptyRows(rows)
    ensures ListBody(EnumList, rows) == Some("\t" + id + " = " + val + ",\n")
  {
    var entry := "\t" + id + " = " + val + ",\n";
    assert ListEntry(EnumList, rows[0]) == Some(entry);
    assert rows[..0] == [];
    assert "" + entry == entry;
  }

  /** With rejected rows dropped, the same input gives an empty enum. */
  lemma RejectedRowDropped(inFile: string, cls: string, lines: seq<string>, id: string, val: string, extra: string)
    requires Parsed(lines) == [["ID", id, val, extra]]
    ensures Generate(EnumMode, inFile, cls, lines) == Ok(Head(inFile) + ("enum " + cls + "{\n" + "" + "};\n") + Footer)
  {
    var row := ["ID", id, val, extra];
    assert !Valid(row);
    assert OnlyValid([row]) == [];
    assert ListBody(EnumList, []) == Some("");
  }

  /** The line "ID, F_X, 1, 2" gives a row of four fields, one too many for
      an ID row. */
  lemma LongRowParsed()
    ensures Parsed(["ID, F_X, 1, 2\n"]) == [["ID", "F_X", "1", "2"]]
  {
    var code := "ID, F_X, 1, 2";
    assert code + "\n" == "ID, F_X, 1, 2\n";
    LongRowText(code);
    CodeLineParsed(code);
    LongRowSplit(code);
  }

  lemma LongRowText(code: string)
    requires code == "ID, F_X, 1, 2"
    ensures NoNul(code) && NoLineEnd(code) && NoComment(code) && |code| > 0 && !IsSpace(code[|code| - 1])
  {
    assert NoComment(code) by {
      forall q | 0 <= q < |code| ensures !CommentAt(code, q) {
      }
    }
  }

  lemma LongRowSplit(code: string)
    requires code == "ID, F_X, 1, 2"
    ensures Split(code) == ["ID", "F_X", "1", "2"]
  {
    var fields := ["ID", "F_X", "1", "2"];
    assert Trimmed(fields[0]) && Trimmed(fields[1]) && Trimmed(fields[2]) && Trimmed(fields[3]);
    SplitJoin(fields);
    JoinFour(fields);
    LongRowJoin(code);
  }

  lemma JoinFour(fields: seq<string>)
    requires |fields| == 4
    ensures Join(fields) == fields[0] + ", " + fields[1] + ", " + fields[2] + ", " + fields[3]
  {
    assert fields[1..][1..] == fields[2..] && fields[2..][1..] == fields[3..];
    assert Join(fields[3..]) == fields[3];
    assert Join(fields[2..]) == fields[2] + ", " + fields[3];
    assert Join(fields[1..]) == fields[1] + ", " + (fields[2] + ", " + fields[3]);
  }

  lemma LongRowJoin(code: string)
    requires code == "ID, F_X, 1, 2"
    ensures code == "ID" + ", " + "F_X" + ", " + "1" + ", " + "2"
  {
  }
}

=== FILE: layout.dfy ===
/**
 * Wrapping logical lines into layout lines (CLayoutMgr_DoLayout.cpp).
 *
 * A logical line is walked character by character.  Each character either
 * fits on the current layout line and is consumed, or the current layout
 * line is closed in front of it (_OnLine1) and the next layout line starts
 * there with a fresh indent.  English word wrap and the three kinsoku rules
 * (no line may start with a closing mark, no line may end with an opening
 * mark, punctuation may hang past the edge) close lines early or suppress a
 * break.
 *
 * Character widths, character sizes in code units, the width of a tab at a
 * given column and the indent of a continuation line depend on fonts,
 * settings and layout state that are not part of this model; they are
 * oracles.  The character classes (keyword characters, the three kinsoku
 * sets) are oracles too.  Colour strategies are not modelled.
 */
module LayoutWrap {
  import opened Wrappers

  const Tab: char := '\t'

  /** Large files are cut every MAXLINEKETAS / 2 code units, 5120 (the
      header defining MAXLINEKETAS is not part of this model). */
  const LargeFileCut: nat := 5120

  /** One layout line (CLayout): the logical line it belongs to, where it
      starts in it, how many code units it covers, its indent and the column
      the line reached. */
  datatype Row = Row(line: nat, bgn: nat, len: nat, indent: int, posX: int)

  /** A logical line with its line end included, the length of that line
      end, and the layout width and code-unit size of the character at each
      position. */
  datatype Line = Line(text: string, eolLen: nat, width: nat -> nat, size: nat -> nat)

  /** The wrapping configuration: the wrap width, the width of one column,
      the tab width at a column (GetActualTabSpace), the indent of the
      line after a given layout line (m_getIndentOffset), the options of the
      document type and the character classes. */
  datatype Rules = Rules(
    maxWidth: int, perKeta: int, tab: int -> nat, indentOf: Row -> int,
    wordWrap: bool, kuto: bool, head: bool, tail: bool, ret: bool,
    isKeyword: char -> bool, isHead: char -> bool, isTail: char -> bool, isKuto: char -> bool)

  /** Which rule, if any, is currently carrying characters over (eKinsokuType). */
  datatype Kinsoku = NoKinsoku | WordRun | HeadKinsoku | TailKinsoku | KutoHang

  /** The walk over one logical line (SLayoutWork), with the layout lines
      emitted so far. */
  datatype Work = Work(line: nat, bgn: nat, pos: nat, posX: int, indent: int,
                       wordBgn: nat, wordLen: nat, kind: Kinsoku, rows: seq<Row>)

  /** The character at p, or NUL past the end. */
  function At(s: string, p: nat): char
  {
    if p < |s| then s[p] else '\0'
  }

  /** The length walked: the line end counts as one position however many
      code units it has. */
  function Length(l: Line): int
  {
    |l.text| - (if l.eolLen >= 1 then l.eolLen - 1 else 0)
  }

  // ---------------------------------------------------------------------
  // The kinsoku position tests
  // ---------------------------------------------------------------------

  /** The characters at and after the position would not both fit in the
      remaining width (_IsKinsokuPosHead). */
  predicate IsKinsokuPosHead(rest: int, w1: int, w2: int)
  {
    rest < w1 + w2
  }

  /** The same test for a line-end kinsoku (_IsKinsokuPosTail). */
  predicate IsKinsokuPosTail(rest: int, w1: int, w2: int)
  {
    rest < w1 + w2
  }

  /** The character would not fit in the remaining width (_IsKinsokuPosKuto). */
  predicate IsKinsokuPosKuto(rest: int, w: int)
  {
    rest < w
  }

  // ---------------------------------------------------------------------
  // Well-formed inputs and the walk's invariant
  // ---------------------------------------------------------------------

  /** The character at p fits on a line whose column is x. */
  predicate Fits(l: Line, r: Rules, x: int, p: nat)
  {
    if At(l.text, p) == Tab then x + r.tab(x) <= r.maxWidth else x + l.width(p) <= r.maxWidth
  }

  /** What the wrapper relies on: the line end is part of the text, every
      character has a positive size, and a character always fits at the
      start of a layout line (the first one, with indent 0, and every
      continuation, with the indent the previous layout line gives it).
      Without the last, the break rule would close empty lines forever. */
  ghost predicate LineOk(l: Line, r: Rules)
  {
    && l.eolLen <= |l.text|
    && (forall p: nat :: p < |l.text| ==> l.size(p) >= 1)
    && (0 < Length(l) ==> Fits(l, r, 0, 0))
    && (forall row: Row :: row.bgn + row.len < Length(l) ==> Fits(l, r, r.indentOf(row), row.bgn + row.len))
  }

  /** The layout lines of logical line `line` cover [0, end) in order, one
      after the other, and none is empty. */
  predicate Tiles(rows: seq<Row>, line: nat, end: nat)
  {
    && (forall i :: 0 <= i < |rows| ==> rows[i].len > 0 && rows[i].line == line)
    && (forall i :: 0 < i < |rows| ==> rows[i].bgn == rows[i - 1].bgn + rows[i - 1].len)
    && (if |rows| == 0 then end == 0 else rows[0].bgn == 0 && rows[|rows| - 1].bgn + rows[|rows| - 1].len == end)
  }

  /** No layout line reaches past the wrap width. */
  predicate Narrow(rows: seq<Row>, maxWidth: int)
  {
    forall i :: 0 <= i < |rows| ==> rows[i].posX <= maxWidth
  }

  /** Neither punctuation nor the line end may hang past the width. */
  predicate NoHang(r: Rules)
  {
    !r.kuto && !r.ret
  }

  /** The walk's invariant: the emitted lines tile everything before the
      current line's start; at the start of a line the column is the indent
      and the next character fits; a hanging punctuation mark is the single
      character at wordBgn; and without hanging nothing is wider than the
      wrap width. */
  predicate Inv(w: Work, l: Line, r: Rules)
  {
    && w.bgn <= w.pos
    && Tiles(w.rows, w.line, w.bgn)
    && (w.pos == w.bgn ==> w.posX == w.indent && (w.pos < Length(l) ==> Fits(l, r, w.indent, w.pos)))
    && (w.kind == KutoHang ==>
          r.kuto && w.wordBgn < |l.text| && w.wordLen == l.size(w.wordBgn) && w.bgn <= w.wordBgn
          && (w.pos == w.wordBgn || w.pos == w.wordBgn + w.wordLen))
    && (NoHang(r) ==> Narrow(w.rows, r.maxWidth) && (w.bgn < w.pos ==> w.posX <= r.maxWidth))
  }

  /** A hanging punctuation mark has not been consumed yet. */
  predicate KutoAt(w: Work)
  {
    w.kind == KutoHang ==> w.pos == w.wordBgn
  }

  /** What a step may do to the walk: stay on the same logical line and not
      move backwards. */
  predicate Extends(w: Work, w': Work)
  {
    w'.line == w.line && w'.pos >= w.pos
  }

  // ---------------------------------------------------------------------
  // The pieces of one step
  // ---------------------------------------------------------------------

  /** _OnLine1: close the current layout line at pos and start the next one
      there, at the indent the closed line gives it. */
  function OnLine(w: Work, r: Rules): Work
    requires w.bgn <= w.pos
  {
    var row := Row(w.line, w.bgn, w.pos - w.bgn, w.indent, w.posX);
    var ind := r.indentOf(row);
    w.(rows := w.rows + [row], bgn := w.pos, posX := ind, indent := ind)
  }

  /** Closing a line at a position past its start keeps the invariant (the
      closed line is not empty, and the next character fits at the new
      indent): the closed line is appended, and the next one starts at the
      same position at the indent the closed line gives it. */
  lemma OnLineInv(w: Work, l: Line, r: Rules)
    requires LineOk(l, r) && Inv(w, l, r) && w.bgn < w.pos < Length(l)
    requires w.kind == KutoHang ==> w.pos == w.wordBgn
    ensures Inv(OnLine(w, r), l, r) && Extends(w, OnLine(w, r)) && OnLine(w, r).pos == w.pos
    ensures var row := Row(w.line, w.bgn, w.pos - w.bgn, w.indent, w.posX);
            && OnLine(w, r).rows == w.rows + [row] && row.len > 0
            && OnLine(w, r).bgn == w.pos && OnLine(w, r).posX == OnLine(w, r).indent == r.indentOf(row)
  {
    var row := Row(w.line, w.bgn, w.pos - w.bgn, w.indent, w.posX);
    assert Fits(l, r, r.indentOf(row), row.bgn + row.len);
  }

  /** Starting to carry a word or a kinsoku pair keeps the invariant. */
  lemma CarryInv(w: Work, w1: Work, l: Line, r: Rules)
    requires Inv(w, l, r) && w1.kind != KutoHang
    requires w1 == w.(wordBgn := w1.wordBgn, wordLen := w1.wordLen, kind := w1.kind)
    ensures Inv(w1, l, r)
  {
  }

  /** The line end is hung past the width (m_bKinsokuRet) at position p. */
  predicate EolHangs(p: nat, l: Line, r: Rules)
  {
    r.ret && p == |l.text| - l.eolLen && l.eolLen != 0
  }

  /** _DoKinsokuSkip: while a rule is carrying characters, skip the other
      rules; at the end of the carried run, drop the rule, and after a hung
      punctuation mark close the line unless the line end hangs there. */
  function KinsokuSkip(w: Work, l: Line, r: Rules): (s: (Work, bool))
    requires w.bgn <= w.pos
    ensures s.1 <==> w.kind != NoKinsoku
    ensures s.0.pos == w.pos && s.0.line == w.line
    ensures var done := w.kind != NoKinsoku && w.pos >= w.wordBgn + w.wordLen;
            (done ==> s.0.kind == NoKinsoku && s.0.wordLen == 0) && (!done ==> s.0 == w)
    ensures |s.0.rows| == |w.rows| + 1
            <==> w.kind == KutoHang && w.pos == w.wordBgn + w.wordLen && !EolHangs(w.pos, l, r)
    ensures |s.0.rows| != |w.rows| + 1 ==> s.0.rows == w.rows && s.0.bgn == w.bgn
  {
    if w.kind == NoKinsoku then (w, false)
    else if w.pos >= w.wordBgn + w.wordLen then
      var w1 := if w.kind == KutoHang && w.pos == w.wordBgn + w.wordLen && !EolHangs(w.pos, l, r)
                then OnLine(w, r) else w;
      (w1.(wordLen := 0, kind := NoKinsoku), true)
    else (w, true)
  }

  lemma KinsokuSkipInv(w: Work, l: Line, r: Rules)
    requires LineOk(l, r) && Inv(w, l, r) && w.pos < Length(l)
    ensures var s := KinsokuSkip(w, l, r);
            Inv(s.0, l, r) && Extends(w, s.0) && s.0.pos == w.pos
            && KutoAt(s.0)
  {
    if w.kind != NoKinsoku && w.pos >= w.wordBgn + w.wordLen
       && w.kind == KutoHang && w.pos == w.wordBgn + w.wordLen && !EolHangs(w.pos, l, r) {
      OnLineInv(w.(kind := NoKinsoku), l, r);
    }
  }

  /** The starts of the characters from p on, each a whole character after
      the one before, as far as e (or the end of the text). */
  function Starts(l: Line, p: nat, e: nat): seq<nat>
    decreases e - p
  {
    if p < e && p < |l.text| && l.size(p) > 0 then [p] + Starts(l, p + l.size(p), e) else []
  }

  /** The total width of the characters starting at qs. */
  function WidthOf(l: Line, qs: seq<nat>): nat
  {
    if |qs| == 0 then 0 else l.width(qs[0]) + WidthOf(l, qs[1..])
  }

  /** The total size in code units of the characters starting at qs. */
  function SizeOf(l: Line, qs: seq<nat>): nat
  {
    if |qs| == 0 then 0 else l.size(qs[0]) + SizeOf(l, qs[1..])
  }

  /** _GetKeywordLength: the code units and the width of the run of keyword
      characters starting at p.  The run is the longest one: every character
      in it is a keyword character, the character just after it is not (or
      the text has ended), and its size and width are the sums over its
      characters. */
  function KeywordRun(l: Line, r: Rules, p: nat): (k: (nat, nat))
    requires forall q: nat :: q < |l.text| ==> l.size(q) >= 1
    ensures k.0 > 0 <==> p < |l.text| && r.isKeyword(l.text[p])
    ensures k.0 == 0 ==> k.1 == 0
    ensures var qs := Starts(l, p, p + k.0);
            && (forall i :: 0 <= i < |qs| ==> qs[i] < |l.text| && r.isKeyword(l.text[qs[i]]))
            && k.0 == SizeOf(l, qs) && k.1 == WidthOf(l, qs)
    ensures !(p + k.0 < |l.text| && r.isKeyword(l.text[p + k.0]))
    decreases |l.text| - p
  {
    if p < |l.text| && r.isKeyword(l.text[p]) then
      var rest := KeywordRun(l, r, p + l.size(p));
      var qs := Starts(l, p + l.size(p), p + l.size(p) + rest.0);
      assert Starts(l, p, p + l.size(p) + rest.0) == [p] + qs;
      assert ([p] + qs)[1..] == qs;
      (l.size(p) + rest.0, l.width(p) + rest.1)
    else (0, 0)
  }

  /** _DoWordWrap: at the start of an English word, carry the whole word and
      break before it if it would reach the width on a line that is not
      empty.  Nothing else changes, and a word is recorded at its start
      with the length of its keyword run. */
  function WordWrap(w: Work, l: Line, r: Rules): (w': Work)
    requires w.bgn <= w.pos
    requires forall q: nat :: q < |l.text| ==> l.size(q) >= 1
    ensures w'.pos == w.pos && w'.line == w.line
    ensures var starts := w.kind == NoKinsoku && r.isKeyword(At(l.text, w.pos));
            var k := KeywordRun(l, r, w.pos);
            && (!starts ==> w' == w)
            && (starts ==> w'.kind == WordRun)
            && (starts && w.pos < |l.text| ==> w'.wordBgn == w.pos && w'.wordLen == k.0)
            && (|w'.rows| == |w.rows| + 1 <==> starts && w.posX + k.1 >= r.maxWidth && w.pos > w.bgn)
    ensures |w'.rows| == |w.rows| + 1
            ==> w'.rows == w.rows + [Row(w.line, w.bgn, w.pos - w.bgn, w.indent, w.posX)] && w'.bgn == w.pos
    ensures |w'.rows| != |w.rows| + 1 ==> w'.rows == w.rows && w'.bgn == w.bgn && w'.posX == w.posX
  {
    if w.kind == NoKinsoku && w.pos >= w.bgn && r.isKeyword(At(l.text, w.pos)) then
      var k := KeywordRun(l, r, w.pos);
      var w1 := if k.0 > 0 then w.(wordBgn := w.pos, wordLen := k.0, kind := WordRun)
                else w.(kind := WordRun);
      if w.posX + k.1 >= r.maxWidth && w.pos - w.bgn > 0 then OnLine(w1, r) else w1
    else w
  }

  lemma WordWrapInv(w: Work, l: Line, r: Rules)
    requires LineOk(l, r) && Inv(w, l, r) && w.pos < Length(l)
    ensures Inv(WordWrap(w, l, r), l, r) && Extends(w, WordWrap(w, l, r)) && WordWrap(w, l, r).pos == w.pos
    ensures KutoAt(w) ==> KutoAt(WordWrap(w, l, r))
  {
    if w.kind == NoKinsoku && w.pos >= w.bgn && r.isKeyword(At(l.text, w.pos)) {
      var k := KeywordRun(l, r, w.pos);
      var w1 := if k.0 > 0 then w.(wordBgn := w.pos, wordLen := k.0, kind := WordRun)
                else w.(kind := WordRun);
      if w.posX + k.1 >= r.maxWidth && w.pos - w.bgn > 0 {
        OnLineInv(w1, l, r);
      }
    }
  }

  /** _DoKutoBurasage: near the edge, a punctuation mark that would not fit
      is marked to hang past it.  The room test is the break rule's own: a
      mark hangs only where the break rule would otherwise move it. */
  function Kuto(w: Work, l: Line, r: Rules): (w': Work)
    ensures w'.pos == w.pos && w'.rows == w.rows && w'.bgn == w.bgn && w'.posX == w.posX
    ensures w' != w <==> && w.kind == NoKinsoku && r.maxWidth - w.posX < 2 * r.perKeta
                         && r.isKuto(At(l.text, w.pos)) && w.posX + l.width(w.pos) > r.maxWidth
    ensures w' != w ==> w'.kind == KutoHang && w'.wordBgn == w.pos && w'.wordLen == l.size(w.pos)
  {
    if r.maxWidth - w.posX < 2 * r.perKeta && w.kind == NoKinsoku then
      if IsKinsokuPosKuto(r.maxWidth - w.posX, l.width(w.pos)) && r.isKuto(At(l.text, w.pos)) then
        w.(wordBgn := w.pos, wordLen := l.size(w.pos), kind := KutoHang)
      else w
    else w
  }

  lemma KutoInv(w: Work, l: Line, r: Rules)
    requires LineOk(l, r) && Inv(w, l, r) && w.pos < Length(l) && r.kuto
    ensures Inv(Kuto(w, l, r), l, r) && Extends(w, Kuto(w, l, r)) && Kuto(w, l, r).pos == w.pos
    ensures KutoAt(w) ==> KutoAt(Kuto(w, l, r))
  {
  }

  /** _DoGyotoKinsoku: near the edge and past the indent, if the next
      character may not start a line and the pair would not fit, break
      before the pair and carry both. */
  function Head(w: Work, l: Line, r: Rules): (w': Work)
    requires w.bgn <= w.pos
    ensures w'.pos == w.pos && w'.line == w.line
    ensures w' == w || |w'.rows| == |w.rows| + 1
    ensures var s1 := l.size(w.pos);
            |w'.rows| == |w.rows| + 1
            <==> && w.kind == NoKinsoku && w.pos + 1 < |l.text| && r.maxWidth - w.posX < 4 * r.perKeta
                 && w.posX > w.indent && w.posX + l.width(w.pos) + l.width(w.pos + s1) > r.maxWidth
                 && r.isHead(At(l.text, w.pos + s1)) && !r.isHead(At(l.text, w.pos)) && !r.isKuto(At(l.text, w.pos))
    ensures |w'.rows| == |w.rows| + 1 ==>
              && w'.kind == HeadKinsoku && w'.wordBgn == w.pos && w'.wordLen == l.size(w.pos) + l.size(w.pos + l.size(w.pos))
              && w'.bgn == w.pos
  {
    if w.pos + 1 < |l.text| && r.maxWidth - w.posX < 4 * r.perKeta && w.posX > w.indent && w.kind == NoKinsoku then
      var s1 := l.size(w.pos);
      if IsKinsokuPosHead(r.maxWidth - w.posX, l.width(w.pos), l.width(w.pos + s1))
         && r.isHead(At(l.text, w.pos + s1)) && !r.isHead(At(l.text, w.pos)) && !r.isKuto(At(l.text, w.pos)) then
        OnLine(w.(wordBgn := w.pos, wordLen := s1 + l.size(w.pos + s1), kind := HeadKinsoku), r)
      else w
    else w
  }

  lemma HeadInv(w: Work, l: Line, r: Rules)
    requires LineOk(l, r) && Inv(w, l, r) && w.pos < Length(l)
    ensures Inv(Head(w, l, r), l, r) && Extends(w, Head(w, l, r)) && Head(w, l, r).pos == w.pos
    ensures KutoAt(w) ==> KutoAt(Head(w, l, r))
  {
    if |Head(w, l, r).rows| == |w.rows| + 1 {
      var s1 := l.size(w.pos);
      var w1 := w.(wordBgn := w.pos, wordLen := s1 + l.size(w.pos + s1), kind := HeadKinsoku);
      CarryInv(w, w1, l, r);
      assert w1.bgn < w1.pos;
      OnLineInv(w1, l, r);
      assert Head(w, l, r) == OnLine(w1, r);
    }
  }

  /** _DoGyomatsuKinsoku: near the edge and past the indent, if this
      character may not end a line and it and the next would not fit, break
      before it and carry it. */
  function Tail(w: Work, l: Line, r: Rules): (w': Work)
    requires w.bgn <= w.pos
    ensures w'.pos == w.pos && w'.line == w.line
    ensures w' == w || |w'.rows| == |w.rows| + 1
    ensures |w'.rows| == |w.rows| + 1
            <==> && w.kind == NoKinsoku && w.pos + 1 < |l.text| && r.maxWidth - w.posX < 4 * r.perKeta
                 && w.posX > w.indent && w.posX + l.width(w.pos) + l.width(w.pos + l.size(w.pos)) > r.maxWidth
                 && r.isTail(At(l.text, w.pos))
    ensures |w'.rows| == |w.rows| + 1 ==>
              && w'.kind == TailKinsoku && w'.wordBgn == w.pos && w'.wordLen == l.size(w.pos)
              && w'.bgn == w.pos
  {
    if w.pos + 1 < |l.text| && r.maxWidth - w.posX < 4 * r.perKeta && w.posX > w.indent && w.kind == NoKinsoku then
      var s1 := l.size(w.pos);
      if IsKinsokuPosTail(r.maxWidth - w.posX, l.width(w.pos), l.width(w.pos + s1)) && r.isTail(At(l.text, w.pos)) then
        OnLine(w.(wordBgn := w.pos, wordLen := s1, kind := TailKinsoku), r)
      else w
    else w
  }

  lemma TailInv(w: Work, l: Line, r: Rules)
    requires LineOk(l, r) && Inv(w, l, r) && w.pos < Length(l)
    ensures Inv(Tail(w, l, r), l, r) && Extends(w, Tail(w, l, r)) && Tail(w, l, r).pos == w.pos
    ensures KutoAt(w) ==> KutoAt(Tail(w, l, r))
  {
    if w.pos + 1 < |l.text| && r.maxWidth - w.posX < 4 * r.perKeta && w.posX > w.indent && w.kind == NoKinsoku {
      var w1 := w.(wordBgn := w.pos, wordLen := l.size(w.pos), kind := TailKinsoku);
      CarryInv(w, w1, l, r);
      assert w1.bgn < w1.pos;
      OnLineInv(w1, l, r);
    }
  }

  /** The rules tried when no rule is carrying characters, in the order of
      _MakeOneLine, each only when the document type enables it. */
  function Rules4(w: Work, l: Line, r: Rules): Work
    requires w.bgn <= w.pos
    requires forall q: nat :: q < |l.text| ==> l.size(q) >= 1
  {
    var a := if r.wordWrap then WordWrap(w, l, r) else w;
    var b := if r.kuto then Kuto(a, l, r) else a;
    var c := if r.head && b.bgn <= b.pos then Head(b, l, r) else b;
    if r.tail && c.bgn <= c.pos then Tail(c, l, r) else c
  }

  lemma Rules4Inv(w: Work, l: Line, r: Rules)
    requires LineOk(l, r) && Inv(w, l, r) && w.pos < Length(l)
    ensures Inv(Rules4(w, l, r), l, r) && Extends(w, Rules4(w, l, r)) && Rules4(w, l, r).pos == w.pos
    ensures KutoAt(w) ==> KutoAt(Rules4(w, l, r))
  {
    var a := if r.wordWrap then WordWrap(w, l, r) else w;
    if r.wordWrap { WordWrapInv(w, l, r); }
    var b := if r.kuto then Kuto(a, l, r) else a;
    if r.kuto { KutoInv(a, l, r); }
    var c := if r.head && b.bgn <= b.pos then Head(b, l, r) else b;
    if r.head { HeadInv(b, l, r); }
    if r.tail { TailInv(c, l, r); }
  }

  /** Everything before the tab and break rules of one step. */
  function Prepare(w: Work, l: Line, r: Rules): Work
    requires w.bgn <= w.pos
    requires forall q: nat :: q < |l.text| ==> l.size(q) >= 1
  {
    var s := KinsokuSkip(w, l, r);
    if s.1 then s.0 else Rules4(w, l, r)
  }

  lemma PrepareInv(w: Work, l: Line, r: Rules)
    requires LineOk(l, r) && Inv(w, l, r) && w.pos < Length(l)
    ensures Inv(Prepare(w, l, r), l, r) && Extends(w, Prepare(w, l, r)) && Prepare(w, l, r).pos == w.pos
    ensures KutoAt(Prepare(w, l, r))
  {
    KinsokuSkipInv(w, l, r);
    if !KinsokuSkip(w, l, r).1 { Rules4Inv(w, l, r); }
  }

  /** One iteration of _MakeOneLine after the rules: a tab that would pass
      the width closes the line (_DoTab); any other character that would
      pass it closes the line too, unless it is a hanging punctuation mark
      or a hanging line end; otherwise the character is consumed.  (The
      source's test for running off the text cannot fire: the walked length
      never exceeds the text's.) */
  function Place(w: Work, l: Line, r: Rules): Work
    requires w.bgn <= w.pos
  {
    if At(l.text, w.pos) == Tab then
      if w.posX + r.tab(w.posX) > r.maxWidth then OnLine(w, r)
      else w.(posX := w.posX + r.tab(w.posX), pos := w.pos + l.size(w.pos))
    else
      var cw := l.width(w.pos);
      if w.posX + cw > r.maxWidth && w.kind != KutoHang && !EolHangs(w.pos, l, r) then OnLine(w, r)
      else w.(pos := w.pos + l.size(w.pos), posX := w.posX + cw)
  }

  /** One iteration of the loop of _MakeOneLine. */
  function Step(w: Work, l: Line, r: Rules): Work
    requires w.bgn <= w.pos
    requires forall q: nat :: q < |l.text| ==> l.size(q) >= 1
  {
    var w1 := Prepare(w, l, r);
    if w1.bgn <= w1.pos then Place(w1, l, r) else w1
  }

  /** A step either consumes the character at pos, or closes a non-empty
      layout line in front of it and starts the next there; it keeps the
      invariant; and a step from the start of a layout line always consumes
      a character, so the walk cannot stall. */
  lemma PlaceInv(w: Work, l: Line, r: Rules)
    requires LineOk(l, r) && Inv(w, l, r) && w.pos < Length(l)
    requires KutoAt(w)
    ensures var w' := Place(w, l, r);
            && Inv(w', l, r) && Extends(w, w')
            && (w'.pos == w.pos + l.size(w.pos) || (w'.pos == w.pos && w'.bgn == w.pos && w.bgn < w.pos))
  {
    if At(l.text, w.pos) == Tab {
      if w.posX + r.tab(w.posX) > r.maxWidth { OnLineInv(w, l, r); }
    } else {
      var cw := l.width(w.pos);
      if w.posX + cw > r.maxWidth && w.kind != KutoHang && !EolHangs(w.pos, l, r) { OnLineInv(w, l, r); }
    }
  }

  /** The break rule: a character is moved to the next layout line exactly
      when it would overrun the width (a tab by its tab width), except that
      a character other than a tab is never moved when it is a hanging
      punctuation mark or a hanging line end.  When it is moved, the line
      closed in front of it ends exactly at it. */
  lemma BreakRule(w: Work, l: Line, r: Rules)
    requires LineOk(l, r) && Inv(w, l, r) && w.pos < Length(l) && KutoAt(w)
    ensures var w' := Place(w, l, r);
            var moved := if At(l.text, w.pos) == Tab then w.posX + r.tab(w.posX) > r.maxWidth
                         else w.posX + l.width(w.pos) > r.maxWidth && w.kind != KutoHang && !EolHangs(w.pos, l, r);
            (moved <==> w'.pos == w.pos) && (moved ==> |w'.rows| == |w.rows| + 1)
    ensures var w' := Place(w, l, r);
            && (w'.pos == w.pos ==>
                  (if At(l.text, w.pos) == Tab then w.posX + r.tab(w.posX) > r.maxWidth
                   else w.posX + l.width(w.pos) > r.maxWidth && w.kind != KutoHang && !EolHangs(w.pos, l, r))
                  && |w'.rows| == |w.rows| + 1 && End(w'.rows) == w.pos)
            && (w'.pos != w.pos ==>
                  w'.pos == w.pos + l.size(w.pos) && w'.rows == w.rows
                  && w'.posX == w.posX + (if At(l.text, w.pos) == Tab then r.tab(w.posX) else l.width(w.pos)))
  {
  }

  lemma StepInv(w: Work, l: Line, r: Rules)
    requires LineOk(l, r) && Inv(w, l, r) && w.pos < Length(l)
    ensures var w' := Step(w, l, r);
            && Inv(w', l, r) && Extends(w, w')
            && (w'.pos == w.pos + l.size(w.pos) || (w'.pos == w.pos && w'.bgn == w.pos && w.bgn < w.pos))
  {
    PrepareInv(w, l, r);
    var w1 := Prepare(w, l, r);
    PlaceInv(w1, l, r);
  }

  /** The loop of _MakeOneLine: step until the walked length is consumed.
      It ends with the invariant intact and everything consumed. */
  function Run(w: Work, l: Line, r: Rules): (w': Work)
    requires LineOk(l, r) && Inv(w, l, r)
    ensures Inv(w', l, r) && Extends(w, w') && w'.pos >= Length(l)
    decreases (if w.pos <= Length(l) then Length(l) - w.pos else 0), (if w.pos == w.bgn then 0 else 1)
  {
    if w.pos >= Length(l) then w
    else
      StepInv(w, l, r);
      Run(Step(w, l, r), l, r)
  }

  // ---------------------------------------------------------------------
  // Large-file mode
  // ---------------------------------------------------------------------

  /** Large-file mode of _MakeOneLine: close a layout line every
      LargeFileCut code units while that is inside the line, then stand at
      the end of the walked length.  The next cut is at p. */
  function LargeCut(w: Work, r: Rules, len: nat, p: nat): (w': Work)
    requires w.bgn + LargeFileCut == p && (w.bgn == 0 || w.bgn < len)
    requires Tiles(w.rows, w.line, w.bgn)
    requires forall i :: 0 <= i < |w.rows| ==> w.rows[i].len == LargeFileCut
    ensures w'.pos == len && w'.line == w.line && w.bgn <= w'.bgn <= len <= w'.bgn + LargeFileCut
    ensures 0 < len ==> w'.bgn < len
    ensures Tiles(w'.rows, w.line, w'.bgn)
    ensures forall i :: 0 <= i < |w'.rows| ==> w'.rows[i].len == LargeFileCut
    ensures |w'.rows| * LargeFileCut == w'.bgn
    decreases len - w.bgn
  {
    if p < len then LargeCut(OnLine(w.(pos := p), r), r, len, p + LargeFileCut)
    else
      LargeCountBase(w.rows, w.line, w.bgn);
      w.(pos := len)
  }

  /** Lines of equal length tile a range as long as their total. */
  lemma {:induction false} LargeCountBase(rows: seq<Row>, line: nat, end: nat)
    requires Tiles(rows, line, end)
    requires forall i :: 0 <= i < |rows| ==> rows[i].len == LargeFileCut
    ensures |rows| * LargeFileCut == end
  {
    if |rows| > 0 {
      var k := |rows| - 1;
      TilesPrefix(rows, line, k);
      LargeCountBase(rows[..k], line, rows[k].bgn);
    }
  }

  /** Dropping the last line of a tiling tiles up to that line's start. */
  lemma TilesPrefix(rows: seq<Row>, line: nat, k: nat)
    requires |rows| > 0 && k == |rows| - 1 && Tiles(rows, line, rows[k].bgn + rows[k].len)
    ensures Tiles(rows[..k], line, rows[k].bgn)
  {
  }

  // ---------------------------------------------------------------------
  // One logical line
  // ---------------------------------------------------------------------

  /** The walk's state when a logical line starts. */
  function Start(line: nat): Work
  {
    Work(line, 0, 0, 0, 0, 0, 0, NoKinsoku, [])
  }

  /** The end of the last layout line, 0 when there is none. */
  function End(rows: seq<Row>): nat
  {
    if |rows| == 0 then 0 else rows[|rows| - 1].bgn + rows[|rows| - 1].len
  }

  /** After the walk, _DoLayout closes the trailing layout line when it is
      not empty. */
  function Close(w: Work): seq<Row>
    requires w.bgn <= w.pos
  {
    if w.pos - w.bgn > 0 then w.rows + [Row(w.line, w.bgn, w.pos - w.bgn, w.indent, w.posX)] else w.rows
  }

  /** The layout lines of one logical line in the ordinary mode. */
  function WrapRows(l: Line, r: Rules, idx: nat): seq<Row>
    requires LineOk(l, r)
  {
    Close(Run(Start(idx), l, r))
  }

  /** The layout lines of one logical line in large-file mode. */
  function LargeRows(l: Line, r: Rules, idx: nat): seq<Row>
    requires l.eolLen <= |l.text|
  {
    Close(LargeCut(Start(idx), r, Length(l), LargeFileCut))
  }

  /** The body of the per-line loop of _DoLayout. */
  function LineRows(l: Line, r: Rules, idx: nat, large: bool): seq<Row>
    requires LineOk(l, r)
  {
    if large then LargeRows(l, r, idx) else WrapRows(l, r, idx)
  }

  /** Closing the trailing line of a tiling walk gives a tiling through the
      walk's position, empty only when nothing was walked. */
  lemma CloseTiles(w: Work)
    requires w.bgn <= w.pos && Tiles(w.rows, w.line, w.bgn)
    ensures Tiles(Close(w), w.line, End(Close(w))) && End(Close(w)) == w.pos
    ensures |Close(w)| == 0 <==> w.pos == 0
  {
  }

  /** A logical line becomes consecutive non-empty layout lines, all of
      that line, covering it from its start through at least its end; a line
      with nothing to walk has none.  Without hanging, none is wider than
      the wrap width. */
  lemma WrapRowsTile(l: Line, r: Rules, idx: nat)
    requires LineOk(l, r)
    ensures var rows := WrapRows(l, r, idx);
            && Tiles(rows, idx, End(rows)) && End(rows) >= Length(l)
            && (|rows| == 0 <==> Length(l) <= 0)
            && (NoHang(r) ==> Narrow(rows, r.maxWidth))
  {
    var w := Run(Start(idx), l, r);
    CloseTiles(w);
  }

  /** In large-file mode a line of n walked positions becomes exactly
      ceil(n / LargeFileCut) consecutive layout lines, every one but the last
      exactly LargeFileCut long, the last one no longer and ending exactly at
      the end of the line. */
  lemma LargeRowsTile(l: Line, r: Rules, idx: nat)
    requires l.eolLen <= |l.text|
    ensures var rows := LargeRows(l, r, idx);
            && Tiles(rows, idx, End(rows)) && End(rows) == Length(l)
            && |rows| == (Length(l) + LargeFileCut - 1) / LargeFileCut
            && (forall i :: 0 <= i < |rows| - 1 ==> rows[i].len == LargeFileCut)
            && (|rows| > 0 ==> rows[|rows| - 1].len <= LargeFileCut)
  {
    var w := LargeCut(Start(idx), r, Length(l), LargeFileCut);
    CloseTiles(w);
    if w.pos - w.bgn > 0 {
      CutCount(Length(l), |w.rows|);
      assert |Close(w)| == |w.rows| + 1;
    } else {
      assert Length(l) == 0 && |w.rows| == 0;
      CutCount(0, 0);
    }
  }

  /** Cutting a positive length every LargeFileCut units leaves m full
      pieces and a last non-empty one exactly when the length rounds up to
      m + 1 pieces; nothing is cut from nothing. */
  lemma CutCount(len: nat, m: nat)
    requires len == 0 ==> m == 0
    requires len > 0 ==> m * LargeFileCut < len <= (m + 1) * LargeFileCut
    ensures (len + LargeFileCut - 1) / LargeFileCut == if len == 0 then 0 else m + 1
  {
  }

  /** Either way, a logical line becomes consecutive non-empty layout
      lines covering it through its end, and none when it has nothing to
      walk. */
  lemma LineRowsTile(l: Line, r: Rules, idx: nat, large: bool)
    requires LineOk(l, r)
    ensures var rows := LineRows(l, r, idx, large);
            && Tiles(rows, idx, End(rows)) && End(rows) >= Length(l)
            && (|rows| == 0 <==> Length(l) <= 0)
  {
    if large { LargeRowsTile(l, r, idx); } else { WrapRowsTile(l, r, idx); }
  }

  // ---------------------------------------------------------------------
  // The tab clamp
  // ---------------------------------------------------------------------

  /** _DoLayout's guard against an endless loop: a tab at least as wide as
      the wrap width is made 4 columns wide.  The wrap width is at least 10,
      so the clamped width is below it and clamping again changes nothing. */
  function ClampTab(tabSpace: int, maxKetas: int): (t: int)
    ensures tabSpace < maxKetas ==> t == tabSpace
    ensures maxKetas > 4 ==> t < maxKetas
    ensures t == tabSpace || t == 4
    ensures tabSpace > 0 ==> t > 0
  {
    if tabSpace >= maxKetas then 4 else tabSpace
  }

  // ---------------------------------------------------------------------
  // The whole document: slices, threads and concatenation
  // ---------------------------------------------------------------------

  /** The first logical line of slice i of n lines cut into k slices. */
  function SliceStart(n: nat, i: nat, k: nat): nat
    requires k > 0
  {
    n * i / k
  }

  lemma MulLe(a: nat, b: nat, k: nat)
    requires a <= b
    ensures a * k <= b * k
  {
  }

  lemma DivMonotone(a: nat, b: nat, k: nat)
    requires k > 0 && a <= b
    ensures a / k <= b / k
  {
    if a / k > b / k {
      MulLe(b / k + 1, a / k, k);
      assert false;
    }
  }

  lemma MulDivCancel(n: nat, k: nat)
    requires k > 0
    ensures n * k / k == n
  {
    var q := n * k / k;
    if q < n {
      MulLe(q + 1, n, k);
      assert false;
    } else if q > n {
      MulLe(n + 1, q, k);
      assert false;
    }
  }

  /** Slice bounds grow with the slice number. */
  lemma SlicesOrdered(n: nat, k: nat, i: nat, j: nat)
    requires k > 0 && i <= j
    ensures SliceStart(n, i, k) <= SliceStart(n, j, k)
  {
    var a, b := n * i, n * j;
    MulLe(i, j, n);
    assert i * n == a && j * n == b;
    DivMonotone(a, b, k);
  }

  /** The slices [n·i/k, n·(i+1)/k) for i < k start at 0 and end at n, and
      slice i starts where slice i-1 ends and is not reversed: together they
      cover [0, n) in order. */
  lemma SlicesPartition(n: nat, k: nat, i: nat)
    requires i < k
    ensures SliceStart(n, 0, k) == 0 && SliceStart(n, k, k) == n
    ensures SliceStart(n, i, k) <= SliceStart(n, i + 1, k) <= n
  {
    MulDivCancel(n, k);
    SlicesOrdered(n, k, i, i + 1);
    SlicesOrdered(n, k, i + 1, k);
  }

  /** Every logical line is owned by exactly one slice. */
  lemma SliceOwner(n: nat, k: nat, x: nat) returns (i: nat)
    requires k > 0 && x < n
    ensures i < k && SliceStart(n, i, k) <= x < SliceStart(n, i + 1, k)
    ensures forall j :: 0 <= j < k && SliceStart(n, j, k) <= x < SliceStart(n, j + 1, k) ==> j == i
  {
    MulDivCancel(n, k);
    i := 0;
    while SliceStart(n, i + 1, k) <= x
      invariant i < k && SliceStart(n, i, k) <= x
      decreases k - i
    {
      if i + 1 == k {
        assert false;
      }
      i := i + 1;
    }
    forall j | 0 <= j < k && SliceStart(n, j, k) <= x < SliceStart(n, j + 1, k)
      ensures j == i
    {
      if j < i {
        SlicesOrdered(n, k, j + 1, i);
      } else if i < j {
        SlicesOrdered(n, k, i + 1, j);
      }
    }
  }

  /** What every thread relies on: every line satisfies the wrapper's
      assumptions. */
  ghost predicate LinesOk(lines: seq<Line>, r: Rules)
  {
    forall j :: 0 <= j < |lines| ==> LineOk(lines[j], r)
  }

  /** The layout lines of every logical line, line by line.  A line's
      layout does not depend on the lines before it, so every thread
      computes the same layout for the same line. */
  function Laid(lines: seq<Line>, r: Rules, large: bool): (per: seq<seq<Row>>)
    requires LinesOk(lines, r)
    ensures |per| == |lines|
    ensures forall j :: 0 <= j < |lines| ==> per[j] == LineRows(lines[j], r, j, large)
  {
    seq(|lines|, j requires 0 <= j < |lines| && LineOk(lines[j], r) => LineRows(lines[j], r, j, large))
  }

  /** The layout lines of several logical lines, one after the other. */
  function Flat(per: seq<seq<Row>>): seq<Row>
  {
    if |per| == 0 then [] else per[0] + Flat(per[1..])
  }

  lemma {:induction false} FlatAppend(a: seq<seq<Row>>, b: seq<seq<Row>>)
    ensures Flat(a + b) == Flat(a) + Flat(b)
  {
    if |a| == 0 {
      assert a + b == b;
    } else {
      assert (a + b)[0] == a[0];
      assert (a + b)[1..] == a[1..] + b;
      FlatAppend(a[1..], b);
    }
  }

  /** The layout lines of logical lines [from, to) (the loop of the slice
      form of _DoLayout). */
  function Rows(per: seq<seq<Row>>, from: nat, to: nat): seq<Row>
    requires from <= to <= |per|
  {
    Flat(per[from..to])
  }

  /** Laying out [from, to) is laying out [from, mid) and then [mid, to). */
  lemma RowsSplit(per: seq<seq<Row>>, from: nat, mid: nat, to: nat)
    requires from <= mid <= to <= |per|
    ensures Rows(per, from, to) == Rows(per, from, mid) + Rows(per, mid, to)
  {
    assert per[from..to] == per[from..mid] + per[mid..to];
    FlatAppend(per[from..mid], per[mid..to]);
  }

  /** A layout manager as far as concatenation is concerned: its layout
      lines in order and its line count. */
  datatype Mgr = Mgr(rows: seq<Row>, count: nat)

  /** A manager with nothing in it (Init). */
  function Empty(): Mgr
  {
    Mgr([], 0)
  }

  /** Cat: append the other manager's layout lines and count and clear it;
      a missing or empty other manager changes nothing. */
  function Cat(m: Mgr, other: Option<Mgr>): (r: (Mgr, Option<Mgr>))
    ensures other.None? || |other.value.rows| == 0 ==> r == (m, other)
    ensures other.Some? && |other.value.rows| > 0 ==>
              r.0.rows == m.rows + other.value.rows && r.0.count == m.count + other.value.count
              && r.1 == Some(Empty())
  {
    if other.None? || |other.value.rows| == 0 then (m, other)
    else (Mgr(m.rows + other.value.rows, m.count + other.value.count), Some(Empty()))
  }

  /** A manager whose count is its number of layout lines. */
  predicate Counted(m: Mgr)
  {
    m.count == |m.rows|
  }

  /** Cat keeps both managers' counts honest and loses no layout line:
      together they hold what they held before. */
  lemma CatCounted(m: Mgr, other: Option<Mgr>)
    requires Counted(m) && (other.Some? ==> Counted(other.value))
    ensures Counted(Cat(m, other).0) && (Cat(m, other).1.Some? ==> Counted(Cat(m, other).1.value))
    ensures other.Some? ==> Cat(m, other).1.Some? && Cat(m, other).0.rows + Cat(m, other).1.value.rows == m.rows + other.value.rows
  {
  }

  /** Thread i's manager: the layout of its slice. */
  function ThreadMgr(per: seq<seq<Row>>, i: nat, k: nat): Mgr
    requires i < k
  {
    SlicesPartition(|per|, k, i);
    var rs := Rows(per, SliceStart(|per|, i, k), SliceStart(|per|, i + 1, k));
    Mgr(rs, |rs|)
  }

  /** The join loop of _DoLayout: threads u+1 .. k-1 are appended in order. */
  function JoinFrom(m: Mgr, per: seq<seq<Row>>, u: nat, k: nat): Mgr
    requires u < k
    decreases k - u
  {
    if u + 1 >= k then m
    else JoinFrom(Cat(m, Some(ThreadMgr(per, u + 1, k))).0, per, u + 1, k)
  }

  /** The thread part of _DoLayout: k threads each lay out their slice,
      and thread 0's manager appends the others in thread order. */
  function Sliced(per: seq<seq<Row>>, k: nat): Mgr
    requires k > 0
  {
    JoinFrom(ThreadMgr(per, 0, k), per, 0, k)
  }

  /** _DoLayout: as many threads as the hardware offers in large-file mode,
      one otherwise. */
  function DoLayoutAll(lines: seq<Line>, r: Rules, large: bool, hw: nat): Mgr
    requires LinesOk(lines, r) && (large ==> hw > 0)
  {
    Sliced(Laid(lines, r, large), if large then hw else 1)
  }

  lemma {:induction false} JoinFromRows(m: Mgr, per: seq<seq<Row>>, u: nat, k: nat)
    requires u < k && Counted(m)
    requires SliceStart(|per|, u + 1, k) <= |per|
    requires m.rows == Rows(per, 0, SliceStart(|per|, u + 1, k))
    ensures JoinFrom(m, per, u, k).rows == Flat(per)
    ensures Counted(JoinFrom(m, per, u, k))
    decreases k - u
  {
    if u + 1 < k {
      SlicesPartition(|per|, k, u + 1);
      var t := ThreadMgr(per, u + 1, k);
      RowsSplit(per, 0, SliceStart(|per|, u + 1, k), SliceStart(|per|, u + 2, k));
      CatCounted(m, Some(t));
      JoinFromRows(Cat(m, Some(t)).0, per, u + 1, k);
    } else {
      SlicesPartition(|per|, k, u);
      assert per[0..|per|] == per;
    }
  }

  /** However many threads share the work, the joined layout is every
      logical line's layout lines, line after line, with an honest count. */
  lemma SlicedIsFlat(per: seq<seq<Row>>, k: nat)
    requires k > 0
    ensures Sliced(per, k).rows == Flat(per) && Counted(Sliced(per, k))
  {
    SlicesPartition(|per|, k, 0);
    JoinFromRows(ThreadMgr(per, 0, k), per, 0, k);
  }

  /** Laying out in slices on several threads and concatenating them gives
      exactly the single-threaded layout. */
  lemma ParallelIsSequential(lines: seq<Line>, r: Rules, large: bool, hw: nat)
    requires LinesOk(lines, r) && (large ==> hw > 0)
    ensures DoLayoutAll(lines, r, large, hw) == DoLayoutAll(lines, r, large, 1)
    ensures DoLayoutAll(lines, r, large, hw).rows == Flat(Laid(lines, r, large))
    ensures Counted(DoLayoutAll(lines, r, large, hw))
  {
    var per := Laid(lines, r, large);
    SlicedIsFlat(per, if large then hw else 1);
    SlicedIsFlat(per, 1);
  }

  // ---------------------------------------------------------------------
  // The slice bounds as written
  // ---------------------------------------------------------------------

  const Two32: nat := 0x1_0000_0000

  /** The slice bound as the source computes it: the line count is an int
      and the thread number a UINT, so the product is taken modulo 2^32
      before the division. */
  function SliceStartAsWritten(n: nat, i: nat, k: nat): nat
    requires k > 0
  {
    (n * i) % Two32 / k
  }

  /** With 2^28 lines on 16 threads the last slice's end wraps to 0. */
  lemma LastSliceWrapsAsWritten()
    ensures SliceStartAsWritten(0x1000_0000, 16, 16) == 0
    ensures SliceStartAsWritten(0x1000_0000, 15, 16) == 15 * 0x100_0000
    ensures SliceStart(0x1000_0000, 16, 16) == 0x1000_0000
  {
  }

  /** While the product of the line count and the thread number stays
      below 2^32 the bound as written is the intended one. */
  lemma SliceStartNoWrap(n: nat, i: nat, k: nat)
    requires k > 0 && n * i < Two32
    ensures SliceStartAsWritten(n, i, k) == SliceStart(n, i, k)
  {
  }

  /** Thread i's manager as written: the thread starts at the line its
      wrapped start bound names (none when that is past the last line) and
      lays out lines while below its wrapped end bound and while there is
      a line. */
  function ThreadMgrAsWritten(per: seq<seq<Row>>, i: nat, k: nat): (m: Mgr)
    requires i < k
    ensures Counted(m)
  {
    var a := SliceStartAsWritten(|per|, i, k);
    var b := SliceStartAsWritten(|per|, i + 1, k);
    var e := if b <= |per| then b else |per|;
    var rs := if a < e then Rows(per, a, e) else [];
    Mgr(rs, |rs|)
  }

  /** Where no product wraps, a thread as written lays out its own slice. */
  lemma ThreadMgrNoWrap(per: seq<seq<Row>>, i: nat, k: nat)
    requires i < k && |per| * (i + 1) < Two32
    ensures ThreadMgrAsWritten(per, i, k) == ThreadMgr(per, i, k)
  {
    MulLe(i, i + 1, |per|);
    assert |per| * i <= |per| * (i + 1);
    SliceStartNoWrap(|per|, i, k);
    SliceStartNoWrap(|per|, i + 1, k);
    SlicesPartition(|per|, k, i);
    var a := SliceStart(|per|, i, k);
    assert Rows(per, a, a) == [] by {
      assert per[a..a] == [];
    }
  }

  /** The join loop over the threads as written. */
  function JoinFromAsWritten(m: Mgr, per: seq<seq<Row>>, u: nat, k: nat): (r: Mgr)
    requires u < k && Counted(m)
    ensures Counted(r)
    decreases k - u
  {
    if u + 1 >= k then m
    else
      CatCounted(m, Some(ThreadMgrAsWritten(per, u + 1, k)));
      JoinFromAsWritten(Cat(m, Some(ThreadMgrAsWritten(per, u + 1, k))).0, per, u + 1, k)
  }

  /** The thread part of _DoLayout as written; where no product wraps it
      is the thread part as intended. */
  function SlicedAsWritten(per: seq<seq<Row>>, k: nat): (m: Mgr)
    requires k > 0
    ensures Counted(m)
    ensures |per| * k < Two32 ==> m == Sliced(per, k)
  {
    var t := ThreadMgrAsWritten(per, 0, k);
    if |per| * k < Two32 then
      JoinNoWrap(per, 0, k);
      ThreadMgrNoWrap(per, 0, k);
      JoinFromAsWritten(t, per, 0, k)
    else JoinFromAsWritten(t, per, 0, k)
  }

  /**
   * _DoLayout as written: the same threads and join as DoLayoutAll, with
   * the slice bounds wrapped.  Its count is always honest, and while the
   * line count times the thread count stays below 2^32 it is exactly
   * DoLayoutAll.
   */
  function DoLayoutAllAsWritten(lines: seq<Line>, r: Rules, large: bool, hw: nat): (m: Mgr)
    requires LinesOk(lines, r) && (large ==> hw > 0)
    ensures Counted(m)
    ensures |lines| * (if large then hw else 1) < Two32 ==> m == DoLayoutAll(lines, r, large, hw)
  {
    SlicedAsWritten(Laid(lines, r, large), if large then hw else 1)
  }

  /** Where no product wraps, the join as written is the join. */
  lemma {:induction false} JoinNoWrap(per: seq<seq<Row>>, u: nat, k: nat)
    requires u < k && |per| * k < Two32
    ensures forall m: Mgr :: Counted(m) ==> JoinFromAsWritten(m, per, u, k) == JoinFrom(m, per, u, k)
    decreases k - u
  {
    if u + 1 < k {
      MulLe(u + 2, k, |per|);
      assert |per| * (u + 2) <= |per| * k;
      ThreadMgrNoWrap(per, u + 1, k);
      JoinNoWrap(per, u + 1, k);
      forall m: Mgr | Counted(m)
        ensures JoinFromAsWritten(m, per, u, k) == JoinFrom(m, per, u, k)
      {
        CatCounted(m, Some(ThreadMgr(per, u + 1, k)));
      }
    }
  }

  /** With 2^28 lines on 16 threads, the last thread lays out nothing: the
      joined layout holds only the first 15 · 2^24 lines' layout lines, and
      the last 2^24 lines get none. */
  lemma LastSliceLostAsWritten(per: seq<seq<Row>>)
    requires |per| == 0x1000_0000
    ensures 15 * 0x100_0000 <= |per|
    ensures SlicedAsWritten(per, 16).rows == Rows(per, 0, 15 * 0x100_0000)
  {
    ThreadMgrNoWrap(per, 0, 16);
    SlicesPartition(|per|, 16, 0);
    JoinPrefixAsWritten(ThreadMgrAsWritten(per, 0, 16), per, 0);
  }

  /** One round of the join as written, with 2^28 lines on 16 threads:
      threads up to 14 add their slice, thread 15 adds nothing. */
  lemma JoinStepAsWritten(m: Mgr, per: seq<seq<Row>>, u: nat)
    requires |per| == 0x1000_0000 && u + 1 < 16 && Counted(m)
    requires m.rows == Rows(per, 0, (if u < 15 then u + 1 else 15) * 0x100_0000)
    ensures Cat(m, Some(ThreadMgrAsWritten(per, u + 1, 16))).0.rows
              == Rows(per, 0, (if u + 1 < 15 then u + 2 else 15) * 0x100_0000)
  {
    var t := ThreadMgrAsWritten(per, u + 1, 16);
    CatCounted(m, Some(t));
    if u + 1 < 15 {
      ThreadMgrNoWrap(per, u + 1, 16);
      SlicesPartition(|per|, 16, u + 1);
      RowsSplit(per, 0, (u + 1) * 0x100_0000, (u + 2) * 0x100_0000);
    } else {
      assert t.rows == [];
    }
  }

  /** The join as written from thread u + 1 on, with 2^28 lines on 16
      threads: threads up to 14 add their slices, thread 15 adds nothing. */
  lemma {:induction false} JoinPrefixAsWritten(m: Mgr, per: seq<seq<Row>>, u: nat)
    requires |per| == 0x1000_0000 && u < 16 && Counted(m)
    requires m.rows == Rows(per, 0, (if u < 15 then u + 1 else 15) * 0x100_0000)
    ensures JoinFromAsWritten(m, per, u, 16).rows == Rows(per, 0, 15 * 0x100_0000)
    decreases 16 - u
  {
    if u + 1 < 16 {
      var t := ThreadMgrAsWritten(per, u + 1, 16);
      CatCounted(m, Some(t));
      JoinStepAsWritten(m, per, u);
      JoinPrefixAsWritten(Cat(m, Some(t)).0, per, u + 1);
    }
  }

}

=== FILE: pattern_alternate.dfy ===
/**
 * The pattern rewriter that CBregexp runs before handing a pattern to the
 * regular-expression engine.  Every `.` and `$` that stands at the top level
 * of the pattern -- not escaped, not inside a character class, not between
 * `\Q` and `\E` -- is replaced so that `.` no longer matches CR and `$`
 * matches before CR, LF or CRLF.  Every other character is copied.
 *
 * The rewriter is a table-driven automaton over eight states plus a
 * bracket-depth counter; `Next` is the table, `RewriteFrom` the scan.
 */
module PatternAlternate {

  /** The replacement for a top-level `.`: any character but CR or LF. */
  const DotAlternative: string := "[^\\r\\n]"
  /** The replacement for a top-level `$`: end of line, for any line ending. */
  const DollarAlternative: string := "(?<![\\r\\n])(?=\\r|$)"

  /** Scanner states: top level, inside a class, inside \Q...\E, each with
      its "just after a backslash" and "just after \c" variants. */
  datatype State = Def | DefEsc | DefCtl | Cha | ChaEsc | ChaCtl | Qee | QeeEsc

  /** The character classes the table distinguishes. */
  datatype CharClass = Other | Dot | Dollar | SmallC | LargeQ | LargeE | LBracket | RBracket | Escape

  /** A table cell: a plain state change, or one of the four actions. */
  datatype Move = Go(s: State) | EnterClass | ExitClass | ReplaceDot | ReplaceDollar

  function Classify(ch: char): CharClass
  {
    if ch == '.' then Dot
    else if ch == '$' then Dollar
    else if ch == 'c' then SmallC
    else if ch == 'Q' then LargeQ
    else if ch == 'E' then LargeE
    else if ch == '[' then LBracket
    else if ch == ']' then RBracket
    else if ch == '\\' then Escape
    else Other
  }

  /** The state transition table, row by row. */
  function Next(s: State, c: CharClass): Move
  {
    match s
    case Def =>
      (match c
       case Dot => ReplaceDot
       case Dollar => ReplaceDollar
       case LBracket => EnterClass
       case Escape => Go(DefEsc)
       case _ => Go(Def))
    case DefEsc =>
      (match c
       case SmallC => Go(DefCtl)
       case LargeQ => Go(Qee)
       case _ => Go(Def))
    case DefCtl =>
      (match c
       case Escape => Go(DefEsc)
       case _ => Go(Def))
    case Cha =>
      (match c
       case LBracket => EnterClass
       case RBracket => ExitClass
       case Escape => Go(ChaEsc)
       case _ => Go(Cha))
    case ChaEsc =>
      (match c
       case SmallC => Go(ChaCtl)
       case _ => Go(Cha))
    case ChaCtl =>
      (match c
       case Escape => Go(ChaEsc)
       case _ => Go(Cha))
    case Qee =>
      (match c
       case Escape => Go(QeeEsc)
       case _ => Go(Qee))
    case QeeEsc =>
      (match c
       case LargeE => Go(Def)
       case Escape => Go(QeeEsc)
       case _ => Go(Qee))
  }

  /** The scanner configuration: the state and the bracket depth. */
  datatype Scan = Scan(state: State, depth: int)

  /** The configuration after reading one character. */
  function Advance(sc: Scan, ch: char): Scan
  {
    match Next(sc.state, Classify(ch))
    case Go(s) => Scan(s, sc.depth)
    case EnterClass => Scan(Cha, sc.depth + 1)
    case ExitClass => Scan(if 0 < sc.depth - 1 then Cha else Def, sc.depth - 1)
    case ReplaceDot => sc
    case ReplaceDollar => sc
  }

  /** What one character contributes to the output in a given state. */
  function Emit(s: State, ch: char): string
  {
    match Next(s, Classify(ch))
    case ReplaceDot => DotAlternative
    case ReplaceDollar => DollarAlternative
    case _ => [ch]
  }

  /** The rewrite of `p`, starting from configuration `sc`. */
  function RewriteFrom(sc: Scan, p: string): string
    decreases |p|
  {
    if |p| == 0 then []
    else Emit(sc.state, p[0]) + RewriteFrom(Advance(sc, p[0]), p[1..])
  }

  /** The rewrite of a whole pattern, started at the top level. */
  function Rewrite(p: string): string
  {
    RewriteFrom(Scan(Def, 0), p)
  }

  /** The configuration after reading all of `p`. */
  function ScanAll(sc: Scan, p: string): Scan
    decreases |p|
  {
    if |p| == 0 then sc else ScanAll(Advance(sc, p[0]), p[1..])
  }

  /** The number of characters the source reserves for the rewritten pattern,
      counting every `.` and `$` at its replacement length and one for the
      terminating NUL. */
  function Reserve(p: string): nat
  {
    ReserveBody(p) + 1
  }

  function ReserveBody(p: string): nat
    decreases |p|
  {
    if |p| == 0 then 0
    else (if p[0] == '.' then |DotAlternative|
          else if p[0] == '$' then |DollarAlternative|
          else 1) + ReserveBody(p[1..])
  }

  /** Every character is a dot or dollar scanned at the top level exactly
      when it is replaced. */
  predicate Replaced(s: State, ch: char)
  {
    s == Def && (ch == '.' || ch == '$')
  }

  /**
   * The rewriter as the source writes it: one pass with a `left` mark;
   * the text between `left` and a replaced character is copied as one
   * block before the replacement, and the tail is copied at the end.
   */
  method MakePatternAlternate(p: string) returns (out: string)
    ensures out == Rewrite(p)
    ensures |out| < Reserve(p)
  {
    var sc := Scan(Def, 0);
    var left := 0;
    var right := 0;
    out := [];
    while right < |p|
      invariant 0 <= left <= right <= |p|
      invariant out + p[left..right] + RewriteFrom(sc, p[right..]) == Rewrite(p)
      decreases |p| - right
    {
      var ch := p[right];
      if Replaced(sc.state, ch) {
        ReplaceStep(p, left, right, sc, out, Rewrite(p));
        out := out + p[left..right] + Emit(sc.state, ch);
        left := right + 1;
        right := right + 1;
      } else {
        CopyStep(p, left, right, sc, out, Rewrite(p));
        sc := Advance(sc, ch);
        right := right + 1;
      }
    }
    assert p[right..] == [];
    out := out + p[left..];
    RewriteBound(Scan(Def, 0), p);
  }

  /** The loop step for a replaced character: the pending block and the
      replacement go to the output, and the block restarts after it. */
  lemma ReplaceStep(p: string, left: int, right: int, sc: Scan, out: string, goal: string)
    requires 0 <= left <= right < |p| && Replaced(sc.state, p[right])
    requires out + p[left..right] + RewriteFrom(sc, p[right..]) == goal
    ensures (out + p[left..right] + Emit(sc.state, p[right])) + p[right + 1..right + 1]
            + RewriteFrom(sc, p[right + 1..]) == goal
  {
    var x := out + p[left..right];
    var e := Emit(sc.state, p[right]);
    var r := RewriteFrom(sc, p[right + 1..]);
    RewriteCons(sc, p[right..]);
    assert p[right..][1..] == p[right + 1..];
    assert RewriteFrom(sc, p[right..]) == e + r;
    assert p[right + 1..right + 1] == [];
    assert x + (e + r) == (x + e) + [] + r;
  }

  /** The loop step for a copied character: it joins the pending block. */
  lemma CopyStep(p: string, left: int, right: int, sc: Scan, out: string, goal: string)
    requires 0 <= left <= right < |p| && !Replaced(sc.state, p[right])
    requires out + p[left..right] + RewriteFrom(sc, p[right..]) == goal
    ensures out + p[left..right + 1] + RewriteFrom(Advance(sc, p[right]), p[right + 1..]) == goal
  {
    var ch := p[right];
    var y := p[right + 1..];
    assert p[right..] == [ch] + y;
    CopyOne(sc, ch, y);
    assert p[left..right + 1] == p[left..right] + [ch];
    Regroup(out, p[left..right], [ch], RewriteFrom(Advance(sc, ch), y));
  }

  /** Moving the middle of a concatenation from one group to the other. */
  lemma Regroup(a: string, b: string, c: string, d: string)
    ensures a + b + (c + d) == a + (b + c) + d
  {
  }

  /** Only the table's top-level row replaces, and only `.` and `$`. */
  lemma ReplaceMoves(s: State, ch: char)
    ensures Next(s, Classify(ch)).ReplaceDot? <==> s == Def && ch == '.'
    ensures Next(s, Classify(ch)).ReplaceDollar? <==> s == Def && ch == '$'
  {
    var c := Classify(ch);
    assert c == Dot <==> ch == '.';
    assert c == Dollar <==> ch == '$';
    match s
    case Def =>
    case DefEsc =>
    case DefCtl =>
    case Cha =>
    case ChaEsc =>
    case ChaCtl =>
    case Qee =>
    case QeeEsc =>
  }

  /** One step of the scan: a replaced character keeps the configuration,
      any other character is copied as it is. */
  lemma RewriteCons(sc: Scan, p: string)
    requires |p| > 0
    ensures RewriteFrom(sc, p) == Emit(sc.state, p[0]) + RewriteFrom(Advance(sc, p[0]), p[1..])
    ensures Replaced(sc.state, p[0]) ==> Advance(sc, p[0]) == sc
    ensures !Replaced(sc.state, p[0]) ==> Emit(sc.state, p[0]) == [p[0]]
  {
    ReplaceMoves(sc.state, p[0]);
  }

  /** Each character's output is at most what the reservation counts for it. */
  lemma {:induction false} RewriteBound(sc: Scan, p: string)
    ensures |RewriteFrom(sc, p)| <= ReserveBody(p)
    decreases |p|
  {
    if |p| > 0 {
      RewriteBound(Advance(sc, p[0]), p[1..]);
    }
  }

  /** A pattern without `.` and `$` comes back unchanged, whatever the state. */
  lemma {:induction false} RewriteIdentity(sc: Scan, p: string)
    requires forall k :: 0 <= k < |p| ==> p[k] != '.' && p[k] != '$'
    ensures RewriteFrom(sc, p) == p
    decreases |p|
  {
    if |p| > 0 {
      RewriteIdentity(Advance(sc, p[0]), p[1..]);
      assert p == [p[0]] + p[1..];
    }
  }

  /** The rewrite is a scan: rewriting a concatenation rewrites the second
      part from wherever the first part left the scanner. */
  lemma {:induction false} RewriteAppend(sc: Scan, p: string, q: string)
    ensures RewriteFrom(sc, p + q) == RewriteFrom(sc, p) + RewriteFrom(ScanAll(sc, p), q)
    decreases |p|
  {
    if |p| > 0 {
      assert (p + q)[0] == p[0];
      assert (p + q)[1..] == p[1..] + q;
      RewriteAppend(Advance(sc, p[0]), p[1..], q);
    } else {
      assert p + q == q;
    }
  }

  /** Text with no bracket and no backslash leaves a character class as it found it. */
  lemma {:induction false} ClassBodyVerbatim(d: int, x: string)
    requires forall k :: 0 <= k < |x| ==> x[k] != '[' && x[k] != ']' && x[k] != '\\'
    ensures RewriteFrom(Scan(Cha, d), x) == x
    ensures ScanAll(Scan(Cha, d), x) == Scan(Cha, d)
    decreases |x|
  {
    if |x| > 0 {
      ClassBodyVerbatim(d, x[1..]);
      assert x == [x[0]] + x[1..];
    }
  }

  /** Text with no backslash leaves a \Q...\E quotation as it found it. */
  lemma {:induction false} QuoteBodyVerbatim(d: int, x: string)
    requires forall k :: 0 <= k < |x| ==> x[k] != '\\'
    ensures RewriteFrom(Scan(Qee, d), x) == x
    ensures ScanAll(Scan(Qee, d), x) == Scan(Qee, d)
    decreases |x|
  {
    if |x| > 0 {
      QuoteBodyVerbatim(d, x[1..]);
      assert x == [x[0]] + x[1..];
    }
  }

  /** A top-level `.` becomes DotAlternative. */
  lemma TopLevelDot(rest: string)
    ensures Rewrite("." + rest) == DotAlternative + Rewrite(rest)
  {
    RewriteCons(Scan(Def, 0), "." + rest);
    assert ("." + rest)[1..] == rest;
  }

  /** A top-level `$` becomes DollarAlternative. */
  lemma TopLevelDollar(rest: string)
    ensures Rewrite("$" + rest) == DollarAlternative + Rewrite(rest)
  {
    RewriteCons(Scan(Def, 0), "$" + rest);
    assert ("$" + rest)[1..] == rest;
  }

  /** A character the scanner does not replace is copied in front of the
      rewrite of what follows it. */
  lemma CopyOne(sc: Scan, a: char, y: string)
    requires !Replaced(sc.state, a)
    ensures RewriteFrom(sc, [a] + y) == [a] + RewriteFrom(Advance(sc, a), y)
  {
    var p := [a] + y;
    RewriteCons(sc, p);
    assert p[0] == a && p[1..] == y;
  }

  /** Two characters the scanner does not replace, one after the other. */
  lemma CopyTwo(sc: Scan, a: char, b: char, y: string)
    requires !Replaced(sc.state, a) && !Replaced(Advance(sc, a).state, b)
    ensures RewriteFrom(sc, [a, b] + y) == [a, b] + RewriteFrom(Advance(Advance(sc, a), b), y)
  {
    CopyOne(sc, a, [b] + y);
    CopyOne(Advance(sc, a), b, y);
    assert [a, b] + y == [a] + ([b] + y);
  }

  /** Nothing inside a top-level character class is rewritten, and the
      closing bracket returns the scanner to the top level. */
  lemma CharClassVerbatim(x: string, rest: string)
    requires forall k :: 0 <= k < |x| ==> x[k] != '[' && x[k] != ']' && x[k] != '\\'
    ensures Rewrite("[" + x + "]" + rest) == "[" + x + "]" + Rewrite(rest)
  {
    var s0 := Scan(Def, 0);
    var open, close := "[", "]";
    var tail := close + rest;
    var r := Rewrite(rest);
    Assoc4(open, x, close, rest);
    CopyOne(s0, '[', x + tail);
    assert Advance(s0, '[') == Scan(Cha, 1);
    var inside := RewriteFrom(Scan(Cha, 1), x + tail);
    assert inside == x + (close + r) by {
      RewriteAppend(Scan(Cha, 1), x, tail);
      ClassBodyVerbatim(1, x);
      CopyOne(Scan(Cha, 1), ']', rest);
      assert Advance(Scan(Cha, 1), ']') == s0;
    }
    Assoc4(open, x, close, r);
  }

  /** `\Q` at the top level opens a quotation. */
  lemma OpenQuote(y: string)
    ensures Rewrite("\\Q" + y) == "\\Q" + RewriteFrom(Scan(Qee, 0), y)
  {
    var s0 := Scan(Def, 0);
    assert Advance(s0, '\\') == Scan(DefEsc, 0);
    assert Advance(Scan(DefEsc, 0), 'Q') == Scan(Qee, 0);
    CopyTwo(s0, '\\', 'Q', y);
  }

  /** `\E` inside a quotation closes it. */
  lemma CloseQuote(rest: string)
    ensures RewriteFrom(Scan(Qee, 0), "\\E" + rest) == "\\E" + Rewrite(rest)
  {
    assert Advance(Scan(Qee, 0), '\\') == Scan(QeeEsc, 0);
    assert Advance(Scan(QeeEsc, 0), 'E') == Scan(Def, 0);
    CopyTwo(Scan(Qee, 0), '\\', 'E', rest);
  }

  /** Nothing between a top-level `\Q` and the following `\E` is rewritten,
      and `\E` returns the scanner to the top level. */
  lemma QuoteVerbatim(x: string, rest: string)
    requires forall k :: 0 <= k < |x| ==> x[k] != '\\'
    ensures Rewrite("\\Q" + x + "\\E" + rest) == "\\Q" + x + "\\E" + Rewrite(rest)
  {
    var open, close := "\\Q", "\\E";
    var tail := close + rest;
    var r := Rewrite(rest);
    Assoc4(open, x, close, rest);
    OpenQuote(x + tail);
    var inside := RewriteFrom(Scan(Qee, 0), x + tail);
    assert inside == x + (close + r) by {
      RewriteAppend(Scan(Qee, 0), x, tail);
      QuoteBodyVerbatim(0, x);
      CloseQuote(rest);
    }
    Assoc4(open, x, close, r);
  }

  /** Regrouping a concatenation of four strings. */
  lemma Assoc4(a: string, b: string, c: string, d: string)
    ensures a + b + c + d == a + (b + (c + d))
  {
  }

  /** An escaped character is copied with its backslash, unless it starts
      `\c` or `\Q`. */
  lemma EscapedVerbatim(ch: char, rest: string)
    requires ch != 'c' && ch != 'Q'
    ensures Rewrite(['\\', ch] + rest) == ['\\', ch] + Rewrite(rest)
  {
    var s0 := Scan(Def, 0);
    assert Advance(s0, '\\') == Scan(DefEsc, 0);
    assert Advance(Scan(DefEsc, 0), ch) == s0;
    CopyTwo(s0, '\\', ch, rest);
  }

  /** The character after a top-level `\c` is copied, even a `.` or `$`,
      unless it is itself a backslash that starts a new escape. */
  lemma ControlVerbatim(ch: char, rest: string)
    requires ch != '\\'
    ensures Rewrite(['\\', 'c', ch] + rest) == ['\\', 'c', ch] + Rewrite(rest)
  {
    var s0 := Scan(Def, 0);
    assert Advance(s0, '\\') == Scan(DefEsc, 0);
    assert Advance(Scan(DefEsc, 0), 'c') == Scan(DefCtl, 0);
    assert Advance(Scan(DefCtl, 0), ch) == s0;
    CopyTwo(s0, '\\', 'c', [ch] + rest);
    CopyOne(Scan(DefCtl, 0), ch, rest);
    assert ['\\', 'c', ch] + rest == ['\\', 'c'] + ([ch] + rest);
  }
}

=== FILE: regex_keyword.dfy ===
/**
 * Regular-expression keywords (CRegexKeyword.cpp): the `/re/opt` keyword
 * syntax, compiling a type's keyword list, and the per-line search that
 * colours a line by asking, position by position, whether a keyword starts
 * there.
 *
 * The regular-expression engine is an oracle.  Compiling is a predicate on
 * the pattern body and its case sensitivity; searching one line is a pair
 * of functions telling, for keyword i and position k, whether the keyword
 * matches at k and how long that match is.  The engine's Match from a
 * position is the leftmost match at or after it (Search below).  Whether
 * the engine's library is loaded is a flag.
 */
module RegexKeyword {
  import opened Wrappers

  /** MAX_REGEX_KEYWORD: the number of keyword slots (the header defining it
      is not part of this model; RK_SIZE in the source has the same value). */
  const MaxKeywords: nat := 100

  // ---------------------------------------------------------------------
  // The `/re/opt` syntax
  // ---------------------------------------------------------------------

  /** A keyword opens with one of these delimiters. */
  predicate IsDelimiter(c: char)
  {
    c == '/' || c == '#'
  }

  /** A keyword after its optional leading `m`. */
  function StripM(s: string): (t: string)
    ensures |s| > 0 && s[0] == 'm' ==> s == "m" + t
    ensures !(|s| > 0 && s[0] == 'm') ==> t == s
  {
    if |s| > 0 && s[0] == 'm' then s[1..] else s
  }

  /** The last index in [1, hi) holding d. */
  function LastIn(st: string, d: char, hi: int): (r: Option<nat>)
    requires hi <= |st|
    ensures r.Some? ==> 1 <= r.value < hi && st[r.value] == d &&
                        forall k :: r.value < k < hi ==> st[k] != d
    ensures r.None? ==> forall k :: 1 <= k < hi ==> st[k] != d
    decreases hi
  {
    if hi <= 1 then None
    else if st[hi - 1] == d then Some(hi - 1)
    else LastIn(st, d, hi - 1)
  }

  /** A parsed keyword: its delimiter, the pattern body, whether it is
      case-sensitive, and whether it is anchored at the line start. */
  datatype Parsed = Parsed(delim: char, body: string, caseSensitive: bool, head: bool)

  /** The `/re/opt` parser of Compile: after an optional `m`, a `/` or `#`
      and at least two more characters.  The body runs to the last later
      occurrence of the delimiter, or to the end when there is none; an `i`
      after the body makes the keyword caseless, and a body starting with
      `^` is anchored. */
  function Parse(s: string): (r: Option<Parsed>)
    ensures var t := StripM(s);
            r.None? <==> |t| < 3 || !IsDelimiter(t[0])
  {
    Delimited(StripM(s))
  }

  /** The parse of what follows the optional `m`. */
  function Delimited(t: string): (r: Option<Parsed>)
    ensures r.None? <==> |t| < 3 || !IsDelimiter(t[0])
  {
    if |t| < 3 || !IsDelimiter(t[0]) then None
    else
      var d := t[0];
      var st := t[1..];
      var end := match LastIn(st, d, |st|) case Some(j) => j case None => |st|;
      Some(Parsed(d, st[..end], 'i' !in st[end..], st[0] == '^'))
  }

  /** What a parsed keyword is made of, given the text after the optional
      `m`: its delimiter, its non-empty body, and a rest that is empty or
      opens with the delimiter and holds no other.  With no rest, the body
      holds no delimiter after its first character.  The keyword is
      case-sensitive exactly when the rest holds no `i`. */
  predicate Shape(t: string, p: Parsed)
  {
    var n := |p.body|;
    && 1 <= n && 1 + n <= |t| && p.delim == t[0] && IsDelimiter(p.delim) && t[1..1 + n] == p.body
    && (1 + n == |t| ==> forall k :: 1 <= k < n ==> p.body[k] != p.delim)
    && (1 + n < |t| ==> t[1 + n] == p.delim && p.delim !in t[2 + n..])
    && (p.caseSensitive <==> 'i' !in t[1 + n..])
    && (p.head <==> p.body[0] == '^')
  }

  /** Every parsed keyword has that shape. */
  lemma ParseShape(s: string)
    requires Parse(s).Some?
    ensures Shape(StripM(s), Parse(s).value)
  {
    var t := StripM(s);
    if LastIn(t[1..], t[0], |t| - 1).Some? {
      DelimitedShapeClosed(t);
    } else {
      DelimitedShapeOpen(t);
    }
  }

  lemma DelimitedShapeClosed(t: string)
    requires |t| >= 3 && IsDelimiter(t[0]) && LastIn(t[1..], t[0], |t| - 1).Some?
    ensures Shape(t, Delimited(t).value)
  {
    var st := t[1..];
    var j := LastIn(st, t[0], |st|).value;
    assert t[2 + j..] == st[j + 1..];
    assert t[1 + j..] == st[j..];
    assert t[1..1 + j] == st[..j];
  }

  lemma DelimitedShapeOpen(t: string)
    requires |t| >= 3 && IsDelimiter(t[0]) && LastIn(t[1..], t[0], |t| - 1).None?
    ensures Shape(t, Delimited(t).value)
  {
    var st := t[1..];
    assert st[..|st|] == st && st[|st|..] == [];
    assert t[1 + |st|..] == [];
  }

  /** A keyword written out: optional `m`, delimiter, body, and, when it is
      closed, the delimiter again and the options. */
  function Format(m: bool, d: char, body: string, closed: bool, opts: string): string
  {
    (if m then "m" else "") + [d] + body + (if closed then [d] + opts else "")
  }

  lemma DelimitedClosed(d: char, body: string, opts: string)
    requires IsDelimiter(d) && |body| >= 1 && d !in opts
    ensures Delimited([d] + body + ([d] + opts)) == Some(Parsed(d, body, 'i' !in opts, body[0] == '^'))
  {
    var t := [d] + body + ([d] + opts);
    var st := t[1..];
    assert st == body + [d] + opts;
    assert st[|body|] == d;
    assert forall k :: |body| < k < |st| ==> st[k] == opts[k - |body| - 1];
    var j := LastIn(st, d, |st|);
    assert j == Some(|body|);
    assert st[..|body|] == body;
    assert st[|body|..] == [d] + opts;
  }

  lemma DelimitedOpen(d: char, body: string)
    requires IsDelimiter(d) && |body| >= 2
    requires forall k :: 1 <= k < |body| ==> body[k] != d
    ensures Delimited([d] + body) == Some(Parsed(d, body, true, body[0] == '^'))
  {
    var t := [d] + body;
    var st := t[1..];
    assert st == body;
    assert LastIn(st, d, |st|).None?;
    assert st[..|st|] == body && st[|st|..] == [];
  }

  lemma StripFormat(m: bool, d: char, body: string, closed: bool, opts: string)
    requires IsDelimiter(d)
    ensures StripM(Format(m, d, body, closed, opts)) == [d] + body + (if closed then [d] + opts else "")
  {
    var t := [d] + body + (if closed then [d] + opts else "");
    if m {
      assert Format(m, d, body, closed, opts) == "m" + t;
    } else {
      assert Format(m, d, body, closed, opts) == t;
    }
  }

  /** Parsing a written-out keyword gives back its body; it is caseless
      exactly when it is closed and its options hold an `i`. */
  lemma ParseFormat(m: bool, d: char, body: string, closed: bool, opts: string)
    requires IsDelimiter(d) && |body| >= 1 && (closed || |body| >= 2)
    requires closed ==> d !in opts
    requires !closed ==> forall k :: 1 <= k < |body| ==> body[k] != d
    ensures Parse(Format(m, d, body, closed, opts)) ==
              Some(Parsed(d, body, !closed || 'i' !in opts, body[0] == '^'))
  {
    var t := [d] + body + (if closed then [d] + opts else "");
    StripFormat(m, d, body, closed, opts);
    if closed {
      DelimitedClosed(d, body, opts);
    } else {
      assert t == [d] + body;
      DelimitedOpen(d, body);
    }
  }

  /** Compile: the parsed keyword when the engine accepts its body with the
      parsed case sensitivity. */
  function Compile(s: string, engine: (string, bool) -> bool): (r: Option<Parsed>)
    ensures r.Some? <==> Parse(s).Some? && engine(Parse(s).value.body, Parse(s).value.caseSensitive)
    ensures r.Some? ==> r == Parse(s)
  {
    var p := Parse(s);
    if p.Some? && engine(p.value.body, p.value.caseSensitive) then p else None
  }

  /** RegexKeyCheckSyntax: whether the keyword compiles.  A keyword the
      engine accepts compiles exactly when it is well delimited. */
  function CheckSyntax(s: string, engine: (string, bool) -> bool): (ok: bool)
    ensures ok ==> |StripM(s)| >= 3 && IsDelimiter(StripM(s)[0])
    ensures (forall b, c :: engine(b, c)) ==> (ok <==> |StripM(s)| >= 3 && IsDelimiter(StripM(s)[0]))
  {
    Compile(s, engine).Some?
  }

  // ---------------------------------------------------------------------
  // The keyword list
  // ---------------------------------------------------------------------

  /** The text up to the first NUL. */
  function Word(list: string): (w: string)
    ensures |w| <= |list| && list[..|w|] == w && '\0' !in w
    ensures |w| < |list| ==> list[|w|] == '\0'
  {
    if |list| == 0 || list[0] == '\0' then [] else [list[0]] + Word(list[1..])
  }

  /** A NUL-separated list written out, each word followed by its NUL. */
  function Join(ws: seq<string>): string
  {
    if |ws| == 0 then [] else ws[0] + "\0" + Join(ws[1..])
  }

  /** Words fit for a keyword list: non-empty and free of NUL. */
  predicate Words(ws: seq<string>)
  {
    forall i :: 0 <= i < |ws| ==> |ws[i]| > 0 && '\0' !in ws[i]
  }

  /** The keywords of a NUL-separated list: at most max of them, stopping at
      the first empty entry (or the end of the text). */
  function Entries(list: string, max: nat): (ws: seq<string>)
    ensures |ws| <= max && Words(ws)
    decreases max
  {
    if max == 0 || |list| == 0 || list[0] == '\0' then []
    else
      var w := Word(list);
      var rest := if |w| < |list| then list[|w| + 1..] else [];
      [w] + Entries(rest, max - 1)
  }

  /** Splitting a written-out list, followed by an empty entry or nothing,
      gives back its first max words. */
  lemma {:induction false} EntriesJoin(ws: seq<string>, tail: string, max: nat)
    requires Words(ws) && (|tail| == 0 || tail[0] == '\0')
    ensures Entries(Join(ws) + tail, max) == if |ws| <= max then ws else ws[..max]
    decreases |ws|
  {
    if |ws| == 0 {
      assert Join(ws) + tail == tail;
      EntriesNone(tail, max);
    } else if max == 0 {
      EntriesNone(Join(ws) + tail, max);
    } else {
      EntriesJoin(ws[1..], tail, max - 1);
      EntriesJoinStep(ws, tail, max);
    }
  }

  lemma EntriesJoinStep(ws: seq<string>, tail: string, max: nat)
    requires Words(ws) && 0 < |ws| && 0 < max
    requires Entries(Join(ws[1..]) + tail, max - 1) == if |ws| - 1 <= max - 1 then ws[1..] else ws[1..][..max - 1]
    ensures Entries(Join(ws) + tail, max) == if |ws| <= max then ws else ws[..max]
  {
    var rest := Join(ws[1..]) + tail;
    JoinCons(ws, tail);
    EntriesCons(ws[0], rest, max);
    TakeCons(ws, max);
  }

  lemma EntriesNone(list: string, max: nat)
    requires max == 0 || |list| == 0 || list[0] == '\0'
    ensures Entries(list, max) == []
  {
  }

  lemma JoinCons(ws: seq<string>, tail: string)
    requires 0 < |ws|
    ensures Join(ws) + tail == ws[0] + "\0" + (Join(ws[1..]) + tail)
  {
  }

  /** The first max elements are the head and the tail's first max - 1. */
  lemma TakeCons<T>(xs: seq<T>, max: nat)
    requires 0 < |xs| && 0 < max
    ensures (if |xs| <= max then xs else xs[..max]) ==
              [xs[0]] + (if |xs| - 1 <= max - 1 then xs[1..] else xs[1..][..max - 1])
  {
    if |xs| <= max {
      assert xs == [xs[0]] + xs[1..];
    } else {
      assert xs[..max] == [xs[0]] + xs[1..][..max - 1];
    }
  }

  /** A list opening with a word yields that word, then the rest's words. */
  lemma EntriesCons(w: string, rest: string, max: nat)
    requires |w| > 0 && '\0' !in w && max > 0
    ensures Entries(w + "\0" + rest, max) == [w] + Entries(rest, max - 1)
  {
    var list := w + "\0" + rest;
    assert list == w + ("\0" + rest);
    WordStops(w, "\0" + rest);
    assert list[0] == w[0];
    assert w[0] in w;
    assert list[|w| + 1..] == rest;
  }

  lemma WordStops(w: string, rest: string)
    requires '\0' !in w && |rest| > 0 && rest[0] == '\0'
    ensures Word(w + rest) == w
  {
    var x := Word(w + rest);
    assert (w + rest)[..|w|] == w;
  }

  // ---------------------------------------------------------------------
  // Keyword state
  // ---------------------------------------------------------------------

  /** What is known about a keyword on the current line: nothing yet
      (RK_EMPTY), a match (RK_MATCH), or no match on this line (RK_NOMATCH). */
  datatype MatchState = Unknown | Matched | NoMatch

  /** One keyword slot: whether its pattern is compiled, whether it is
      anchored, its compile-time state, its colour, and, for the current
      line, the cached match offset, length and state. */
  datatype KeyInfo = KeyInfo(compiled: bool, head: bool, flag: MatchState, color: int,
                             offset: int, length: int, lineState: MatchState)

  /** The part of a type's settings keywords are made from. */
  datatype TypeConfig = TypeConfig(id: int, idx: int, useRegex: bool, magic: int, list: string,
                                   colors: seq<int>, displayed: set<int>)

  /** The colour indices reserved for regular-expression keywords
      (COLORIDX_REGEX1 to COLORIDX_REGEX10; their values are not part of
      this model). */
  datatype ColorRange = ColorRange(lo: int, hi: int)

  /** The keyword manager: the type it compiled for, whether keywords are in
      use, how many there are, and the slots. */
  datatype State = State(types: Option<TypeConfig>, typeIndex: int, typeId: int, magic: int,
                         useRegex: bool, count: nat, infos: seq<KeyInfo>)

  predicate WellFormed(s: State)
  {
    |s.infos| == MaxKeywords && s.count <= MaxKeywords
  }

  /** RegexKeyInit, as the constructor runs it. */
  function Init(range: ColorRange): (s: State)
    ensures WellFormed(s) && !s.useRegex && s.count == 0 && s.magic == 1
  {
    State(None, -1, -1, 1, false, 0, seq(MaxKeywords, i => KeyInfo(false, false, Unknown, range.lo, -1, 0, Unknown)))
  }

  // ---------------------------------------------------------------------
  // Compiling a type's keywords
  // ---------------------------------------------------------------------

  /** Compile one keyword into its slot: a keyword that does not compile,
      and one whose regular-expression colour is not displayed, is never
      searched.  The anchor flag is kept when the text does not parse. */
  function CompileOne(info: KeyInfo, w: string, t: TypeConfig, engine: (string, bool) -> bool,
                      range: ColorRange): (r: KeyInfo)
    ensures r.compiled <==> Compile(w, engine).Some?
    ensures r.flag == NoMatch <==>
              Compile(w, engine).None? || (range.lo <= info.color <= range.hi && info.color !in t.displayed)
    ensures r.flag != NoMatch ==> r.flag == Unknown
    ensures r.head == if Parse(w).Some? then Parse(w).value.head else info.head
    ensures r == info.(compiled := r.compiled, head := r.head, flag := r.flag)
  {
    var p := Parse(w);
    var ok := Compile(w, engine).Some?;
    var flag := if !ok then NoMatch
                else if range.lo <= info.color <= range.hi && info.color !in t.displayed then NoMatch
                else Unknown;
    info.(compiled := ok, head := if p.Some? then p.value.head else info.head, flag := flag)
  }

  /** The slots after the buffers are released and the colours copied. */
  function Released(infos: seq<KeyInfo>, t: TypeConfig, n: nat): (r: seq<KeyInfo>)
    requires |infos| == MaxKeywords && |t.colors| == MaxKeywords && n <= MaxKeywords
  {
    seq(MaxKeywords, i requires 0 <= i < MaxKeywords =>
      if i < n then infos[i].(compiled := false, color := t.colors[i]) else infos[i].(compiled := false))
  }

  /** The slots with the first |ws| keywords compiled. */
  function Compiled(infos: seq<KeyInfo>, ws: seq<string>, t: TypeConfig, engine: (string, bool) -> bool,
                    range: ColorRange): (r: seq<KeyInfo>)
    requires |infos| == MaxKeywords && |ws| <= MaxKeywords
    ensures |r| == MaxKeywords
    ensures forall i :: 0 <= i < MaxKeywords ==>
              r[i] == if i < |ws| then CompileOne(infos[i], ws[i], t, engine, range) else infos[i]
  {
    seq(MaxKeywords, i requires 0 <= i < MaxKeywords =>
      if i < |ws| then CompileOne(infos[i], ws[i], t, engine, range) else infos[i])
  }

  /** RegexKeyCompile: release every slot, count the keywords, copy their
      colours, and, when keywords are in use and the engine is loaded,
      compile each of them; the magic number records the compiled settings
      only then. */
  function KeyCompile(s: State, t: TypeConfig, available: bool, engine: (string, bool) -> bool,
                      range: ColorRange): (r: (State, bool))
    requires WellFormed(s) && |t.colors| == MaxKeywords
    ensures WellFormed(r.0) && r.0.types == s.types
    ensures r.0.count == |Entries(t.list, MaxKeywords)|
    ensures r.0.typeId == t.id && r.0.typeIndex == t.idx
    ensures r.1 <==> t.useRegex && available
    ensures r.0.useRegex == r.1
    ensures r.0.magic == if r.1 then t.magic else 1
  {
    var ws := Entries(t.list, MaxKeywords);
    var infos := Released(s.infos, t, |ws|);
    var base := s.(count := |ws|, typeIndex := t.idx, typeId := t.id, magic := 1, useRegex := t.useRegex,
                   infos := infos);
    if !t.useRegex then (base, false)
    else if !available then (base.(useRegex := false), false)
    else
      (base.(infos := Compiled(infos, ws, t, engine, range), magic := t.magic), true)
  }

  /** RegexKeySetTypes: no settings turn keywords off; settings without
      keywords turn them off if they were on; the settings already compiled
      (same type id and magic number) are kept; anything else is compiled. */
  function SetTypes(s: State, t: Option<TypeConfig>, available: bool, engine: (string, bool) -> bool,
                    range: ColorRange): (r: (State, bool))
    requires WellFormed(s) && (t.Some? ==> |t.value.colors| == MaxKeywords)
    ensures WellFormed(r.0)
    ensures r.1 <==> t.Some? && t.value.useRegex
    ensures t.None? ==> r.0 == s.(types := None, useRegex := false)
    ensures t.Some? && t.value.useRegex && s.typeId == t.value.id && s.magic == t.value.magic && s.types.Some? ==>
              r.0 == s
    ensures !r.0.useRegex || r.0.types.Some?
  {
    match t
    case None => (s.(types := None, useRegex := false), false)
    case Some(c) =>
      if !c.useRegex then (if s.useRegex then s.(types := None, useRegex := false) else s, false)
      else if s.typeId == c.id && s.magic == c.magic && s.types.Some? then (s, true)
      else (KeyCompile(s.(types := t), c, available, engine, range).0, true)
  }

  /** After compiling, each counted keyword has its type's colour; only
      counted keywords of a successful compile hold a compiled pattern; and
      a keyword is never searched exactly when it does not compile or its
      regular-expression colour is not displayed. */
  lemma KeyCompileSlots(s: State, t: TypeConfig, available: bool, engine: (string, bool) -> bool,
                        range: ColorRange, i: nat)
    requires WellFormed(s) && |t.colors| == MaxKeywords && i < MaxKeywords
    ensures var r := KeyCompile(s, t, available, engine, range);
            var ws := Entries(t.list, MaxKeywords);
            && (i < r.0.count ==> r.0.infos[i].color == t.colors[i])
            && (r.0.infos[i].compiled ==> r.1 && i < r.0.count && Compile(ws[i], engine).Some?)
            && (r.1 && i < r.0.count ==>
                  r.0.infos[i].compiled == Compile(ws[i], engine).Some? &&
                  (r.0.infos[i].flag == NoMatch <==>
                     Compile(ws[i], engine).None? ||
                     (range.lo <= t.colors[i] <= range.hi && t.colors[i] !in t.displayed)))
  {
  }

  lemma ReleasedTwice(infos: seq<KeyInfo>, t: TypeConfig, n: nat)
    requires |infos| == MaxKeywords && |t.colors| == MaxKeywords && n <= MaxKeywords
    ensures Released(Released(infos, t, n), t, n) == Released(infos, t, n)
  {
  }

  lemma RecompileSame(infos: seq<KeyInfo>, ws: seq<string>, t: TypeConfig, engine: (string, bool) -> bool,
                      range: ColorRange)
    requires |infos| == MaxKeywords && |t.colors| == MaxKeywords && |ws| <= MaxKeywords
    ensures var a := Released(infos, t, |ws|);
            var c := Compiled(a, ws, t, engine, range);
            Compiled(Released(c, t, |ws|), ws, t, engine, range) == c
  {
    var a := Released(infos, t, |ws|);
    var c := Compiled(a, ws, t, engine, range);
    var b := Released(c, t, |ws|);
    forall i | 0 <= i < MaxKeywords
      ensures Compiled(b, ws, t, engine, range)[i] == c[i]
    {
      if i < |ws| {
        assert b[i] == c[i].(compiled := false, color := t.colors[i]);
        assert c[i] == CompileOne(a[i], ws[i], t, engine, range);
      }
    }
  }

  /** Compiling the same settings twice gives what compiling once gives. */
  lemma KeyCompileTwice(s: State, t: TypeConfig, available: bool, engine: (string, bool) -> bool,
                        range: ColorRange)
    requires WellFormed(s) && |t.colors| == MaxKeywords
    ensures var s1 := KeyCompile(s, t, available, engine, range).0;
            KeyCompile(s1, t, available, engine, range) == KeyCompile(s, t, available, engine, range)
  {
    var ws := Entries(t.list, MaxKeywords);
    if t.useRegex && available {
      RecompileSame(s.infos, ws, t, engine, range);
    } else {
      ReleasedTwice(s.infos, t, |ws|);
    }
  }

  /** Setting the same type twice does nothing the second time. */
  lemma SetTypesIdempotent(s: State, t: Option<TypeConfig>, available: bool, engine: (string, bool) -> bool,
                           range: ColorRange)
    requires WellFormed(s) && (t.Some? ==> |t.value.colors| == MaxKeywords)
    ensures var r := SetTypes(s, t, available, engine, range);
            SetTypes(r.0, t, available, engine, range) == r
  {
    if t.Some? && t.value.useRegex && !(s.typeId == t.value.id && s.magic == t.value.magic && s.types.Some?) {
      KeyCompileTwice(s.(types := t), t.value, available, engine, range);
    }
  }

  // ---------------------------------------------------------------------
  // Searching a line
  // ---------------------------------------------------------------------

  /** RegexKeyLineStart: forget every cached match; each keyword starts the
      line in its compile-time state. */
  function LineStart(s: State, available: bool): (r: (State, bool))
    requires WellFormed(s)
    ensures WellFormed(r.0)
    ensures r.1 <==> s.useRegex && available && s.types.Some?
    ensures !r.1 ==> r.0 == s
    ensures r.1 ==> r.0 == s.(infos := r.0.infos)
    ensures r.1 ==> forall i :: 0 <= i < MaxKeywords ==>
              r.0.infos[i] == if i < s.count then s.infos[i].(offset := -1, lineState := s.infos[i].flag) else s.infos[i]
  {
    if !s.useRegex || !available || s.types.None? then (s, false)
    else
      (s.(infos := seq(MaxKeywords, i requires 0 <= i < MaxKeywords =>
                       if i < s.count then s.infos[i].(offset := -1, lineState := s.infos[i].flag) else s.infos[i])), true)
  }

  /** The engine's Match from a position: the leftmost match of keyword i at
      or after it, on a line of length len. */
  function Search(at: (nat, int) -> bool, i: nat, from: int, len: int): (r: Option<int>)
    ensures r.Some? ==> from <= r.value <= len && at(i, r.value) &&
                        forall k :: from <= k < r.value ==> !at(i, k)
    ensures r.None? ==> forall k :: from <= k <= len ==> !at(i, k)
    decreases len - from
  {
    if from > len then None
    else if at(i, from) then Some(from)
    else Search(at, i, from + 1, len)
  }

  /** A hit: the match's length and the keyword's colour. */
  datatype Hit = Hit(length: int, color: int)

  /** One keyword's turn in RegexIsKeyword at position pos: a keyword known
      not to match is skipped; a cached match at pos is a hit; a cached
      match behind pos is searched again from pos.  An anchored keyword is
      reported only at position 0 and is dropped for the line otherwise. */
  function Step(info: KeyInfo, i: nat, pos: nat, at: (nat, int) -> bool, size: (nat, int) -> int,
                len: int): (r: (KeyInfo, Option<Hit>))
    ensures r.0 == info.(offset := r.0.offset, length := r.0.length, lineState := r.0.lineState)
    ensures info.lineState == NoMatch ==> r == (info, None)
    ensures info.lineState != NoMatch && info.offset == pos ==> r == (info, Some(Hit(info.length, info.color)))
    ensures info.lineState != NoMatch && info.offset < pos && Search(at, i, pos, len).None? ==>
              r.1.None? && r.0.lineState == NoMatch
    ensures info.head && info.lineState != NoMatch && info.offset < pos && pos > 0 ==>
              r.1.None? && r.0.lineState == NoMatch
    ensures info.offset > pos ==> r == (info, None)
    ensures r.1.Some? ==> r.1.value.color == info.color
  {
    if info.lineState == NoMatch then (info, None)
    else if info.offset == pos then (info, Some(Hit(info.length, info.color)))
    else if info.offset < pos then
      match Search(at, i, pos, len)
      case Some(k) =>
        var found := info.(offset := k, length := size(i, k), lineState := Matched);
        if k == pos && (!info.head || pos == 0) then (found, Some(Hit(found.length, info.color)))
        else if info.head then (found.(lineState := NoMatch), None)
        else (found, None)
      case None => (info.(lineState := NoMatch), None)
    else (info, None)
  }

  /** Keyword i can be reported at position k: it is searched on this line,
      it matches there, and, when anchored, k is the line start. */
  predicate Reportable(info: KeyInfo, i: nat, k: int, at: (nat, int) -> bool, len: int)
  {
    info.flag != NoMatch && 0 <= k <= len && at(i, k) && (!info.head || k == 0)
  }

  /** What the cache of keyword i says is true of the line from position p
      on: a keyword dropped for the line cannot be reported from p on; a
      cached match at or after p is the leftmost one from p, with its
      length; an anchored keyword still searched is cached at most at 0. */
  ghost predicate InfoOk(info: KeyInfo, i: nat, p: int, at: (nat, int) -> bool, size: (nat, int) -> int, len: int)
  {
    && (info.flag == NoMatch ==> info.lineState == NoMatch)
    && (info.lineState == NoMatch ==> forall k :: p <= k ==> !Reportable(info, i, k, at, len))
    && (info.lineState != NoMatch && info.offset >= p ==>
          info.offset <= len && at(i, info.offset) && info.length == size(i, info.offset) &&
          forall k :: p <= k < info.offset ==> !at(i, k))
    && (info.head && info.lineState != NoMatch ==> info.offset <= 0)
  }

  ghost predicate Consistent(s: State, p: int, at: (nat, int) -> bool, size: (nat, int) -> int, len: int)
    requires WellFormed(s)
  {
    forall i :: 0 <= i < s.count ==> InfoOk(s.infos[i], i, p, at, size, len)
  }

  /** What a search without any cache reports at pos: the first keyword
      that can be reported there. */
  function FirstHit(infos: seq<KeyInfo>, from: nat, count: nat, pos: int, at: (nat, int) -> bool,
                    size: (nat, int) -> int, len: int): Option<Hit>
    requires count <= |infos|
    decreases count - from
  {
    if from >= count then None
    else if Reportable(infos[from], from, pos, at, len) then Some(Hit(size(from, pos), infos[from].color))
    else FirstHit(infos, from + 1, count, pos, at, size, len)
  }

  lemma InfoOkLater(info: KeyInfo, i: nat, p0: int, p: int, at: (nat, int) -> bool, size: (nat, int) -> int, len: int)
    requires InfoOk(info, i, p0, at, size, len) && p0 <= p
    ensures InfoOk(info, i, p, at, size, len)
  {
  }

  /** One keyword's turn keeps its cache truthful and hits exactly when the
      keyword can be reported at pos, with the match's length. */
  lemma StepSound(info: KeyInfo, i: nat, p0: int, pos: nat, at: (nat, int) -> bool, size: (nat, int) -> int, len: int)
    requires InfoOk(info, i, p0, at, size, len) && p0 <= pos
    ensures var r := Step(info, i, pos, at, size, len);
            && InfoOk(r.0, i, pos, at, size, len)
            && (r.1.Some? <==> Reportable(info, i, pos, at, len))
            && (r.1.Some? ==> r.1.value == Hit(size(i, pos), info.color))
  {
    var r := Step(info, i, pos, at, size, len);
    if info.lineState != NoMatch && info.offset < pos {
      var k := Search(at, i, pos, len);
      if k.Some? && !(k.value == pos && (!info.head || pos == 0)) && info.head {
        assert forall j :: pos <= j ==> !Reportable(r.0, i, j, at, len);
      }
    }
  }

  /** Starting a line makes every cache truthful from position 0, whatever
      the line. */
  lemma LineStartConsistent(s: State, available: bool, at: (nat, int) -> bool, size: (nat, int) -> int, len: int)
    requires WellFormed(s)
    requires LineStart(s, available).1
    ensures Consistent(LineStart(s, available).0, 0, at, size, len)
  {
  }

  /** RegexIsKeyword: whether a keyword starts at pos, and which.  Given a
      cache truthful from some earlier position p0 of the same line, the
      answer is what an uncached search would report, and the cache stays
      truthful from pos. */
  method IsKeyword(s: State, available: bool, pos: nat, at: (nat, int) -> bool, size: (nat, int) -> int,
                   len: int, ghost p0: int)
    returns (r: State, found: bool, hit: Hit)
    requires WellFormed(s)
    ensures WellFormed(r) && r == s.(infos := r.infos)
    ensures !s.useRegex || !available ==> !found && r == s
    ensures s.useRegex && available && p0 <= pos && Consistent(s, p0, at, size, len) ==>
              && (found <==> FirstHit(s.infos, 0, s.count, pos, at, size, len).Some?)
              && (found ==> hit == FirstHit(s.infos, 0, s.count, pos, at, size, len).value)
              && Consistent(r, pos, at, size, len)
  {
    r := s;
    hit := Hit(0, 0);
    if !s.useRegex || !available {
      return r, false, hit;
    }
    ghost var good := p0 <= pos && Consistent(s, p0, at, size, len);
    var i := 0;
    while i < s.count
      invariant 0 <= i <= s.count
      invariant WellFormed(r) && r == s.(infos := r.infos)
      invariant forall j :: i <= j < MaxKeywords ==> r.infos[j] == s.infos[j]
      invariant forall j :: 0 <= j < i ==> r.infos[j].flag == s.infos[j].flag && r.infos[j].head == s.infos[j].head
      invariant good ==> forall j :: 0 <= j < i ==> InfoOk(r.infos[j], j, pos, at, size, len)
      invariant good ==> FirstHit(s.infos, 0, s.count, pos, at, size, len) == FirstHit(s.infos, i, s.count, pos, at, size, len)
    {
      var t := Step(r.infos[i], i, pos, at, size, len);
      if good {
        assert InfoOk(s.infos[i], i, p0, at, size, len);
        StepSound(s.infos[i], i, p0, pos, at, size, len);
      }
      r := r.(infos := r.infos[i := t.0]);
      if t.1.Some? {
        if good {
          forall j | i < j < s.count ensures InfoOk(r.infos[j], j, pos, at, size, len) {
            assert InfoOk(s.infos[j], j, p0, at, size, len);
            InfoOkLater(s.infos[j], j, p0, pos, at, size, len);
          }
        }
        return r, true, t.1.value;
      }
      i := i + 1;
    }
    found := false;
  }
}

=== FILE: replace_data.dfy ===
/**
 * CSearchAgent::ReplaceData: replace a range of the document by a list of
 * lines.  The document is its sequence of lines, each line holding its own
 * line end; the line list of the document manager is modelled separately
 * (DocLineMgr), so here a line is deleted, joined or inserted by sequence
 * operations.
 *
 * The deletion runs from the last line of the range back to the first.
 * A line wholly inside the range is removed; the first line of the range
 * is cut at the start column and, when the range reaches past its end,
 * joined with the line that follows; the last line loses its head.  When
 * the replacement is a single line without a line end and an in-line edit
 * happens, it is written into the line during the deletion.  Otherwise
 * the replacement lines are inserted at the start of the range afterwards.
 *
 * What a line end is is an oracle: `eolLen` gives the length of the line
 * end a line holds, `isDelim` whether a character ends a line.  Modified
 * sequence numbers, marks, the recently-referred line and the progress
 * dialog are not part of this model.
 */
module ReplaceText {

  /** A logical position: column x in line y. */
  datatype Pos = Pos(x: nat, y: nat)

  /** The text of a run of lines. */
  function Flat(lines: seq<string>): string
  {
    if |lines| == 0 then "" else lines[0] + Flat(lines[1..])
  }

  lemma {:induction false} FlatAppend(a: seq<string>, b: seq<string>)
    ensures Flat(a + b) == Flat(a) + Flat(b)
  {
    if |a| == 0 {
      assert a + b == b;
    } else {
      assert (a + b)[1..] == a[1..] + b;
      FlatAppend(a[1..], b);
    }
  }

  /** The text of the lines before and from index i. */
  lemma FlatSplit(lines: seq<string>, i: nat)
    requires i <= |lines|
    ensures Flat(lines) == Flat(lines[..i]) + Flat(lines[i..])
  {
    assert lines == lines[..i] + lines[i..];
    FlatAppend(lines[..i], lines[i..]);
  }

  /** Line i is the text between the starts of lines i and i + 1. */
  lemma FlatLine(lines: seq<string>, i: nat)
    requires i < |lines|
    ensures Flat(lines[..i + 1]) == Flat(lines[..i]) + lines[i]
    ensures Flat(lines[i..]) == lines[i] + Flat(lines[i + 1..])
  {
    assert lines[..i + 1] == lines[..i] + [lines[i]];
    FlatAppend(lines[..i], [lines[i]]);
    assert Flat([lines[i]]) == lines[i] + Flat([]);
    assert lines[i..][1..] == lines[i + 1..];
  }

  /** A position inside the document: on a line and at most at its end, or
      at the start of the line after the last. */
  predicate PosIn(lines: seq<string>, p: Pos)
  {
    (p.y < |lines| && p.x <= |lines[p.y]|) || (p.y == |lines| && p.x == 0)
  }

  /** The offset where line j starts in the document's text. */
  function Base(lines: seq<string>, j: nat): nat
    requires j <= |lines|
  {
    |Flat(lines[..j])|
  }

  /** The offset of a position in the document's text. */
  function Offset(lines: seq<string>, p: Pos): nat
    requires PosIn(lines, p)
  {
    Base(lines, p.y) + p.x
  }

  /** The text before line j and the text from line j on. */
  lemma FlatCut(lines: seq<string>, j: nat)
    requires j <= |lines|
    ensures Base(lines, j) <= |Flat(lines)|
    ensures Flat(lines)[..Base(lines, j)] == Flat(lines[..j])
    ensures Flat(lines)[Base(lines, j)..] == Flat(lines[j..])
  {
    FlatSplit(lines, j);
  }

  /** Line i is the text from Base(i) to Base(i + 1). */
  lemma LineSpan(lines: seq<string>, i: nat)
    requires i < |lines|
    ensures Base(lines, i) + |lines[i]| == Base(lines, i + 1) <= |Flat(lines)|
    ensures Flat(lines)[Base(lines, i)..Base(lines, i + 1)] == lines[i]
    ensures Flat(lines)[Base(lines, i)..] == lines[i] + Flat(lines)[Base(lines, i + 1)..]
  {
    FlatLine(lines, i);
    FlatCut(lines, i);
    FlatCut(lines, i + 1);
    var F := Flat(lines);
    var b, c := Base(lines, i), Base(lines, i + 1);
    assert F[..c] == F[..b] + lines[i];
    assert F[b..c] == F[..c][b..];
    assert F[b..] == F[b..c] + F[c..];
  }

  /** Cutting a text at b splits its slice from a to c. */
  lemma Slices(t: string, a: nat, b: nat, c: nat)
    requires a <= b <= c <= |t|
    ensures t[a..c] == t[a..b] + t[b..c] && t[a..] == t[a..b] + t[b..]
    ensures t[a..c][..b - a] == t[a..b] && t[a..c][b - a..] == t[b..c]
  {
  }

  lemma Assoc(a: string, b: string, c: string)
    ensures (a + b) + c == a + (b + c)
  {
  }

  /** Cutting the slice b0..b1 of a text k characters in. */
  lemma CutAt(t: string, b0: nat, b1: nat, k: nat)
    requires b0 <= b1 <= |t| && k <= b1 - b0
    ensures t[b0..b1][..k] == t[b0..b0 + k]
    ensures t[b0..b1][k..] + t[b1..] == t[b0 + k..]
  {
  }

  /** Lines start in order. */
  lemma {:induction false} BaseMono(lines: seq<string>, j: nat, k: nat)
    requires j <= k <= |lines|
    ensures Base(lines, j) <= Base(lines, k)
    decreases k - j
  {
    if j < k {
      LineSpan(lines, k - 1);
      BaseMono(lines, j, k - 1);
    }
  }

  /** A range ReplaceData accepts: both ends inside the document, the start
      not after the end. */
  predicate ValidRange(lines: seq<string>, from: Pos, to: Pos)
  {
    PosIn(lines, from) && PosIn(lines, to)
    && (from.y < to.y || (from.y == to.y && from.x <= to.x))
  }

  /** The column where the deletion starts in line i. */
  function WorkPos(from: Pos, i: nat): nat
  {
    if i == from.y then from.x else 0
  }

  /** The lines a range deletion starts at: the last line of the range, or
      the last line of the document when the range ends after it. */
  function StartLine(doc: seq<string>, to: Pos): int
  {
    if to.y < |doc| then to.y as int else if 0 < to.y then to.y as int - 1 else -1
  }

  /** A deletion ending at column x of line l ends inside its line end. */
  predicate IntoEol(l: string, x: nat, eolLen: string -> nat)
  {
    eolLen(l) > 0 && x + eolLen(l) > |l|
  }

  /** The offset where the deleted text ends.  A deletion that ends inside
      the line end of its last line takes the whole line end. */
  function DelEnd(doc: seq<string>, from: Pos, to: Pos, eolLen: string -> nat): nat
    requires ValidRange(doc, from, to)
  {
    if to.y >= |doc| then |Flat(doc)|
    else
      var l := doc[to.y];
      if to.x != WorkPos(from, to.y) && IntoEol(l, to.x, eolLen)
      then Offset(doc, Pos(|l|, to.y))
      else Offset(doc, to)
  }

  /** Whether the last replacement line ends with a line delimiter. */
  predicate LastEnds(ins: seq<string>, isDelim: char -> bool)
  {
    |ins| > 0 && |ins[|ins| - 1]| > 0 && isDelim(ins[|ins| - 1][|ins[|ins| - 1]| - 1])
  }

  /** A replacement by one line without a line end: written in place while
      deleting, when there is an in-line edit to write it in. */
  predicate OneLine(ins: seq<string>, isDelim: char -> bool)
  {
    |ins| == 1 && !LastEnds(ins, isDelim)
  }

  /** The text the deletion writes in place. */
  function InsText(ins: seq<string>, isDelim: char -> bool): string
  {
    if OneLine(ins, isDelim) then ins[0] else ""
  }

  /** The fixed parameters of the deletion loop. */
  datatype Job = Job(from: Pos, to: Pos, oneLine: bool, eolLen: string -> nat)

  /** The state of the deletion loop. */
  datatype Del = Del(
    doc: seq<string>,       // the document being edited
    deleted: seq<string>,   // the deleted text, last line first
    deletedLines: nat,      // lines removed from the document
    newX: nat,              // column of the position after the replacement
    insOneLine: bool,       // the replacement has been written in a line
    lastEolReplace: bool,   // a line end is replaced by a line end
    firstLine: bool,        // no line has been changed yet
    insText: string)        // the text still to be written in a line

  /** A line is removed whole. */
  function DropLine(s: Del, i: nat): Del
    requires i < |s.doc|
  {
    s.(doc := s.doc[..i] + s.doc[i + 1..], deleted := s.deleted + [s.doc[i]],
       deletedLines := s.deletedLines + 1)
  }

  /** The tail of a line from column pos on is removed with its line end,
      and the line is joined with the next one, if any. */
  function JoinLine(s: Del, i: nat, pos: nat, len: nat, oneLine: bool): Del
    requires i < |s.doc| && pos + len == |s.doc[i]|
  {
    var l := s.doc[i];
    var hasNext := i + 1 < |s.doc|;
    var blank := if hasNext && |s.deleted| == 0 && !s.lastEolReplace then [""] else [];
    var deleted := s.deleted + blank + [l[pos..pos + len]];
    if hasNext then
      s.(doc := s.doc[..i] + [l[..pos] + s.insText + s.doc[i + 1]] + s.doc[i + 2..],
         deleted := deleted, deletedLines := s.deletedLines + 1,
         newX := if oneLine && !s.insOneLine then s.newX + |s.insText| else s.newX,
         insOneLine := s.insOneLine || oneLine)
    else
      s.(doc := s.doc[i := l[..pos]], deleted := deleted)
  }

  /** Columns pos to pos + len of a line are replaced by the pending text. */
  function EditLine(s: Del, i: nat, pos: nat, len: nat, oneLine: bool): Del
    requires i < |s.doc| && pos + len <= |s.doc[i]|
  {
    var l := s.doc[i];
    s.(doc := s.doc[i := l[..pos] + s.insText + l[pos + len..]],
       deleted := s.deleted + [l[pos..pos + len]],
       newX := if oneLine then s.newX + |s.insText| else s.newX,
       insOneLine := s.insOneLine || oneLine,
       insText := if oneLine then "" else s.insText,
       lastEolReplace := if s.firstLine then false else s.lastEolReplace)
  }

  /** The number of characters the step at line i deletes: up to the end
      of the range or of the line, widened to the end of the line when it
      ends inside the line end. */
  function CutLen(l: string, i: nat, job: Job): nat
    requires WorkPos(job.from, i) <= |l|
    requires i == job.to.y ==> WorkPos(job.from, i) <= job.to.x <= |l|
  {
    var pos := WorkPos(job.from, i);
    var len0 := if i == job.to.y then job.to.x - pos else |l| - pos;
    if len0 == 0 then 0
    else if IntoEol(l, pos + len0, job.eolLen) then |l| - pos
    else len0
  }

  /** One turn of the deletion loop, at line i. */
  function DeleteStep(s: Del, i: nat, job: Job): Del
    requires i < |s.doc| && WorkPos(job.from, i) <= |s.doc[i]|
    requires i == job.to.y ==> WorkPos(job.from, i) <= job.to.x <= |s.doc[i]|
  {
    var l := s.doc[i];
    var pos := WorkPos(job.from, i);
    var len := CutLen(l, i, job);
    if len == 0 then s
    else if len >= |l| then DropLine(s, i).(firstLine := false)
    else if pos + len >= |l| then JoinLine(s, i, pos, len, job.oneLine).(firstLine := false)
    else EditLine(s, i, pos, len, job.oneLine).(firstLine := false)
  }

  /** What lines 0 to i need for the deletion loop to run down over them. */
  predicate Runnable(s: Del, i: int, job: Job)
  {
    -1 <= i < |s.doc| && i <= job.to.y
    && (job.from.y <= i ==> job.from.x <= |s.doc[job.from.y]|)
    && (i == job.to.y ==> WorkPos(job.from, i) <= job.to.x <= |s.doc[i]|)
  }

  /** A step at line i leaves the lines above it alone. */
  lemma StepKeepsAbove(s: Del, i: nat, job: Job)
    requires i < |s.doc| && WorkPos(job.from, i) <= |s.doc[i]|
    requires i == job.to.y ==> WorkPos(job.from, i) <= job.to.x <= |s.doc[i]|
    ensures DeleteStep(s, i, job).doc[..i] == s.doc[..i] && |DeleteStep(s, i, job).doc| >= i
  {
  }

  /** The deletion loop: lines i down to the first line of the range. */
  function DeleteFrom(s: Del, i: int, job: Job): Del
    requires Runnable(s, i, job)
    decreases i + 1
  {
    if i < job.from.y then s
    else
      var r := DeleteStep(s, i, job);
      StepKeepsAbove(s, i, job);
      DeleteFrom(r, i - 1, job)
  }

  /** The state before the deletion loop. */
  function Start(doc: seq<string>, ins: seq<string>, from: Pos, isDelim: char -> bool): Del
  {
    Del(doc, [], 0, from.x, false, LastEnds(ins, isDelim), true, InsText(ins, isDelim))
  }

  /** The deletion phase of ReplaceData. */
  function Delete(doc: seq<string>, from: Pos, to: Pos, ins: seq<string>,
                  isDelim: char -> bool, eolLen: string -> nat): (r: Del)
    requires ValidRange(doc, from, to)
    ensures PosIn(r.doc, from)
  {
    var job := Job(from, to, OneLine(ins, isDelim), eolLen);
    DeleteFromKeepsStart(Start(doc, ins, from, isDelim), StartLine(doc, to), job);
    DeleteFrom(Start(doc, ins, from, isDelim), StartLine(doc, to), job)
  }

  /** The deletion leaves the start of the range inside the document. */
  lemma {:induction false} DeleteFromKeepsStart(s: Del, i: int, job: Job)
    requires Runnable(s, i, job)
    requires i < job.from.y ==> PosIn(s.doc, job.from)
    ensures PosIn(DeleteFrom(s, i, job).doc, job.from)
    decreases i + 1
  {
    if i >= job.from.y {
      var r := DeleteStep(s, i, job);
      StepKeepsAbove(s, i, job);
      if i == job.from.y {
        StepKeepsStart(s, i, job);
      }
      DeleteFromKeepsStart(r, i - 1, job);
    }
  }

  /** The step at the first line of the range keeps the columns before the
      start of the range, or removes the whole line when the range starts
      at column 0. */
  lemma StepKeepsStart(s: Del, i: nat, job: Job)
    requires i < |s.doc| && i == job.from.y && job.from.x <= |s.doc[i]|
    requires i == job.to.y ==> job.from.x <= job.to.x <= |s.doc[i]|
    ensures PosIn(DeleteStep(s, i, job).doc, job.from)
  {
  }

  /** The lines of the replacement before its last one: each of them ends
      a line.  The cursor c is a line index; c == |d| is past the last
      line, where lines are appended. */
  function InsertLoop(d: seq<string>, c: nat, ins: seq<string>, k: nat, n: nat,
                      prev: string, lineMode: bool): (seq<string>, nat)
    requires c <= |d| && k <= n <= |ins|
    decreases n - k
  {
    if k == n then (d, c)
    else if c == |d| then
      InsertLoop(d + [if k == 0 then prev + ins[k] else ins[k]], |d| + 1, ins, k + 1, n, prev, lineMode)
    else if k == 0 && !lineMode then
      InsertLoop(d[c := prev + ins[0]], c + 1, ins, k + 1, n, prev, lineMode)
    else
      InsertLoop(d[..c] + [ins[k]] + d[c..], c + 1, ins, k + 1, n, prev, lineMode)
  }

  /** The insertion phase of ReplaceData: the replacement lines go in at
      p; the result is the new document and the position after them. */
  function Insert(d: seq<string>, p: Pos, ins: seq<string>, isDelim: char -> bool): (seq<string>, Pos)
    requires PosIn(d, p) && |ins| > 0
  {
    var lastEnds := LastEnds(ins, isDelim);
    var lineMode := lastEnds && p.x == 0;
    var lastInsert := !lastEnds;
    var n := if lastInsert then |ins| - 1 else |ins|;
    var split := p.y < |d| && !lineMode;
    var prev := if split then d[p.y][..p.x] else "";
    var next := if split then d[p.y][p.x..] else "";
    var loop := InsertLoop(d, p.y, ins, 0, n, prev, lineMode);
    var d1 := loop.0;
    var c := loop.1;
    assert c <= |d1| by { InsertLoopBounds(d, p.y, ins, 0, n, prev, lineMode); }
    if lastInsert || |next| > 0 then
      var last := if lastInsert then ins[|ins| - 1] else "";
      var prev2 := if n == 0 then prev else "";
      var tail := prev2 + last + next;
      if c == |d1| then (d1 + [tail], Pos(|last|, p.y + n))
      else if n == 0 then (d1[c := tail], Pos(|prev2| + |last|, p.y + n))
      else (d1[..c] + [tail] + d1[c..], Pos(|last|, p.y + n))
    else (d1, Pos(0, p.y + n))
  }

  lemma {:induction false} InsertLoopBounds(d: seq<string>, c: nat, ins: seq<string>, k: nat, n: nat,
                                            prev: string, lineMode: bool)
    requires c <= |d| && k <= n <= |ins|
    ensures InsertLoop(d, c, ins, k, n, prev, lineMode).1 <= |InsertLoop(d, c, ins, k, n, prev, lineMode).0|
    decreases n - k
  {
    if k < n {
      if c == |d| {
        InsertLoopBounds(d + [if k == 0 then prev + ins[k] else ins[k]], |d| + 1, ins, k + 1, n, prev, lineMode);
      } else if k == 0 && !lineMode {
        InsertLoopBounds(d[c := prev + ins[0]], c + 1, ins, k + 1, n, prev, lineMode);
      } else {
        InsertLoopBounds(d[..c] + [ins[k]] + d[c..], c + 1, ins, k + 1, n, prev, lineMode);
      }
    }
  }

  /** What ReplaceData hands back: the new document, the deleted lines, the
      position after the inserted text, the number of lines the insertion
      added and the number of lines the deletion removed. */
  datatype Outcome = Outcome(doc: seq<string>, deleted: seq<string>, newPos: Pos,
                             insLines: int, deletedLines: nat)

  /** CSearchAgent::ReplaceData: the range from..to of doc is replaced by
      the lines ins. */
  function ReplaceData(doc: seq<string>, from: Pos, to: Pos, ins: seq<string>,
                       isDelim: char -> bool, eolLen: string -> nat): Outcome
    requires ValidRange(doc, from, to)
  {
    var s := Delete(doc, from, to, ins, isDelim, eolLen);
    var deleted := Reverse(s.deleted);
    if s.insOneLine then Outcome(s.doc, deleted, Pos(s.newX, from.y), 0, s.deletedLines)
    else if |ins| == 0 then Outcome(s.doc, deleted, from, 0, s.deletedLines)
    else
      var r := Insert(s.doc, from, ins, isDelim);
      Outcome(r.0, deleted, r.1, |r.0| - |s.doc|, s.deletedLines)
  }

  /** The reverse of a sequence. */
  function Reverse<T>(xs: seq<T>): seq<T>
  {
    if |xs| == 0 then [] else Reverse(xs[1..]) + [xs[0]]
  }

  lemma {:induction false} FlatReverseSnoc(xs: seq<string>, x: string)
    ensures Flat(Reverse(xs + [x])) == x + Flat(Reverse(xs))
  {
    if |xs| == 0 {
      assert Reverse(xs + [x]) == [x];
      assert Flat([x]) == x + Flat([]);
    } else {
      assert (xs + [x])[1..] == xs[1..] + [x];
      FlatReverseSnoc(xs[1..], x);
      FlatAppend(Reverse(xs[1..] + [x]), [xs[0]]);
      FlatAppend(Reverse(xs[1..]), [xs[0]]);
    }
  }

  /** The whole text ends after the last line. */
  lemma BaseAll(lines: seq<string>)
    ensures Base(lines, |lines|) == |Flat(lines)|
  {
    assert lines[..|lines|] == lines;
  }

  /** Offsets follow the order of positions. */
  lemma OffsetOrder(doc: seq<string>, from: Pos, to: Pos)
    requires ValidRange(doc, from, to)
    ensures Offset(doc, from) <= Offset(doc, to)
  {
    if from.y < to.y {
      LineSpan(doc, from.y);
      BaseMono(doc, from.y + 1, to.y);
    }
  }

  /** The end of the deleted text comes after the start of the range and
      inside the text. */
  lemma DelEndFacts(doc: seq<string>, from: Pos, to: Pos, eolLen: string -> nat)
    requires ValidRange(doc, from, to)
    ensures Offset(doc, from) <= Offset(doc, to) <= DelEnd(doc, from, to, eolLen) <= |Flat(doc)|
  {
    OffsetOrder(doc, from, to);
    BaseAll(doc);
    if to.y < |doc| {
      DelEndOnLine(doc, from, to, eolLen);
      BaseMono(doc, to.y + 1, |doc|);
    }
  }

  /** A range that ends on a line of the document ends its deletion on that
      line. */
  lemma DelEndOnLine(doc: seq<string>, from: Pos, to: Pos, eolLen: string -> nat)
    requires ValidRange(doc, from, to) && to.y < |doc|
    ensures Base(doc, to.y) <= Offset(doc, to) <= DelEnd(doc, from, to, eolLen) <= Base(doc, to.y + 1)
  {
    LineSpan(doc, to.y);
  }

  /** A range that ends after the last line deletes up to the end. */
  lemma DelEndPast(doc: seq<string>, from: Pos, to: Pos, eolLen: string -> nat)
    requires ValidRange(doc, from, to) && to.y == |doc|
    ensures DelEnd(doc, from, to, eolLen) == |Flat(doc)|
  {
  }

  /** The replacement text as it stands in the document so far. */
  function Shown(s: Del, ins0: string): string
  {
    if s.insOneLine then ins0 else ""
  }

  /** The deletion loop before its step at line j - 1: lines from j on hold
      the text after the range, preceded by the replacement when it has
      been written, and the deleted lines hold the text from line j to the
      end of the range. */
  ghost predicate Pending(doc: seq<string>, job: Job, ins0: string, e: nat, j: nat, s: Del)
  {
    j <= |doc| && e <= |Flat(doc)| && Base(doc, j) <= |Flat(doc)|
    && var b := Base(doc, j);
    var m := if e < b then b else e;
    j <= |s.doc| && s.doc[..j] == doc[..j]
    && s.deletedLines + |s.doc| == |doc|
    && Flat(s.doc[j..]) == Shown(s, ins0) + Flat(doc)[m..]
    && Flat(Reverse(s.deleted)) == Flat(doc)[b..m]
    && (!job.oneLine ==> ins0 == "")
    && (s.insOneLine ==> job.oneLine && s.insText == "" && s.newX == job.from.x + |ins0|
                         && j <= job.to.y < |doc| && j < |s.doc| && |s.doc[j]| >= |ins0|)
    && (!s.insOneLine ==> s.insText == ins0 && s.newX == job.from.x)
  }

  lemma PendingIntro(doc: seq<string>, job: Job, ins0: string, e: nat, j: nat, s: Del, b: nat, m: nat)
    requires j <= |doc| && b == Base(doc, j) && m == (if e < b then b else e) && m <= |Flat(doc)|
    requires j <= |s.doc| && s.doc[..j] == doc[..j]
    requires s.deletedLines + |s.doc| == |doc|
    requires Flat(s.doc[j..]) == Shown(s, ins0) + Flat(doc)[m..]
    requires Flat(Reverse(s.deleted)) == Flat(doc)[b..m]
    requires !job.oneLine ==> ins0 == ""
    requires s.insOneLine ==> job.oneLine && s.insText == "" && s.newX == job.from.x + |ins0|
                              && j <= job.to.y < |doc| && j < |s.doc| && |s.doc[j]| >= |ins0|
    requires !s.insOneLine ==> s.insText == ins0 && s.newX == job.from.x
    ensures Pending(doc, job, ins0, e, j, s)
  {
  }

  lemma PendingElim(doc: seq<string>, job: Job, ins0: string, e: nat, j: nat, s: Del)
    requires Pending(doc, job, ins0, e, j, s)
    ensures j <= |doc| && e <= |Flat(doc)| && Base(doc, j) <= |Flat(doc)|
    ensures j <= |s.doc| && s.doc[..j] == doc[..j]
    ensures s.deletedLines + |s.doc| == |doc|
    ensures var b := Base(doc, j); var m := if e < b then b else e;
      Flat(s.doc[j..]) == Shown(s, ins0) + Flat(doc)[m..] && Flat(Reverse(s.deleted)) == Flat(doc)[b..m]
    ensures !job.oneLine ==> ins0 == ""
    ensures s.insOneLine ==> job.oneLine && s.insText == "" && s.newX == job.from.x + |ins0|
                             && j <= job.to.y < |doc| && j < |s.doc| && |s.doc[j]| >= |ins0|
    ensures !s.insOneLine ==> s.insText == ins0 && s.newX == job.from.x
  {
  }

  /** The deletion loop starts with nothing deleted. */
  lemma StartPending(doc: seq<string>, ins: seq<string>, job: Job, isDelim: char -> bool)
    requires ValidRange(doc, job.from, job.to) && job.oneLine == OneLine(ins, isDelim)
    requires job.from.y <= StartLine(doc, job.to)
    ensures Pending(doc, job, InsText(ins, isDelim), DelEnd(doc, job.from, job.to, job.eolLen),
                    StartLine(doc, job.to) + 1, Start(doc, ins, job.from, isDelim))
  {
    var j := StartLine(doc, job.to) + 1;
    var e := DelEnd(doc, job.from, job.to, job.eolLen);
    var s := Start(doc, ins, job.from, isDelim);
    var b := Base(doc, j);
    StartBound(doc, job);
    FlatCut(doc, j);
    assert s.doc[j..] == doc[j..];
    assert Flat(Reverse(s.deleted)) == Flat(doc)[b..b];
    PendingIntro(doc, job, InsText(ins, isDelim), e, j, s, b, b);
  }

  /** The range ends before the line the deletion loop starts above. */
  lemma StartBound(doc: seq<string>, job: Job)
    requires ValidRange(doc, job.from, job.to)
    ensures StartLine(doc, job.to) + 1 <= |doc|
    ensures DelEnd(doc, job.from, job.to, job.eolLen) <= Base(doc, StartLine(doc, job.to) + 1) <= |Flat(doc)|
  {
    if job.to.y < |doc| {
      StartBoundLine(doc, job);
    } else {
      StartBoundPast(doc, job);
    }
  }

  lemma StartBoundLine(doc: seq<string>, job: Job)
    requires ValidRange(doc, job.from, job.to) && job.to.y < |doc|
    ensures StartLine(doc, job.to) + 1 == job.to.y + 1 <= |doc|
    ensures DelEnd(doc, job.from, job.to, job.eolLen) <= Base(doc, StartLine(doc, job.to) + 1) <= |Flat(doc)|
  {
    BaseAll(doc);
    DelEndOnLine(doc, job.from, job.to, job.eolLen);
    BaseMono(doc, job.to.y + 1, |doc|);
  }

  lemma StartBoundPast(doc: seq<string>, job: Job)
    requires ValidRange(doc, job.from, job.to) && job.to.y >= |doc|
    ensures StartLine(doc, job.to) + 1 == |doc|
    ensures DelEnd(doc, job.from, job.to, job.eolLen) == Base(doc, StartLine(doc, job.to) + 1) == |Flat(doc)|
  {
    BaseAll(doc);
  }

  /** Removing line i takes its text out of the document into the deleted
      text. */
  lemma DropText(s: Del, i: nat)
    requires i < |s.doc|
    ensures DropLine(s, i).doc[..i] == s.doc[..i] && |DropLine(s, i).doc| + 1 == |s.doc|
    ensures Flat(DropLine(s, i).doc[i..]) == Flat(s.doc[i + 1..])
    ensures i + 1 < |s.doc| ==> DropLine(s, i).doc[i] == s.doc[i + 1]
    ensures Flat(Reverse(DropLine(s, i).deleted)) == s.doc[i] + Flat(Reverse(s.deleted))
  {
    var r := DropLine(s, i);
    assert r.doc[i..] == s.doc[i + 1..];
    FlatReverseSnoc(s.deleted, s.doc[i]);
  }

  /** An in-line edit replaces the deleted columns by the pending text. */
  lemma EditText(s: Del, i: nat, pos: nat, len: nat, oneLine: bool)
    requires i < |s.doc| && pos + len <= |s.doc[i]|
    ensures EditLine(s, i, pos, len, oneLine).doc[..i] == s.doc[..i]
    ensures |EditLine(s, i, pos, len, oneLine).doc| == |s.doc|
    ensures EditLine(s, i, pos, len, oneLine).doc[i] == s.doc[i][..pos] + s.insText + s.doc[i][pos + len..]
    ensures Flat(EditLine(s, i, pos, len, oneLine).doc[i..])
         == (s.doc[i][..pos] + s.insText) + (s.doc[i][pos + len..] + Flat(s.doc[i + 1..]))
    ensures Flat(Reverse(EditLine(s, i, pos, len, oneLine).deleted))
         == s.doc[i][pos..pos + len] + Flat(Reverse(s.deleted))
  {
    var r := EditLine(s, i, pos, len, oneLine);
    FlatLine(r.doc, i);
    assert r.doc[i + 1..] == s.doc[i + 1..];
    var l := s.doc[i];
    Assoc(l[..pos] + s.insText, l[pos + len..], Flat(s.doc[i + 1..]));
    FlatReverseSnoc(s.deleted, s.doc[i][pos..pos + len]);
  }

  /** Joining line i with the next one: the pending text and the next line
      take the place of the tail of line i. */
  lemma JoinNext(s: Del, i: nat, pos: nat, len: nat, oneLine: bool)
    requires i + 1 < |s.doc| && pos + len == |s.doc[i]|
    ensures JoinLine(s, i, pos, len, oneLine).doc[..i] == s.doc[..i]
    ensures |JoinLine(s, i, pos, len, oneLine).doc| + 1 == |s.doc|
    ensures |JoinLine(s, i, pos, len, oneLine).doc[i]| == pos + |s.insText| + |s.doc[i + 1]|
    ensures Flat(JoinLine(s, i, pos, len, oneLine).doc[i..])
         == (s.doc[i][..pos] + s.insText) + Flat(s.doc[i + 1..])
  {
    var r := JoinLine(s, i, pos, len, oneLine);
    var l := s.doc[i];
    FlatLine(r.doc, i);
    FlatLine(s.doc, i + 1);
    assert r.doc[i + 1..] == s.doc[i + 2..];
    Assoc(l[..pos] + s.insText, s.doc[i + 1], Flat(s.doc[i + 2..]));
  }

  /** Cutting the last line: only its head is left. */
  lemma JoinLast(s: Del, i: nat, pos: nat, len: nat, oneLine: bool)
    requires i + 1 == |s.doc| && pos + len == |s.doc[i]|
    ensures JoinLine(s, i, pos, len, oneLine).doc[..i] == s.doc[..i]
    ensures |JoinLine(s, i, pos, len, oneLine).doc| == |s.doc|
    ensures JoinLine(s, i, pos, len, oneLine).insOneLine == s.insOneLine
    ensures JoinLine(s, i, pos, len, oneLine).newX == s.newX
    ensures Flat(JoinLine(s, i, pos, len, oneLine).doc[i..]) == s.doc[i][..pos]
    ensures Flat(s.doc[i + 1..]) == ""
  {
    var r := JoinLine(s, i, pos, len, oneLine);
    FlatLine(r.doc, i);
    assert r.doc[i + 1..] == [];
    assert s.doc[i + 1..] == [];
  }

  /** A join sends the tail of line i to the deleted text (and, on a first
      join before any other deletion, an empty line that carries the next
      line's modification sequence). */
  lemma JoinDeleted(s: Del, i: nat, pos: nat, len: nat, oneLine: bool)
    requires i < |s.doc| && pos + len == |s.doc[i]|
    ensures Flat(Reverse(JoinLine(s, i, pos, len, oneLine).deleted))
         == s.doc[i][pos..] + Flat(Reverse(s.deleted))
  {
    var r := JoinLine(s, i, pos, len, oneLine);
    var l := s.doc[i];
    var blank: seq<string> := if i + 1 < |s.doc| && |s.deleted| == 0 && !s.lastEolReplace then [""] else [];
    assert r.deleted == (s.deleted + blank) + [l[pos..pos + len]];
    FlatReverseSnoc(s.deleted + blank, l[pos..pos + len]);
    if blank == [""] {
      FlatReverseSnoc(s.deleted, "");
    } else {
      assert s.deleted + blank == s.deleted;
    }
  }

  /** The step at a line i that has not been touched yet. */
  lemma Untouched(doc: seq<string>, job: Job, ins0: string, e: nat, i: nat, s: Del)
    requires i < |doc| && Pending(doc, job, ins0, e, i + 1, s)
    ensures i < |s.doc| && s.doc[i] == doc[i] && s.doc[..i] == doc[..i]
    ensures Flat(s.doc[i..]) == doc[i] + Flat(s.doc[i + 1..])
  {
    assert s.doc[i] == s.doc[..i + 1][i];
    assert s.doc[..i] == s.doc[..i + 1][..i];
    assert doc[..i] == doc[..i + 1][..i];
    FlatLine(s.doc, i);
  }

  /** A line strictly inside the range is removed whole (an empty one, only
      possible as the last line, is passed over). */
  lemma StepBetween(doc: seq<string>, job: Job, ins0: string, e: nat, i: nat, s: Del)
    requires ValidRange(doc, job.from, job.to) && e == DelEnd(doc, job.from, job.to, job.eolLen)
    requires job.from.y < i < job.to.y
    requires i + 1 < |doc| ==> |doc[i]| > 0
    requires Pending(doc, job, ins0, e, i + 1, s)
    ensures i < |s.doc|
    ensures Pending(doc, job, ins0, e, i, DeleteStep(s, i, job))
  {
    var l := doc[i];
    var F := Flat(doc);
    var b0, b1 := Base(doc, i), Base(doc, i + 1);
    Untouched(doc, job, ins0, e, i, s);
    DelEndFacts(doc, job.from, job.to, job.eolLen);
    BaseMono(doc, i + 1, job.to.y);
    LineSpan(doc, i);
    var r := DeleteStep(s, i, job);
    if |l| == 0 {
      assert r == s;
      PendingIntro(doc, job, ins0, e, i, s, b0, e);
    } else {
      assert CutLen(l, i, job) == |l|;
      assert r == DropLine(s, i).(firstLine := false);
      DropText(s, i);
      Slices(F, b0, b1, e);
      PendingIntro(doc, job, ins0, e, i, r, b0, e);
    }
  }

  /** The deletion ends where the step at the last line of the range
      stops cutting. */
  lemma DelEndCut(doc: seq<string>, job: Job)
    requires ValidRange(doc, job.from, job.to) && job.to.y < |doc|
    ensures DelEnd(doc, job.from, job.to, job.eolLen)
         == Base(doc, job.to.y) + WorkPos(job.from, job.to.y) + CutLen(doc[job.to.y], job.to.y, job)
  {
  }

  /** The first step of a range over several lines, at its last line: the
      head of the line up to the end of the range is removed and the
      one-line replacement written in its place. */
  lemma StepAtEnd(doc: seq<string>, job: Job, ins0: string, e: nat, s: Del)
    requires ValidRange(doc, job.from, job.to) && e == DelEnd(doc, job.from, job.to, job.eolLen)
    requires job.from.y < job.to.y < |doc|
    requires Pending(doc, job, ins0, e, job.to.y + 1, s)
    ensures job.to.y < |s.doc| && job.to.x <= |s.doc[job.to.y]|
    ensures Pending(doc, job, ins0, e, job.to.y, DeleteStep(s, job.to.y, job))
  {
    var i := job.to.y;
    Untouched(doc, job, ins0, e, i, s);
    var len := CutLen(doc[i], i, job);
    if len == 0 {
      AtEndKeep(doc, job, ins0, e, s);
    } else if len >= |doc[i]| {
      AtEndDrop(doc, job, ins0, e, s);
    } else {
      AtEndEdit(doc, job, ins0, e, s);
    }
  }

  lemma AtEndKeep(doc: seq<string>, job: Job, ins0: string, e: nat, s: Del)
    requires ValidRange(doc, job.from, job.to) && e == DelEnd(doc, job.from, job.to, job.eolLen)
    requires job.from.y < job.to.y < |doc| && CutLen(doc[job.to.y], job.to.y, job) == 0
    requires Pending(doc, job, ins0, e, job.to.y + 1, s)
    ensures job.to.y < |s.doc| && job.to.x <= |s.doc[job.to.y]|
    ensures Pending(doc, job, ins0, e, job.to.y, DeleteStep(s, job.to.y, job))
  {
    var i := job.to.y;
    var b0 := Base(doc, i);
    Untouched(doc, job, ins0, e, i, s);
    DelEndOnLine(doc, job.from, job.to, job.eolLen);
    DelEndCut(doc, job);
    LineSpan(doc, i);
    assert DeleteStep(s, i, job) == s;
    PendingIntro(doc, job, ins0, e, i, s, b0, b0);
  }

  lemma AtEndDrop(doc: seq<string>, job: Job, ins0: string, e: nat, s: Del)
    requires ValidRange(doc, job.from, job.to) && e == DelEnd(doc, job.from, job.to, job.eolLen)
    requires job.from.y < job.to.y < |doc| && CutLen(doc[job.to.y], job.to.y, job) >= |doc[job.to.y]| > 0
    requires Pending(doc, job, ins0, e, job.to.y + 1, s)
    ensures job.to.y < |s.doc| && job.to.x <= |s.doc[job.to.y]|
    ensures Pending(doc, job, ins0, e, job.to.y, DeleteStep(s, job.to.y, job))
  {
    var i := job.to.y;
    var b0 := Base(doc, i);
    Untouched(doc, job, ins0, e, i, s);
    DelEndOnLine(doc, job.from, job.to, job.eolLen);
    DelEndCut(doc, job);
    LineSpan(doc, i);
    var r := DeleteStep(s, i, job);
    assert r == DropLine(s, i).(firstLine := false);
    DropText(s, i);
    PendingIntro(doc, job, ins0, e, i, r, b0, e);
  }

  lemma AtEndEdit(doc: seq<string>, job: Job, ins0: string, e: nat, s: Del)
    requires ValidRange(doc, job.from, job.to) && e == DelEnd(doc, job.from, job.to, job.eolLen)
    requires job.from.y < job.to.y < |doc| && 0 < CutLen(doc[job.to.y], job.to.y, job) < |doc[job.to.y]|
    requires Pending(doc, job, ins0, e, job.to.y + 1, s)
    ensures job.to.y < |s.doc| && job.to.x <= |s.doc[job.to.y]|
    ensures Pending(doc, job, ins0, e, job.to.y, DeleteStep(s, job.to.y, job))
  {
    var i := job.to.y;
    var F := Flat(doc);
    var b0, b1 := Base(doc, i), Base(doc, i + 1);
    var len := CutLen(doc[i], i, job);
    Untouched(doc, job, ins0, e, i, s);
    DelEndOnLine(doc, job.from, job.to, job.eolLen);
    DelEndCut(doc, job);
    LineSpan(doc, i);
    var r := DeleteStep(s, i, job);
    assert r == EditLine(s, i, 0, len, job.oneLine).(firstLine := false);
    EditHeadDel(s, i, len, job.oneLine, ins0, doc[i], F, b0, b1);
    PendingIntro(doc, job, ins0, e, i, r, b0, e);
  }

  /** The text after an edit of the head of line i, which stands at b0..b1
      of text t. */
  lemma EditHeadDel(s: Del, i: nat, len: nat, oneLine: bool, ins0: string, l: string,
                    t: string, b0: nat, b1: nat)
    requires i < |s.doc| && s.doc[i] == l && s.insText == ins0 && len < |l|
    requires b0 + |l| == b1 <= |t| && t[b0..b1] == l
    requires Flat(s.doc[i + 1..]) == t[b1..] && Flat(Reverse(s.deleted)) == ""
    ensures Flat(EditLine(s, i, 0, len, oneLine).doc[i..]) == ins0 + t[b0 + len..]
    ensures Flat(Reverse(EditLine(s, i, 0, len, oneLine).deleted)) == t[b0..b0 + len]
    ensures EditLine(s, i, 0, len, oneLine).doc[..i] == s.doc[..i]
    ensures |EditLine(s, i, 0, len, oneLine).doc| == |s.doc| && |EditLine(s, i, 0, len, oneLine).doc[i]| >= |ins0|
  {
    EditText(s, i, 0, len, oneLine);
    EditHead(t, b0, b1, len, l, ins0);
  }

  /** The text after an edit of the head of a line l that stands at b0..b1
      of text t. */
  lemma EditHead(t: string, b0: nat, b1: nat, len: nat, l: string, ins0: string)
    requires b0 + |l| == b1 <= |t| && t[b0..b1] == l && len < |l|
    ensures (l[..0] + ins0) + (l[len..] + t[b1..]) == ins0 + t[b0 + len..]
    ensures l[0..len] + "" == t[b0..b0 + len]
  {
    CutAt(t, b0, b1, len);
    assert l[..0] + ins0 == ins0;
  }

  /** Text identities behind the step at the first line of the range, for
      a line l standing at b0..b1 of text t. */
  lemma KeepMid(t: string, b0: nat, b1: nat, k: nat, l: string)
    requires b0 + |l| == b1 <= |t| && t[b0..b1] == l && k <= |l|
    ensures l + t[b1..] == (t[b0..b0 + k] + "") + t[b0 + k..]
  {
    CutAt(t, b0, b1, k);
    assert l == l[..k] + l[k..];
  }

  lemma JoinMid(t: string, b0: nat, b1: nat, k: nat, l: string, x: string, y: string, z: string, rest: string)
    requires b0 + |l| == b1 <= |t| && t[b0..b1] == l && k <= |l| && x + y == z
    ensures (l[..k] + x) + (y + rest) == (t[b0..b0 + k] + z) + rest
  {
    CutAt(t, b0, b1, k);
  }

  lemma EditMidText(t: string, b0: nat, b1: nat, k: nat, len: nat, l: string, x: string, y: string)
    requires b0 + |l| == b1 <= |t| && t[b0..b1] == l && k + len <= |l| && x == y
    ensures (l[..k] + x) + (l[k + len..] + t[b1..]) == (t[b0..b0 + k] + y) + t[b0 + k + len..]
  {
    CutAt(t, b0, b1, k);
    CutAt(t, b0, b1, k + len);
  }

  lemma EditMidCut(t: string, b0: nat, b1: nat, k: nat, len: nat, l: string)
    requires b0 + |l| == b1 <= |t| && t[b0..b1] == l && k + len <= |l|
    ensures l[k..k + len] + t[b1..b1] == t[b0 + k..b0 + k + len]
  {
    CutAt(t, b0, b1, k + len);
    assert l[k..k + len] == t[b0 + k..b0 + k + len];
  }

  lemma TailThen(t: string, b0: nat, b1: nat, k: nat, l: string, e: nat)
    requires b0 + |l| == b1 <= e <= |t| && t[b0..b1] == l && k <= |l|
    ensures l[k..] + t[b1..e] == t[b0 + k..e]
  {
    CutAt(t, b0, b1, k);
    Slices(t, b0 + k, b1, e);
  }

  /** The deletion loop after its last step: the lines before the range are
      as they were, the document's text is the text before the range, the
      replacement when it has been written, and the text after the range;
      the deleted lines hold the text of the range. */
  ghost predicate Done(doc: seq<string>, job: Job, ins0: string, e: nat, s: Del)
  {
    PosIn(doc, job.from) && Offset(doc, job.from) <= e <= |Flat(doc)|
    && job.from.y <= |s.doc| && s.doc[..job.from.y] == doc[..job.from.y]
    && s.deletedLines + |s.doc| == |doc|
    && Flat(s.doc) == Flat(doc)[..Offset(doc, job.from)] + Shown(s, ins0) + Flat(doc)[e..]
    && Flat(Reverse(s.deleted)) == Flat(doc)[Offset(doc, job.from)..e]
    && (s.insOneLine ==> job.oneLine && s.newX == job.from.x + |ins0|
                         && job.from.y < |s.doc| && job.from.x + |ins0| <= |s.doc[job.from.y]|)
    && (!s.insOneLine ==> s.newX == job.from.x)
  }

  lemma DoneIntro(doc: seq<string>, job: Job, ins0: string, e: nat, s: Del, b0: nat, a: nat)
    requires PosIn(doc, job.from) && b0 == Base(doc, job.from.y) && a == b0 + job.from.x
    requires a <= e <= |Flat(doc)|
    requires job.from.y <= |s.doc| && s.doc[..job.from.y] == doc[..job.from.y]
    requires s.deletedLines + |s.doc| == |doc|
    requires Flat(s.doc[job.from.y..]) == (Flat(doc)[b0..a] + Shown(s, ins0)) + Flat(doc)[e..]
    requires Flat(Reverse(s.deleted)) == Flat(doc)[a..e]
    requires s.insOneLine ==> job.oneLine && s.newX == job.from.x + |ins0|
                              && job.from.y < |s.doc| && job.from.x + |ins0| <= |s.doc[job.from.y]|
    requires !s.insOneLine ==> s.newX == job.from.x
    ensures Done(doc, job, ins0, e, s)
  {
    FlatSplit(s.doc, job.from.y);
    FlatCut(doc, job.from.y);
    PrefixThen(Flat(doc), b0, a, Shown(s, ins0), Flat(doc)[e..]);
  }

  lemma PrefixThen(t: string, b0: nat, a: nat, x: string, rest: string)
    requires b0 <= a <= |t|
    ensures t[..b0] + ((t[b0..a] + x) + rest) == t[..a] + x + rest
  {
    assert t[..a] == t[..b0] + t[b0..a];
  }

  /** The step at the only line of a range within one line. */
  lemma FinalSame(doc: seq<string>, job: Job, ins0: string, e: nat, s: Del)
    requires ValidRange(doc, job.from, job.to) && e == DelEnd(doc, job.from, job.to, job.eolLen)
    requires job.from.y == job.to.y < |doc|
    requires Pending(doc, job, ins0, e, job.from.y + 1, s)
    ensures job.from.y < |s.doc| && job.from.x <= job.to.x <= |s.doc[job.from.y]|
    ensures Done(doc, job, ins0, e, DeleteStep(s, job.from.y, job))
  {
    var i := job.from.y;
    Untouched(doc, job, ins0, e, i, s);
    var len := CutLen(doc[i], i, job);
    if len == 0 {
      SameKeep(doc, job, ins0, e, s);
    } else if len >= |doc[i]| {
      SameDrop(doc, job, ins0, e, s);
    } else if job.from.x + len >= |doc[i]| {
      if i + 1 < |s.doc| {
        SameJoinNext(doc, job, ins0, e, s);
      } else {
        SameJoinLast(doc, job, ins0, e, s);
      }
    } else {
      SameEdit(doc, job, ins0, e, s);
    }
  }

  /** What the step at the first line of the range starts from: line i of
      the document, which stands at b0..b1 of its text t, is untouched, and
      the range starts at a. */
  ghost predicate AtFirst(doc: seq<string>, job: Job, ins0: string, e: nat, s: Del,
                          l: string, t: string, b0: nat, b1: nat, a: nat)
  {
    PosIn(doc, job.from) && job.from.y < |doc| && l == doc[job.from.y] && t == Flat(doc)
    && b0 == Base(doc, job.from.y) && b0 + |l| == b1 <= |t| && t[b0..b1] == l
    && a == b0 + job.from.x && a <= e <= |t|
    && job.from.y < |s.doc| && s.doc[job.from.y] == l && s.doc[..job.from.y] == doc[..job.from.y]
    && s.deletedLines + |s.doc| == |doc|
    && Flat(s.doc[job.from.y..]) == l + Flat(s.doc[job.from.y + 1..])
    && (!job.oneLine ==> ins0 == "")
    && (!s.insOneLine ==> s.insText == ins0 && s.newX == job.from.x)
  }

  /** The facts the step at the only line of a range within one line
      starts from. */
  lemma SameFacts(doc: seq<string>, job: Job, ins0: string, e: nat, s: Del)
    requires ValidRange(doc, job.from, job.to) && e == DelEnd(doc, job.from, job.to, job.eolLen)
    requires job.from.y == job.to.y < |doc|
    requires Pending(doc, job, ins0, e, job.from.y + 1, s)
    ensures AtFirst(doc, job, ins0, e, s, doc[job.from.y], Flat(doc), Base(doc, job.from.y),
                    Base(doc, job.from.y + 1), Base(doc, job.from.y) + job.from.x)
    ensures !s.insOneLine
    ensures Flat(s.doc[job.from.y + 1..]) == Shown(s, ins0) + Flat(doc)[Base(doc, job.from.y + 1)..]
    ensures Flat(Reverse(s.deleted)) == Flat(doc)[Base(doc, job.from.y + 1)..Base(doc, job.from.y + 1)]
    ensures e == Base(doc, job.from.y) + job.from.x + CutLen(doc[job.from.y], job.from.y, job)
  {
    SameEnd(doc, job);
    SameAt(doc, job, ins0, e, s);
    SameAfter(doc, job, ins0, e, s);
  }

  lemma SameAt(doc: seq<string>, job: Job, ins0: string, e: nat, s: Del)
    requires ValidRange(doc, job.from, job.to) && e == DelEnd(doc, job.from, job.to, job.eolLen)
    requires job.from.y == job.to.y < |doc|
    requires Pending(doc, job, ins0, e, job.from.y + 1, s)
    requires Base(doc, job.from.y) + job.from.x <= e <= Base(doc, job.from.y + 1)
    ensures AtFirst(doc, job, ins0, e, s, doc[job.from.y], Flat(doc), Base(doc, job.from.y),
                    Base(doc, job.from.y + 1), Base(doc, job.from.y) + job.from.x)
  {
    Untouched(doc, job, ins0, e, job.from.y, s);
    LineSpan(doc, job.from.y);
  }

  lemma SameAfter(doc: seq<string>, job: Job, ins0: string, e: nat, s: Del)
    requires ValidRange(doc, job.from, job.to) && e == DelEnd(doc, job.from, job.to, job.eolLen)
    requires job.from.y == job.to.y < |doc|
    requires Pending(doc, job, ins0, e, job.from.y + 1, s)
    requires e <= Base(doc, job.from.y + 1)
    ensures !s.insOneLine
    ensures Flat(s.doc[job.from.y + 1..]) == Shown(s, ins0) + Flat(doc)[Base(doc, job.from.y + 1)..]
    ensures Flat(Reverse(s.deleted)) == Flat(doc)[Base(doc, job.from.y + 1)..Base(doc, job.from.y + 1)]
  {
  }

  /** A range within one line ends its deletion on that line. */
  lemma SameEnd(doc: seq<string>, job: Job)
    requires ValidRange(doc, job.from, job.to) && job.from.y == job.to.y < |doc|
    ensures Base(doc, job.from.y) + job.from.x <= DelEnd(doc, job.from, job.to, job.eolLen) <= Base(doc, job.from.y + 1)
    ensures DelEnd(doc, job.from, job.to, job.eolLen)
         == Base(doc, job.from.y) + job.from.x + CutLen(doc[job.from.y], job.from.y, job)
  {
    DelEndOnLine(doc, job.from, job.to, job.eolLen);
    DelEndCut(doc, job);
  }

  lemma SameKeep(doc: seq<string>, job: Job, ins0: string, e: nat, s: Del)
    requires ValidRange(doc, job.from, job.to) && e == DelEnd(doc, job.from, job.to, job.eolLen)
    requires job.from.y == job.to.y < |doc|
    requires Pending(doc, job, ins0, e, job.from.y + 1, s)
    requires CutLen(doc[job.from.y], job.from.y, job) == 0
    ensures Done(doc, job, ins0, e, DeleteStep(s, job.from.y, job))
  {
    var i := job.from.y;
    var l := doc[i];
    var F := Flat(doc);
    var b0, b1 := Base(doc, i), Base(doc, i + 1);
    var a := b0 + job.from.x;
    var len := CutLen(l, i, job);
    SameFacts(doc, job, ins0, e, s);
    var r := DeleteStep(s, i, job);
    assert r == s;
    SameKeepCore(doc, job, ins0, e, s, F, b0, b1, a);
  }

  lemma SameKeepCore(doc: seq<string>, job: Job, ins0: string, e: nat, s: Del,
                     t: string, b0: nat, b1: nat, a: nat)
    requires job.from.y < |doc| && AtFirst(doc, job, ins0, e, s, doc[job.from.y], t, b0, b1, a)
    requires !s.insOneLine && Flat(s.doc[job.from.y + 1..]) == Shown(s, ins0) + t[b1..]
    requires Flat(Reverse(s.deleted)) == t[b1..b1]
    requires e == a
    ensures Done(doc, job, ins0, e, s)
  {
    KeepDel(s, job.from.y, job.from.x, ins0, doc[job.from.y], t, b0, b1, a);
    DoneIntro(doc, job, ins0, e, s, b0, a);
  }

  lemma SameDrop(doc: seq<string>, job: Job, ins0: string, e: nat, s: Del)
    requires ValidRange(doc, job.from, job.to) && e == DelEnd(doc, job.from, job.to, job.eolLen)
    requires job.from.y == job.to.y < |doc|
    requires Pending(doc, job, ins0, e, job.from.y + 1, s)
    requires CutLen(doc[job.from.y], job.from.y, job) >= |doc[job.from.y]| > 0
    ensures Done(doc, job, ins0, e, DeleteStep(s, job.from.y, job))
  {
    var i := job.from.y;
    var l := doc[i];
    var F := Flat(doc);
    var b0, b1 := Base(doc, i), Base(doc, i + 1);
    var a := b0 + job.from.x;
    var len := CutLen(l, i, job);
    SameFacts(doc, job, ins0, e, s);
    var r := DeleteStep(s, i, job);
    assert r == DropLine(s, i).(firstLine := false);
    SameDropCore(doc, job, ins0, e, s, r, F, b0, b1, a);
  }

  lemma SameDropCore(doc: seq<string>, job: Job, ins0: string, e: nat, s: Del, r: Del,
                     t: string, b0: nat, b1: nat, a: nat)
    requires job.from.y < |doc| && AtFirst(doc, job, ins0, e, s, doc[job.from.y], t, b0, b1, a)
    requires !s.insOneLine && Flat(s.doc[job.from.y + 1..]) == Shown(s, ins0) + t[b1..]
    requires Flat(Reverse(s.deleted)) == t[b1..b1]
    requires a == b0 && e == b1
    requires r == DropLine(s, job.from.y).(firstLine := false)
    ensures Done(doc, job, ins0, e, r)
  {
    DropDel(s, r, job.from.y, ins0, doc[job.from.y], t, b0, b1);
    DoneIntro(doc, job, ins0, e, r, b0, a);
  }

  lemma SameJoinNext(doc: seq<string>, job: Job, ins0: string, e: nat, s: Del)
    requires ValidRange(doc, job.from, job.to) && e == DelEnd(doc, job.from, job.to, job.eolLen)
    requires job.from.y == job.to.y < |doc|
    requires Pending(doc, job, ins0, e, job.from.y + 1, s)
    requires 0 < CutLen(doc[job.from.y], job.from.y, job) < |doc[job.from.y]|
    requires job.from.x + CutLen(doc[job.from.y], job.from.y, job) >= |doc[job.from.y]|
    requires job.from.y + 1 < |s.doc|
    ensures Done(doc, job, ins0, e, DeleteStep(s, job.from.y, job))
  {
    var i := job.from.y;
    var l := doc[i];
    var F := Flat(doc);
    var b0, b1 := Base(doc, i), Base(doc, i + 1);
    var a := b0 + job.from.x;
    var len := CutLen(l, i, job);
    SameFacts(doc, job, ins0, e, s);
    var r := DeleteStep(s, i, job);
    assert r == JoinLine(s, i, job.from.x, len, job.oneLine).(firstLine := false);
    SameJoinNextCore(doc, job, ins0, e, s, r, len, F, b0, b1, a);
  }

  lemma SameJoinNextCore(doc: seq<string>, job: Job, ins0: string, e: nat, s: Del, r: Del, len: nat,
                         t: string, b0: nat, b1: nat, a: nat)
    requires job.from.y < |doc| && AtFirst(doc, job, ins0, e, s, doc[job.from.y], t, b0, b1, a)
    requires !s.insOneLine && Flat(s.doc[job.from.y + 1..]) == Shown(s, ins0) + t[b1..]
    requires Flat(Reverse(s.deleted)) == t[b1..b1]
    requires job.from.y + 1 < |s.doc| && job.from.x + len == |doc[job.from.y]| && e == b1
    requires r == JoinLine(s, job.from.y, job.from.x, len, job.oneLine).(firstLine := false)
    ensures Done(doc, job, ins0, e, r)
  {
    JoinNextState(s, r, job.from.y, job.from.x, len, job.oneLine, ins0);
    JoinNextDel(s, r, job.from.y, job.from.x, len, job.oneLine, ins0, doc[job.from.y], t, b0, b1, a, e);
    JoinCutDel(s, r, job.from.y, job.from.x, len, job.oneLine, doc[job.from.y], t, b0, b1, a, e);
    DoneIntro(doc, job, ins0, e, r, b0, a);
  }

  lemma SameJoinLast(doc: seq<string>, job: Job, ins0: string, e: nat, s: Del)
    requires ValidRange(doc, job.from, job.to) && e == DelEnd(doc, job.from, job.to, job.eolLen)
    requires job.from.y == job.to.y < |doc|
    requires Pending(doc, job, ins0, e, job.from.y + 1, s)
    requires 0 < CutLen(doc[job.from.y], job.from.y, job) < |doc[job.from.y]|
    requires job.from.x + CutLen(doc[job.from.y], job.from.y, job) >= |doc[job.from.y]|
    requires job.from.y + 1 == |s.doc|
    ensures Done(doc, job, ins0, e, DeleteStep(s, job.from.y, job))
  {
    var i := job.from.y;
    var l := doc[i];
    var F := Flat(doc);
    var b0, b1 := Base(doc, i), Base(doc, i + 1);
    var a := b0 + job.from.x;
    var len := CutLen(l, i, job);
    SameFacts(doc, job, ins0, e, s);
    var r := DeleteStep(s, i, job);
    assert r == JoinLine(s, i, job.from.x, len, job.oneLine).(firstLine := false);
    SameJoinLastCore(doc, job, ins0, e, s, r, len, F, b0, b1, a);
  }

  lemma SameJoinLastCore(doc: seq<string>, job: Job, ins0: string, e: nat, s: Del, r: Del, len: nat,
                         t: string, b0: nat, b1: nat, a: nat)
    requires job.from.y < |doc| && AtFirst(doc, job, ins0, e, s, doc[job.from.y], t, b0, b1, a)
    requires !s.insOneLine && Flat(s.doc[job.from.y + 1..]) == Shown(s, ins0) + t[b1..]
    requires Flat(Reverse(s.deleted)) == t[b1..b1]
    requires job.from.y + 1 == |s.doc| && job.from.x + len == |doc[job.from.y]| && e == b1
    requires r == JoinLine(s, job.from.y, job.from.x, len, job.oneLine).(firstLine := false)
    ensures Done(doc, job, ins0, e, r)
  {
    JoinLastDel(s, r, job.from.y, job.from.x, len, job.oneLine, ins0, doc[job.from.y], t, b0, b1, a, e);
    JoinCutDel(s, r, job.from.y, job.from.x, len, job.oneLine, doc[job.from.y], t, b0, b1, a, e);
    DoneIntro(doc, job, ins0, e, r, b0, a);
  }

  lemma SameEdit(doc: seq<string>, job: Job, ins0: string, e: nat, s: Del)
    requires ValidRange(doc, job.from, job.to) && e == DelEnd(doc, job.from, job.to, job.eolLen)
    requires job.from.y == job.to.y < |doc|
    requires Pending(doc, job, ins0, e, job.from.y + 1, s)
    requires 0 < CutLen(doc[job.from.y], job.from.y, job)
    requires job.from.x + CutLen(doc[job.from.y], job.from.y, job) < |doc[job.from.y]|
    ensures Done(doc, job, ins0, e, DeleteStep(s, job.from.y, job))
  {
    var i := job.from.y;
    var l := doc[i];
    var F := Flat(doc);
    var b0, b1 := Base(doc, i), Base(doc, i + 1);
    var a := b0 + job.from.x;
    var len := CutLen(l, i, job);
    SameFacts(doc, job, ins0, e, s);
    var r := DeleteStep(s, i, job);
    assert r == EditLine(s, i, job.from.x, len, job.oneLine).(firstLine := false);
    SameEditCore(doc, job, ins0, e, s, r, len, F, b0, b1, a);
  }

  lemma SameEditCore(doc: seq<string>, job: Job, ins0: string, e: nat, s: Del, r: Del, len: nat,
                     t: string, b0: nat, b1: nat, a: nat)
    requires job.from.y < |doc| && AtFirst(doc, job, ins0, e, s, doc[job.from.y], t, b0, b1, a)
    requires !s.insOneLine && Flat(s.doc[job.from.y + 1..]) == Shown(s, ins0) + t[b1..]
    requires Flat(Reverse(s.deleted)) == t[b1..b1]
    requires job.from.x + len < |doc[job.from.y]| && e == a + len
    requires r == EditLine(s, job.from.y, job.from.x, len, job.oneLine).(firstLine := false)
    ensures Done(doc, job, ins0, e, r)
  {
    EditMidDel(s, r, job.from.y, job.from.x, len, job.oneLine, ins0, doc[job.from.y], t, b0, b1, a, e);
    EditMidFlags(s, r, job.from.y, job.from.x, len, job.oneLine, ins0);
    DoneIntro(doc, job, ins0, e, r, b0, a);
  }

  /** The state when line i, which stands at b0..b1 of text t, is left
      alone and nothing has been deleted. */
  lemma KeepDel(s: Del, i: nat, k: nat, ins0: string, l: string, t: string, b0: nat, b1: nat, a: nat)
    requires i < |s.doc| && s.doc[i] == l && k <= |l| && !s.insOneLine
    requires b0 + |l| == b1 <= |t| && t[b0..b1] == l && a == b0 + k
    requires Flat(s.doc[i..]) == l + Flat(s.doc[i + 1..])
    requires Flat(s.doc[i + 1..]) == Shown(s, ins0) + t[b1..] && Flat(Reverse(s.deleted)) == t[b1..b1]
    ensures Flat(s.doc[i..]) == (t[b0..a] + Shown(s, ins0)) + t[a..]
    ensures Flat(Reverse(s.deleted)) == t[a..a]
  {
    KeepMid(t, b0, b1, k, l);
  }

  /** The state after line i, which stands at b0..b1 of text t, is removed
      whole as the only step of the deletion. */
  lemma DropDel(s: Del, r: Del, i: nat, ins0: string, l: string, t: string, b0: nat, b1: nat)
    requires i < |s.doc| && s.doc[i] == l && !s.insOneLine
    requires b0 + |l| == b1 <= |t| && t[b0..b1] == l
    requires Flat(s.doc[i + 1..]) == Shown(s, ins0) + t[b1..] && Flat(Reverse(s.deleted)) == t[b1..b1]
    requires r == DropLine(s, i).(firstLine := false)
    ensures r.doc[..i] == s.doc[..i] && |r.doc| + 1 == |s.doc| && r.deletedLines == s.deletedLines + 1
    ensures r.insOneLine == s.insOneLine && r.newX == s.newX
    ensures Flat(r.doc[i..]) == (t[b0..b0] + Shown(r, ins0)) + t[b1..]
    ensures Flat(Reverse(r.deleted)) == t[b0..b1]
  {
    DropText(s, i);
    assert t[b0..b0] == "";
  }

  /** The text after the tail of line i, which stands at b0..b1 of text t,
      is cut off from column k and the next line joined to it, when the
      lines after it hold the text from e on. */
  lemma JoinNextDel(s: Del, r: Del, i: nat, k: nat, len: nat, oneLine: bool, ins0: string, l: string,
                    t: string, b0: nat, b1: nat, a: nat, e: nat)
    requires i + 1 < |s.doc| && s.doc[i] == l && k + len == |l|
    requires b0 + |l| == b1 <= e <= |t| && t[b0..b1] == l && a == b0 + k
    requires Flat(s.doc[i + 1..]) == Shown(s, ins0) + t[e..]
    requires s.insText + Shown(s, ins0) == Shown(r, ins0)
    requires r == JoinLine(s, i, k, len, oneLine).(firstLine := false)
    ensures r.doc[..i] == s.doc[..i] && |r.doc| + 1 == |s.doc|
    ensures Flat(r.doc[i..]) == (t[b0..a] + Shown(r, ins0)) + t[e..]
  {
    JoinNext(s, i, k, len, oneLine);
    JoinMid(t, b0, b1, k, l, s.insText, Shown(s, ins0), Shown(r, ins0), t[e..]);
  }

  /** The text deleted by a join: the tail of line i and what was deleted
      after it. */
  lemma JoinCutDel(s: Del, r: Del, i: nat, k: nat, len: nat, oneLine: bool, l: string,
                   t: string, b0: nat, b1: nat, a: nat, e: nat)
    requires i < |s.doc| && s.doc[i] == l && k + len == |l|
    requires b0 + |l| == b1 <= e <= |t| && t[b0..b1] == l && a == b0 + k
    requires Flat(Reverse(s.deleted)) == t[b1..e]
    requires r == JoinLine(s, i, k, len, oneLine).(firstLine := false)
    ensures Flat(Reverse(r.deleted)) == t[a..e]
  {
    JoinDeleted(s, i, k, len, oneLine);
    TailThen(t, b0, b1, k, l, e);
  }

  /** The text after the tail of the last line i, which stands at b0..b1
      of text t, is cut off from column k. */
  lemma JoinLastDel(s: Del, r: Del, i: nat, k: nat, len: nat, oneLine: bool, ins0: string, l: string,
                    t: string, b0: nat, b1: nat, a: nat, e: nat)
    requires i + 1 == |s.doc| && s.doc[i] == l && k + len == |l| && !s.insOneLine
    requires b0 + |l| == b1 <= e <= |t| && t[b0..b1] == l && a == b0 + k
    requires Flat(s.doc[i + 1..]) == Shown(s, ins0) + t[e..]
    requires r == JoinLine(s, i, k, len, oneLine).(firstLine := false)
    ensures r.doc[..i] == s.doc[..i] && |r.doc| == |s.doc| && r.deletedLines == s.deletedLines
    ensures !r.insOneLine && r.newX == s.newX
    ensures Flat(r.doc[i..]) == (t[b0..a] + Shown(r, ins0)) + t[e..]
  {
    JoinLast(s, i, k, len, oneLine);
    assert t[e..] == "";
    JoinMid(t, b0, b1, k, l, "", "", "", t[e..]);
  }

  /** The state after an edit inside line i, which stands at b0..b1 of text
      t, when nothing has been deleted yet. */
  lemma EditMidDel(s: Del, r: Del, i: nat, k: nat, len: nat, oneLine: bool, ins0: string, l: string,
                   t: string, b0: nat, b1: nat, a: nat, e: nat)
    requires i < |s.doc| && s.doc[i] == l && k + len < |l|
    requires s.insText == ins0 && !s.insOneLine && (!oneLine ==> ins0 == "")
    requires b0 + |l| == b1 <= |t| && t[b0..b1] == l
    requires Flat(s.doc[i + 1..]) == Shown(s, ins0) + t[b1..] && Flat(Reverse(s.deleted)) == t[b1..b1]
    requires a == b0 + k && e == a + len
    requires r == EditLine(s, i, k, len, oneLine).(firstLine := false)
    ensures r.doc[..i] == s.doc[..i] && |r.doc| == |s.doc| && r.deletedLines == s.deletedLines
    ensures Flat(r.doc[i..]) == (t[b0..a] + Shown(r, ins0)) + t[e..]
    ensures Flat(Reverse(r.deleted)) == t[a..e]
  {
    EditText(s, i, k, len, oneLine);
    EditMidText(t, b0, b1, k, len, l, s.insText, Shown(r, ins0));
    EditMidCut(t, b0, b1, k, len, l);
  }

  /** The position after an edit inside line i follows the replacement
      when it has been written. */
  lemma EditMidFlags(s: Del, r: Del, i: nat, k: nat, len: nat, oneLine: bool, ins0: string)
    requires i < |s.doc| && k + len < |s.doc[i]|
    requires s.insText == ins0 && !s.insOneLine && s.newX == k
    requires r == EditLine(s, i, k, len, oneLine).(firstLine := false)
    ensures r.insOneLine ==> oneLine && r.newX == k + |ins0| && i < |r.doc| && k + |ins0| <= |r.doc[i]|
    ensures !r.insOneLine ==> r.newX == k
  {
  }

  /** A range over several lines ends its deletion after the first line. */
  lemma FirstEnd(doc: seq<string>, job: Job)
    requires ValidRange(doc, job.from, job.to) && job.from.y < job.to.y && job.from.y < |doc|
    ensures Base(doc, job.from.y + 1) <= DelEnd(doc, job.from, job.to, job.eolLen) <= |Flat(doc)|
  {
    if job.to.y < |doc| {
      FirstEndLine(doc, job);
    } else {
      FirstEndPast(doc, job);
    }
  }

  lemma FirstEndLine(doc: seq<string>, job: Job)
    requires ValidRange(doc, job.from, job.to) && job.from.y < job.to.y < |doc|
    ensures Base(doc, job.from.y + 1) <= DelEnd(doc, job.from, job.to, job.eolLen) <= |Flat(doc)|
  {
    DelEndOnLine(doc, job.from, job.to, job.eolLen);
    BaseMono(doc, job.from.y + 1, job.to.y);
    BaseMono(doc, job.to.y + 1, |doc|);
    BaseAll(doc);
  }

  lemma FirstEndPast(doc: seq<string>, job: Job)
    requires ValidRange(doc, job.from, job.to) && job.from.y < |doc| <= job.to.y
    ensures Base(doc, job.from.y + 1) <= DelEnd(doc, job.from, job.to, job.eolLen) <= |Flat(doc)|
  {
    BaseMono(doc, job.from.y + 1, |doc|);
    BaseAll(doc);
  }

  /** The facts the step at the first line of a range over several lines
      starts from. */
  lemma FirstFacts(doc: seq<string>, job: Job, ins0: string, e: nat, s: Del)
    requires ValidRange(doc, job.from, job.to) && e == DelEnd(doc, job.from, job.to, job.eolLen)
    requires job.from.y < job.to.y && job.from.y < |doc|
    requires job.from.y + 1 < |doc| ==> job.from.x < |doc[job.from.y]|
    requires Pending(doc, job, ins0, e, job.from.y + 1, s)
    ensures AtFirst(doc, job, ins0, e, s, doc[job.from.y], Flat(doc), Base(doc, job.from.y),
                    Base(doc, job.from.y + 1), Base(doc, job.from.y) + job.from.x)
    ensures Base(doc, job.from.y + 1) <= e
    ensures Flat(s.doc[job.from.y + 1..]) == Shown(s, ins0) + Flat(doc)[e..]
    ensures Flat(Reverse(s.deleted)) == Flat(doc)[Base(doc, job.from.y + 1)..e]
    ensures s.insOneLine ==> job.oneLine && s.insText == "" && s.newX == job.from.x + |ins0|
                             && job.from.y + 1 < |s.doc| && |s.doc[job.from.y + 1]| >= |ins0|
  {
    var i := job.from.y;
    Untouched(doc, job, ins0, e, i, s);
    FirstEnd(doc, job);
    LineSpan(doc, i);
  }

  /** The step at the first line of a range over several lines: the tail
      of the line from the start of the range is cut off and the next line
      joined to it. */
  lemma FinalFirst(doc: seq<string>, job: Job, ins0: string, e: nat, s: Del)
    requires ValidRange(doc, job.from, job.to) && e == DelEnd(doc, job.from, job.to, job.eolLen)
    requires job.from.y < job.to.y && job.from.y < |doc|
    requires job.from.y + 1 < |doc| ==> job.from.x < |doc[job.from.y]|
    requires Pending(doc, job, ins0, e, job.from.y + 1, s)
    ensures Done(doc, job, ins0, e, DeleteStep(s, job.from.y, job))
  {
    var i := job.from.y;
    if job.from.x == |doc[i]| {
      FirstKeep(doc, job, ins0, e, s);
    } else if job.from.x == 0 {
      FirstDrop(doc, job, ins0, e, s);
    } else {
      FirstJoin(doc, job, ins0, e, s);
    }
  }

  lemma FirstKeep(doc: seq<string>, job: Job, ins0: string, e: nat, s: Del)
    requires ValidRange(doc, job.from, job.to) && e == DelEnd(doc, job.from, job.to, job.eolLen)
    requires job.from.y < job.to.y && job.from.y < |doc|
    requires job.from.y + 1 < |doc| ==> job.from.x < |doc[job.from.y]|
    requires Pending(doc, job, ins0, e, job.from.y + 1, s)
    requires job.from.x == |doc[job.from.y]|
    ensures Done(doc, job, ins0, e, DeleteStep(s, job.from.y, job))
  {
    var i := job.from.y;
    var l := doc[i];
    var F := Flat(doc);
    var b0, b1 := Base(doc, i), Base(doc, i + 1);
    var a := b0 + job.from.x;
    FirstFacts(doc, job, ins0, e, s);
    var r := DeleteStep(s, i, job);
    assert r == s;
    FirstKeepCore(doc, job, ins0, e, s, F, b0, b1, a);
  }

  lemma FirstKeepCore(doc: seq<string>, job: Job, ins0: string, e: nat, s: Del,
                      t: string, b0: nat, b1: nat, a: nat)
    requires job.from.y < |doc| && AtFirst(doc, job, ins0, e, s, doc[job.from.y], t, b0, b1, a)
    requires b1 <= e && Flat(s.doc[job.from.y + 1..]) == Shown(s, ins0) + t[e..] && Flat(Reverse(s.deleted)) == t[b1..e]
    requires s.insOneLine ==> job.oneLine && s.insText == "" && s.newX == job.from.x + |ins0|
                              && job.from.y + 1 < |s.doc| && |s.doc[job.from.y + 1]| >= |ins0|
    requires job.from.x == |doc[job.from.y]| && job.from.y + 1 == |doc|
    ensures Done(doc, job, ins0, e, s)
  {
    var l := doc[job.from.y];
    assert t[b0..a] == l;
    assert s.doc[job.from.y + 1..] == [];
    assert !s.insOneLine;
    Assoc(l, Shown(s, ins0), t[e..]);
    DoneIntro(doc, job, ins0, e, s, b0, a);
  }

  lemma FirstDrop(doc: seq<string>, job: Job, ins0: string, e: nat, s: Del)
    requires ValidRange(doc, job.from, job.to) && e == DelEnd(doc, job.from, job.to, job.eolLen)
    requires job.from.y < job.to.y && job.from.y < |doc|
    requires job.from.y + 1 < |doc| ==> job.from.x < |doc[job.from.y]|
    requires Pending(doc, job, ins0, e, job.from.y + 1, s)
    requires job.from.x == 0 < |doc[job.from.y]|
    ensures Done(doc, job, ins0, e, DeleteStep(s, job.from.y, job))
  {
    var i := job.from.y;
    var l := doc[i];
    var F := Flat(doc);
    var b0, b1 := Base(doc, i), Base(doc, i + 1);
    var a := b0 + job.from.x;
    FirstFacts(doc, job, ins0, e, s);
    var r := DeleteStep(s, i, job);
    assert r == DropLine(s, i).(firstLine := false);
    FirstDropCore(doc, job, ins0, e, s, r, F, b0, b1, a);
  }

  lemma FirstDropCore(doc: seq<string>, job: Job, ins0: string, e: nat, s: Del, r: Del,
                      t: string, b0: nat, b1: nat, a: nat)
    requires job.from.y < |doc| && AtFirst(doc, job, ins0, e, s, doc[job.from.y], t, b0, b1, a)
    requires b1 <= e && Flat(s.doc[job.from.y + 1..]) == Shown(s, ins0) + t[e..] && Flat(Reverse(s.deleted)) == t[b1..e]
    requires s.insOneLine ==> job.oneLine && s.insText == "" && s.newX == job.from.x + |ins0|
                              && job.from.y + 1 < |s.doc| && |s.doc[job.from.y + 1]| >= |ins0|
    requires job.from.x == 0
    requires r == DropLine(s, job.from.y).(firstLine := false)
    ensures Done(doc, job, ins0, e, r)
  {
    var i := job.from.y;
    var l := doc[i];
    DropText(s, i);
    assert t[b0..a] == "";
    TailThen(t, b0, b1, 0, l, e);
    assert l[0..] == l;
    DoneIntro(doc, job, ins0, e, r, b0, a);
  }

  lemma FirstJoin(doc: seq<string>, job: Job, ins0: string, e: nat, s: Del)
    requires ValidRange(doc, job.from, job.to) && e == DelEnd(doc, job.from, job.to, job.eolLen)
    requires job.from.y < job.to.y && job.from.y < |doc|
    requires job.from.y + 1 < |doc| ==> job.from.x < |doc[job.from.y]|
    requires Pending(doc, job, ins0, e, job.from.y + 1, s)
    requires 0 < job.from.x < |doc[job.from.y]|
    ensures Done(doc, job, ins0, e, DeleteStep(s, job.from.y, job))
  {
    var i := job.from.y;
    var l := doc[i];
    var F := Flat(doc);
    var b0, b1 := Base(doc, i), Base(doc, i + 1);
    var a := b0 + job.from.x;
    FirstFacts(doc, job, ins0, e, s);
    var r := DeleteStep(s, i, job);
    var len := |l| - job.from.x;
    assert r == JoinLine(s, i, job.from.x, len, job.oneLine).(firstLine := false);
    if i + 1 < |s.doc| {
      FirstJoinNextCore(doc, job, ins0, e, s, r, len, F, b0, b1, a);
    } else {
      FirstJoinLastCore(doc, job, ins0, e, s, r, len, F, b0, b1, a);
    }
  }

  lemma FirstJoinNextCore(doc: seq<string>, job: Job, ins0: string, e: nat, s: Del, r: Del, len: nat,
                          t: string, b0: nat, b1: nat, a: nat)
    requires job.from.y < |doc| && AtFirst(doc, job, ins0, e, s, doc[job.from.y], t, b0, b1, a)
    requires b1 <= e && Flat(s.doc[job.from.y + 1..]) == Shown(s, ins0) + t[e..] && Flat(Reverse(s.deleted)) == t[b1..e]
    requires s.insOneLine ==> job.oneLine && s.insText == "" && s.newX == job.from.x + |ins0|
                              && job.from.y + 1 < |s.doc| && |s.doc[job.from.y + 1]| >= |ins0|
    requires job.from.y + 1 < |s.doc| && job.from.x + len == |doc[job.from.y]|
    requires r == JoinLine(s, job.from.y, job.from.x, len, job.oneLine).(firstLine := false)
    ensures Done(doc, job, ins0, e, r)
  {
    JoinNextState(s, r, job.from.y, job.from.x, len, job.oneLine, ins0);
    JoinNextDel(s, r, job.from.y, job.from.x, len, job.oneLine, ins0, doc[job.from.y], t, b0, b1, a, e);
    JoinCutDel(s, r, job.from.y, job.from.x, len, job.oneLine, doc[job.from.y], t, b0, b1, a, e);
    DoneIntro(doc, job, ins0, e, r, b0, a);
  }

  /** A join with the next line writes the pending text, so that the
      replacement shows once in the document. */
  lemma JoinNextState(s: Del, r: Del, i: nat, k: nat, len: nat, oneLine: bool, ins0: string)
    requires i + 1 < |s.doc| && k + len == |s.doc[i]|
    requires !oneLine ==> ins0 == ""
    requires s.insOneLine ==> oneLine && s.insText == "" && s.newX == k + |ins0| && |s.doc[i + 1]| >= |ins0|
    requires !s.insOneLine ==> s.insText == ins0 && s.newX == k
    requires r == JoinLine(s, i, k, len, oneLine).(firstLine := false)
    ensures s.insText + Shown(s, ins0) == Shown(r, ins0)
    ensures r.deletedLines == s.deletedLines + 1
    ensures r.insOneLine ==> oneLine && r.newX == k + |ins0| && i < |r.doc| && k + |ins0| <= |r.doc[i]|
    ensures !r.insOneLine ==> r.newX == k
  {
    JoinNext(s, i, k, len, oneLine);
  }

  lemma FirstJoinLastCore(doc: seq<string>, job: Job, ins0: string, e: nat, s: Del, r: Del, len: nat,
                          t: string, b0: nat, b1: nat, a: nat)
    requires job.from.y < |doc| && AtFirst(doc, job, ins0, e, s, doc[job.from.y], t, b0, b1, a)
    requires b1 <= e && Flat(s.doc[job.from.y + 1..]) == Shown(s, ins0) + t[e..] && Flat(Reverse(s.deleted)) == t[b1..e]
    requires s.insOneLine ==> job.oneLine && s.insText == "" && s.newX == job.from.x + |ins0|
                              && job.from.y + 1 < |s.doc| && |s.doc[job.from.y + 1]| >= |ins0|
    requires job.from.y + 1 == |s.doc| && job.from.x + len == |doc[job.from.y]|
    requires r == JoinLine(s, job.from.y, job.from.x, len, job.oneLine).(firstLine := false)
    ensures Done(doc, job, ins0, e, r)
  {
    JoinLastDel(s, r, job.from.y, job.from.x, len, job.oneLine, ins0, doc[job.from.y], t, b0, b1, a, e);
    JoinCutDel(s, r, job.from.y, job.from.x, len, job.oneLine, doc[job.from.y], t, b0, b1, a, e);
    DoneIntro(doc, job, ins0, e, r, b0, a);
  }

  /** Every line but the last holds its line end, so none of them is
      empty. */
  predicate Lines(doc: seq<string>)
  {
    forall i :: 0 <= i < |doc| - 1 ==> |doc[i]| > 0
  }

  /** A start position stands before the line end of its line, unless the
      line is the last one. */
  predicate StartsInLine(doc: seq<string>, from: Pos)
  {
    from.y + 1 < |doc| ==> from.x < |doc[from.y]|
  }

  /** What the deletion loop holds before its step at line i, from the
      last line of the range down to the first. */
  ghost predicate Looping(doc: seq<string>, job: Job, ins0: string, e: nat, i: int, s: Del)
  {
    && ValidRange(doc, job.from, job.to) && e == DelEnd(doc, job.from, job.to, job.eolLen)
    && Lines(doc) && StartsInLine(doc, job.from)
    && job.from.y <= i <= StartLine(doc, job.to)
    && Pending(doc, job, ins0, e, i + 1, s)
    && Runnable(s, i, job)
  }

  /** The step the deletion loop takes at line i, where it can take one. */
  function Next(s: Del, i: int, job: Job): Del
  {
    if 0 <= i && Runnable(s, i, job) then DeleteStep(s, i, job) else s
  }

  /** The deletion loop run from line i down ends in the state Done
      describes. */
  ghost predicate Finished(doc: seq<string>, job: Job, ins0: string, e: nat, i: int, s: Del)
  {
    Runnable(s, i, job) && Done(doc, job, ins0, e, DeleteFrom(s, i, job))
  }
}

=== FILE: replace_data_loop.dfy ===
/**
 * The deletion phase of CSearchAgent::ReplaceData as a whole: the loop
 * run from the last line of the range down to the first removes exactly
 * the text of the range.  The single steps are proved in ReplaceText.
 */
module ReplaceTextLoop {
  import opened ReplaceText

  /** The state the deletion loop holds before its step at line i meets
      the precondition of that step. */
  lemma PendingRunnable(doc: seq<string>, job: Job, ins0: string, e: nat, i: int, s: Del)
    requires ValidRange(doc, job.from, job.to)
    requires -1 <= i <= StartLine(doc, job.to)
    requires Pending(doc, job, ins0, e, i + 1, s) == true
    ensures Runnable(s, i, job)
  {
    StartBound(doc, job);
    if job.from.y <= i {
      assert s.doc[job.from.y] == s.doc[..i + 1][job.from.y] == doc[..i + 1][job.from.y];
    }
    if i == job.to.y {
      assert s.doc[i] == s.doc[..i + 1][i] == doc[..i + 1][i];
    }
  }

  /** The step at the first line of the range ends the deletion loop. */
  lemma LastStep(doc: seq<string>, job: Job, ins0: string, e: nat, i: int, s: Del)
    requires ValidRange(doc, job.from, job.to) && e == DelEnd(doc, job.from, job.to, job.eolLen)
    requires StartsInLine(doc, job.from)
    requires i == job.from.y <= StartLine(doc, job.to)
    requires Pending(doc, job, ins0, e, i + 1, s)
    requires Runnable(s, i, job)
    ensures Done(doc, job, ins0, e, DeleteFrom(s, i, job))
  {
    StartBound(doc, job);
    var r := DeleteStep(s, job.from.y, job);
    if job.from.y == job.to.y {
      FinalSame(doc, job, ins0, e, s);
    } else {
      FinalFirst(doc, job, ins0, e, s);
    }
    assert DeleteFrom(s, job.from.y, job) == DeleteFrom(r, job.from.y - 1, job) == r;
  }

  /** A step below the first line of the range keeps the loop's state. */
  lemma InnerStep(doc: seq<string>, job: Job, ins0: string, e: nat, i: int, s: Del)
    requires Looping(doc, job, ins0, e, i, s) == true && job.from.y < i
    ensures Pending(doc, job, ins0, e, i, Next(s, i, job)) == true
  {
    assert Next(s, i, job) == DeleteStep(s, i, job);
    StartBound(doc, job);
    if i == job.to.y {
      StepAtEnd(doc, job, ins0, e, s);
    } else {
      StepBetween(doc, job, ins0, e, i, s);
    }
  }

  /** A step below the first line of the range hands the rest of the
      loop on. */
  lemma DoneAfterStep(doc: seq<string>, job: Job, ins0: string, e: nat, i: int, s: Del)
    requires job.from.y < i && Runnable(s, i, job)
    requires Done(doc, job, ins0, e, DeleteFrom(DeleteStep(s, i, job), i - 1, job))
    ensures Done(doc, job, ins0, e, DeleteFrom(s, i, job))
  {
    assert DeleteFrom(s, i, job) == DeleteFrom(DeleteStep(s, i, job), i - 1, job);
  }

  /** After a step below the first line of the range, the next step can
      run. */
  lemma NextRunnable(doc: seq<string>, job: Job, ins0: string, e: nat, i: int, s: Del)
    requires Looping(doc, job, ins0, e, i, s) == true && job.from.y < i
    requires Pending(doc, job, ins0, e, i, Next(s, i, job)) == true
    ensures Runnable(Next(s, i, job), i - 1, job) == true
  {
    PendingRunnable(doc, job, ins0, e, i - 1, Next(s, i, job));
  }

  /** The parts of the loop's state after a step make it up. */
  lemma LoopingNext(doc: seq<string>, job: Job, ins0: string, e: nat, i: int, s: Del)
    requires Looping(doc, job, ins0, e, i, s) == true && job.from.y < i
    requires Pending(doc, job, ins0, e, i, Next(s, i, job)) == true
    requires Runnable(Next(s, i, job), i - 1, job) == true
    ensures Looping(doc, job, ins0, e, i - 1, Next(s, i, job)) == true
  {
  }

  /** A step below the first line of the range keeps the loop going. */
  lemma Advance(doc: seq<string>, job: Job, ins0: string, e: nat, i: int, s: Del)
    requires Looping(doc, job, ins0, e, i, s) && job.from.y < i
    ensures Looping(doc, job, ins0, e, i - 1, Next(s, i, job)) == true
  {
    InnerStep(doc, job, ins0, e, i, s);
    NextRunnable(doc, job, ins0, e, i, s);
    LoopingNext(doc, job, ins0, e, i, s);
  }

  /** The loop's state at the first line of the range ends it. */
  lemma FirstLine(doc: seq<string>, job: Job, ins0: string, e: nat, i: int, s: Del)
    requires Looping(doc, job, ins0, e, i, s) && i <= job.from.y
    ensures Finished(doc, job, ins0, e, i, s)
  {
    LastStep(doc, job, ins0, e, i, s);
  }

  /** Below the first line of the range, the rest of the loop finishes
      what the step at line i began. */
  lemma AfterStep(doc: seq<string>, job: Job, ins0: string, e: nat, i: int, s: Del)
    requires Looping(doc, job, ins0, e, i, s) && job.from.y < i
    requires Finished(doc, job, ins0, e, i - 1, Next(s, i, job))
    ensures Finished(doc, job, ins0, e, i, s)
  {
    DoneAfterStep(doc, job, ins0, e, i, s);
  }

  /** The deletion loop from line i down: with the text after line i
      already handled, it ends with the range deleted. */
  lemma {:induction false} DeleteLoop(doc: seq<string>, job: Job, ins0: string, e: nat, i: int, s: Del)
    requires Looping(doc, job, ins0, e, i, s)
    ensures Finished(doc, job, ins0, e, i, s)
    decreases i - job.from.y, 1
  {
    if i <= job.from.y {
      FirstLine(doc, job, ins0, e, i, s);
    } else {
      DeleteBelow(doc, job, ins0, e, i, s);
    }
  }

  /** The deletion loop from a line below the first line of the range:
      one step, then the loop from the line above. */
  lemma {:induction false} DeleteBelow(doc: seq<string>, job: Job, ins0: string, e: nat, i: int, s: Del)
    requires Looping(doc, job, ins0, e, i, s) && job.from.y < i
    ensures Finished(doc, job, ins0, e, i, s)
    decreases i - job.from.y, 0
  {
    Advance(doc, job, ins0, e, i, s);
    DeleteLoop(doc, job, ins0, e, i - 1, Next(s, i, job));
    AfterStep(doc, job, ins0, e, i, s);
  }

  /** A range that starts after the last line deletes nothing. */
  lemma DeleteNothing(doc: seq<string>, ins: seq<string>, job: Job, isDelim: char -> bool)
    requires ValidRange(doc, job.from, job.to) && StartLine(doc, job.to) < job.from.y
    ensures Done(doc, job, InsText(ins, isDelim), DelEnd(doc, job.from, job.to, job.eolLen),
                 Start(doc, ins, job.from, isDelim))
  {
    BaseAll(doc);
    var F := Flat(doc);
    assert F == F[..|F|] + "" + F[|F|..];
    assert Flat(Reverse<string>([])) == F[|F|..|F|];
  }

  /** The deletion phase ends in the state the loop promises. */
  lemma DeleteDone(doc: seq<string>, from: Pos, to: Pos, ins: seq<string>,
                   isDelim: char -> bool, eolLen: string -> nat)
    requires ValidRange(doc, from, to) && Lines(doc) && StartsInLine(doc, from)
    ensures Done(doc, Job(from, to, OneLine(ins, isDelim), eolLen), InsText(ins, isDelim),
                 DelEnd(doc, from, to, eolLen), Delete(doc, from, to, ins, isDelim, eolLen))
  {
    var job := Job(from, to, OneLine(ins, isDelim), eolLen);
    var ins0 := InsText(ins, isDelim);
    var e := DelEnd(doc, from, to, eolLen);
    var i := StartLine(doc, to);
    var s0 := Start(doc, ins, from, isDelim);
    if from.y <= i {
      StartPending(doc, ins, job, isDelim);
      PendingRunnable(doc, job, ins0, e, i, s0);
      assert Looping(doc, job, ins0, e, i, s0);
      DeleteLoop(doc, job, ins0, e, i, s0);
    } else {
      DeleteNothing(doc, ins, job, isDelim);
      assert DeleteFrom(s0, i, job) == s0;
    }
  }

  /** The deletion phase removes exactly the text from the start of the
      range to the end of the deletion: the lines before the range stay, the
      deleted lines hold the removed text, and a one-line replacement
      written in place stands where the range started. */
  lemma DeleteRemovesRange(doc: seq<string>, from: Pos, to: Pos, ins: seq<string>,
                           isDelim: char -> bool, eolLen: string -> nat)
    requires ValidRange(doc, from, to) && Lines(doc) && StartsInLine(doc, from)
    ensures var r := Delete(doc, from, to, ins, isDelim, eolLen);
            var a := Offset(doc, from);
            var e := DelEnd(doc, from, to, eolLen);
            var F := Flat(doc);
            && a <= e <= |F|
            && Flat(r.doc) == F[..a] + (if r.insOneLine then InsText(ins, isDelim) else "") + F[e..]
            && Flat(Reverse(r.deleted)) == F[a..e]
            && r.doc[..from.y] == doc[..from.y] && r.deletedLines + |r.doc| == |doc|
            && (r.insOneLine ==> OneLine(ins, isDelim) && from.y < |r.doc|
                                 && r.newX == from.x + |InsText(ins, isDelim)| <= |r.doc[from.y]|)
            && (!r.insOneLine ==> r.newX == from.x)
  {
    DeleteDone(doc, from, to, ins, isDelim, eolLen);
  }
}

=== FILE: replace_insert.dfy ===
/**
 * The insertion phase of CSearchAgent::ReplaceData, and ReplaceData as a
 * whole: after the deletion has cut the range out, the replacement lines
 * go in at the start of the range.  The text of the document becomes the
 * text before the range, the replacement, and the text after the range;
 * the position handed back stands just after the replacement.
 */
module ReplaceTextInsert {
  import opened ReplaceText
  import opened ReplaceTextLoop

  lemma FlatCons(a: string, xs: seq<string>)
    ensures Flat([a] + xs) == a + Flat(xs)
  {
    assert ([a] + xs)[1..] == xs;
  }

  lemma FlatOne(a: string)
    ensures Flat([a]) == a
  {
    FlatCons(a, []);
    assert [a] + [] == [a];
  }

  /** The insertion loop past its first line: each remaining replacement
      line goes in before the cursor line (or after the last line), so the
      lines k to n of the replacement end up in order at the cursor. */
  lemma {:induction false} InsertRun(d: seq<string>, c: nat, ins: seq<string>, k: nat, n: nat,
                                     prev: string, lineMode: bool)
    requires c <= |d| && 1 <= k <= n <= |ins|
    ensures InsertLoop(d, c, ins, k, n, prev, lineMode) == (d[..c] + ins[k..n] + d[c..], c + n - k)
    decreases n - k
  {
    if k < n {
      var d' := d[..c] + [ins[k]] + d[c..];
      if c == |d| {
        assert d + [ins[k]] == d';
      }
      assert InsertLoop(d, c, ins, k, n, prev, lineMode) == InsertLoop(d', c + 1, ins, k + 1, n, prev, lineMode);
      InsertRun(d', c + 1, ins, k + 1, n, prev, lineMode);
      assert d'[..c + 1] == d[..c] + [ins[k]];
      assert d'[c + 1..] == d[c..];
      assert ins[k..n] == [ins[k]] + ins[k + 1..n];
      assert d'[..c + 1] + ins[k + 1..n] + d'[c + 1..] == d[..c] + ins[k..n] + d[c..];
    } else {
      assert ins[k..n] == [];
      assert d[..c] + ins[k..n] + d[c..] == d;
      assert InsertLoop(d, c, ins, k, n, prev, lineMode) == (d, c);
    }
  }

  /** The whole insertion loop: the first replacement line is joined to the
      head of the split line (or, in line mode, inserted before it), and the
      others follow it. */
  lemma InsertFirst(d: seq<string>, c: nat, ins: seq<string>, n: nat, prev: string, lineMode: bool)
    requires c <= |d| && 1 <= n <= |ins|
    requires lineMode ==> prev == ""
    ensures InsertLoop(d, c, ins, 0, n, prev, lineMode)
            == (if c < |d| && !lineMode then d[..c] + [prev + ins[0]] + ins[1..n] + d[c + 1..]
                else d[..c] + [prev + ins[0]] + ins[1..n] + d[c..], c + n)
  {
    if c == |d| {
      var d' := d + [prev + ins[0]];
      InsertRun(d', |d| + 1, ins, 1, n, prev, lineMode);
      assert d'[..|d| + 1] == d' && d'[|d| + 1..] == [];
      assert d[..c] == d && d[c..] == [];
    } else if !lineMode {
      var d' := d[c := prev + ins[0]];
      InsertRun(d', c + 1, ins, 1, n, prev, lineMode);
      assert d'[..c + 1] == d[..c] + [prev + ins[0]];
      assert d'[c + 1..] == d[c + 1..];
    } else {
      var d' := d[..c] + [ins[0]] + d[c..];
      assert prev + ins[0] == ins[0];
      InsertRun(d', c + 1, ins, 1, n, prev, lineMode);
      assert d'[..c + 1] == d[..c] + [ins[0]];
      assert d'[c + 1..] == d[c..];
    }
  }

  /** The shape an insertion leaves: the j lines of d from line y on are
      replaced by the lines M, and the position np stands x columns into
      line m of M, or at the start of what follows M. */
  ghost predicate Spliced(d: seq<string>, y: nat, j: nat, M: seq<string>, out: seq<string>,
                          m: nat, x: nat, np: Pos)
  {
    && y + j <= |d| && out == d[..y] + M + d[y + j..]
    && m <= |M| && np == Pos(x, y + m)
    && ((m < |M| && x <= |M[m]|) || (m == |M| && x == 0))
  }

  /** The text of a spliced document and the offset of the position. */
  lemma SplicedFacts(d: seq<string>, y: nat, j: nat, M: seq<string>, out: seq<string>,
                     m: nat, x: nat, np: Pos)
    requires Spliced(d, y, j, M, out, m, x, np)
    ensures Flat(out) == Flat(d[..y]) + Flat(M) + Flat(d[y + j..])
    ensures PosIn(out, np) && Offset(out, np) == |Flat(d[..y])| + |Flat(M[..m])| + x
  {
    FlatAppend(d[..y] + M, d[y + j..]);
    FlatAppend(d[..y], M);
    assert out[..y + m] == d[..y] + M[..m];
    FlatAppend(d[..y], M[..m]);
    if m < |M| {
      assert out[y + m] == M[m];
    }
  }

  /** Inserting after the last line: the replacement lines are appended. */
  lemma InsertAtEnd(d: seq<string>, p: Pos, ins: seq<string>, isDelim: char -> bool) returns (m: nat, x: nat)
    requires p.y == |d| && p.x == 0 && |ins| > 0
    ensures var r := Insert(d, p, ins, isDelim);
            Spliced(d, p.y, 0, ins, r.0, m, x, r.1) && |Flat(ins[..m])| + x == |Flat(ins)|
  {
    var lastEnds := LastEnds(ins, isDelim);
    var n := if !lastEnds then |ins| - 1 else |ins|;
    var r := Insert(d, p, ins, isDelim);
    assert d[..p.y] == d && d[p.y..] == [];
    if n == 0 {
      m, x := 0, |ins[0]|;
      assert InsertLoop(d, p.y, ins, 0, 0, "", lastEnds && p.x == 0) == (d, p.y);
      assert ins == [ins[0]];
      FlatOne(ins[0]);
      assert "" + ins[|ins| - 1] + "" == ins[0];
      assert r.0 == d + [ins[0]];
    } else {
      InsertFirst(d, p.y, ins, n, "", lastEnds && p.x == 0);
      assert "" + ins[0] == ins[0];
      assert [ins[0]] + ins[1..n] == ins[..n];
      FlatSplit(ins, n);
      if !lastEnds {
        m, x := n, |ins[n]|;
        assert ins[n..] == [ins[n]];
        FlatOne(ins[n]);
        assert ins[..n] + [ins[n]] == ins;
        assert "" + ins[|ins| - 1] + "" == ins[n];
        assert r.0 == d + ins[..n] + [ins[n]];
      } else {
        m, x := n, 0;
        assert ins[..n] == ins;
        assert r.0 == d + ins[..n];
      }
    }
  }

  /** Inserting at the start of a line with a replacement that ends with a
      line end: the line is kept and the replacement lines go in before it. */
  lemma InsertLineMode(d: seq<string>, p: Pos, ins: seq<string>, isDelim: char -> bool)
    requires p.y < |d| && p.x == 0 && |ins| > 0 && LastEnds(ins, isDelim)
    ensures var r := Insert(d, p, ins, isDelim);
            Spliced(d, p.y, 0, ins, r.0, |ins|, 0, r.1)
  {
    InsertFirst(d, p.y, ins, |ins|, "", true);
    assert "" + ins[0] == ins[0];
    assert [ins[0]] + ins[1..|ins|] == ins;
  }

  /** The lines an insertion into the middle of a line puts in its place:
      the head of the line with the first replacement line, the inner lines,
      and the last replacement line (if it has no line end) with the tail
      of the line; a tail that is empty gets no line of its own. */
  function Middle(prev: string, next: string, ins: seq<string>, lastEnds: bool): seq<string>
    requires |ins| > 0
  {
    var n := if lastEnds then |ins| else |ins| - 1;
    if n == 0 then [prev + ins[0] + next]
    else if !lastEnds then [prev + ins[0]] + ins[1..n] + [ins[n] + next]
    else if |next| > 0 then [prev + ins[0]] + ins[1..n] + [next]
    else [prev + ins[0]] + ins[1..n]
  }

  /** The middle lines hold the head, the replacement and the tail, and the
      position after the replacement is at its end. */
  lemma MiddleText(prev: string, next: string, ins: seq<string>, lastEnds: bool)
    requires |ins| > 0
    ensures var M := Middle(prev, next, ins, lastEnds);
            var n := if lastEnds then |ins| else |ins| - 1;
            var m := n;
            var x := if n == 0 then |prev| + |ins[0]| else if !lastEnds then |ins[n]| else 0;
            && Flat(M) == prev + Flat(ins) + next
            && m <= |M| && |Flat(M[..m])| + x == |prev| + |Flat(ins)|
            && ((m < |M| && x <= |M[m]|) || (m == |M| && x == 0))
            && 1 <= |M| <= |ins| + 1
  {
    var n := if lastEnds then |ins| else |ins| - 1;
    var M := Middle(prev, next, ins, lastEnds);
    FlatCons(ins[0], ins[1..]);
    assert [ins[0]] + ins[1..] == ins;
    if n == 0 {
      FlatOne(prev + ins[0] + next);
      assert ins[1..] == [];
      assert M[..0] == [];
    } else {
      var head := [prev + ins[0]] + ins[1..n];
      FlatCons(prev + ins[0], ins[1..n]);
      assert ins[1..] == ins[1..n] + ins[n..];
      FlatAppend(ins[1..n], ins[n..]);
      if !lastEnds {
        assert ins[n..] == [ins[n]];
        FlatOne(ins[n]);
        FlatOne(ins[n] + next);
        FlatAppend(head, [ins[n] + next]);
        assert M[..n] == head;
      } else if |next| > 0 {
        assert ins[n..] == [];
        FlatOne(next);
        FlatAppend(head, [next]);
        assert M[..n] == head;
      } else {
        assert ins[n..] == [];
        assert M[..n] == M;
      }
    }
  }

  /** Inserting into the middle of a line (or at its start, when the
      replacement does not end with a line end): the line is split at the
      column and the middle lines take its place. */
  lemma InsertSplit(d: seq<string>, p: Pos, ins: seq<string>, isDelim: char -> bool)
    requires p.y < |d| && p.x <= |d[p.y]| && |ins| > 0 && !(LastEnds(ins, isDelim) && p.x == 0)
    ensures var r := Insert(d, p, ins, isDelim);
            var lastEnds := LastEnds(ins, isDelim);
            var n := if lastEnds then |ins| else |ins| - 1;
            var prev := d[p.y][..p.x];
            var x := if n == 0 then |prev| + |ins[0]| else if !lastEnds then |ins[n]| else 0;
            Spliced(d, p.y, 1, Middle(prev, d[p.y][p.x..], ins, lastEnds), r.0, n, x, r.1)
  {
    var lastEnds := LastEnds(ins, isDelim);
    var n := if lastEnds then |ins| else |ins| - 1;
    var prev, next := d[p.y][..p.x], d[p.y][p.x..];
    var M := Middle(prev, next, ins, lastEnds);
    var r := Insert(d, p, ins, isDelim);
    if n == 0 {
      assert InsertLoop(d, p.y, ins, 0, 0, prev, false) == (d, p.y);
      assert r.0 == d[p.y := prev + ins[0] + next];
      assert r.0 == d[..p.y] + M + d[p.y + 1..];
    } else {
      InsertFirst(d, p.y, ins, n, prev, false);
      var d1 := d[..p.y] + [prev + ins[0]] + ins[1..n] + d[p.y + 1..];
      var c := p.y + n;
      assert d1[..c] == d[..p.y] + [prev + ins[0]] + ins[1..n];
      assert d1[c..] == d[p.y + 1..];
      if !lastEnds || |next| > 0 {
        var tail := (if !lastEnds then ins[|ins| - 1] else "") + next;
        assert "" + (if !lastEnds then ins[|ins| - 1] else "") + next == tail;
        if c == |d1| {
          assert d1 + [tail] == d1[..c] + [tail] + d1[c..];
        }
        assert r.0 == d1[..c] + [tail] + d1[c..];
        if !lastEnds {
          assert tail == ins[n] + next;
          assert M == [prev + ins[0]] + ins[1..n] + [ins[n] + next];
        } else {
          assert tail == next;
          assert M == [prev + ins[0]] + ins[1..n] + [next];
        }
      } else {
        assert r.0 == d1;
        assert M == [prev + ins[0]] + ins[1..n];
      }
      assert r.0 == d[..p.y] + M + d[p.y + 1..];
    }
  }

  /** The text of the document around a position: the lines before its
      line, the line's head and tail at the column, and the lines after. */
  lemma AroundPos(d: seq<string>, p: Pos, j: nat, prev: string, next: string)
    requires PosIn(d, p) && p.y + j <= |d|
    requires j == 1 ==> d[p.y] == prev + next && |prev| == p.x
    requires j == 0 ==> prev == "" && next == "" && p.x == 0
    requires j <= 1
    ensures var F := Flat(d);
            && Offset(d, p) == |Flat(d[..p.y])| + |prev| <= |F|
            && F[..Offset(d, p)] == Flat(d[..p.y]) + prev
            && F[Offset(d, p)..] == next + Flat(d[p.y + j..])
  {
    FlatSplit(d, p.y);
    if j == 1 {
      FlatLine(d, p.y);
    }
    var F := Flat(d);
    assert F == (Flat(d[..p.y]) + prev) + (next + Flat(d[p.y + j..]));
  }

  /** The insertion phase puts the replacement text in at the position and
      moves nothing else: the text of the document becomes the text before
      the position, the replacement and the text after it, the position
      handed back stands just after the replacement, and the document gains
      at most one line per replacement line. */
  lemma InsertEffect(d: seq<string>, p: Pos, ins: seq<string>, isDelim: char -> bool)
    requires PosIn(d, p) && |ins| > 0
    ensures var r := Insert(d, p, ins, isDelim);
            && Offset(d, p) <= |Flat(d)|
            && Flat(r.0) == Flat(d)[..Offset(d, p)] + Flat(ins) + Flat(d)[Offset(d, p)..]
            && PosIn(r.0, r.1) && Offset(r.0, r.1) == Offset(d, p) + |Flat(ins)|
            && |d| <= |r.0| <= |d| + |ins|
  {
    if p.y == |d| {
      EffectAtEnd(d, p, ins, isDelim);
    } else if LastEnds(ins, isDelim) && p.x == 0 {
      EffectLineMode(d, p, ins, isDelim);
    } else {
      EffectSplit(d, p, ins, isDelim);
    }
  }

  /** What an insertion does, from the shape it leaves. */
  ghost predicate Effect(d: seq<string>, p: Pos, ins: seq<string>, r: (seq<string>, Pos))
    requires PosIn(d, p)
  {
    && Offset(d, p) <= |Flat(d)|
    && Flat(r.0) == Flat(d)[..Offset(d, p)] + Flat(ins) + Flat(d)[Offset(d, p)..]
    && PosIn(r.0, r.1) && Offset(r.0, r.1) == Offset(d, p) + |Flat(ins)|
    && |d| <= |r.0| <= |d| + |ins|
  }

  lemma SplicedEffect(d: seq<string>, p: Pos, ins: seq<string>, r: (seq<string>, Pos),
                      j: nat, M: seq<string>, m: nat, x: nat, prev: string, next: string)
    requires PosIn(d, p) && j <= 1
    requires Spliced(d, p.y, j, M, r.0, m, x, r.1)
    requires j == 1 ==> d[p.y] == prev + next && |prev| == p.x
    requires j == 0 ==> prev == "" && next == "" && p.x == 0
    requires Flat(M) == prev + Flat(ins) + next
    requires |Flat(M[..m])| + x == |prev| + |Flat(ins)|
    requires j <= |M| <= |ins| + j
    ensures Effect(d, p, ins, r)
  {
    SplicedFacts(d, p.y, j, M, r.0, m, x, r.1);
    AroundPos(d, p, j, prev, next);
    var FA, FR, I := Flat(d[..p.y]), Flat(d[p.y + j..]), Flat(ins);
    var F, o := Flat(d), Offset(d, p);
    assert Flat(r.0) == FA + (prev + I + next) + FR;
    assert F[..o] == FA + prev && F[o..] == next + FR;
    Regroup(FA, prev, I, next, FR);
    assert |r.0| == |d| - j + |M|;
  }

  lemma Regroup(a: string, b: string, c: string, d: string, e: string)
    ensures a + (b + c + d) + e == (a + b) + c + (d + e)
  {
  }

  lemma EffectAtEnd(d: seq<string>, p: Pos, ins: seq<string>, isDelim: char -> bool)
    requires PosIn(d, p) && |ins| > 0 && p.y == |d|
    ensures Effect(d, p, ins, Insert(d, p, ins, isDelim))
  {
    var m, x := InsertAtEnd(d, p, ins, isDelim);
    SplicedEffect(d, p, ins, Insert(d, p, ins, isDelim), 0, ins, m, x, "", "");
  }

  lemma EffectLineMode(d: seq<string>, p: Pos, ins: seq<string>, isDelim: char -> bool)
    requires PosIn(d, p) && |ins| > 0 && p.y < |d| && LastEnds(ins, isDelim) && p.x == 0
    ensures Effect(d, p, ins, Insert(d, p, ins, isDelim))
  {
    InsertLineMode(d, p, ins, isDelim);
    assert ins[..|ins|] == ins;
    SplicedEffect(d, p, ins, Insert(d, p, ins, isDelim), 0, ins, |ins|, 0, "", "");
  }

  lemma EffectSplit(d: seq<string>, p: Pos, ins: seq<string>, isDelim: char -> bool)
    requires PosIn(d, p) && |ins| > 0 && p.y < |d| && !(LastEnds(ins, isDelim) && p.x == 0)
    ensures Effect(d, p, ins, Insert(d, p, ins, isDelim))
  {
    var lastEnds := LastEnds(ins, isDelim);
    var n := if lastEnds then |ins| else |ins| - 1;
    var prev, next := d[p.y][..p.x], d[p.y][p.x..];
    var x := if n == 0 then |prev| + |ins[0]| else if !lastEnds then |ins[n]| else 0;
    var M := Middle(prev, next, ins, lastEnds);
    InsertSplit(d, p, ins, isDelim);
    MiddleText(prev, next, ins, lastEnds);
    assert d[p.y] == prev + next;
    SplicedEffect(d, p, ins, Insert(d, p, ins, isDelim), 1, M, n, x, prev, next);
  }

  /** CSearchAgent::ReplaceData as a whole: the range is replaced by the
      replacement text.  The document's text becomes the text before the
      range, the replacement and the text after the end of the deletion;
      the deleted lines hold the removed text; the new position stands just
      after the replacement; and the line count changes by the lines
      inserted less the lines deleted, with no line inserted when the
      replacement is empty. */
  lemma ReplaceDataEffect(doc: seq<string>, from: Pos, to: Pos, ins: seq<string>,
                          isDelim: char -> bool, eolLen: string -> nat)
    requires ValidRange(doc, from, to) && Lines(doc) && StartsInLine(doc, from)
    ensures var r := ReplaceData(doc, from, to, ins, isDelim, eolLen);
            var a := Offset(doc, from);
            var e := DelEnd(doc, from, to, eolLen);
            var F := Flat(doc);
            && a <= e <= |F|
            && Flat(r.doc) == F[..a] + Flat(ins) + F[e..]
            && Flat(r.deleted) == F[a..e]
            && PosIn(r.doc, r.newPos) && Offset(r.doc, r.newPos) == a + |Flat(ins)|
            && |r.doc| + r.deletedLines == |doc| + r.insLines
            && 0 <= r.insLines <= |ins|
            && (|ins| == 0 ==> r.insLines == 0)
  {
    DeleteRemovesRange(doc, from, to, ins, isDelim, eolLen);
    var s := Delete(doc, from, to, ins, isDelim, eolLen);
    var a := Offset(doc, from);
    var e := DelEnd(doc, from, to, eolLen);
    var F := Flat(doc);
    assert Offset(s.doc, from) == a by {
      assert s.doc[..from.y] == doc[..from.y];
    }
    var G := Flat(s.doc);
    if s.insOneLine {
      assert ins == [ins[0]];
      FlatOne(ins[0]);
      assert s.doc[..from.y + 1] == s.doc[..from.y] + [s.doc[from.y]];
    } else {
      assert G == F[..a] + F[e..];
      assert G[..a] == F[..a] && G[a..] == F[e..];
      if |ins| > 0 {
        InsertEffect(s.doc, from, ins, isDelim);
      } else {
        assert Flat(ins) == "";
      }
    }
  }
}

=== FILE: search_agent.dfy ===
/**
 * CSearchAgent: the literal search in one line (Sunday quick search with
 * the Vz word-boundary filter on top), the line-by-line forward and
 * backward search over a document, and the next-line callback handed to
 * the regex front-end.
 *
 * A line is given as a buffer `buf` of which the first `lineLen` units
 * are the text; the search may read the unit just past the text (the
 * string terminator), so `buf` has at least one more unit.
 */
module SearchAgent {
  import opened Wrappers
  import opened SearchPattern
  import Bregexp

  /** The whole key matches the folded text at `q`, inside the line. */
  predicate MatchAt(buf: seq<WChar>, lineLen: int, q: int, key: seq<WChar>, ic: bool, lower: WChar -> WChar)
    requires lineLen <= |buf|
  {
    0 <= q && q + |key| <= lineLen &&
    forall i :: 0 <= i < |key| ==> Fold(ic, lower, buf[q + i]) == key[i]
  }

  /** The first match at or after `from`. */
  function FirstMatch(buf: seq<WChar>, lineLen: int, from: int, key: seq<WChar>, ic: bool,
                      lower: WChar -> WChar): (r: Option<int>)
    requires lineLen <= |buf| && 0 <= from
    ensures r.Some? ==> from <= r.value && MatchAt(buf, lineLen, r.value, key, ic, lower)
    decreases lineLen - from
  {
    if from + |key| > lineLen then None
    else if MatchAt(buf, lineLen, from, key, ic, lower) then Some(from)
    else FirstMatch(buf, lineLen, from + 1, key, ic, lower)
  }

  /** FirstMatch finds the leftmost match, and None means there is none. */
  lemma {:induction false} FirstMatchIsLeftmost(buf: seq<WChar>, lineLen: int, from: int, key: seq<WChar>,
                                                ic: bool, lower: WChar -> WChar)
    requires lineLen <= |buf| && 0 <= from
    ensures var r := FirstMatch(buf, lineLen, from, key, ic, lower);
            && (r.Some? ==> forall q :: from <= q < r.value ==> !MatchAt(buf, lineLen, q, key, ic, lower))
            && (r.None? ==> forall q :: from <= q ==> !MatchAt(buf, lineLen, q, key, ic, lower))
    decreases lineLen - from
  {
    if from + |key| <= lineLen && !MatchAt(buf, lineLen, from, key, ic, lower) {
      FirstMatchIsLeftmost(buf, lineLen, from + 1, key, ic, lower);
    }
  }

  /** Skipping positions with no match does not change the first match. */
  lemma {:induction false} FirstMatchSkip(buf: seq<WChar>, lineLen: int, from: int, upto: int, key: seq<WChar>,
                                          ic: bool, lower: WChar -> WChar)
    requires lineLen <= |buf| && 0 <= from <= upto
    requires forall q :: from <= q < upto ==> !MatchAt(buf, lineLen, q, key, ic, lower)
    ensures FirstMatch(buf, lineLen, from, key, ic, lower) == FirstMatch(buf, lineLen, upto, key, ic, lower)
    decreases upto - from
  {
    if from < upto {
      if from + |key| <= lineLen {
        FirstMatchSkip(buf, lineLen, from + 1, upto, key, ic, lower);
      } else {
        assert upto + |key| > lineLen;
      }
    }
  }

  /** The plain search: nothing for an empty key, else the first match. */
  function Plain(buf: seq<WChar>, lineLen: int, from: int, pat: Pattern, lower: WChar -> WChar): Option<int>
    requires lineLen <= |buf| && 0 <= from
  {
    if |pat.caseKey| == 0 then None
    else FirstMatch(buf, lineLen, from, pat.caseKey, IgnoreCase(pat.option), lower)
  }

  /**
   * SearchString without the word filter: the quick search.  At each
   * position the folded text is compared with the key; on a mismatch the
   * position moves by the skip-table entry of the folded unit just past
   * the window.  The source has a second loop, taken for a
   * case-sensitive key of at most five units, that compares with wmemcmp
   * and looks up the raw unit; folding is the identity there, so both
   * loops are this one.
   */
  method SearchPlain(buf: seq<WChar>, lineLen: int, from: int, pat: Pattern, lower: WChar -> WChar)
    returns (r: Option<int>)
    requires 0 <= lineLen < |buf| && 0 <= from
    requires Ready(pat)
    ensures r == Plain(buf, lineLen, from, pat, lower)
  {
    var key := pat.caseKey;
    var len := |key|;
    var ic := IgnoreCase(pat.option);
    if lineLen < len {
      assert from + len > lineLen;
      return None;
    }
    if len <= 0 || lineLen <= 0 {
      return None;
    }
    var compareTo := lineLen - len;
    SkipUpToBounds(key, len);
    var pos := from;
    while pos <= compareTo
      invariant from <= pos
      invariant forall q :: from <= q < pos ==> !MatchAt(buf, lineLen, q, key, ic, lower)
      decreases compareTo - pos
    {
      var i := 0;
      while i < len && Fold(ic, lower, buf[pos + i]) == key[i]
        invariant 0 <= i <= len
        invariant forall k :: 0 <= k < i ==> Fold(ic, lower, buf[pos + k]) == key[k]
      {
        i := i + 1;
      }
      if i >= len {
        FirstMatchSkip(buf, lineLen, from, pos, key, ic, lower);
        return Some(pos);
      }
      assert !MatchAt(buf, lineLen, pos, key, ic, lower);
      var c := Fold(ic, lower, buf[pos + len]);
      var s := pat.skip[GetMapIndex(c)];
      forall q | pos < q < pos + s
        ensures !MatchAt(buf, lineLen, q, key, ic, lower)
      {
        var d := q - pos;
        SkipSafe(key, c, d);
        assert key[len - d] != c && q + (len - d) == pos + len;
      }
      pos := pos + s;
    }
    FirstMatchSkip(buf, lineLen, from, pos, key, ic, lower);
    return None;
  }

  /** The Vz word-boundary test of a hit at `p`: with the head bit the hit is
      at line start or after a non-alphanumeric unit; with the tail bit it
      ends at line end or before a non-alphanumeric unit. */
  predicate Accept(buf: seq<WChar>, lineLen: int, p: int, pat: Pattern, iswalnum: WChar -> bool)
    requires 0 <= p && p + |pat.caseKey| <= lineLen <= |buf|
  {
    && (pat.vzWord & WordSearchTop == 0 || p == 0 || !IsAlnum(buf[p - 1], iswalnum))
    && (pat.vzWord & WordSearchTail == 0 || lineLen - p == |pat.caseKey|
        || !IsAlnum(buf[p + |pat.caseKey|], iswalnum))
  }

  /** A hit the word filter accepts. */
  predicate WordHit(buf: seq<WChar>, lineLen: int, q: int, pat: Pattern, env: Env)
    requires lineLen <= |buf|
  {
    MatchAt(buf, lineLen, q, pat.caseKey, IgnoreCase(pat.option), env.lower) &&
    Accept(buf, lineLen, q, pat, env.iswalnum)
  }

  /** The filtered search: plain hits tried in order, each rejected one
      resuming the search one unit after it. */
  function FirstAccepted(buf: seq<WChar>, lineLen: int, from: int, pat: Pattern, env: Env): (r: Option<int>)
    requires lineLen <= |buf| && 0 <= from
    decreases lineLen - from
  {
    if lineLen - from < |pat.caseKey| then None
    else
      match Plain(buf, lineLen, from, pat, env.lower)
      case None => None
      case Some(p) =>
        if Accept(buf, lineLen, p, pat, env.iswalnum) then Some(p)
        else FirstAccepted(buf, lineLen, p + 1, pat, env)
  }

  /** The filtered search finds the leftmost accepted hit, and None means no
      accepted hit exists from `from` on. */
  lemma {:induction false} FirstAcceptedIsLeftmost(buf: seq<WChar>, lineLen: int, from: int, pat: Pattern, env: Env)
    requires lineLen <= |buf| && 0 <= from && |pat.caseKey| > 0
    ensures var r := FirstAccepted(buf, lineLen, from, pat, env);
            && (r.Some? ==> from <= r.value && WordHit(buf, lineLen, r.value, pat, env))
            && (r.Some? ==> forall q :: from <= q < r.value ==> !WordHit(buf, lineLen, q, pat, env))
            && (r.None? ==> forall q :: from <= q ==> !WordHit(buf, lineLen, q, pat, env))
    decreases lineLen - from
  {
    var key := pat.caseKey;
    var ic := IgnoreCase(pat.option);
    if lineLen - from >= |key| {
      FirstMatchIsLeftmost(buf, lineLen, from, key, ic, env.lower);
      match Plain(buf, lineLen, from, pat, env.lower)
      case None =>
      case Some(p) =>
        if !Accept(buf, lineLen, p, pat, env.iswalnum) {
          FirstAcceptedIsLeftmost(buf, lineLen, p + 1, pat, env);
        }
    }
  }

  /** SearchString with the word filter: retry after every rejected hit. */
  method SearchVz(buf: seq<WChar>, lineLen: int, from: int, pat: Pattern, env: Env) returns (r: Option<int>)
    requires 0 <= lineLen < |buf| && 0 <= from
    requires Ready(pat)
    ensures r == FirstAccepted(buf, lineLen, from, pat, env)
  {
    var idx := from;
    while lineLen - idx >= |pat.caseKey|
      invariant from <= idx
      invariant FirstAccepted(buf, lineLen, from, pat, env) == FirstAccepted(buf, lineLen, idx, pat, env)
      decreases lineLen - idx
    {
      var ret := SearchPlain(buf, lineLen, idx, pat, env.lower);
      if ret.None? {
        return None;
      }
      if Accept(buf, lineLen, ret.value, pat, env.iswalnum) {
        return ret;
      }
      idx := ret.value + 1;
    }
    return None;
  }

  /** What SearchString returns: the filtered search when asked for and the
      pattern has boundary bits, the plain search otherwise. */
  function Find(buf: seq<WChar>, lineLen: int, from: int, pat: Pattern, env: Env, vz: bool): Option<int>
    requires lineLen <= |buf| && 0 <= from
  {
    if vz && pat.vzWord != 0 then FirstAccepted(buf, lineLen, from, pat, env)
    else Plain(buf, lineLen, from, pat, env.lower)
  }

  /**
   * SearchString: NULL for an empty key or line or a line shorter than the
   * key; otherwise the leftmost hit at or after `from` (accepted by the
   * word filter when that applies).
   */
  method SearchString(buf: seq<WChar>, lineLen: int, from: int, pat: Pattern, env: Env, vz: bool)
    returns (r: Option<int>)
    requires 0 <= lineLen < |buf| && 0 <= from
    requires Ready(pat)
    ensures |pat.caseKey| == 0 || lineLen < |pat.caseKey| ==> r.None?
    ensures r.Some? ==> from <= r.value && MatchAt(buf, lineLen, r.value, pat.caseKey, IgnoreCase(pat.option), env.lower)
    ensures r == Find(buf, lineLen, from, pat, env, vz)
  {
    if vz && pat.vzWord != 0 {
      r := SearchVz(buf, lineLen, from, pat, env);
      if |pat.caseKey| > 0 {
        FirstAcceptedIsLeftmost(buf, lineLen, from, pat, env);
      }
    } else {
      r := SearchPlain(buf, lineLen, from, pat, env.lower);
    }
  }

  /** Every hit Find reports is a hit of the key, accepted by the word filter
      when that applies, and no hit of that kind lies between `from` and it. */
  lemma FindIsLeftmost(buf: seq<WChar>, lineLen: int, from: int, pat: Pattern, env: Env, vz: bool, q: int)
    requires lineLen <= |buf| && 0 <= from && |pat.caseKey| > 0
    requires from <= q
    requires var r := Find(buf, lineLen, from, pat, env, vz); r.None? || q < r.value
    ensures vz && pat.vzWord != 0 ==> !WordHit(buf, lineLen, q, pat, env)
    ensures !(vz && pat.vzWord != 0) ==> !MatchAt(buf, lineLen, q, pat.caseKey, IgnoreCase(pat.option), env.lower)
  {
    FirstAcceptedIsLeftmost(buf, lineLen, from, pat, env);
    FirstMatchIsLeftmost(buf, lineLen, from, pat.caseKey, IgnoreCase(pat.option), env.lower);
  }

  // ---------------------------------------------------------------------
  // Searching a document

  /** The buffer of a document line: its text and the terminator after it. */
  function Subject(line: seq<WChar>): (buf: seq<WChar>)
    ensures |buf| == |line| + 1 && buf[..|line|] == line
  {
    line + [0]
  }

  /** The hit of the literal search in a line, from a start column. */
  function LineFind(line: seq<WChar>, start: int, pat: Pattern, env: Env): Option<int>
    requires 0 <= start
  {
    Find(Subject(line), |line|, start, pat, env, true)
  }

  /**
   * SearchWord1Line for a literal pattern: the hit range [p, p+len) of the
   * search from `start`, with the Y coordinates left to the caller.
   */
  method SearchWord1Line(line: seq<WChar>, start: int, pat: Pattern, env: Env) returns (r: Option<(int, int)>)
    requires 0 <= start && Ready(pat) && !pat.option.regularExp
    ensures r.Some? <==> LineFind(line, start, pat, env).Some?
    ensures r.Some? ==> r.value.0 == LineFind(line, start, pat, env).value
                        && r.value.1 == r.value.0 + |pat.caseKey|
                        && r.value.1 <= |line|
  {
    var p := SearchString(Subject(line), |line|, start, pat, env, true);
    if p.None? {
      return None;
    }
    return Some((p.value, p.value + |pat.caseKey|));
  }

  /** The column the search of line `k` starts from: the given column on
      the first line, 0 on every later one. */
  function StartColumn(x: int, y: int, k: int): int
  {
    if k == y then x else 0
  }

  /**
   * SearchWord forward: the first line from `y` on with a hit, searched
   * from column `x` on line `y` and from column 0 on later lines; nothing
   * when the lines run out or `y` is not a line.
   */
  method SearchForward(lines: seq<seq<WChar>>, x: int, y: int, pat: Pattern, env: Env)
    returns (r: Option<Bregexp.Range>)
    requires 0 <= x && Ready(pat) && !pat.option.regularExp
    ensures r.Some? ==>
              var k := r.value.fromY;
              && 0 <= y <= k < |lines| && r.value.toY == k
              && LineFind(lines[k], StartColumn(x, y, k), pat, env) == Some(r.value.fromX)
              && r.value.toX == r.value.fromX + |pat.caseKey|
              && forall j :: y <= j < k ==> LineFind(lines[j], StartColumn(x, y, j), pat, env).None?
    ensures r.None? ==> y < 0 || forall j :: y <= j < |lines| ==> LineFind(lines[j], StartColumn(x, y, j), pat, env).None?
  {
    if y < 0 || y >= |lines| {
      return None;
    }
    var k := y;
    var idx := x;
    while k < |lines|
      invariant y <= k <= |lines| && idx == StartColumn(x, y, k)
      invariant forall j :: y <= j < k ==> LineFind(lines[j], StartColumn(x, y, j), pat, env).None?
    {
      var hit := SearchWord1Line(lines[k], idx, pat, env);
      if hit.Some? {
        return Some(Bregexp.Range(k, hit.value.0, k, hit.value.1));
      }
      k := k + 1;
      idx := 0;
    }
    return None;
  }

  /** The search limit of line `k` in the backward search: the start column
      on the first line, then grown by the size of each line searched. */
  function Limit(lines: seq<seq<WChar>>, x: int, y: int, k: int): (l: int)
    requires 0 <= k <= y < |lines|
    ensures l >= x
    decreases y - k
  {
    if k == y then x else Limit(lines, x, y, k + 1) + |lines[k]|
  }

  /** Above the first line the limit is at least the line's size. */
  lemma {:induction false} LimitCoversLine(lines: seq<seq<WChar>>, x: int, y: int, k: int)
    requires 0 <= x && 0 <= k < y < |lines|
    ensures Limit(lines, x, y, k) >= |lines[k]|
    decreases y - k
  {
    if k + 1 < y {
      LimitCoversLine(lines, x, y, k + 1);
    }
  }

  /** The start of the next search in a line after a hit (from, to): one
      past an empty hit, the end of any other. */
  function NextStart(from: int, to: int): int
  {
    if from == to then to + 1 else to
  }

  /** `f` is one of the hits reached from `start` by searching again from
      the end of each hit, all of them before `limit`. */
  predicate InChain(line: seq<WChar>, start: int, limit: int, f: int, pat: Pattern, env: Env)
    requires 0 <= start
    decreases |line| + 2 - start
  {
    var h := LineFind(line, start, pat, env);
    h.Some? && h.value < limit && start <= h.value <= |line| &&
    (h.value == f ||
     (var next := NextStart(h.value, h.value + |pat.caseKey|);
      next > start && InChain(line, next, limit, f, pat, env)))
  }

  /**
   * The inner loop of the backward search: search from column 0, then
   * again after each hit, until there is no hit or the hit starts at or
   * after the limit; the last hit before the limit is the result.
   */
  method LastBefore(line: seq<WChar>, limit: int, pat: Pattern, env: Env) returns (r: Option<(int, int)>)
    requires Ready(pat) && !pat.option.regularExp
    ensures r.None? <==> (var h := LineFind(line, 0, pat, env); h.None? || h.value >= limit)
    ensures r.Some? ==>
              && 0 <= r.value.0 < limit && r.value.1 == r.value.0 + |pat.caseKey|
              && InChain(line, 0, limit, r.value.0, pat, env)
              && LineFind(line, r.value.0, pat, env) == Some(r.value.0)
              && var h := LineFind(line, NextStart(r.value.0, r.value.1), pat, env);
                 h.None? || h.value >= limit
  {
    var start := 0;
    r := None;
    while true
      invariant 0 <= start
      invariant r.None? ==> start == 0
      invariant r.Some? ==> && 0 <= r.value.0 < limit && r.value.1 == r.value.0 + |pat.caseKey|
                            && start == NextStart(r.value.0, r.value.1) && start > r.value.0
                            && InChain(line, 0, limit, r.value.0, pat, env)
                            && LineFind(line, r.value.0, pat, env) == Some(r.value.0)
      invariant r.Some? ==> ChainClosed(line, start, limit, pat, env)
      decreases |line| + 2 - start
    {
      var hit := SearchWord1Line(line, start, pat, env);
      if hit.None? || hit.value.0 >= limit {
        return;
      }
      var f := hit.value.0;
      var next := NextStart(hit.value.0, hit.value.1);
      SameHitFindsItself(line, start, f, pat, env);
      ChainAdvance(line, start, limit, pat, env, f, hit.value.1, next);
      r := Some(hit.value);
      start := next;
    }
  }

  /** Line `k` has a hit before its limit. */
  predicate HitBefore(line: seq<WChar>, limit: int, pat: Pattern, env: Env)
  {
    var h := LineFind(line, 0, pat, env);
    h.Some? && h.value < limit
  }

  /** Above the first line every hit is before the limit. */
  lemma EarlierLineAnyHit(lines: seq<seq<WChar>>, x: int, y: int, k: int, pat: Pattern, env: Env)
    requires 0 <= x && 0 <= k < y < |lines|
    ensures HitBefore(lines[k], Limit(lines, x, y, k), pat, env) <==> LineFind(lines[k], 0, pat, env).Some?
  {
    LimitCoversLine(lines, x, y, k);
    FindHit(Subject(lines[k]), |lines[k]|, 0, pat, env, true);
  }

  /**
   * SearchWord backward: from line `y` up, the first line whose search
   * chain has a hit before the line's limit; the result is the last such
   * hit of that line.  Nothing when no line up to the top has one or `y`
   * is not a line.
   */
  method SearchBackward(lines: seq<seq<WChar>>, x: int, y: int, pat: Pattern, env: Env)
    returns (r: Option<Bregexp.Range>)
    requires 0 <= x && Ready(pat) && !pat.option.regularExp
    ensures r.Some? ==> 0 <= r.value.fromY <= y < |lines|
    ensures r.Some? && 0 <= r.value.fromY <= y < |lines| ==>
              var k := r.value.fromY;
              var limit := Limit(lines, x, y, k);
              && r.value.toY == k
              && 0 <= r.value.fromX < limit && r.value.toX == r.value.fromX + |pat.caseKey|
              && InChain(lines[k], 0, limit, r.value.fromX, pat, env)
              && (var h := LineFind(lines[k], NextStart(r.value.fromX, r.value.toX), pat, env);
                  h.None? || h.value >= limit)
              && forall j :: k < j <= y ==> !HitBefore(lines[j], Limit(lines, x, y, j), pat, env)
    ensures r.None? ==> y < 0 || y >= |lines| ||
                        forall j :: 0 <= j <= y ==> !HitBefore(lines[j], Limit(lines, x, y, j), pat, env)
  {
    if y < 0 || y >= |lines| {
      return None;
    }
    var k := y;
    var limit := -1;
    while k >= 0
      invariant -1 <= k <= y
      invariant 0 <= k < y ==> limit == Limit(lines, x, y, k + 1)
      invariant k == y ==> limit == -1
      invariant NoHitAfter(lines, x, y, k, pat, env)
    {
      limit := if limit < 0 then x else limit + |lines[k]|;
      assert limit == Limit(lines, x, y, k);
      var last := LastBefore(lines[k], limit, pat, env);
      if last.Some? {
        return Some(Bregexp.Range(k, last.value.0, k, last.value.1));
      }
      NoHitAfterStep(lines, x, y, k, pat, env);
      k := k - 1;
    }
    return None;
  }

  /** No line after `k` up to `y` has a hit before its limit. */
  predicate NoHitAfter(lines: seq<seq<WChar>>, x: int, y: int, k: int, pat: Pattern, env: Env)
    requires y < |lines|
  {
    forall j :: k < j <= y && 0 <= j ==> !HitBefore(lines[j], Limit(lines, x, y, j), pat, env)
  }

  /** A line without a hit before its limit extends the hitless lines below it. */
  lemma NoHitAfterStep(lines: seq<seq<WChar>>, x: int, y: int, k: int, pat: Pattern, env: Env)
    requires 0 <= k <= y < |lines| && NoHitAfter(lines, x, y, k, pat, env)
    requires !HitBefore(lines[k], Limit(lines, x, y, k), pat, env)
    ensures NoHitAfter(lines, x, y, k - 1, pat, env)
  {
  }

  /**
   * The next-line callback of the regex search: the size of the line after
   * `k`, with the no-partial flag when that line is the last one, and 0
   * when there is no line after `k`.
   */
  function NextLineSize(lines: seq<seq<WChar>>, k: int): (n: int)
    requires 0 <= k < |lines|
    requires forall i :: 0 <= i < |lines| ==> |lines[i]| < Bregexp.SizeNoPartial
    ensures 0 <= n < 0x1_0000_0000
    ensures k + 1 == |lines| ==> n == 0
    ensures k + 1 < |lines| ==> Bregexp.LineSize(n) == |lines[k + 1]|
                                && (Bregexp.NoPartialFlag(n) <==> k + 2 == |lines|)
  {
    if k + 1 >= |lines| then 0
    else |lines[k + 1]| + (if k + 2 == |lines| then Bregexp.SizeNoPartial else 0)
  }

  /** A hit Find reports lies at or after the start and is a match of the key. */
  lemma FindHit(buf: seq<WChar>, lineLen: int, from: int, pat: Pattern, env: Env, vz: bool)
    requires lineLen <= |buf| && 0 <= from
    ensures var r := Find(buf, lineLen, from, pat, env, vz);
            r.Some? ==> from <= r.value && MatchAt(buf, lineLen, r.value, pat.caseKey, IgnoreCase(pat.option), env.lower)
  {
    if |pat.caseKey| > 0 {
      FirstAcceptedIsLeftmost(buf, lineLen, from, pat, env);
    }
  }

  /** Searching again from a hit finds that hit. */
  lemma SameHitFindsItself(line: seq<WChar>, start: int, f: int, pat: Pattern, env: Env)
    requires 0 <= start && LineFind(line, start, pat, env) == Some(f)
    ensures 0 <= f && LineFind(line, f, pat, env) == Some(f)
  {
    var buf := Subject(line);
    if |pat.caseKey| > 0 {
      FirstAcceptedIsLeftmost(buf, |line|, start, pat, env);
      FindHit(buf, |line|, start, pat, env, true);
    }
  }

  /** Every hit of the chain from `start` is a hit of the chain from 0. */
  ghost predicate ChainClosed(line: seq<WChar>, start: int, limit: int, pat: Pattern, env: Env)
    requires 0 <= start
  {
    forall f :: InChain(line, start, limit, f, pat, env) ==> InChain(line, 0, limit, f, pat, env)
  }

  /** One round of the backward search's inner loop keeps the chain from
      its restart column inside the chain from 0. */
  lemma ChainAdvance(line: seq<WChar>, start: int, limit: int, pat: Pattern, env: Env, f: int, e: int, next: int)
    requires 0 <= start && (start == 0 || ChainClosed(line, start, limit, pat, env))
    requires LineFind(line, start, pat, env) == Some(f) && f < limit
    requires e == f + |pat.caseKey| && next == NextStart(f, e)
    ensures start <= f && InChain(line, 0, limit, f, pat, env)
    ensures 0 <= next && ChainClosed(line, next, limit, pat, env)
  {
    ChainStep(line, start, limit, pat, env, f, e, next);
    forall g | InChain(line, next, limit, g, pat, env)
      ensures InChain(line, 0, limit, g, pat, env)
    {
      assert InChain(line, start, limit, g, pat, env);
    }
  }

  /** The chain from `start` consists of its first hit and the chain after it. */
  lemma ChainStep(line: seq<WChar>, start: int, limit: int, pat: Pattern, env: Env, f: int, e: int, next: int)
    requires 0 <= start
    requires LineFind(line, start, pat, env) == Some(f) && f < limit
    requires e == f + |pat.caseKey| && next == NextStart(f, e)
    ensures start <= f && InChain(line, start, limit, f, pat, env)
    ensures 0 <= next && forall g :: InChain(line, next, limit, g, pat, env) ==> InChain(line, start, limit, g, pat, env)
  {
    FindHit(Subject(line), |line|, start, pat, env, true);
  }
}

=== FILE: search_pattern.dfy ===
/**
 * CSearchStringPattern: a search pattern prepared for the literal search.
 * The pattern is cut for the Vz word-boundary mode, folded to lower case
 * when case is ignored, and given the 512-bucket skip table of the
 * Sunday quick search.  For a regular expression the pattern is handed
 * to the regex front-end instead.
 */
module SearchPattern {
  import opened Wrappers
  import Bregexp

  /** A UTF-16 code unit (wchar_t on Windows). */
  type WChar = c: int | 0 <= c < 0x1_0000

  const Underscore: WChar := 0x5F
  const Star: WChar := 0x2A

  /** Bits of m_uVzWordSearch. */
  const WordSearchTop: bv32 := 1
  const WordSearchTail: bv32 := 2

  /** The search options the pattern reads. */
  datatype SearchOption = SearchOption(regularExp: bool, loHiCase: bool, wordOnly: bool)

  /** Whether case is ignored: the negation of the case-sensitivity option. */
  function IgnoreCase(opt: SearchOption): (b: bool)
    ensures b != opt.loHiCase
  {
    !opt.loHiCase
  }

  /**
   * IsAlnum: an 8-bit alphanumeric or underscore.  `iswalnum` is the
   * locale-dependent C library predicate, a parameter here.
   */
  predicate IsAlnum(c: WChar, iswalnum: WChar -> bool)
  {
    c < 256 && (iswalnum(c) || c == Underscore)
  }

  /** No code unit from 256 up is alphanumeric, whatever the locale, and
      the underscore always is. */
  lemma IsAlnumBounds(iswalnum: WChar -> bool, c: WChar)
    ensures c >= 256 ==> !IsAlnum(c, iswalnum)
    ensures IsAlnum(Underscore, iswalnum)
  {
  }

  /** The two boundary bits are distinct single bits, so each can be set
      and tested without disturbing the other. */
  lemma WordSearchBitsIndependent(flags: bv32)
    ensures (flags | WordSearchTop) & WordSearchTail == flags & WordSearchTail
    ensures (flags | WordSearchTail) & WordSearchTop == flags & WordSearchTop
    ensures WordSearchTop & WordSearchTail == 0
  {
  }

  // ---------------------------------------------------------------------
  // The skip table

  /** The number of buckets of the skip table. */
  const MapSize: int := 0x200

  /**
   * GetMapIndex: a code unit whose high byte is zero keeps its low byte as
   * bucket; every other unit goes to the upper half, bucket 0x100 plus its
   * low byte.
   */
  function GetMapIndex(c: WChar): (r: int)
    ensures 0 <= r < MapSize
    ensures (r < 0x100) == (c < 0x100)
    ensures r % 0x100 == c % 0x100
  {
    (if c >= 0x100 then 0x100 else 0) + c % 0x100
  }

  /** Code units below 0x100 have buckets of their own. */
  lemma MapIndexLatin1Injective(c: WChar, d: WChar)
    requires c < 0x100 && d < 0x100
    ensures GetMapIndex(c) == GetMapIndex(d) <==> c == d
  {
  }

  /** The table after the first `n` units of the key have been entered:
      every bucket starts at |key|+1 and unit n sets its bucket to |key|-n. */
  function SkipUpTo(key: seq<WChar>, n: nat): (t: seq<int>)
    requires n <= |key|
    ensures |t| == MapSize
  {
    if n == 0 then seq(MapSize, _ => |key| + 1)
    else SkipUpTo(key, n - 1)[GetMapIndex(key[n - 1]) := |key| - (n - 1)]
  }

  /** The skip table of a key (m_pnUseCharSkipArr). */
  function SkipTable(key: seq<WChar>): (t: seq<int>)
    ensures |t| == MapSize
  {
    SkipUpTo(key, |key|)
  }

  /** Every entry is between 1 and |key|+1, and no entry exceeds |key|-j for
      a unit j already entered in that bucket: a later occurrence wins. */
  lemma {:induction false} SkipUpToBounds(key: seq<WChar>, n: nat)
    requires n <= |key|
    ensures forall b :: 0 <= b < MapSize ==> 1 <= SkipUpTo(key, n)[b] <= |key| + 1
    ensures forall j :: 0 <= j < n ==> SkipUpTo(key, n)[GetMapIndex(key[j])] <= |key| - j
  {
    if n > 0 {
      SkipUpToBounds(key, n - 1);
    }
  }

  /** A bucket no unit of the key falls into keeps its initial |key|+1. */
  lemma {:induction false} SkipUntouched(key: seq<WChar>, n: nat, b: int)
    requires n <= |key| && 0 <= b < MapSize
    requires forall j :: 0 <= j < n ==> GetMapIndex(key[j]) != b
    ensures SkipUpTo(key, n)[b] == |key| + 1
  {
    if n > 0 {
      SkipUntouched(key, n - 1, b);
    }
  }

  /** The last unit of the key in a bucket sets it: the entry is |key| minus
      that unit's position. */
  lemma {:induction false} SkipLastWins(key: seq<WChar>, n: nat, j: nat)
    requires j < n <= |key|
    requires forall m :: j < m < n ==> GetMapIndex(key[m]) != GetMapIndex(key[j])
    ensures SkipUpTo(key, n)[GetMapIndex(key[j])] == |key| - j
  {
    if n - 1 > j {
      SkipLastWins(key, n - 1, j);
    }
  }

  /** The shift rule of the quick search is safe: a shift `s` smaller than the
      entry for `c` lands the key's unit |key|-s under `c`, and that unit is
      not `c`. */
  lemma SkipSafe(key: seq<WChar>, c: WChar, s: int)
    requires 0 < s < SkipTable(key)[GetMapIndex(c)]
    ensures s <= |key| && key[|key| - s] != c
  {
    SkipUpToBounds(key, |key|);
  }

  // ---------------------------------------------------------------------
  // Word-boundary cut

  /** Where the key starts in the given pattern, how long it is, and the
      boundary bits the cut sets. */
  datatype WordCut = WordCut(offset: int, len: int, flags: bv32)

  /**
   * The word-only cut as the source writes it: an alphanumeric first unit
   * sets the head boundary, otherwise a leading `*` is skipped; then the
   * unit at the end of what is left (read through the original buffer)
   * sets the tail boundary when alphanumeric, otherwise a trailing `*` is
   * cut.  A lone `*` is both the leading and the trailing star.
   */
  function WordCutAsWritten(p: seq<WChar>, iswalnum: WChar -> bool): (w: WordCut)
    requires |p| >= 1
    ensures 0 <= w.offset && w.offset + w.len <= |p|
  {
    var head :=
      if IsAlnum(p[0], iswalnum) then WordCut(0, |p|, WordSearchTop)
      else if p[0] == Star then WordCut(1, |p| - 1, 0)
      else WordCut(0, |p|, 0);
    var last := p[head.offset + head.len - 1];
    if IsAlnum(last, iswalnum) then head.(flags := head.flags | WordSearchTail)
    else if last == Star then head.(len := head.len - 1)
    else head
  }

  /** The pattern `*` cut as written has length -1, which the ignore-case
      branch then uses as the index of the terminator it writes. */
  lemma LoneStarCutBelowZero(iswalnum: WChar -> bool)
    requires !iswalnum(Star)
    ensures WordCutAsWritten([Star], iswalnum).len == -1
  {
  }

  /** The cut with the trailing star taken only from a non-empty rest, and
      nothing cut from the empty pattern. */
  function CutWordPattern(p: seq<WChar>, iswalnum: WChar -> bool): (w: WordCut)
    ensures 0 <= w.offset <= 1 && 0 <= w.len && w.offset + w.len <= |p|
    ensures |p| == 0 ==> w == WordCut(0, 0, 0)
    ensures |p| >= 1 ==> ((w.flags & WordSearchTop != 0) == IsAlnum(p[0], iswalnum))
    ensures |p| >= 1 ==> (w.offset == 1 <==> !IsAlnum(p[0], iswalnum) && p[0] == Star)
    ensures |p| >= 1 ==> ((w.flags & WordSearchTail != 0) == IsAlnum(p[|p| - 1], iswalnum))
    ensures |p| >= 1 ==> (w.offset + w.len == |p| - 1 <==>
                           |p| - 1 >= w.offset && !IsAlnum(p[|p| - 1], iswalnum) && p[|p| - 1] == Star)
  {
    if |p| == 0 then WordCut(0, 0, 0)
    else
    var head :=
      if IsAlnum(p[0], iswalnum) then WordCut(0, |p|, WordSearchTop)
      else if p[0] == Star then WordCut(1, |p| - 1, 0)
      else WordCut(0, |p|, 0);
    var last := p[|p| - 1];
    if IsAlnum(last, iswalnum) then head.(flags := head.flags | WordSearchTail)
    else if last == Star && head.len > 0 then head.(len := head.len - 1)
    else head
  }

  /** The corrected cut differs from the written one only on the lone `*`. */
  lemma WordCutAgrees(p: seq<WChar>, iswalnum: WChar -> bool)
    requires |p| >= 1 && p != [Star]
    ensures CutWordPattern(p, iswalnum) == WordCutAsWritten(p, iswalnum)
  {
    if |p| == 1 {
      assert p == [p[0]];
    }
  }

  // ---------------------------------------------------------------------
  // The prepared pattern

  /**
   * The fields of CSearchStringPattern the model tracks: the key as cut
   * (m_pszKey, m_nPatternLen), the key the search compares with
   * (m_pszCaseKeyRef, lower-cased when case is ignored), the boundary
   * bits, the skip table (empty when none was built), the options, and
   * the option word a regular expression was compiled with.
   */
  datatype Pattern = Pattern(
    key: seq<WChar>,
    caseKey: seq<WChar>,
    vzWord: bv32,
    skip: seq<int>,
    option: SearchOption,
    regexOption: Option<bv32>)

  /** Reset: no key, no table, no boundary bits. */
  function Reset(option: SearchOption): (pat: Pattern)
    ensures |pat.key| == 0 && |pat.caseKey| == 0 && |pat.skip| == 0 && pat.vzWord == 0
    ensures pat.regexOption.None?
  {
    Pattern([], [], 0, [], option, None)
  }

  /** A pattern ready for the literal search: its table is the skip table of
      the key it compares with. */
  predicate Ready(pat: Pattern)
  {
    pat.skip == SkipTable(pat.caseKey)
  }

  /** The code unit lower-cased when case is ignored. */
  function Fold(ignoreCase: bool, lower: WChar -> WChar, c: WChar): WChar
  {
    if ignoreCase then lower(c) else c
  }

  function FoldAll(ignoreCase: bool, lower: WChar -> WChar, s: seq<WChar>): (r: seq<WChar>)
    ensures |r| == |s|
    ensures forall i :: 0 <= i < |s| ==> r[i] == Fold(ignoreCase, lower, s[i])
  {
    seq(|s|, i requires 0 <= i < |s| => Fold(ignoreCase, lower, s[i]))
  }

  /** The option word the regex path compiles with, as written: nothing for
      a case-sensitive search and optIgnoreCase otherwise.  CBregexp.h does
      not declare optIgnoreCase, so its value is a parameter. */
  function RegexFlagAsWritten(loHiCase: bool, global: bool, ignoreCaseBit: bv32): bv32
  {
    (if loHiCase then 0 else ignoreCaseBit) | (if global then Bregexp.OptGlobal else 0)
  }

  /** Compile reads a missing optCaseSensitive bit as caseless, so the written
      flag compiles every case-sensitive search caseless. */
  lemma CaseSensitiveRegexCompiledCaseless(re: Bregexp.Regex, p: string, global: bool, ignoreCaseBit: bv32)
    ensures var c := Bregexp.Compile(re, p, None, RegexFlagAsWritten(true, global, ignoreCaseBit), true);
            c.1.code.Some? && c.1.code.value.caseless
  {
    var flag := RegexFlagAsWritten(true, global, ignoreCaseBit);
    assert flag & Bregexp.OptCaseSensitive == 0;
  }

  /** The option word that asks Compile for what the search options say. */
  function RegexFlag(loHiCase: bool, global: bool): bv32
  {
    (if loHiCase then Bregexp.OptCaseSensitive else 0) | (if global then Bregexp.OptGlobal else 0)
  }

  /** With the corrected flag the compiled code is caseless exactly when case
      is ignored, and global exactly when asked. */
  lemma RegexFlagCompilesAsAsked(re: Bregexp.Regex, p: string, loHiCase: bool, global: bool)
    ensures var c := Bregexp.Compile(re, p, None, RegexFlag(loHiCase, global), true);
            && c.1.code.Some?
            && (c.1.code.value.caseless <==> !loHiCase)
            && (Bregexp.HasFlag(c.1.option, Bregexp.OptGlobal) <==> global)
  {
    var flag := RegexFlag(loHiCase, global);
    if loHiCase {
      assert flag & Bregexp.OptCaseSensitive != 0;
    } else {
      assert flag & Bregexp.OptCaseSensitive == 0;
    }
    if global {
      assert flag & Bregexp.OptGlobal != 0;
    } else {
      assert flag & Bregexp.OptGlobal == 0;
    }
  }

  /** The environment SetPattern runs in: the C library predicates, and the
      outcome of the regex set-up steps it calls (the regex object exists,
      the regex library loads, the engine accepts the pattern). */
  datatype Env = Env(iswalnum: WChar -> bool, lower: WChar -> WChar,
                     hasRegexp: bool, initOk: bool, compileOk: bool)

  /**
   * SetPattern as intended: reset, then either prepare a regular
   * expression with the flag that asks for the search's case rule (failing
   * when there is no regex object, the library cannot be loaded or the
   * engine rejects the pattern) or cut the key for word-only search with
   * the corrected cut, fold it when case is ignored and build its skip
   * table.
   */
  function SetPattern(p: seq<WChar>, option: SearchOption, env: Env, global: bool): (r: (bool, Pattern))
    ensures option.regularExp ==>
              r.0 == (env.hasRegexp && env.initOk && env.compileOk)
              && r.1.vzWord == 0 && |r.1.skip| == 0
    ensures option.regularExp && r.0 ==> r.1.regexOption == Some(RegexFlag(option.loHiCase, global))
    ensures !option.regularExp ==> r.0 && Ready(r.1) && r.1.regexOption.None?
    ensures !option.regularExp ==> r.1.caseKey == FoldAll(IgnoreCase(option), env.lower, r.1.key)
    ensures !option.regularExp && !option.wordOnly ==> r.1.key == p && r.1.vzWord == 0
    ensures !option.regularExp && option.wordOnly ==>
              var w := CutWordPattern(p, env.iswalnum);
              r.1.key == p[w.offset..w.offset + w.len] && r.1.vzWord == w.flags
    ensures r.1.option == option
  {
    var base := Reset(option).(key := p, caseKey := p);
    if option.regularExp then
      if !env.hasRegexp || !env.initOk || !env.compileOk then (false, base)
      else (true, base.(regexOption := Some(RegexFlag(option.loHiCase, global))))
    else
      var cut :=
        if option.wordOnly then
          var w := CutWordPattern(p, env.iswalnum);
          base.(key := p[w.offset..w.offset + w.len], vzWord := w.flags)
        else base;
      var caseKey := FoldAll(IgnoreCase(option), env.lower, cut.key);
      (true, cut.(caseKey := caseKey, skip := SkipTable(caseKey)))
  }

  /** The five-argument overload: no replacement pattern and never global,
      so a regular expression it prepares never carries optGlobal. */
  function SetPatternLocal(p: seq<WChar>, option: SearchOption, env: Env): (r: (bool, Pattern))
    ensures r.1.regexOption.Some? ==> !Bregexp.HasFlag(r.1.regexOption.value, Bregexp.OptGlobal)
    ensures r.0 == SetPattern(p, option, env, false).0
  {
    var r := SetPattern(p, option, env, false);
    assert r.1.regexOption.Some? ==> r.1.regexOption.value & Bregexp.OptGlobal == 0;
    r
  }

  /**
   * SetPattern as written: the regular expression is compiled with the
   * written flag, and the word-only key is the written cut.  None stands
   * for the word-only patterns the written code cannot prepare: the empty
   * one, whose last unit it reads before the buffer, and a cut of length
   * -1, the lone `*`.
   */
  function SetPatternAsWritten(p: seq<WChar>, option: SearchOption, env: Env, global: bool, ignoreCaseBit: bv32): (r: Option<(bool, Pattern)>)
    ensures r.None? <==> !option.regularExp && option.wordOnly && (|p| == 0 || WordCutAsWritten(p, env.iswalnum).len < 0)
    ensures option.regularExp ==> r.Some? && r.value.0 == (env.hasRegexp && env.initOk && env.compileOk)
    ensures option.regularExp && r.value.0 ==>
              r.value.1.regexOption == Some(RegexFlagAsWritten(option.loHiCase, global, ignoreCaseBit))
    ensures !option.regularExp && r.Some? ==>
              r.value.0 && Ready(r.value.1) && r.value.1.caseKey == FoldAll(IgnoreCase(option), env.lower, r.value.1.key)
    ensures !option.regularExp && option.wordOnly && r.Some? ==>
              var w := WordCutAsWritten(p, env.iswalnum);
              r.value.1.key == p[w.offset..w.offset + w.len] && r.value.1.vzWord == w.flags
  {
    var base := Reset(option).(key := p, caseKey := p);
    if option.regularExp then
      if !env.hasRegexp || !env.initOk || !env.compileOk then Some((false, base))
      else Some((true, base.(regexOption := Some(RegexFlagAsWritten(option.loHiCase, global, ignoreCaseBit)))))
    else if option.wordOnly && |p| == 0 then None
    else
      var w := if option.wordOnly then WordCutAsWritten(p, env.iswalnum) else WordCut(0, |p|, 0);
      if w.len < 0 then None
      else
        var key := p[w.offset..w.offset + w.len];
        var caseKey := FoldAll(IgnoreCase(option), env.lower, key);
        Some((true, base.(key := key, vzWord := w.flags, caseKey := caseKey, skip := SkipTable(caseKey))))
  }

  /** The literal search is prepared as intended by the written code on every
      pattern but the empty and the lone `*` word-only ones; the regular
      expression path differs only in the option word it compiles with. */
  lemma SetPatternAgrees(p: seq<WChar>, option: SearchOption, env: Env, global: bool, ignoreCaseBit: bv32)
    requires option.wordOnly ==> |p| >= 1 && p != [Star]
    ensures !option.regularExp ==> SetPatternAsWritten(p, option, env, global, ignoreCaseBit) == Some(SetPattern(p, option, env, global))
    ensures option.regularExp ==>
              var w := SetPatternAsWritten(p, option, env, global, ignoreCaseBit);
              && w.Some?
              && w.value.0 == SetPattern(p, option, env, global).0
              && w.value.1 == SetPattern(p, option, env, global).1.(regexOption := w.value.1.regexOption)
  {
    if option.wordOnly {
      WordCutAgrees(p, env.iswalnum);
    } else {
      assert p[0..|p|] == p;
    }
  }

  /** A lone `*` in a word-only search, as written, leaves no key to prepare;
      the corrected cut prepares the empty key. */
  lemma LoneStarNotPrepared(option: SearchOption, env: Env, global: bool, ignoreCaseBit: bv32)
    requires option.wordOnly && !option.regularExp && !env.iswalnum(Star)
    ensures SetPatternAsWritten([Star], option, env, global, ignoreCaseBit).None?
    ensures var r := SetPattern([Star], option, env, global);
            r.0 && r.1.key == [] && r.1.vzWord == 0
  {
    LoneStarCutBelowZero(env.iswalnum);
  }
}

=== FILE: text_stack.dfy ===
/**
 * CTextStack: a stack of texts (with their selection mode) kept in a
 * 32 KB ring buffer.  Each entry is framed as
 *   size word | mode word | payload padded to a multiple of 4 | size word
 * and the trailing size word lets Pop find the start of the newest
 * entry.  When a new entry does not fit, the oldest entries are dropped
 * from the top of the ring.  The buffer is modelled byte by byte; a word
 * is four bytes, least significant first.
 */
module TextStack {
  import opened Wrappers
  import opened TextStackRing
  import opened TextStackFrames

  // ---------------------------------------------------------------------
  // The stack

  /** The fields of CTextStack: top and end pointers (byte offsets), the
      number of bytes in use, and the buffer. */
  datatype Stack = Stack(top: int, end: int, size: int, mem: seq<Byte>)

  /** The entries of a stack, oldest first. */
  function Contents(s: Stack): Option<seq<Entry>>
    requires |s.mem| == StackSize && 0 <= s.top < StackSize && 0 <= s.size <= StackSize
  {
    ParseFrames(ReadRing(s.mem, s.top, s.size))
  }

  /** What every stack built by the constructor, Push and Pop satisfies:
      pointers inside the buffer, the end `size` bytes after the
      top, and well-formed frames filling exactly the bytes in use. */
  predicate Valid(s: Stack)
  {
    && |s.mem| == StackSize
    && 0 <= s.top < StackSize
    && 0 <= s.end < StackSize
    && 0 <= s.size <= StackSize
    && s.end == Wrap(s.top + s.size)
    && Contents(s).Some?
  }

  /** A stack whose pointers agree and whose bytes in use parse is valid. */
  lemma {:induction false} ValidWhenParsed(s: Stack, es: seq<Entry>)
    requires |s.mem| == StackSize && 0 <= s.top < StackSize && 0 <= s.size <= StackSize
    requires s.end == Wrap(s.top + s.size) && Contents(s) == Some(es)
    ensures Valid(s)
  {
  }

  /** The constructor: nothing in use; the buffer holds whatever it holds. */
  function NewStack(mem: seq<Byte>): (s: Stack)
    requires |mem| == StackSize
    ensures Valid(s) && Contents(s) == Some([])
  {
    Stack(0, 0, 0, mem)
  }

  /** GetSize: the bytes in use, which are the frames of all entries. */
  function GetSize(s: Stack): (n: int)
    requires Valid(s)
    ensures n == Sum(Contents(s).value) && 0 <= n <= StackSize
  {
    s.size
  }

  // ---------------------------------------------------------------------
  // Eviction

  /** Dropping the oldest entry, as Push's eviction loop does: its frame
      size is read from the word at the top. */
  lemma {:induction false} DropOldest(mem: seq<Byte>, top: int, size: int, es: seq<Entry>, f: int)
    requires |mem| == StackSize && 0 <= top < StackSize && 0 < size <= StackSize
    requires ParseFrames(ReadRing(mem, top, size)) == Some(es)
    requires f == FrameSize(ReadWord(mem, top))
    ensures |es| > 0 && f == Frame(es[0]) && f <= size
    ensures ParseFrames(ReadRing(mem, Forward(top, f), size - f)) == Some(es[1..])
  {
    var lin := ReadRing(mem, top, size);
    TopWord(mem, top, size);
    ParseFirst(lin, es, f);
    ReadRingSuffix(mem, top, size, f, Forward(top, f), size - f);
  }

  /** The word at the top is the leading word of the bytes in use. */
  lemma {:induction false} TopWord(mem: seq<Byte>, top: int, size: int)
    requires |mem| == StackSize && 0 <= top < StackSize && IntSize <= size <= StackSize
    ensures ReadWord(mem, top) == HeadSize(ReadRing(mem, top, size))
  {
    var lin := ReadRing(mem, top, size);
    var w := ReadRing(mem, top, IntSize);
    forall i | 0 <= i < IntSize
      ensures w[i] == lin[i]
    {
      assert w[i] == mem[Wrap(top + i)];
      assert lin[i] == mem[Wrap(top + i)];
    }
  }

  /** Moving the top forward over `f` of the `size` bytes in use keeps
      the end where it was. */
  lemma {:induction false} AdvanceTop(top: int, size: int, f: int)
    requires 0 <= top < StackSize
    requires 0 <= f <= size <= StackSize
    ensures Wrap(Forward(top, f) + (size - f)) == Wrap(top + size)
  {
  }

  /** Push's eviction loop: drop entries from the top while the new frame
      of `need` bytes does not fit. */
  function Evict(s: Stack, need: int): (r: Stack)
    requires Valid(s) && 0 <= need <= StackSize
    ensures Valid(r) && r.mem == s.mem && r.end == s.end && need + r.size <= StackSize
    ensures Contents(r) == Some(Survivors(Contents(s).value, need))
    decreases s.size
  {
    if need + s.size <= StackSize then s
    else
      var f := FrameSize(ReadWord(s.mem, s.top));
      var es := Contents(s).value;
      DropOldest(s.mem, s.top, s.size, es, f);
      AdvanceTop(s.top, s.size, f);
      var t := Stack(Forward(s.top, f), s.end, s.size - f, s.mem);
      ValidWhenParsed(t, es[1..]);
      Evict(t, need)
  }

  // ---------------------------------------------------------------------
  // Push

  /** The padding of a frame: the bytes the payload's alignment skips over,
      left as they were in the buffer. */
  function Pad(mem: seq<Byte>, end: int, n: nat): (pad: seq<Byte>)
    requires |mem| == StackSize && 0 <= end < StackSize && FrameSize(n) <= StackSize
    ensures |pad| == AlignSize(n) - n
  {
    ReadRing(mem, Wrap(end + 2 * IntSize + n), AlignSize(n) - n)
  }

  /** The four stores of Push: size word, mode word, payload and trailing
      size word, each advancing the end pointer. */
  function StoreFrame(mem: seq<Byte>, end: int, bytes: seq<Byte>, mode: Word): (r: (seq<Byte>, int))
    requires |mem| == StackSize && 0 <= end < StackSize && FrameSize(|bytes|) <= StackSize
    ensures r.0 == WriteRing(mem, end, FrameBytes(Entry(bytes, mode), Pad(mem, end, |bytes|)))
    ensures r.1 == Wrap(end + FrameSize(|bytes|))
  {
    var n := |bytes|;
    var m1 := WriteWord(mem, end, n);
    var p1 := Forward(end, IntSize);
    var m2 := WriteWord(m1, p1, mode);
    var p2 := Forward(p1, IntSize);
    var m3 := CopyIn(m2, p2, bytes);
    var p3 := Forward(p2, AlignSize(n));
    var m4 := WriteWord(m3, p3, n);
    var p4 := Forward(p3, IntSize);
    StoreFrameBytes(mem, end, bytes, mode, p1, p2, p3);
    (m4, p4)
  }

  /** The size word, the mode word and the payload, stored one after the
      other from the end pointer. */
  lemma {:induction false} StoreHead(mem: seq<Byte>, end: int, bytes: seq<Byte>, mode: Word)
    requires |mem| == StackSize && 0 <= end < StackSize && FrameSize(|bytes|) <= StackSize
    ensures var m1 := WriteRing(mem, end, WordBytes(|bytes|));
            var m2 := WriteRing(m1, Wrap(end + IntSize), WordBytes(mode));
            WriteRing(m2, Wrap(end + 2 * IntSize), bytes)
              == WriteRing(mem, end, WordBytes(|bytes|) + WordBytes(mode) + bytes)
  {
    var xs2 := WordBytes(|bytes|) + WordBytes(mode);
    WriteRingAppend(mem, end, WordBytes(|bytes|), WordBytes(mode));
    WriteRingAppend(mem, end, xs2, bytes);
  }

  /** Skipping the padding is writing back what the padding bytes hold. */
  lemma {:induction false} StorePad(mem: seq<Byte>, end: int, xs: seq<Byte>, k: int)
    requires |mem| == StackSize && 0 <= end < StackSize && 0 <= k && |xs| + k <= StackSize
    ensures WriteRing(mem, end, xs) == WriteRing(mem, end, xs + ReadRing(mem, Wrap(end + |xs|), k))
  {
    var m := WriteRing(mem, end, xs);
    var pad := ReadRing(mem, Wrap(end + |xs|), k);
    ReadPastWrite(mem, end, xs, k);
    WriteRingSame(m, Wrap(end + |xs|), k);
    WriteRingAppend(mem, end, xs, pad);
  }

  /** The four stores together write the whole frame at the end pointer;
      `p1`, `p2` and `p3` are where the mode word, the payload and the
      trailing size word go. */
  lemma {:induction false} StoreFrameBytes(mem: seq<Byte>, end: int, bytes: seq<Byte>, mode: Word, p1: int, p2: int, p3: int)
    requires |mem| == StackSize && 0 <= end < StackSize && FrameSize(|bytes|) <= StackSize
    requires p1 == Wrap(end + IntSize) && p2 == Wrap(end + 2 * IntSize)
    requires p3 == Wrap(end + (2 * IntSize + AlignSize(|bytes|)))
    ensures var n := |bytes|;
            var m3 := CopyIn(WriteWord(WriteWord(mem, end, n), p1, mode), p2, bytes);
            WriteWord(m3, p3, n) == WriteRing(mem, end, FrameBytes(Entry(bytes, mode), Pad(mem, end, n)))
  {
    var n := |bytes|;
    var m1 := WriteWord(mem, end, n);
    var m2 := WriteWord(m1, p1, mode);
    var m3 := CopyIn(m2, p2, bytes);
    assert m3 == WriteRing(mem, end, WordBytes(n) + WordBytes(mode) + bytes) by {
      StoreHead(mem, end, bytes, mode);
    }
    StoreTail(mem, end, bytes, mode, m3, p3);
  }

  /** The padding skipped and the trailing size word stored after the
      first three stores. */
  lemma {:induction false} StoreTail(mem: seq<Byte>, end: int, bytes: seq<Byte>, mode: Word, m3: seq<Byte>, p3: int)
    requires |mem| == StackSize && 0 <= end < StackSize && FrameSize(|bytes|) <= StackSize
    requires m3 == WriteRing(mem, end, WordBytes(|bytes|) + WordBytes(mode) + bytes)
    requires p3 == Wrap(end + (2 * IntSize + AlignSize(|bytes|)))
    ensures WriteWord(m3, p3, |bytes|) == WriteRing(mem, end, FrameBytes(Entry(bytes, mode), Pad(mem, end, |bytes|)))
  {
    var n := |bytes|;
    var pad := Pad(mem, end, n);
    var xs3 := WordBytes(n) + WordBytes(mode) + bytes;
    StorePad(mem, end, xs3, AlignSize(n) - n);
    WriteRingAppend(mem, end, xs3 + pad, WordBytes(n));
  }

  /** Writing a frame just after well-formed frames appends its entry. */
  lemma {:induction false} AppendFrame(mem: seq<Byte>, top: int, size: int, end: int, bytes: seq<Byte>, mode: Word, m: seq<Byte>)
    requires |mem| == StackSize && 0 <= top < StackSize && 0 <= size
    requires size + FrameSize(|bytes|) <= StackSize && end == Wrap(top + size)
    requires ParseFrames(ReadRing(mem, top, size)).Some?
    requires m == WriteRing(mem, end, FrameBytes(Entry(bytes, mode), Pad(mem, end, |bytes|)))
    ensures ParseFrames(ReadRing(m, top, size + FrameSize(|bytes|)))
            == Some(ParseFrames(ReadRing(mem, top, size)).value + [Entry(bytes, mode)])
  {
    var e := Entry(bytes, mode);
    var pad := Pad(mem, end, |bytes|);
    var fb := FrameBytes(e, pad);
    var k := size + FrameSize(|bytes|);
    assert |fb| == FrameSize(|bytes|);
    ReadAfterWrite(mem, top, size, end, fb, k);
    ParseSnoc(ReadRing(mem, top, size), e, pad);
  }

  /** The result of Push: whether it failed, and the stack after it. */
  datatype Pushed = Pushed(failed: bool, stack: Stack)

  /**
   * Push: a text whose frame exceeds the buffer is refused (the source
   * returns TRUE for this failure).  Otherwise the oldest entries are
   * dropped until the frame fits, and the frame is stored at the end.
   */
  function Push(s: Stack, text: seq<WChar>, mode: Word): (r: Pushed)
    requires Valid(s)
    ensures Valid(r.stack)
    ensures r.failed <==> FrameSize(2 * |text|) > StackSize
    ensures r.failed ==> r.stack == s
    ensures !r.failed ==>
              Contents(r.stack) == Some(Survivors(Contents(s).value, FrameSize(2 * |text|)) + [Entry(TextBytes(text), mode)])
  {
    var bytes := TextBytes(text);
    var need := FrameSize(|bytes|);
    if need > StackSize then Pushed(true, s)
    else
      Pushed(false, StoreEntry(Evict(s, need), bytes, mode))
  }

  /** The stores of Push once there is room: the frame goes at the end and
      the bytes in use grow by its size. */
  function StoreEntry(t: Stack, bytes: seq<Byte>, mode: Word): (r: Stack)
    requires Valid(t) && t.size + FrameSize(|bytes|) <= StackSize
    ensures Valid(r) && r.top == t.top && r.size == t.size + FrameSize(|bytes|)
    ensures Contents(r) == Some(Contents(t).value + [Entry(bytes, mode)])
  {
    var stored := StoreFrame(t.mem, t.end, bytes, mode);
    var r := Stack(t.top, stored.1, t.size + FrameSize(|bytes|), stored.0);
    AppendFrame(t.mem, t.top, t.size, t.end, bytes, mode, stored.0);
    StackAfterStore(t, bytes, mode, r);
    r
  }

  /** The stack after the frame has been stored holds one more entry. */
  lemma {:induction false} StackAfterStore(t: Stack, bytes: seq<Byte>, mode: Word, r: Stack)
    requires Valid(t) && t.size + FrameSize(|bytes|) <= StackSize
    requires r.top == t.top && r.size == t.size + FrameSize(|bytes|)
    requires r.end == Wrap(t.end + FrameSize(|bytes|))
    requires r.mem == WriteRing(t.mem, t.end, FrameBytes(Entry(bytes, mode), Pad(t.mem, t.end, |bytes|)))
    ensures Valid(r) && Contents(r) == Some(Contents(t).value + [Entry(bytes, mode)])
  {
    AppendFrame(t.mem, t.top, t.size, t.end, bytes, mode, r.mem);
    ValidWhenParsed(r, Contents(t).value + [Entry(bytes, mode)]);
  }

  // ---------------------------------------------------------------------
  // Pop

  /** Pop's reads, from the end pointer backwards: the trailing size word,
      the payload, the mode word; and where the end pointer is left. */
  function PopRaw(mem: seq<Byte>, end: int): (r: (nat, seq<Byte>, nat, int))
    requires |mem| == StackSize && 0 <= end < StackSize
    requires ReadWord(mem, Backward(end, IntSize)) + FrameOverhead <= StackSize
  {
    var p1 := Backward(end, IntSize);
    var n := ReadWord(mem, p1);
    var p2 := Backward(p1, AlignSize(n));
    var bytes := CopyOut(mem, p2, n);
    var p3 := Backward(p2, IntSize);
    var mode := ReadWord(mem, p3);
    var p4 := Backward(p3, IntSize);
    (n, bytes, mode, p4)
  }

  /** Pop's reads walk back through the bytes in use: from the trailing
      size word at `o1` over the aligned payload to `o2`, the mode word at
      `o3`, and the frame start `b`. */
  lemma {:induction false} PopWalk(mem: seq<Byte>, top: int, size: int, end: int, n: int, bytes: seq<Byte>, mode: int,
                                   b: int, o1: int, o2: int, o3: int)
    requires |mem| == StackSize && 0 <= top < StackSize && IntSize <= size <= StackSize
    requires end == Wrap(top + size)
    requires o1 == size - IntSize && n == WordAt(ReadRing(mem, top, size), o1)
    requires o2 == o1 - AlignSize(n) && o3 == o2 - IntSize && b == o3 - IntSize && 0 <= b
    requires ReadRing(mem, top, size)[o2..o2 + n] == bytes && WordAt(ReadRing(mem, top, size), o3) == mode
    ensures ReadWord(mem, Backward(end, IntSize)) + FrameOverhead <= StackSize
    ensures PopRaw(mem, end) == (n, bytes, mode, Wrap(top + b))
  {
    var p1 := Backward(end, IntSize);
    PopPointer(top, size, IntSize, o1, p1);
    RingWordAt(mem, top, size, o1, p1);
    var p2 := Backward(p1, AlignSize(n));
    PopPointer(top, o1, AlignSize(n), o2, p2);
    RingBytesAt(mem, top, size, o2, n, p2);
    var p3 := Backward(p2, IntSize);
    PopPointer(top, o2, IntSize, o3, p3);
    RingWordAt(mem, top, size, o3, p3);
    var p4 := Backward(p3, IntSize);
    PopPointer(top, o3, IntSize, b, p4);
  }

  /** On a valid stack Pop's reads find the fields of the newest entry,
      and the end pointer goes back to where its frame starts. */
  lemma {:induction false} PopReadsLast(mem: seq<Byte>, top: int, size: int, end: int, es: seq<Entry>)
    requires |mem| == StackSize && 0 <= top < StackSize && 0 < size <= StackSize
    requires end == Wrap(top + size)
    requires ParseFrames(ReadRing(mem, top, size)) == Some(es) && |es| > 0
    ensures Frame(es[|es| - 1]) <= size
    ensures ReadWord(mem, Backward(end, IntSize)) + FrameOverhead <= StackSize
    ensures PopRaw(mem, end)
            == (|es[|es| - 1].bytes|, es[|es| - 1].bytes, es[|es| - 1].mode, Wrap(top + (size - Frame(es[|es| - 1]))))
  {
    var lin := ReadRing(mem, top, size);
    var e := es[|es| - 1];
    var b := size - Frame(e);
    var o1 := size - IntSize;
    var o2 := b + 2 * IntSize;
    var o3 := b + IntSize;
    LastFrameFields(lin, es, size, b, o1, o2, o3);
    PopWalk(mem, top, size, end, |e.bytes|, e.bytes, e.mode, b, o1, o2, o3);
    assert Wrap(top + b) == Wrap(top + (size - Frame(es[|es| - 1])));
  }

  /** What is left in use after Pop holds the older entries. */
  lemma {:induction false} PopRest(mem: seq<Byte>, top: int, size: int, es: seq<Entry>, b: int)
    requires |mem| == StackSize && 0 <= top < StackSize && 0 < size <= StackSize
    requires ParseFrames(ReadRing(mem, top, size)) == Some(es) && |es| > 0
    requires b == size - Frame(es[|es| - 1])
    ensures 0 <= b
    ensures ParseFrames(ReadRing(mem, top, b)) == Some(es[..|es| - 1])
  {
    var lin := ReadRing(mem, top, size);
    LastFramePrefix(lin, es, b);
    ReadRingPrefix(mem, top, size, b);
  }

  /** The result of Pop: whether it failed (the stack was empty), the text
      and mode popped, and the stack after it. */
  datatype Popped = Popped(failed: bool, text: seq<WChar>, mode: nat, stack: Stack)

  /**
   * Pop: an empty stack fails (the source returns TRUE).  Otherwise the
   * newest entry is read back from the end pointer and removed; the top
   * and the buffer are left as they were.
   */
  function Pop(s: Stack): (r: Popped)
    requires Valid(s)
    ensures Valid(r.stack)
    ensures r.failed <==> Contents(s).value == []
    ensures r.failed ==> r.stack == s
    ensures !r.failed ==>
              var es := Contents(s).value;
              && |es| > 0
              && r.text == BytesText(es[|es| - 1].bytes)
              && r.mode == es[|es| - 1].mode
              && r.stack.top == s.top && r.stack.mem == s.mem
              && Contents(r.stack) == Some(es[..|es| - 1])
  {
    if s.size == 0 then Popped(true, [], 0, s)
    else
      var es := Contents(s).value;
      PopReadsLast(s.mem, s.top, s.size, s.end, es);
      var raw := PopRaw(s.mem, s.end);
      var e := es[|es| - 1];
      PopRest(s.mem, s.top, s.size, es, s.size - Frame(e));
      assert raw.0 == |e.bytes| && raw.1 == e.bytes && raw.2 == e.mode;
      assert raw.3 == Wrap(s.top + (s.size - Frame(e)));
      assert FrameSize(raw.0) == Frame(e);
      var r := Stack(s.top, raw.3, s.size - FrameSize(raw.0), s.mem);
      ValidWhenParsed(r, es[..|es| - 1]);
      Popped(false, BytesText(raw.1), raw.2, r)
  }

  // ---------------------------------------------------------------------
  // Push then Pop

  /** Popping right after a successful Push gives back the pushed text and
      mode, and leaves the entries that survived the Push's eviction. */
  lemma {:induction false} PushThenPop(s: Stack, text: seq<WChar>, mode: Word)
    requires Valid(s) && FrameSize(2 * |text|) <= StackSize
    ensures var p := Push(s, text, mode);
            var q := Pop(p.stack);
            && !p.failed && !q.failed
            && q.text == text && q.mode == mode
            && Contents(q.stack) == Some(Survivors(Contents(s).value, FrameSize(2 * |text|)))
  {
    var p := Push(s, text, mode);
    var kept := Survivors(Contents(s).value, FrameSize(2 * |text|));
    var es := kept + [Entry(TextBytes(text), mode)];
    assert Contents(p.stack) == Some(es);
    assert es[|es| - 1] == Entry(TextBytes(text), mode);
    assert es[..|es| - 1] == kept;
    BytesTextRoundTrip(text);
  }

  // ---------------------------------------------------------------------
  // Push as written

  /**
   * Forward as written wraps only when the sum is beyond the end, so a
   * pointer can be left at StackSize.  As a ring position that is offset
   * 0, but GetIntPtr of it is the word just past the buffer.  `Home`
   * is the ring position such a pointer stands for.
   */
  function Home(p: int): (q: int)
    requires 0 <= p <= StackSize
    ensures 0 <= q < StackSize && (q == p || (p == StackSize && q == 0))
  {
    if p == StackSize then 0 else p
  }

  /** The stack with both pointers taken to the ring positions they stand for. */
  function Normal(s: Stack): Stack
    requires 0 <= s.top <= StackSize && 0 <= s.end <= StackSize
  {
    Stack(Home(s.top), Home(s.end), s.size, s.mem)
  }

  /** The states Push as written leaves: a valid stack, except that either
      pointer may sit at StackSize. */
  predicate ValidAsWritten(s: Stack)
  {
    0 <= s.top <= StackSize && 0 <= s.end <= StackSize && Valid(Normal(s))
  }

  /** Forward as written from a position inside the ring lands on the
      same ring position as Forward, possibly as StackSize. */
  lemma ForwardAsWrittenHome(p: int, n: int)
    requires 0 <= p < StackSize && 0 <= n <= StackSize
    ensures 0 <= ForwardAsWritten(p, n) <= StackSize
    ensures Home(ForwardAsWritten(p, n)) == Forward(p, n)
  {
  }

  /**
   * The eviction loop with Forward as written.  It is undefined (None)
   * when it must read the size word at a top pointer left at StackSize;
   * otherwise it drops the same entries as Evict.
   */
  function EvictAsWritten(s: Stack, need: int): (r: Option<Stack>)
    requires ValidAsWritten(s) && 0 <= need <= StackSize
    ensures need + s.size <= StackSize ==> r == Some(s)
    ensures r.Some? ==> && ValidAsWritten(r.value)
                        && r.value.end == s.end && r.value.mem == s.mem
                        && Normal(r.value) == Evict(Normal(s), need)
    decreases s.size
  {
    if need + s.size <= StackSize then Some(s)
    else if s.top == StackSize then None
    else
      var f := FrameSize(ReadWord(s.mem, s.top));
      var t := Stack(ForwardAsWritten(s.top, f), s.end, s.size - f, s.mem);
      EvictStepAsWritten(s, need, t);
      EvictAsWritten(t, need)
  }

  /** One round of the eviction loop as written drops the entry Evict
      drops first. */
  lemma {:induction false} EvictStepAsWritten(s: Stack, need: int, t: Stack)
    requires ValidAsWritten(s) && 0 <= need <= StackSize && need + s.size > StackSize && s.top < StackSize
    requires t == Stack(ForwardAsWritten(s.top, FrameSize(ReadWord(s.mem, s.top))), s.end,
                        s.size - FrameSize(ReadWord(s.mem, s.top)), s.mem)
    ensures ValidAsWritten(t) && t.size < s.size && Evict(Normal(t), need) == Evict(Normal(s), need)
  {
    var f := FrameSize(ReadWord(s.mem, s.top));
    var es := Contents(Normal(s)).value;
    DropOldest(s.mem, s.top, s.size, es, f);
    ForwardAsWrittenHome(s.top, f);
    AdvanceTop(s.top, s.size, f);
    var u := Stack(Forward(s.top, f), Normal(s).end, s.size - f, s.mem);
    assert Normal(t) == u;
    ValidWhenParsed(u, es[1..]);
    assert Normal(s).top == s.top;
    assert Evict(Normal(s), need) == Evict(u, need);
  }

  /**
   * The four stores of Push with Forward as written.  A store of a word
   * at a pointer left at StackSize writes past the buffer, and the model
   * has no value for it (None).  A payload pointer at StackSize is
   * harmless: the first memcpy copies nothing and the second copies the
   * whole payload to the start of the buffer.
   */
  function StoreFrameAsWritten(mem: seq<Byte>, end: int, bytes: seq<Byte>, mode: Word): (r: Option<(seq<Byte>, int)>)
    requires |mem| == StackSize && 0 <= end <= StackSize && FrameSize(|bytes|) <= StackSize
    ensures end == StackSize ==> r.None?
    ensures r.Some? ==> && 0 <= r.value.1 <= StackSize
                        && r.value.0 == StoreFrame(mem, end, bytes, mode).0
                        && Home(r.value.1) == StoreFrame(mem, end, bytes, mode).1
  {
    var n := |bytes|;
    if end == StackSize then None
    else
      var p1 := ForwardAsWritten(end, IntSize);
      if p1 == StackSize then None
      else
        var p2 := ForwardAsWritten(p1, IntSize);
        ForwardAsWrittenHome(p1, IntSize);
        var m3 := CopyIn(WriteWord(WriteWord(mem, end, n), p1, mode), Home(p2), bytes);
        var p3 := ForwardAsWritten(p2, AlignSize(n));
        ForwardAsWrittenHome(Home(p2), AlignSize(n));
        if p3 == StackSize then None
        else
          assert p3 == Forward(Home(p2), AlignSize(n));
          ForwardAsWrittenHome(p3, IntSize);
          Some((WriteWord(m3, p3, n), ForwardAsWritten(p3, IntSize)))
  }

  /**
   * Push as the source writes it (CTextStack.cpp with Forward as in
   * CTextStack.h).  None stands for a store one word past the buffer.
   * Where it is defined it does what Push does, with a pointer possibly
   * left at StackSize in place of 0; once the end pointer is at
   * StackSize, every Push that is not refused stores past the buffer.
   */
  function PushAsWritten(s: Stack, text: seq<WChar>, mode: Word): (r: Option<Pushed>)
    requires ValidAsWritten(s)
    ensures FrameSize(2 * |text|) > StackSize ==> r == Some(Pushed(true, s))
    ensures FrameSize(2 * |text|) <= StackSize && s.end == StackSize ==> r.None?
    ensures r.Some? ==> && ValidAsWritten(r.value.stack)
                        && r.value.failed == Push(Normal(s), text, mode).failed
                        && Normal(r.value.stack) == Push(Normal(s), text, mode).stack
  {
    var bytes := TextBytes(text);
    var need := FrameSize(|bytes|);
    if need > StackSize then Some(Pushed(true, s))
    else
      match EvictAsWritten(s, need)
      case None => None
      case Some(t) =>
        match StoreFrameAsWritten(t.mem, t.end, bytes, mode)
        case None => None
        case Some(stored) =>
          var r := Stack(t.top, stored.1, t.size + need, stored.0);
          PushedAsWritten(s, t, bytes, mode, stored, r);
          Some(Pushed(false, r))
  }

  /** The stack Push as written builds, taken to ring positions, is the
      one Push builds. */
  lemma {:induction false} PushedAsWritten(s: Stack, t: Stack, bytes: seq<Byte>, mode: Word, stored: (seq<Byte>, int), r: Stack)
    requires ValidAsWritten(s) && FrameSize(|bytes|) <= StackSize
    requires EvictAsWritten(s, FrameSize(|bytes|)) == Some(t)
    requires StoreFrameAsWritten(t.mem, t.end, bytes, mode) == Some(stored)
    requires r == Stack(t.top, stored.1, t.size + FrameSize(|bytes|), stored.0)
    ensures ValidAsWritten(r) && Normal(r) == StoreEntry(Evict(Normal(s), FrameSize(|bytes|)), bytes, mode)
  {
    var e := Evict(Normal(s), FrameSize(|bytes|));
    assert Normal(t) == e;
    assert t.end != StackSize;
    var q := StoreEntry(e, bytes, mode);
    assert Valid(q);
    assert Normal(r) == q;
    assert 0 <= r.top <= StackSize && 0 <= r.end <= StackSize;
  }

  /** On an empty stack a Push of 16378 code units (32756 bytes, a frame
      of exactly 32 KB) is accepted, and Forward as written leaves the end
      pointer at 32768, one past the buffer. */
  lemma PushAsWrittenFillsRing(mem: seq<Byte>, text: seq<WChar>, mode: Word)
    requires |mem| == StackSize && |text| == 16378
    ensures var r := PushAsWritten(NewStack(mem), text, mode);
            r.Some? && !r.value.failed && r.value.stack.end == StackSize
  {
    var bytes := TextBytes(text);
    assert FrameSize(|bytes|) == StackSize;
    assert EvictAsWritten(NewStack(mem), StackSize) == Some(NewStack(mem));
  }

  /** The next Push after that stores its size word past the buffer,
      whatever it pushes, unless the text is refused as too long; with
      the wrap taken at the end the same Push is defined. */
  lemma PushAsWrittenOverruns(mem: seq<Byte>, text: seq<WChar>, mode: Word, text2: seq<WChar>, mode2: Word)
    requires |mem| == StackSize && |text| == 16378 && FrameSize(2 * |text2|) <= StackSize
    ensures var r := PushAsWritten(NewStack(mem), text, mode);
            && r.Some?
            && PushAsWritten(r.value.stack, text2, mode2).None?
            && !Push(Push(NewStack(mem), text, mode).stack, text2, mode2).failed
  {
    PushAsWrittenFillsRing(mem, text, mode);
  }

  /** With the wrap taken at the end, the same frame stored at 0 leaves
      the end pointer back at 0, inside the buffer. */
  lemma ForwardWrapsAtEnd(mem: seq<Byte>, bytes: seq<Byte>, mode: Word)
    requires |mem| == StackSize && |bytes| == 32756
    ensures StoreFrame(mem, 0, bytes, mode).1 == 0
  {
  }
}

=== FILE: text_stack_frames.dfy ===
/**
 * The layout of CTextStack's entries once the bytes in use are read out
 * of the ring in order: texts as bytes, and frames
 *   size word | mode word | payload padded to a multiple of 4 | size word
 * one after the other, oldest first.
 */
module TextStackFrames {
  import opened Wrappers
  import opened TextStackRing

  // ---------------------------------------------------------------------
  // Texts as bytes

  /** The bytes of a text, two per code unit, low byte first. */
  function TextBytes(t: seq<WChar>): (bs: seq<Byte>)
    ensures |bs| == 2 * |t|
  {
    seq(2 * |t|, i requires 0 <= i < 2 * |t| => if i % 2 == 0 then t[i / 2] % 256 else t[i / 2] / 256)
  }

  /** The text of `n / 2` code units held in `n` bytes. */
  function BytesText(bs: seq<Byte>): (t: seq<WChar>)
    ensures |t| == |bs| / 2
  {
    seq(|bs| / 2, k requires 0 <= k < |bs| / 2 => bs[2 * k] as int + 256 * bs[2 * k + 1] as int)
  }

  lemma {:induction false} BytesTextRoundTrip(t: seq<WChar>)
    ensures BytesText(TextBytes(t)) == t
  {
    var bs := TextBytes(t);
    forall k | 0 <= k < |t|
      ensures BytesText(bs)[k] == t[k]
    {
      var i := 2 * k;
      HalfIndex(k, i);
      var c := t[k];
      assert bs[i] == c % 256 && bs[i + 1] == c / 256;
      assert BytesText(bs)[k] == bs[i] as int + 256 * bs[i + 1] as int;
    }
  }

  /** The two byte positions of code unit `k`. */
  lemma HalfIndex(k: int, i: int)
    requires 0 <= k && i == 2 * k
    ensures i / 2 == k && (i + 1) / 2 == k && i % 2 == 0 && (i + 1) % 2 == 1
  {
  }

  // ---------------------------------------------------------------------
  // Frames

  /** One entry: its payload bytes and its mode word. */
  datatype Entry = Entry(bytes: seq<Byte>, mode: nat)

  /** The bytes of one entry's frame: size, mode, payload, padding up to
      the next int boundary, size again. */
  function FrameBytes(e: Entry, pad: seq<Byte>): (bs: seq<Byte>)
    requires |e.bytes| < 0x1_0000_0000 && e.mode < 0x1_0000_0000
    ensures |bs| == 3 * IntSize + |e.bytes| + |pad|
  {
    WordBytes(|e.bytes|) + WordBytes(e.mode) + e.bytes + pad + WordBytes(|e.bytes|)
  }

  function Frame(e: Entry): nat
  {
    FrameSize(|e.bytes|)
  }

  function Sum(es: seq<Entry>): nat
  {
    if |es| == 0 then 0 else Frame(es[0]) + Sum(es[1..])
  }

  function Prepend(e: Entry, rest: Option<seq<Entry>>): Option<seq<Entry>>
  {
    if rest.None? then None else Some([e] + rest.value)
  }

  /** The payload size in the leading word of a frame. */
  function HeadSize(bs: seq<Byte>): nat
    requires IntSize <= |bs|
  {
    WordAt(bs, 0)
  }

  /** `bs` starts with a whole frame whose trailing word repeats its size. */
  predicate HeadOk(bs: seq<Byte>)
  {
    && IntSize <= |bs|
    && FrameSize(HeadSize(bs)) <= |bs|
    && WordAt(bs, FrameSize(HeadSize(bs)) - IntSize) == HeadSize(bs)
  }

  /** The entry of the frame `bs` starts with. */
  function HeadEntry(bs: seq<Byte>): (e: Entry)
    requires HeadOk(bs)
    ensures Frame(e) == FrameSize(HeadSize(bs))
  {
    Entry(bs[2 * IntSize..2 * IntSize + HeadSize(bs)], WordAt(bs, IntSize))
  }

  /** The entries framed in the bytes `bs` (laid out from the top of the
      stack onwards), oldest first; None when `bs` is not a sequence of
      well-formed frames. */
  function ParseFrames(bs: seq<Byte>): (r: Option<seq<Entry>>)
    ensures r.Some? ==> Sum(r.value) == |bs|
    decreases |bs|, 1
  {
    if |bs| == 0 then Some([]) else ParseNonEmpty(bs)
  }

  /** ParseFrames of a non-empty region: the first frame, then the rest. */
  function ParseNonEmpty(bs: seq<Byte>): (r: Option<seq<Entry>>)
    requires |bs| > 0
    ensures r.Some? ==> Sum(r.value) == |bs|
    decreases |bs|, 0
  {
    if !HeadOk(bs) then None
    else
      var e := HeadEntry(bs);
      var rest := ParseFrames(bs[Frame(e)..]);
      assert rest.Some? ==> ([e] + rest.value)[1..] == rest.value;
      Prepend(e, rest)
  }

  /** One step of ParseFrames. */
  lemma {:induction false} ParseStep(bs: seq<Byte>)
    requires HeadOk(bs)
    ensures ParseFrames(bs) == Prepend(HeadEntry(bs), ParseFrames(bs[Frame(HeadEntry(bs))..]))
  {
  }

  /** Bytes appended after the first frame do not change it. */
  lemma {:induction false} HeadExtend(bs: seq<Byte>, ext: seq<Byte>)
    requires HeadOk(bs)
    ensures HeadOk(bs + ext) && HeadEntry(bs + ext) == HeadEntry(bs)
    ensures (bs + ext)[Frame(HeadEntry(bs))..] == bs[Frame(HeadEntry(bs))..] + ext
  {
    var bs' := bs + ext;
    var f := FrameSize(HeadSize(bs));
    assert WordAt(bs', 0) == WordAt(bs, 0);
    assert WordAt(bs', f - IntSize) == WordAt(bs, f - IntSize);
    assert WordAt(bs', IntSize) == WordAt(bs, IntSize);
    assert bs'[2 * IntSize..2 * IntSize + HeadSize(bs)] == bs[2 * IntSize..2 * IntSize + HeadSize(bs)];
  }

  /** Bytes after the first frame can be cut off without changing it. */
  lemma {:induction false} HeadTrim(bs: seq<Byte>, k: int)
    requires HeadOk(bs) && Frame(HeadEntry(bs)) <= k <= |bs|
    ensures HeadOk(bs[..k]) && HeadEntry(bs[..k]) == HeadEntry(bs)
  {
    var bs' := bs[..k];
    var f := FrameSize(HeadSize(bs));
    assert WordAt(bs', 0) == WordAt(bs, 0);
    assert WordAt(bs', f - IntSize) == WordAt(bs, f - IntSize);
    assert WordAt(bs', IntSize) == WordAt(bs, IntSize);
    assert bs'[2 * IntSize..2 * IntSize + HeadSize(bs)] == bs[2 * IntSize..2 * IntSize + HeadSize(bs)];
  }

  /** Cutting the bytes after the first frame parses the first entry and
      then the cut rest. */
  lemma {:induction false} ParseTrim(bs: seq<Byte>, b: int)
    requires HeadOk(bs) && Frame(HeadEntry(bs)) <= b <= |bs|
    ensures ParseFrames(bs[..b]) == Prepend(HeadEntry(bs), ParseFrames(bs[Frame(HeadEntry(bs))..b]))
  {
    HeadTrim(bs, b);
    ParseStep(bs[..b]);
    assert bs[..b][Frame(HeadEntry(bs))..] == bs[Frame(HeadEntry(bs))..b];
  }

  /** A frame followed by more bytes parses as its entry and then the rest. */
  lemma {:induction false} FrameParses(e: Entry, pad: seq<Byte>, rest: seq<Byte>)
    requires |e.bytes| < 0x1_0000_0000 && e.mode < 0x1_0000_0000
    requires |pad| == AlignSize(|e.bytes|) - |e.bytes|
    ensures ParseFrames(FrameBytes(e, pad) + rest) == Prepend(e, ParseFrames(rest))
  {
    var n := |e.bytes|;
    var fb := FrameBytes(e, pad);
    var bs := fb + rest;
    var f := FrameSize(n);
    assert |fb| == f;
    DecodeWordBytes(n);
    WordAtSlice(bs, 0, WordBytes(n));
    WordAtSlice(bs, f - IntSize, WordBytes(n));
    DecodeWordBytes(e.mode);
    WordAtSlice(bs, IntSize, WordBytes(e.mode));
    assert bs[2 * IntSize..2 * IntSize + n] == e.bytes;
    assert HeadOk(bs) && HeadEntry(bs) == e;
    assert bs[f..] == rest;
    ParseStep(bs);
  }

  /** A frame appended after well-formed frames adds its entry as the newest. */
  lemma {:induction false} ParseSnoc(bs: seq<Byte>, e: Entry, pad: seq<Byte>)
    requires |e.bytes| < 0x1_0000_0000 && e.mode < 0x1_0000_0000
    requires |pad| == AlignSize(|e.bytes|) - |e.bytes|
    requires ParseFrames(bs).Some?
    ensures ParseFrames(bs + FrameBytes(e, pad)) == Some(ParseFrames(bs).value + [e])
    decreases |bs|
  {
    var fb := FrameBytes(e, pad);
    if |bs| == 0 {
      assert bs + fb == fb + [];
      FrameParses(e, pad, []);
      assert ParseFrames([]) == Some([]);
      assert [e] + [] == [e];
      assert ParseFrames(bs).value + [e] == [e];
    } else {
      var e0 := HeadEntry(bs);
      var tail := bs[Frame(e0)..];
      HeadExtend(bs, fb);
      ParseSnoc(tail, e, pad);
      ParseStep(bs);
      ParseStep(bs + fb);
      var rest := ParseFrames(tail).value;
      assert [e0] + rest + [e] == [e0] + (rest + [e]);
    }
  }

  /** The oldest entry's frame opens the bytes, and the bytes after it
      parse to the other entries. */
  lemma {:induction false} ParseFirst(bs: seq<Byte>, es: seq<Entry>, f: int)
    requires ParseFrames(bs) == Some(es) && |bs| > 0 && f == FrameSize(HeadSize(bs))
    ensures HeadOk(bs) && |es| > 0 && Frame(es[0]) == f && f <= |bs|
    ensures ParseFrames(bs[f..]) == Some(es[1..])
  {
    var e0 := HeadEntry(bs);
    ParseStep(bs);
    assert es == [e0] + ParseFrames(bs[f..]).value;
  }

  /** The newest entry's frame closes the bytes, and without it the bytes
      parse to the older entries. */
  lemma {:induction false} ParseLast(bs: seq<Byte>, es: seq<Entry>, e: Entry, b: int)
    requires ParseFrames(bs) == Some(es) && |es| > 0 && e == es[|es| - 1]
    requires b == |bs| - Frame(e)
    ensures 0 <= b
    ensures HeadOk(bs[b..]) && HeadEntry(bs[b..]) == e && |bs[b..]| == Frame(e)
    ensures ParseFrames(bs[..b]) == Some(es[..|es| - 1])
    decreases |bs|
  {
    var e0 := HeadEntry(bs);
    var f := Frame(e0);
    var tail := bs[f..];
    ParseStep(bs);
    var rest := ParseFrames(tail).value;
    if |rest| == 0 {
      assert |tail| == 0;
      assert es == [e0];
      assert b == 0;
      assert bs[0..] == bs;
      assert bs[..0] == [];
      assert ParseFrames([]) == Some([]);
      assert es[..0] == [];
    } else {
      var b' := |tail| - Frame(e);
      assert es == [e0] + rest;
      DropLastCons(es, e0, rest);
      ParseLast(tail, rest, e, b');
      SliceShift(bs, f, b', b);
      ParseTrim(bs, b);
    }
  }

  /** Offsets into the bytes after the first `f` are offsets `f` further on. */
  lemma SliceShift(bs: seq<Byte>, f: int, b': int, b: int)
    requires 0 <= f <= |bs| && 0 <= b' <= |bs| - f && b == f + b'
    ensures bs[b..] == bs[f..][b'..] && bs[f..b] == bs[f..][..b']
  {
  }

  /** Dropping the last of a non-empty list with a head. */
  lemma DropLastCons(es: seq<Entry>, e0: Entry, rest: seq<Entry>)
    requires es == [e0] + rest && |rest| > 0
    ensures es[|es| - 1] == rest[|rest| - 1] && es[..|es| - 1] == [e0] + rest[..|rest| - 1]
  {
  }

  /** The fields of a frame that fills `fb` exactly. */
  lemma {:induction false} HeadFields(fb: seq<Byte>)
    requires HeadOk(fb) && |fb| == Frame(HeadEntry(fb))
    ensures var e := HeadEntry(fb);
            var n := |e.bytes|;
            && WordAt(fb, |fb| - IntSize) == n
            && WordAt(fb, IntSize) == e.mode
            && fb[2 * IntSize..2 * IntSize + n] == e.bytes
  {
  }

  /** The fields of the newest frame, read from the bytes in use: its
      frame starts at `b`, its mode word is at `o3`, its payload at `o2`,
      and its trailing size word at `o1`. */
  lemma {:induction false} LastFrameFields(lin: seq<Byte>, es: seq<Entry>, size: int, b: int, o1: int, o2: int, o3: int)
    requires ParseFrames(lin) == Some(es) && |es| > 0 && |lin| == size
    requires b == size - Frame(es[|es| - 1])
    requires o1 == size - IntSize && o2 == b + 2 * IntSize && o3 == b + IntSize
    ensures 0 <= b && 0 <= o1 && o1 + IntSize <= size && o3 + IntSize <= size
    ensures o2 + |es[|es| - 1].bytes| <= size
    ensures WordAt(lin, o1) == |es[|es| - 1].bytes|
    ensures WordAt(lin, o3) == es[|es| - 1].mode
    ensures lin[o2..o2 + |es[|es| - 1].bytes|] == es[|es| - 1].bytes
  {
    var e := es[|es| - 1];
    ParseLast(lin, es, e, b);
    SuffixFields(lin, b, e, o1, o2, o3);
  }

  /** The fields of the frame of `e` that fills the bytes from `b` on. */
  lemma {:induction false} SuffixFields(lin: seq<Byte>, b: int, e: Entry, o1: int, o2: int, o3: int)
    requires 0 <= b <= |lin| && HeadOk(lin[b..]) && HeadEntry(lin[b..]) == e && |lin[b..]| == Frame(e)
    requires o1 == |lin| - IntSize && o2 == b + 2 * IntSize && o3 == b + IntSize
    ensures && WordAt(lin, o1) == |e.bytes|
            && WordAt(lin, o3) == e.mode
            && lin[o2..o2 + |e.bytes|] == e.bytes
  {
    var fb := lin[b..];
    HeadFields(fb);
    var n := |e.bytes|;
    WordAtSuffix(lin, b, |fb| - IntSize, o1);
    WordAtSuffix(lin, b, IntSize, o3);
    assert fb[2 * IntSize..2 * IntSize + n] == lin[o2..o2 + n];
  }

  /** Without the newest frame the bytes parse to the older entries. */
  lemma {:induction false} LastFramePrefix(lin: seq<Byte>, es: seq<Entry>, b: int)
    requires ParseFrames(lin) == Some(es) && |es| > 0
    requires b == |lin| - Frame(es[|es| - 1])
    ensures 0 <= b && ParseFrames(lin[..b]) == Some(es[..|es| - 1])
  {
    ParseLast(lin, es, es[|es| - 1], b);
  }

  // ---------------------------------------------------------------------
  // Eviction order

  /** The entries left after dropping the oldest until `need` more bytes fit. */
  function Survivors(es: seq<Entry>, need: int): seq<Entry>
  {
    if |es| == 0 || need + Sum(es) <= StackSize then es else Survivors(es[1..], need)
  }

  /** Survivors drops the fewest oldest entries that make room. */
  lemma {:induction false} SurvivorsLeast(es: seq<Entry>, need: int)
    requires 0 <= need <= StackSize
    ensures var sv := Survivors(es, need);
            var k := |es| - |sv|;
            && 0 <= k <= |es| && sv == es[k..]
            && need + Sum(sv) <= StackSize
            && forall j :: 0 <= j < k ==> need + Sum(es[j..]) > StackSize
  {
    if |es| == 0 || need + Sum(es) <= StackSize {
      assert es[0..] == es;
    } else {
      SurvivorsLeast(es[1..], need);
      var sv := Survivors(es, need);
      var k := |es| - |sv|;
      forall j | 0 <= j < k
        ensures need + Sum(es[j..]) > StackSize
      {
        if j > 0 {
          assert es[j..] == es[1..][j - 1..];
        } else {
          assert es[0..] == es;
        }
      }
      assert es[1..][k - 1..] == es[k..];
    }
  }
}

=== FILE: text_stack_ring.dfy ===
/**
 * The ring buffer under CTextStack: 32 KB of bytes addressed by offsets
 * that wrap round at the end, with int-sized words stored least
 * significant byte first.
 */
module TextStackRing {
  // ---------------------------------------------------------------------
  // Sizes

  /** TEXTSTACK_SIZE, in bytes. */
  const StackSize: int := 32 * 1024
  /** sizeof(int) and sizeof(UINT). */
  const IntSize: int := 4
  /** The three words framing every payload. */
  const FrameOverhead: int := 3 * IntSize

  type Byte = b: int | 0 <= b < 256
  type Word = w: int | 0 <= w < 0x1_0000_0000
  /** A UTF-16 code unit. */
  type WChar = c: int | 0 <= c < 0x1_0000

  /** AlignSize: rounds `n` up to a multiple of sizeof(int) (the source
      clears the low two bits of `n + 3`). */
  function AlignSize(n: nat): (r: nat)
    ensures n <= r < n + IntSize
  {
    (n + 3) / 4 * 4
  }

  /** AlignSize gives the least multiple of sizeof(int) at or above `n`. */
  lemma AlignSizeIsLeastMultiple(n: nat, m: nat)
    ensures AlignSize(n) % IntSize == 0
    ensures m % IntSize == 0 && n <= m ==> AlignSize(n) <= m
  {
  }

  /** The bytes an entry with an `n`-byte payload occupies. */
  function FrameSize(n: nat): (r: nat)
    ensures r >= FrameOverhead + n
  {
    AlignSize(n) + FrameOverhead
  }

  // ---------------------------------------------------------------------
  // Pointer arithmetic on the ring

  /** Forward as written: wraps only when the sum is strictly beyond the end. */
  function ForwardAsWritten(p: int, n: int): int
  {
    if p + n > StackSize then p + n - StackSize else p + n
  }

  /** Forward with the wrap taken when the sum reaches the end. */
  function Forward(p: int, n: int): (r: int)
    requires 0 <= p < StackSize && 0 <= n <= StackSize
    ensures 0 <= r < StackSize && r == Wrap(p + n)
  {
    if p + n >= StackSize then p + n - StackSize else p + n
  }

  /** Backward: move back by `n` bytes, wrapping below zero. */
  function Backward(p: int, n: int): (r: int)
    requires 0 <= p < StackSize && 0 <= n <= StackSize
    ensures 0 <= r < StackSize && Wrap(r + n) == p
  {
    if p - n < 0 then p - n + StackSize else p - n
  }

  /** The ring position of an offset below twice the ring size. */
  function Wrap(x: int): (r: int)
    requires 0 <= x < 2 * StackSize
    ensures 0 <= r < StackSize
  {
    if x >= StackSize then x - StackSize else x
  }

  /** How far position `j` lies after position `a`, going round the ring. */
  function Off(j: int, a: int): (d: int)
    requires 0 <= j < StackSize && 0 <= a < StackSize
    ensures 0 <= d < StackSize && Wrap(a + d) == j
  {
    if j >= a then j - a else j - a + StackSize
  }


  // ---------------------------------------------------------------------
  // The memory

  /** `n` bytes read round the ring from the (unreduced) offset `a`. */
  function ReadRing(mem: seq<Byte>, a: int, n: int): (r: seq<Byte>)
    requires |mem| == StackSize && 0 <= a && 0 <= n && a + n <= 2 * StackSize
    ensures |r| == n
  {
    seq(n, i requires 0 <= i < n => mem[Wrap(a + i)])
  }

  /** `bs` written round the ring from position `a`. */
  function WriteRing(mem: seq<Byte>, a: int, bs: seq<Byte>): (r: seq<Byte>)
    requires |mem| == StackSize && 0 <= a < StackSize && |bs| <= StackSize
    ensures |r| == StackSize
  {
    seq(StackSize, j requires 0 <= j < StackSize => if Off(j, a) < |bs| then bs[Off(j, a)] else mem[j])
  }

  /** A write at offset `o` from `base` changes exactly the positions whose
      offset from `base` is in [o, o+|bs|). */
  lemma {:induction false} WriteRingAt(mem: seq<Byte>, base: int, o: int, bs: seq<Byte>, j: int)
    requires |mem| == StackSize && 0 <= base < StackSize && 0 <= o && o + |bs| <= StackSize
    requires 0 <= j < StackSize
    ensures var d := Off(j, base);
            WriteRing(mem, Wrap(base + o), bs)[j] == if o <= d < o + |bs| then bs[d - o] else mem[j]
  {
  }

  /** The little-endian bytes of a word. */
  function WordBytes(v: Word): (bs: seq<Byte>)
    ensures |bs| == IntSize
  {
    var v1 := v / 256;
    var v2 := v1 / 256;
    [v % 256, v1 % 256, v2 % 256, v2 / 256]
  }

  /** The little-endian value of the `c` bytes from index `k`. */
  function LittleEndian(bs: seq<Byte>, k: int, c: nat): nat
    requires 0 <= k && k + c <= |bs|
    decreases c
  {
    if c == 0 then 0 else bs[k] as nat + 256 * LittleEndian(bs, k + 1, c - 1)
  }

  function WordAt(bs: seq<Byte>, k: int): nat
    requires 0 <= k && k + IntSize <= |bs|
  {
    LittleEndian(bs, k, IntSize)
  }

  /** Decoding the bytes of a word gives the word back. */
  lemma {:induction false} DecodeWordBytes(v: Word)
    ensures WordAt(WordBytes(v), 0) == v
  {
    var bs := WordBytes(v);
    var v1 := v / 256;
    var v2 := v1 / 256;
    assert LittleEndian(bs, 4, 0) == 0;
    assert LittleEndian(bs, 3, 1) == v2 / 256;
    assert LittleEndian(bs, 2, 2) == v2 by {
      assert v2 % 256 + 256 * (v2 / 256) == v2;
    }
    assert LittleEndian(bs, 1, 3) == v1 by {
      assert v1 % 256 + 256 * v2 == v1;
    }
  }

  /** Bytes that agree over `c` positions have the same value there. */
  lemma {:induction false} LittleEndianSame(bs: seq<Byte>, k: int, ds: seq<Byte>, m: int, c: nat)
    requires 0 <= k && k + c <= |bs| && 0 <= m && m + c <= |ds|
    requires bs[k..k + c] == ds[m..m + c]
    ensures LittleEndian(bs, k, c) == LittleEndian(ds, m, c)
    decreases c
  {
    if c > 0 {
      assert bs[k] == bs[k..k + c][0] == ds[m..m + c][0] == ds[m];
      assert bs[k + 1..k + c] == bs[k..k + c][1..];
      assert ds[m + 1..m + c] == ds[m..m + c][1..];
      LittleEndianSame(bs, k + 1, ds, m + 1, c - 1);
    }
  }

  /** A word is read from the four bytes it occupies. */
  lemma {:induction false} WordAtSlice(bs: seq<Byte>, k: int, w: seq<Byte>)
    requires 0 <= k && k + IntSize <= |bs| && bs[k..k + IntSize] == w
    ensures WordAt(bs, k) == WordAt(w, 0)
  {
    assert w[0..IntSize] == w;
    LittleEndianSame(bs, k, w, 0, IntSize);
  }

  /** A word in a suffix is the word at the shifted index. */
  lemma {:induction false} WordAtSuffix(bs: seq<Byte>, b: int, k: int, j: int)
    requires 0 <= b <= |bs| && 0 <= k && j == b + k && j + IntSize <= |bs|
    ensures WordAt(bs[b..], k) == WordAt(bs, j)
  {
    assert bs[b..][k..k + IntSize] == bs[j..j + IntSize];
    LittleEndianSame(bs[b..], k, bs, j, IntSize);
  }

  /** The word at ring offset `a` (*GetIntPtr). */
  function ReadWord(mem: seq<Byte>, a: int): nat
    requires |mem| == StackSize && 0 <= a && a + IntSize <= 2 * StackSize
  {
    WordAt(ReadRing(mem, a, IntSize), 0)
  }

  /** Store a word at ring position `a`. */
  function WriteWord(mem: seq<Byte>, a: int, v: Word): (r: seq<Byte>)
    requires |mem| == StackSize && 0 <= a < StackSize
    ensures |r| == StackSize
  {
    WriteRing(mem, a, WordBytes(v))
  }

  /**
   * The payload copy of Push: one memcpy when the payload fits before the
   * end of the buffer, otherwise the part up to the end and then the rest
   * from the start of the buffer.
   */
  function CopyIn(mem: seq<Byte>, e: int, bs: seq<Byte>): (r: seq<Byte>)
    requires |mem| == StackSize && 0 <= e < StackSize && |bs| <= StackSize
    ensures r == WriteRing(mem, e, bs)
  {
    var r :=
      if e + |bs| > StackSize then
        var k := StackSize - e;
        bs[k..] + mem[|bs| - k..e] + bs[..k]
      else mem[..e] + bs + mem[e + |bs|..];
    assert forall j | 0 <= j < StackSize :: r[j] == WriteRing(mem, e, bs)[j];
    r
  }

  /** The payload copy of Pop: the part up to the end of the buffer and
      then the rest from its start, or one copy when it does not wrap. */
  function CopyOut(mem: seq<Byte>, e: int, n: int): (r: seq<Byte>)
    requires |mem| == StackSize && 0 <= e < StackSize && 0 <= n <= StackSize
    ensures r == ReadRing(mem, e, n)
  {
    if e + n > StackSize then
      var r := mem[e..] + mem[..n - (StackSize - e)];
      assert forall i | 0 <= i < n :: r[i] == ReadRing(mem, e, n)[i] by {
        forall i | 0 <= i < n ensures r[i] == ReadRing(mem, e, n)[i] {
          assert ReadRing(mem, e, n)[i] == mem[Wrap(e + i)];
          if i < StackSize - e {
            assert r[i] == mem[e + i];
          } else {
            assert r[i] == mem[i - (StackSize - e)];
          }
        }
      }
      r
    else
      var r := mem[e..e + n];
      assert forall i | 0 <= i < n :: r[i] == ReadRing(mem, e, n)[i] by {
        forall i | 0 <= i < n ensures r[i] == ReadRing(mem, e, n)[i] {
          assert ReadRing(mem, e, n)[i] == mem[Wrap(e + i)];
        }
      }
      r
  }

  // ---------------------------------------------------------------------
  // Reading round the ring

  /** The first `n` of the bytes in use. */
  lemma {:induction false} ReadRingPrefix(mem: seq<Byte>, a: int, r: int, n: int)
    requires |mem| == StackSize && 0 <= a < StackSize && 0 <= n <= r <= StackSize
    ensures ReadRing(mem, a, n) == ReadRing(mem, a, r)[..n]
  {
    forall i | 0 <= i < n
      ensures ReadRing(mem, a, n)[i] == ReadRing(mem, a, r)[i]
    {
      assert ReadRing(mem, a, n)[i] == mem[Wrap(a + i)];
      assert ReadRing(mem, a, r)[i] == mem[Wrap(a + i)];
    }
  }

  lemma {:induction false} ReadRingSlice(mem: seq<Byte>, a: int, r: int, p: int, n: int)
    requires |mem| == StackSize && 0 <= a < StackSize && 0 <= r <= StackSize
    requires 0 <= p && 0 <= n && p + n <= r
    ensures ReadRing(mem, a + p, n) == ReadRing(mem, a, r)[p..p + n]
  {
    var b := a + p;
    forall i | 0 <= i < n
      ensures ReadRing(mem, b, n)[i] == ReadRing(mem, a, r)[p + i]
    {
      assert ReadRing(mem, b, n)[i] == mem[Wrap(b + i)];
      assert ReadRing(mem, a, r)[p + i] == mem[Wrap(a + (p + i))];
    }
  }

  /** Reading from a wrapped offset is reading from the unwrapped one. */
  lemma {:induction false} ReadRingWrap(mem: seq<Byte>, b: int, n: int)
    requires |mem| == StackSize && 0 <= b < 2 * StackSize && 0 <= n && b + n <= 2 * StackSize
    ensures ReadRing(mem, Wrap(b), n) == ReadRing(mem, b, n)
  {
    var w := Wrap(b);
    forall i | 0 <= i < n
      ensures ReadRing(mem, w, n)[i] == ReadRing(mem, b, n)[i]
    {
      assert ReadRing(mem, w, n)[i] == mem[Wrap(w + i)];
      assert ReadRing(mem, b, n)[i] == mem[Wrap(b + i)];
    }
  }

  /** The `n` bytes `p` bytes into the region of `r` bytes from `a`, read
      from their own ring position. */
  lemma {:induction false} ReadRingPart(mem: seq<Byte>, a: int, r: int, p: int, n: int)
    requires |mem| == StackSize && 0 <= a < StackSize && 0 <= r <= StackSize
    requires 0 <= p && 0 <= n && p + n <= r
    ensures ReadRing(mem, Wrap(a + p), n) == ReadRing(mem, a, r)[p..p + n]
  {
    ReadRingSlice(mem, a, r, p, n);
    ReadRingWrap(mem, a + p, n);
  }

  /** The region from `p` bytes in, read from its own ring position. */
  lemma {:induction false} ReadRingSuffix(mem: seq<Byte>, a: int, r: int, p: int, q: int, k: int)
    requires |mem| == StackSize && 0 <= a < StackSize && 0 <= p <= r <= StackSize
    requires q == Wrap(a + p) && k == r - p
    ensures ReadRing(mem, q, k) == ReadRing(mem, a, r)[p..]
  {
    ReadRingPart(mem, a, r, p, r - p);
    assert ReadRing(mem, a, r)[p..p + (r - p)] == ReadRing(mem, a, r)[p..];
  }

  /** A word `p` bytes into the bytes in use, read at its ring position `q`. */
  lemma {:induction false} RingWordAt(mem: seq<Byte>, top: int, size: int, p: int, q: int)
    requires |mem| == StackSize && 0 <= top < StackSize && 0 <= p && p + IntSize <= size <= StackSize
    requires q == Wrap(top + p)
    ensures ReadWord(mem, q) == WordAt(ReadRing(mem, top, size), p)
  {
    var lin := ReadRing(mem, top, size);
    ReadRingPart(mem, top, size, p, IntSize);
    WordAtSlice(lin, p, lin[p..p + IntSize]);
  }

  /** The `n` bytes `p` bytes into the bytes in use, copied out from their
      ring position `q`. */
  lemma {:induction false} RingBytesAt(mem: seq<Byte>, top: int, size: int, p: int, n: int, q: int)
    requires |mem| == StackSize && 0 <= top < StackSize && 0 <= p && 0 <= n && p + n <= size <= StackSize
    requires q == Wrap(top + p)
    ensures CopyOut(mem, q, n) == ReadRing(mem, top, size)[p..p + n]
  {
    ReadRingPart(mem, top, size, p, n);
  }

  /** Stepping back `x` bytes from the position `k` bytes past the top
      reaches the position `o` bytes past it. */
  lemma {:induction false} PopPointer(top: int, k: int, x: int, o: int, q: int)
    requires 0 <= top < StackSize && 0 <= x <= k <= StackSize && o == k - x
    requires q == Backward(Wrap(top + k), x)
    ensures q == Wrap(top + o)
  {
  }

  // ---------------------------------------------------------------------
  // Writing round the ring

  /** Two ring writes, the second starting where the first ends, are one
      write of the concatenation. */
  lemma {:induction false} WriteRingAppend(mem: seq<Byte>, a: int, xs: seq<Byte>, ys: seq<Byte>)
    requires |mem| == StackSize && 0 <= a < StackSize && |xs| + |ys| <= StackSize
    ensures WriteRing(WriteRing(mem, a, xs), Wrap(a + |xs|), ys) == WriteRing(mem, a, xs + ys)
  {
    var m1 := WriteRing(mem, a, xs);
    var m2 := WriteRing(m1, Wrap(a + |xs|), ys);
    var w := WriteRing(mem, a, xs + ys);
    assert a == Wrap(a + 0);
    forall j | 0 <= j < StackSize
      ensures m2[j] == w[j]
    {
      WriteRingAt(mem, a, 0, xs, j);
      WriteRingAt(m1, a, |xs|, ys, j);
      WriteRingAt(mem, a, 0, xs + ys, j);
    }
  }

  /** Writing back the bytes already in the ring changes nothing. */
  lemma {:induction false} WriteRingSame(mem: seq<Byte>, a: int, k: int)
    requires |mem| == StackSize && 0 <= a < StackSize && 0 <= k <= StackSize
    ensures WriteRing(mem, a, ReadRing(mem, a, k)) == mem
  {
    var w := WriteRing(mem, a, ReadRing(mem, a, k));
    forall j | 0 <= j < StackSize
      ensures w[j] == mem[j]
    {
      var d := Off(j, a);
      if d < k {
        assert ReadRing(mem, a, k)[d] == mem[Wrap(a + d)];
      }
    }
  }

  /** Bytes just past a write read as they were before it. */
  lemma {:induction false} ReadPastWrite(mem: seq<Byte>, base: int, xs: seq<Byte>, k: int)
    requires |mem| == StackSize && 0 <= base < StackSize && 0 <= k && |xs| + k <= StackSize
    ensures ReadRing(WriteRing(mem, base, xs), Wrap(base + |xs|), k) == ReadRing(mem, Wrap(base + |xs|), k)
  {
    var m := WriteRing(mem, base, xs);
    var b := Wrap(base + |xs|);
    forall i | 0 <= i < k
      ensures ReadRing(m, b, k)[i] == ReadRing(mem, b, k)[i]
    {
      var j := Wrap(b + i);
      assert ReadRing(m, b, k)[i] == m[j];
      assert ReadRing(mem, b, k)[i] == mem[j];
      assert Off(j, base) == |xs| + i;
    }
  }

  /** Writing `bs` at the end of the `size` bytes in use extends them by `bs`. */
  lemma {:induction false} ReadAfterWrite(mem: seq<Byte>, top: int, size: int, end: int, bs: seq<Byte>, k: int)
    requires |mem| == StackSize && 0 <= top < StackSize && 0 <= size && size + |bs| <= StackSize
    requires end == Wrap(top + size) && k == size + |bs|
    ensures ReadRing(WriteRing(mem, end, bs), top, k) == ReadRing(mem, top, size) + bs
  {
    var m := WriteRing(mem, end, bs);
    forall i | 0 <= i < k
      ensures ReadRing(m, top, k)[i] == (ReadRing(mem, top, size) + bs)[i]
    {
      var j := Wrap(top + i);
      assert ReadRing(m, top, k)[i] == m[j];
      if i < size {
        assert Off(j, end) == StackSize - size + i;
        assert ReadRing(mem, top, size)[i] == mem[j];
      } else {
        assert Off(j, end) == i - size;
      }
    }
  }
}

=== FILE: wrappers.dfy ===
/**
 * Option and Result types shared by every module of the model.
 * The editor reports failure through NULL pointers, FALSE returns and
 * C++ exceptions; each of those becomes None or an Err value here.
 */
module Wrappers {

  /** A value that may be absent: the model of a nullable pointer. */
  datatype Option<T> = None | Some(value: T)
  {
    /** The value, or `default` when there is none. */
    function GetOr(default: T): T
    {
      match this
      case Some(v) => v
      case None => default
    }
  }

  /** The outcome of an operation that can fail with an error of type E. */
  datatype Result<T, E> = Ok(value: T) | Err(error: E)
}

=== FILE: write_data.dfy ===
/**
 * The replacement writer of grep-replace (CGrepAgent.cpp, CWriteData).
 * Replaced lines are buffered until the buffer holds 0xa00000 characters
 * or the first hit of the file; from then on a temporary file
 * "<name>.skrnew" is open and every line goes straight to it.  Closing
 * moves the temporary file over the original, keeping the original as
 * "<name>.bak" when asked; dropping a writer whose temporary file is still
 * open deletes it.
 *
 * The file system is a map from path to text; whether an operation is
 * refused for a path (permissions, sharing) is an oracle.  Code-page
 * conversion is not part of this model: the temporary file holds the
 * text, preceded by the byte-order mark text when one is written.
 */
module WriteData {
  import opened Wrappers

  type FileSystem = map<string, string>

  /** Ten MiB of characters: the buffer is written out once it holds this many. */
  const BufferLimit: int := 0xa0_0000

  function TempName(name: string): string { name + ".skrnew" }
  function BackupName(name: string): string { name + ".bak" }

  /** The errors Close reports in the grep message. */
  datatype WriteError = DeleteFailed(path: string) | ReplaceFailed(path: string)

  /** Opening the temporary file failed. */
  datatype OpenError = WriteFileOpen(path: string)

  datatype Writer = Writer(hits: int, name: string, bom: string, oldSave: bool,
                           buffer: seq<string>, bufferSize: int, out: bool,
                           fs: FileSystem, messages: seq<WriteError>)

  function Concat(lines: seq<string>): string
    decreases |lines|
  {
    if |lines| == 0 then "" else Concat(lines[..|lines| - 1]) + lines[|lines| - 1]
  }

  lemma ConcatSnoc(lines: seq<string>, line: string)
    ensures Concat(lines + [line]) == Concat(lines) + line
  {
    assert (lines + [line])[..|lines|] == lines;
  }

  /** DeleteFile: fails when the file is missing or the deletion is refused. */
  function Delete(fs: FileSystem, path: string, refused: string -> bool): (r: (bool, FileSystem))
    ensures r.0 <==> path in fs && !refused(path)
    ensures r.0 ==> r.1 == fs - {path}
    ensures !r.0 ==> r.1 == fs
  {
    if path in fs && !refused(path) then (true, fs - {path}) else (false, fs)
  }

  /** MoveFile: fails when the source is missing, the target exists, or the
      move is refused. */
  function Move(fs: FileSystem, from: string, target: string, refused: string -> bool): (r: (bool, FileSystem))
    ensures r.0 <==> from in fs && target !in fs && !refused(from)
    ensures r.0 ==> target in r.1 && r.1[target] == fs[from] && from !in r.1
    ensures r.0 ==> forall p :: p != from && p != target ==> (p in r.1 <==> p in fs) && (p in fs ==> r.1[p] == fs[p])
    ensures !r.0 ==> r.1 == fs
  {
    if from in fs && target !in fs && !refused(from) then (true, (fs - {from})[target := fs[from]]) else (false, fs)
  }

  /** A new writer: nothing buffered, no temporary file. */
  function NewWriter(name: string, bom: string, oldSave: bool, fs: FileSystem): (w: Writer)
    ensures Tracks(w, [], fs)
  {
    Writer(0, name, bom, oldSave, [], 0, false, fs, [])
  }

  /** Everything appended so far is in the buffer or in the temporary file,
      in order and behind the byte-order mark; no other file is touched, and
      until the temporary file is opened, nothing at all. */
  predicate Tracks(w: Writer, lines: seq<string>, fs0: FileSystem)
  {
    && w.fs - {TempName(w.name)} == fs0 - {TempName(w.name)}
    && (w.out ==> TempName(w.name) in w.fs && w.fs[TempName(w.name)] == w.bom + Concat(lines) && w.buffer == [])
    && (!w.out ==> w.buffer == lines && w.bufferSize == |Concat(lines)| && w.bufferSize < BufferLimit && w.fs == fs0)
  }

  /** OutputHead: open the temporary file (once), write the byte-order mark and
      everything buffered. */
  function OutputHead(w: Writer, openOk: bool): (r: Result<Writer, OpenError>)
    ensures w.out ==> r == Ok(w)
    ensures !w.out && !openOk ==> r == Err(WriteFileOpen(TempName(w.name)))
    ensures r.Ok? ==> r.value.out
    ensures r.Ok? && !w.out ==> r.value.buffer == [] && TempName(w.name) in r.value.fs
                                && r.value.fs[TempName(w.name)] == w.bom + Concat(w.buffer)
  {
    if w.out then Ok(w)
    else if !openOk then Err(WriteFileOpen(TempName(w.name)))
    else Ok(w.(out := true, buffer := [], fs := w.fs[TempName(w.name) := w.bom + Concat(w.buffer)]))
  }

  /** AppendBuffer: buffer the line while no file is open, and open the file
      once the buffer reaches the limit; with the file open, write the line. */
  function AppendBuffer(w: Writer, line: string, openOk: bool): (r: Result<Writer, OpenError>)
    requires w.out ==> TempName(w.name) in w.fs
    ensures r.Ok? && !r.value.out ==> r.value.bufferSize < BufferLimit
    ensures r.Err? ==> !w.out && w.bufferSize + |line| >= BufferLimit
  {
    if !w.out then
      var w1 := w.(bufferSize := w.bufferSize + |line|, buffer := w.buffer + [line]);
      if BufferLimit <= w1.bufferSize then OutputHead(w1, openOk) else Ok(w1)
    else
      var tmp := TempName(w.name);
      Ok(w.(fs := w.fs[tmp := w.fs[tmp] + line]))
  }

  lemma OutputHeadTracks(w: Writer, lines: seq<string>, fs0: FileSystem, openOk: bool)
    requires Tracks(w, lines, fs0)
    ensures OutputHead(w, openOk).Ok? ==> Tracks(OutputHead(w, openOk).value, lines, fs0)
  {
    var tmp := TempName(w.name);
    if !w.out && openOk {
      var w1 := OutputHead(w, openOk).value;
      assert w1.fs - {tmp} == w.fs - {tmp};
    }
  }

  /** Appending a line keeps the writer's record of everything appended. */
  lemma AppendTracks(w: Writer, lines: seq<string>, fs0: FileSystem, line: string, openOk: bool)
    requires Tracks(w, lines, fs0)
    ensures AppendBuffer(w, line, openOk).Ok? ==> Tracks(AppendBuffer(w, line, openOk).value, lines + [line], fs0)
  {
    ConcatSnoc(lines, line);
    var tmp := TempName(w.name);
    if !w.out {
      var w1 := w.(bufferSize := w.bufferSize + |line|, buffer := w.buffer + [line]);
      if BufferLimit <= w1.bufferSize && openOk {
        var w2 := OutputHead(w1, openOk).value;
        assert w2.fs - {tmp} == w.fs - {tmp};
      }
    } else {
      var w1 := AppendBuffer(w, line, openOk).value;
      assert w1.fs - {tmp} == w.fs - {tmp};
    }
  }

  /** Close: when the file had hits and the temporary file is open, close it
      and move it over the original, first moving the original to the backup
      name (deleting an old backup) or deleting it.  The first failing step
      reports its path and ends the close. */
  function Close(w: Writer, refused: string -> bool): (r: Writer)
    ensures w.hits == 0 || !w.out ==> r == w
    ensures r.name == w.name && r.hits == w.hits && r.bom == w.bom && !(w.hits != 0 && w.out && r.out)
  {
    if w.hits == 0 || !w.out then w
    else
      var name, tmp, bak := w.name, TempName(w.name), BackupName(w.name);
      var w1 := w.(out := false);
      if w.oldSave then
        var (delOk, fs1) := if bak in w.fs then Delete(w.fs, bak, refused) else (true, w.fs);
        if !delOk then w1.(messages := w.messages + [DeleteFailed(bak)])
        else
          var (bakOk, fs2) := Move(fs1, name, bak, refused);
          if !bakOk then w1.(fs := fs1, messages := w.messages + [ReplaceFailed(bak)])
          else Replace(w1.(fs := fs2), refused)
      else
        var (delOk, fs1) := Delete(w.fs, name, refused);
        if !delOk then w1.(messages := w.messages + [DeleteFailed(name)])
        else Replace(w1.(fs := fs1), refused)
  }

  /** The last step of Close: the temporary file takes the original's name. */
  function Replace(w: Writer, refused: string -> bool): (r: Writer)
    ensures r == w.(fs := r.fs, messages := r.messages)
  {
    var (ok, fs) := Move(w.fs, TempName(w.name), w.name, refused);
    if ok then w.(fs := fs) else w.(messages := w.messages + [ReplaceFailed(w.name)])
  }

  /** Dropping the writer deletes a temporary file that is still open. */
  function Drop(w: Writer, refused: string -> bool): (fs: FileSystem)
    ensures !w.out ==> fs == w.fs
    ensures w.out && !refused(TempName(w.name)) ==> fs == w.fs - {TempName(w.name)}
  {
    if w.out then Delete(w.fs, TempName(w.name), refused).1 else w.fs
  }

  /** The new text is never lost by Close: it ends up under the file's name,
      or stays in the temporary file when a step fails; a failure is reported
      and leaves the original or its backup in place when a backup is kept. */
  lemma CloseKeepsText(w: Writer, refused: string -> bool)
    requires w.hits != 0 && w.out && TempName(w.name) in w.fs
    requires TempName(w.name) != w.name && BackupName(w.name) != w.name && TempName(w.name) != BackupName(w.name)
    ensures var r := Close(w, refused);
            var text := w.fs[TempName(w.name)];
            && !r.out
            && ((w.name in r.fs && r.fs[w.name] == text && TempName(w.name) !in r.fs && r.messages == w.messages)
               || (TempName(w.name) in r.fs && r.fs[TempName(w.name)] == text && |r.messages| == |w.messages| + 1))
            && (w.oldSave && w.name in w.fs ==>
                  (BackupName(w.name) in r.fs && r.fs[BackupName(w.name)] == w.fs[w.name])
                  || (w.name in r.fs && r.fs[w.name] == w.fs[w.name]))
  {
  }

  /** With nothing refused, no stale temporary file and no backup yet, Close
      puts the new text under the file's name and, when asked, the original
      text under the backup name. */
  lemma CloseSucceeds(w: Writer, refused: string -> bool)
    requires w.hits != 0 && w.out && TempName(w.name) in w.fs && w.name in w.fs && BackupName(w.name) !in w.fs
    requires forall p :: !refused(p)
    requires TempName(w.name) != w.name && BackupName(w.name) != w.name && TempName(w.name) != BackupName(w.name)
    ensures var r := Close(w, refused);
            && r.messages == w.messages && !r.out
            && w.name in r.fs && r.fs[w.name] == w.fs[TempName(w.name)] && TempName(w.name) !in r.fs
            && (w.oldSave ==> BackupName(w.name) in r.fs && r.fs[BackupName(w.name)] == w.fs[w.name])
            && (!w.oldSave ==> BackupName(w.name) !in r.fs)
  {
  }

  lemma NamesDistinct(name: string)
    ensures TempName(name) != name && BackupName(name) != name && TempName(name) != BackupName(name)
  {
    assert |TempName(name)| == |name| + 7 && |BackupName(name)| == |name| + 4;
  }

  // ---------------------------------------------------------------------
  // A whole file
  // ---------------------------------------------------------------------

  /** One replaced line and the number of hits in it. */
  datatype Step = Step(text: string, hits: nat)

  function Texts(steps: seq<Step>): (r: seq<string>)
    ensures |r| == |steps| && forall i :: 0 <= i < |steps| ==> r[i] == steps[i].text
  {
    seq(|steps|, i requires 0 <= i < |steps| => steps[i].text)
  }

  function TotalHits(steps: seq<Step>): nat
    decreases |steps|
  {
    if |steps| == 0 then 0 else TotalHits(steps[..|steps| - 1]) + steps[|steps| - 1].hits
  }

  /** The writer's side of one replaced line: a line with hits opens the file
      before its text is appended. */
  function WriteStep(w: Writer, s: Step, openOk: bool): Result<Writer, OpenError>
    requires w.out ==> TempName(w.name) in w.fs
  {
    if s.hits > 0 then
      match OutputHead(w, openOk)
      case Err(e) => Err(e)
      case Ok(w1) => AppendBuffer(w1.(hits := w1.hits + s.hits), s.text, openOk)
    else AppendBuffer(w, s.text, openOk)
  }

  /** The writer after a file's lines, the temporary file always opening. */
  function WriteAll(name: string, bom: string, oldSave: bool, fs: FileSystem, steps: seq<Step>): (r: Writer)
    ensures Tracks(r, Texts(steps), fs) && r.name == name && r.bom == bom && r.oldSave == oldSave
    ensures r.hits == TotalHits(steps) && r.messages == []
    ensures TotalHits(steps) > 0 ==> r.out
    decreases |steps|
  {
    if |steps| == 0 then NewWriter(name, bom, oldSave, fs)
    else
      var init := steps[..|steps| - 1];
      var w := WriteAll(name, bom, oldSave, fs, init);
      TextsSnoc(steps);
      StepTracks(w, Texts(init), fs, steps[|steps| - 1]);
      WriteStep(w, steps[|steps| - 1], true).value
  }

  lemma TextsSnoc(steps: seq<Step>)
    requires |steps| > 0
    ensures Texts(steps) == Texts(steps[..|steps| - 1]) + [steps[|steps| - 1].text]
  {
  }

  /** A step with the temporary file opening keeps the record, counts its hits,
      and leaves the file open once there were hits. */
  lemma StepTracks(w: Writer, lines: seq<string>, fs0: FileSystem, s: Step)
    requires Tracks(w, lines, fs0)
    ensures var r := WriteStep(w, s, true);
            && r.Ok? && Tracks(r.value, lines + [s.text], fs0)
            && r.value.hits == w.hits + s.hits && r.value.messages == w.messages
            && r.value.name == w.name && r.value.bom == w.bom && r.value.oldSave == w.oldSave
            && (s.hits > 0 || w.out ==> r.value.out)
  {
    if s.hits > 0 {
      OutputHeadTracks(w, lines, fs0, true);
      var w1 := OutputHead(w, true).value.(hits := w.hits + s.hits);
      AppendTracks(w1, lines, fs0, s.text, true);
    } else {
      AppendTracks(w, lines, fs0, s.text, true);
    }
  }

  /** A whole grep-replace of one file, with nothing refused: with hits, the
      file ends up holding the byte-order mark and every replaced line in
      order, and the temporary file is gone; without hits the file system is
      as it was. */
  lemma {:induction false} ReplaceWholeFile(name: string, bom: string, oldSave: bool, fs: FileSystem,
                                            steps: seq<Step>, refused: string -> bool)
    requires name in fs && TempName(name) !in fs && BackupName(name) !in fs
    requires forall p :: !refused(p)
    ensures var w := WriteAll(name, bom, oldSave, fs, steps);
            var r := Close(w, refused);
            var after := Drop(r, refused);
            && (TotalHits(steps) > 0 ==>
                  && r.messages == []
                  && name in after && after[name] == bom + Concat(Texts(steps)) && TempName(name) !in after
                  && (oldSave ==> BackupName(name) in after && after[BackupName(name)] == fs[name]))
            && (TotalHits(steps) == 0 ==> after == fs)
  {
    NamesDistinct(name);
    var w := WriteAll(name, bom, oldSave, fs, steps);
    var tmp := TempName(name);
    if TotalHits(steps) > 0 {
      assert w.fs - {tmp} == fs - {tmp};
      assert name in w.fs && w.fs[name] == fs[name] by {
        assert name in fs - {tmp};
      }
      assert BackupName(name) !in w.fs by {
        assert BackupName(name) !in fs - {tmp};
      }
      CloseSucceeds(w, refused);
    } else if w.out {
      assert w.fs - {tmp} == fs - {tmp};
      assert fs - {tmp} == fs;
    }
  }
}
